=== FILE: README.md ===
# rune harness core in Dafny

This project models the core of `rune`, a Python coding-agent harness, and
proves properties of the model. The harness keeps a conversation session,
calls a language model, gates tool calls through a permission policy, runs
built-in and MCP (Model Context Protocol) tools, injects skills and project
docs into the prompt, converts messages between provider wire formats, and
has two front ends modelled here: a Signal messenger integration and a
full-screen terminal UI.

Everything that touches the outside world is a parameter. This covers the
filesystem (a path→content map), subprocesses and HTTP (oracle functions),
the language model (a reply oracle indexed by call number), clocks and
generated ids (given values), and `json.dumps`/`json.loads` and `datetime.fromisoformat` (given
functions). Python values that the code passes around as dicts are the
datatype `Json.Json`, with objects as insertion-ordered key/value sequences.

Modules, one per source component:

| file | module | source |
|---|---|---|
| wrappers.dfy | Wrappers | `Option`/`Result` with `:-` support |
| strings.dfy | Strings | Python `str` methods the code relies on (`strip`, `split`, `find`, `startswith`, `repr`, …) |
| json.dfy | Json | Python dict/list values, `get`, `[]`, truthiness |
| session.dfy | Sessions | rune/harness/session.py |
| permissions.dfy | Permissions | rune/harness/permissions.py |
| paths.dfy | Paths | `os.path.normpath`/`join` and `_resolve_path` in rune/harness/tools.py |
| tools.dfy | Tools | rune/harness/tools.py |
| mcp.dfy | Mcp | rune/harness/mcp_client.py |
| skills.dfy | Skills | rune/harness/skills.py |
| agents_md.dfy | AgentsMd | rune/harness/agents_md.py |
| providers.dfy | Providers | rune/harness/providers.py |
| agent_defs.dfy | AgentDefs | rune/agents.py |
| agent_loop.dfy | AgentLoop | rune/harness/agent.py |
| signal.dfy | Signal | rune/integrations/signal/send.py, transport.py, client.py |
| tui.dfy | Tui | rune/cli/tui.py |

## Model

| member | source | states |
|---|---|---|
| Strings.LinesKeepEnds | rune/harness/tools.py:426 | the lines of a text concatenate back to it; each is non-empty, every one but the last ends in a newline, and none has a newline inside |
| Strings.SplitLinesKeepEnds | rune/harness/tools.py:694 | the same for `splitlines(True)`, where any line break ends a line |
| Strings.UniversalNewlines | rune/harness/tools.py:425 | reading a file in text mode leaves no carriage return and never lengthens the text |
| Strings.UniversalNewlinesPlain | rune/harness/tools.py:425 | a text without carriage returns reads back unchanged |
| Strings.ContainsIffCountPositive | rune/harness/tools.py:461-463 | a text contains a pattern exactly when it occurs at least once |
| Strings.ReplaceFirstSplits | rune/harness/tools.py:468 | replacing once replaces the first occurrence and keeps the text around it |
| Strings.ReplaceAllSingle | rune/harness/tools.py:468 | with a single occurrence, replacing all is replacing once |
| Strings.StripIdempotent | rune/integrations/signal/send.py:35 | stripping twice is stripping once |
| Strings.StripEmptyIffBlank | rune/integrations/signal/send.py:35 | a stripped text is empty exactly when it was all whitespace |
| Strings.Repr | rune/harness/mcp_client.py:236 | the quoted form opens and closes with the same quote character |
| Strings.ReprRoundTrip | rune/harness/mcp_client.py:236 | the quoted form reads back, unescaped, as the text it quotes |
| Sessions.Add | rune/harness/session.py:49-52 | each counter grows by its share and the total by their sum, so a consistent record (total = prompt + completion) stays consistent |
| Sessions.NewSession | rune/harness/session.py:63-79 | a non-empty system prompt becomes the single system message, an empty one leaves the history empty; counters start at zero |
| Sessions.AddUserMessage | rune/harness/session.py:81-84 | exactly one user message is appended, the turn counter rises by one, nothing else changes |
| Sessions.AddAssistantMessage | rune/harness/session.py:86-92 | exactly one assistant message with the given content and tool calls is appended, nothing else changes |
| Sessions.AddToolResult | rune/harness/session.py:94-96 | exactly one tool message carrying the call id and tool name is appended, nothing else changes |
| Sessions.RecordUsage | rune/harness/session.py:98-100 | only the usage record changes, by the given token counts, keeping it consistent |
| Sessions.ApplyAllCounts | rune/harness/session.py:81-96 | any run of appends adds one message per call, keeps the earlier history as a prefix, and moves the turn counter only by the number of user messages |
| Sessions.MessageCountFromFresh | rune/harness/session.py:76-96 | from a fresh session the history length is the number of appends plus one when a system prompt was given |
| Sessions.ChildPrompt | rune/harness/session.py:121-125 | the child's prompt is the one given unless it is None or empty, in which case it is the parent's |
| Sessions.Fork | rune/harness/session.py:116-128 | the parent only gains the child's id at the end of its child list; the child shares the working directory, records the parent, and holds exactly one system message with the given prompt, or the parent's when the given one is None or empty, and no message when that prompt is empty too |
| Sessions.ForkTwiceLineage | rune/harness/session.py:116-128 | forking twice leaves the parent's messages untouched, lists both children in order, and both point back at the parent |
| Sessions.Compact | rune/harness/session.py:132-151 | the result is the leading system message if any, then the summary message, then the last ten messages only when there were more than ten |
| Sessions.CompactBounded | rune/harness/session.py:132-155 | compaction leaves at most twelve messages, again after a second compaction, so the result never needs compaction at threshold 12 |
| Sessions.CompactOverThreshold | rune/harness/session.py:132-155 | 101 messages opening with the system prompt need compaction at the default threshold and compact to system, summary and the last ten |
| Sessions.Clear | rune/harness/session.py:210-218 | only a leading system message survives (a prefix of at most one message) and the turn counter is zero |
| Sessions.ClearIdempotent | rune/harness/session.py:210-218 | clearing twice is clearing once, and a cleared session needs no compaction at any positive threshold |
| Sessions.ToApi | rune/harness/session.py:28-40 | the wire message always carries the role |
| Sessions.ToApiFields | rune/harness/session.py:28-40 | content appears whenever it is not None; tool calls, call id and name appear exactly when they are non-empty |
| Sessions.ApiMessages | rune/harness/session.py:102-104 | one wire message per history message, in order |
| Sessions.FromApi | rune/harness/session.py:197-204 | rebuilding a message succeeds only from a dict that has a role |
| Sessions.WireRoundTrip | rune/harness/session.py:28-40 | converting a message to the wire format always reads back, and gives the same message exactly when no optional field holds an empty value |
| Sessions.DecodeApiMessages | rune/harness/session.py:102-104 | the whole wire history always reads back, and gives the same history exactly when every message round-trips |
| Sessions.LoadData | rune/harness/session.py:176-208 | loading succeeds only from a dict with working_dir and messages |
| Sessions.LoadWellTyped | rune/harness/session.py:176-208 | a dict whose entries hold well-typed values, with a creation time that fromisoformat reads back as itself, loads to exactly those values, with the messages decoded |
| Sessions.LoadBadCreatedAt | rune/harness/session.py:181-185 | a "created_at" text that fromisoformat refuses fails the load with its ValueError, after working_dir and system_prompt and before turn_count |
| Sessions.SaveLoadRoundTrip | rune/harness/session.py:159-208 | given that fromisoformat reads isoformat's text back, loading what save wrote always succeeds, and restores the session exactly when every message round-trips |
| Permissions.ExactlyOneState | rune/harness/permissions.py:38-48 | every tool is in exactly one of allowed, denied and needs-approval |
| Permissions.SetPermission | rune/harness/permissions.py:50-57 | the tool gets the new level and every other tool keeps its level; an existing rule keeps its argument constraints, a missing one is created |
| Permissions.SetPermissionIdempotent | rune/harness/permissions.py:50-57 | setting the same level twice is setting it once |
| Permissions.Merge | rune/harness/permissions.py:59-66 | the merged name joins both with "+"; the other set's rules win, then this set's rules, then the other set's default |
| Permissions.MergeSelf | rune/harness/permissions.py:59-66 | merging a set with itself leaves every level unchanged |
| Permissions.MergeWithDefaultOnly | rune/harness/permissions.py:59-66 | merging with a rule-less set keeps this set's rules and replaces only the default |
| Permissions.BuildPermissions | rune/harness/permissions.py:71-93 | the build set is named "build", allows by default, and gives every tool Ask when it is shell, web_fetch or web_search and Allow otherwise |
| Permissions.PlanPermissions | rune/harness/permissions.py:96-109 | the plan set is named "plan", denies by default, allows the read-only tools and todo, and asks before the web tools |
| Permissions.SubagentPermissions | rune/harness/permissions.py:112-117 | the subagent set is named "subagent", denies task, and gives every other tool the build set's level |
| Paths.JoinPath | rune/harness/tools.py:390 | joining an absolute path yields it unchanged; otherwise the result starts with the working directory and ends with the path |
| Paths.Normpath | rune/harness/tools.py:390 | the normal form is never empty and is absolute exactly when the path is |
| Paths.NormpathShape | rune/harness/tools.py:390 | the normal form is its kept leading slashes followed by clean components (no empty, "." or misplaced ".." component) joined with "/", or "." |
| Paths.NormpathOfClean | rune/harness/tools.py:390 | a path already made of clean components is its own normal form |
| Paths.NormpathIdempotent | rune/harness/tools.py:390 | normalising twice is normalising once |
| Paths.ResolvePathAsWritten | rune/harness/tools.py:389-393 | the check as written accepts exactly when the resolved text starts with the working directory's text |
| Paths.SiblingPrefixEscapes | rune/harness/tools.py:391 | with working directory "/a", the path "../ab" is accepted as "/ab", which lies outside "/a" |
| Paths.ResolvePath | rune/harness/tools.py:389-393 | the corrected check returns the resolved path on success and the source's error text on failure |
| Paths.ResolvePathStricter | rune/harness/tools.py:389-393 | the corrected check refuses everything the check as written refuses |
| Paths.ResolvePathContained | rune/harness/tools.py:389-393 | whatever the corrected check accepts lies in the working directory's tree, component by component |
| Paths.Basename | rune/harness/skills.py:203 | the last component is a slash-free suffix of the path |
| Paths.Dirname | rune/harness/agents_md.py:88 | the parent is a prefix of the path |
| Tools.TodoSet | rune/harness/tools.py:65-67 | setting the list succeeds only from an iterable value |
| Tools.TodoSetItemsJson | rune/harness/tools.py:55-67 | setting the dicts `to_dict` gives for a list restores that list |
| Tools.ParseItem | rune/harness/tools.py:66 | an item parses only from a dict, keeping its "content" text and its "status", "pending" when absent |
| Tools.ItemsJson | rune/harness/tools.py:55-56 | one dict per item, in order, each the item's `to_dict` |
| Tools.Marker | rune/harness/tools.py:74 | in_progress shows "[~]", completed "[x]", any other hashable status "[ ]"; a list or dict status raises |
| Tools.Render | rune/harness/tools.py:69-76 | an empty list renders as "(empty todo list)" |
| Tools.RenderedLines | rune/harness/tools.py:69-76 | a rendered non-empty list has one line per item, numbered from 1, with its marker and text |
| Tools.RenderLines | rune/harness/tools.py:73-75 | one line per item, the k-th numbered from the first number plus k |
| Tools.PathArg | rune/harness/tools.py:419-421 | the path argument is refused exactly when it is falsy |
| Tools.FileArg | rune/harness/tools.py:419-424 | the file checks pass only for a dict of arguments with a non-empty path |
| Tools.FileArgOf | rune/harness/tools.py:419-424 | a non-empty string path that the check as written accepts and that names a stored file passes the checks, giving the file's text with its line endings translated |
| Tools.ExistingFile | rune/harness/tools.py:422-425 | a path the check as written accepts is looked up under its resolved text; a found file is its stored text with "\r\n" and "\r" read as "\n", and a resolved path with nothing stored fails with "File not found: " and the path |
| Tools.SiblingFileFound | rune/harness/tools.py:389-393 | with working directory "/a" the file tools find "/ab" through the path "../ab", since the check as written lets it through |
| Tools.TakeFirst | rune/harness/tools.py:432 | `lines[:limit]` is a prefix of the lines, with a negative limit counting from the end |
| Tools.DropFirst | rune/harness/tools.py:430 | `lines[offset-1:]` drops the first offset-1 lines |
| Tools.FirstNumber | rune/harness/tools.py:434 | numbering starts at the offset, never below 1 |
| Tools.ReadText | rune/harness/tools.py:427-436 | an int or absent offset and limit always give a listing |
| Tools.ReadTextLines | rune/harness/tools.py:425-436 | the listing splits back into exactly the chosen lines, numbered consecutively from the first number and right-stripped |
| Tools.IntArg | rune/harness/tools.py:427-432 | an absent or null argument is no bound and an int is that bound |
| Tools.NumberLines | rune/harness/tools.py:435 | one numbered line per line, the k-th carrying the number start plus k |
| Tools.ReadFileAgrees | rune/harness/tools.py:418-436 | for a non-empty string path, a missing file fails with "File not found: " and the path and an existing one is listed from its text as read in text mode; reading never changes anything |
| Tools.WindowSize | rune/harness/tools.py:429-434 | with a non-negative limit the listing shows min(limit, lines after the offset) lines, numbered from max(1, offset) |
| Tools.WriteFile | rune/harness/tools.py:438-447 | a successful write stores the string content under the resolved path and reports "Wrote {len(content)} bytes to {path}"; a non-string content fails with "write() argument must be str, not " and its type, None named as "None", after emptying the file |
| Tools.WriteFileOf | rune/harness/tools.py:438-447 | for a non-empty string path the check as written accepts, the content given is what gets stored under the resolved path |
| Tools.WriteNonStringTruncates | rune/harness/tools.py:444-446 | writing a non-string value fails but still leaves the file empty |
| Tools.WriteNullContent | rune/harness/tools.py:444-446 | writing a null content fails with "write() argument must be str, not None" and leaves the file empty |
| Tools.StoreText | rune/harness/tools.py:445-447 | the file is rewritten with the content when it is a string, reporting "Wrote {len(content)} bytes to {path}", and left empty otherwise, with the type error naming None as "None"; nothing but the files changes |
| Tools.EditText | rune/harness/tools.py:461-468 | the edit succeeds exactly when the text occurs, and occurs once unless replace_all; each failure carries its message |
| Tools.EditTextUnique | rune/harness/tools.py:461-468 | without replace_all the edit succeeds exactly on a single occurrence, and then replace_all makes no difference |
| Tools.EditTextSplits | rune/harness/tools.py:468 | a successful single edit replaces the first occurrence and keeps the text around it |
| Tools.EditTextReplacementIrrelevant | rune/harness/tools.py:461-467 | whether the edit succeeds does not depend on the replacement text |
| Tools.EditFile | rune/harness/tools.py:449-471 | a failed edit changes nothing and only files change; a path error is passed on, a non-string old_string gives the "in <string>" type error, and a found target with a non-string new_string gives the replace() type error naming None as "None" |
| Tools.EditFileAgrees | rune/harness/tools.py:449-471 | on an existing file, edit_file writes back exactly what the text edit produces on the text as read in text mode, and otherwise fails with its error |
| Tools.EditCarriageReturnNotFound | rune/harness/tools.py:459-462 | an old_string holding a carriage return is never found, because the text read in text mode has none |
| Tools.EditNullReplacement | rune/harness/tools.py:459-468 | a unique target with a null new_string fails with "replace() argument 2 must be str, not None" and changes nothing |
| Tools.ApplyEdits | rune/harness/tools.py:484-489 | no edits leave the text and count alone; an edit that fails stops the loop with its error; otherwise the rest of the edits run on the first edit's result and its count is added |
| Tools.ApplyEdit | rune/harness/tools.py:485-489 | an edit that is not a dict fails; a non-string old_string gives the "in <string>" type error; a missing target leaves the text alone uncounted; a found target with a non-string new_string gives the replace() type error; otherwise the first occurrence is replaced and counted once |
| Tools.ApplyEditOne | rune/harness/tools.py:485-489 | a well-formed edit replaces the first occurrence when there is one and otherwise is skipped uncounted |
| Tools.ApplyEditNullReplacement | rune/harness/tools.py:485-489 | a found target with a null new_string fails with the replace() type error naming None |
| Tools.ApplyEditsAppend | rune/harness/tools.py:484-489 | applying two edit lists in turn is applying their concatenation, and the applied counts add up |
| Tools.MultiEdit | rune/harness/tools.py:473-492 | a failed multi-edit changes nothing and reports the edit loop's error; a successful one stores the loop's final text under the resolved path and reports "Applied {applied}/{len(edits)} edits to {path}" with the loop's count; only files change |
| Tools.Task | rune/harness/tools.py:659-670 | a falsy prompt gives "No prompt provided", a missing callback "Subagent spawning not available", and otherwise the callback runs on the prompt |
| Tools.Todo | rune/harness/tools.py:672-675 | the stored list is exactly what `set` parsed from the items; nothing but the list changes |
| Tools.WebSearch | rune/harness/tools.py:648-657 | web search always fails and changes nothing |
| Tools.CellCount | rune/harness/tools.py:691-693 | a list of cells counts its entries |
| Tools.EditCell | rune/harness/tools.py:694-696 | only a dict cell is edited: its "source" becomes the new text split into lines keeping their ends, a truthy cell type replaces "cell_type", and every other entry stays |
| Tools.EditNotebook | rune/harness/tools.py:691-696 | a successful notebook edit needs a cells entry, replaces only the chosen cell, and keeps the notebook's other entries |
| Tools.NotebookOutOfRange | rune/harness/tools.py:692-693 | an index outside the cell list is refused with the allowed range in the message |
| Tools.NotebookEdit | rune/harness/tools.py:677-699 | a missing or falsy path is refused with "No path provided" and a missing cell_index with "No cell_index provided", before the path is checked; a failed edit changes nothing; a successful one rewrites only the notebook's file and reports the cell index as Python prints it and the path |
| Tools.NotebookUnsizedCells | rune/harness/tools.py:691-693 | a negative index into a "cells" value that has no length raises the TypeError of `len` |
| Tools.Execute | rune/harness/tools.py:358-385 | an unknown tool fails with "Unknown tool: " and its name and changes nothing; only task can spawn a subagent; raised errors become failed results with empty output |
| Tools.AsResult | rune/harness/tools.py:382-385 | a failure becomes a failed result carrying the error, a success a successful one carrying the output |
| Tools.RunBuiltin | rune/harness/tools.py:360-385 | only todo touches the list, a failed tool other than write_file changes nothing, and no tool moves the working directory or the spawning ability |
| Tools.TodoDispatch | rune/harness/tools.py:374-383 | dispatching "todo" is running the todo tool |
| Tools.ExecuteTodo | rune/harness/tools.py:358-385 | through the dispatcher, the todo tool stores exactly the list whose dicts it was given and answers with its rendering |
| Tools.BuiltinToolsMatchHandlers | rune/harness/tools.py:82-334 | there are fifteen built-in tool definitions and each has a handler |
| Tools.BuiltinToolNames | rune/harness/tools.py:82-334 | the k-th definition carries the k-th built-in name |
| Mcp.RequestId | rune/harness/mcp_client.py:48 | a request keeps a given non-empty id and otherwise takes a freshly generated one |
| Mcp.RequestObject | rune/harness/mcp_client.py:45-51 | a request says version "2.0", its method and its id, and carries params exactly when some are given |
| Mcp.RequestLine | rune/harness/mcp_client.py:43-52 | the wire form of a request is the serialised request object followed by one newline |
| Mcp.RequestRoundTrip | rune/harness/mcp_client.py:43-52 | a request object reads back as the method, id and params it was built from |
| Mcp.Notification | rune/harness/mcp_client.py:137 | a notification has a method and no id, so it never reads back as a request |
| Mcp.ReadLine | rune/harness/mcp_client.py:96-109 | blank and undecodable lines change nothing; a dict with a truthy id is filed under it, replacing an earlier entry; a non-dict or unhashable id stops the reader; nothing filed is ever lost |
| Mcp.ReadLines | rune/harness/mcp_client.py:99-109 | reading output never forgets a filed id, and a dead server reads nothing |
| Mcp.ReadLinesAppend | rune/harness/mcp_client.py:99-109 | reading two runs of output is reading the first, then the second |
| Mcp.TakeResponse | rune/harness/mcp_client.py:122-126 | the response filed under the id is returned and removed, every other entry stays; with none filed the call fails with the timeout message and the table is untouched |
| Mcp.FileThenTake | rune/harness/mcp_client.py:107-124 | filing a response under a fresh id and taking it back restores the table |
| Mcp.Send | rune/harness/mcp_client.py:111-126 | each send uses one fresh id; a failure is always the timeout naming server and method; name and tools are unchanged |
| Mcp.SendGetsItsAnswer | rune/harness/mcp_client.py:111-126 | a live server that answers with a dict carrying the request's id gets that dict back |
| Mcp.Initialize | rune/harness/mcp_client.py:128-139 | the handshake leaves the server's name and tools alone |
| Mcp.ParseTool | rune/harness/mcp_client.py:147-152 | an announced tool parses exactly when it is a dict with a string "name", and keeps that name and the server's name |
| Mcp.ParseToolDefaults | rune/harness/mcp_client.py:149-150 | a tool giving only its name gets an empty description and the empty object schema |
| Mcp.ParseTools | rune/harness/mcp_client.py:145-152 | the tools kept are exactly the parses of the entries before the first bad one, and the error, if any, is that entry's |
| Mcp.DiscoverTools | rune/harness/mcp_client.py:141-153 | every discovered tool names this server; a response without "result" gives no tools and no error |
| Mcp.TextParts | rune/harness/mcp_client.py:162 | the text parts succeed exactly when every block is a dict, and are never more than the blocks |
| Mcp.JoinText | rune/harness/mcp_client.py:163 | joining succeeds exactly when every part is a string, giving the newline-joined texts |
| Mcp.CallResult | rune/harness/mcp_client.py:159-165 | a response without "result" is an empty success; an error result repeats its output as the error and a success has none |
| Mcp.TextPartsOfTextBlocks | rune/harness/mcp_client.py:162 | text blocks give back their texts in order |
| Mcp.CallResultText | rune/harness/mcp_client.py:159-165 | a result of text blocks outputs their newline-joined text, and "isError" decides success |
| Mcp.CallToolOn | rune/harness/mcp_client.py:155-167 | every failure, a timeout included, is a failed result with an error message; one request is sent |
| Mcp.FindServer | rune/harness/mcp_client.py:198 | finds a server by name, or proves none has it |
| Mcp.PutServer | rune/harness/mcp_client.py:208 | storing a server replaces the one of the same name in place or appends it, keeping names unique |
| Mcp.LoadConfig | rune/harness/mcp_client.py:201-213 | a missing file changes nothing; loading never touches routes and keeps server names unique |
| Mcp.AddServers | rune/harness/mcp_client.py:207-213 | adding the configured servers keeps names unique |
| Mcp.RouteAll | rune/harness/mcp_client.py:223-224 | the routed names are the earlier ones plus every announced tool's name |
| Mcp.RouteAllLastWins | rune/harness/mcp_client.py:223-224 | the last tool of a name decides its route |
| Mcp.RouteAllKeeps | rune/harness/mcp_client.py:223-224 | a name no tool carries keeps its route |
| Mcp.RouteAllAppend | rune/harness/mcp_client.py:218-225 | routing two runs of tools is routing one after the other |
| Mcp.StartServer | rune/harness/mcp_client.py:219-227 | a started server announces exactly the tools it holds; its tools are unchanged or all name it as their server |
| Mcp.Outcomes | rune/harness/mcp_client.py:218-227 | each configured server is started on its own, one outcome per server |
| Mcp.StartAll | rune/harness/mcp_client.py:215-228 | starting keeps the servers in configuration order, each replaced by its own start outcome |
| Mcp.StartAllLastWins | rune/harness/mcp_client.py:215-228 | after starting, a tool name routes to the server of the last announced tool of that name |
| Mcp.AnnouncedFromServers | rune/harness/mcp_client.py:225-228 | a tool is announced exactly when some server that started holds it |
| Mcp.CallTool | rune/harness/mcp_client.py:233-237 | an unrouted name fails with "No MCP server provides tool" and the quoted name, changing nothing; routes and server names never change |
| Mcp.CallRouted | rune/harness/mcp_client.py:236-237 | a routed call leaves the routes and the server names as they were |
| Mcp.ToolDefinitionsOffer | rune/harness/mcp_client.py:239-252 | every tool of every server is offered, duplicates included |
| Mcp.ToolDefinitionsAppend | rune/harness/mcp_client.py:241-243 | offering two runs of servers is offering one run's tools, then the other's |
| Skills.Lines | rune/harness/skills.py:269 | the lines of a text are its line-break-terminated pieces with the breaks dropped |
| Skills.FirstMatch | rune/harness/skills.py:273-274 | the search returns the first line at or after the start that matches, or none matches |
| Skills.FrontmatterOfLines | rune/harness/skills.py:268-277 | front matter exists only when the first line is a fence and a later fence closes it, and it is non-empty and stripped |
| Skills.ExtractFrontmatter | rune/harness/skills.py:268-277 | front matter, when a file has it, is non-blank and already stripped |
| Skills.FrontmatterOfBlock | rune/harness/skills.py:268-277 | the front matter is the stripped text strictly between the first two fences, or nothing when it is blank |
| Skills.FenceFound | rune/harness/skills.py:273-275 | the closing fence found is the first one after the opening line |
| Skills.FrontmatterNeedsFences | rune/harness/skills.py:270-277 | a text that does not open with a fence, or never closes it, has no front matter |
| Skills.NameRun | rune/harness/skills.py:244-245 | a name is the maximal run of `[A-Za-z0-9_-]` characters |
| Skills.PathRun | rune/harness/skills.py:244 | a link path is the maximal run of characters other than ')' |
| Skills.LinkAt | rune/harness/skills.py:244 | a linked mention starts with "[$", carries a name and a non-empty path, and ends after the ')' |
| Skills.LinkedFrom | rune/harness/skills.py:252 | every linked match carries a valid name found after a '$' and a non-empty path |
| Skills.PlainFrom | rune/harness/skills.py:260 | every plain match stands at a '$' followed by a name character |
| Skills.PlainFromComplete | rune/harness/skills.py:260 | the plain scan finds every '$' that starts a name |
| Skills.Dedup | rune/harness/skills.py:249-250 | first-occurrence deduplication keeps exactly the same elements, each once |
| Skills.NonBlank | rune/harness/skills.py:257-258 | the kept paths are exactly the non-empty ones |
| Skills.ExtractMentions | rune/harness/skills.py:248-265 | every mentioned path is stripped and every mentioned name is a valid name |
| Skills.MentionedNames | rune/harness/skills.py:248-265 | a name is mentioned exactly when some '$' in the text starts that maximal name |
| Skills.MentionedWhere | rune/harness/skills.py:260-263 | every mentioned name has a '$' where it starts |
| Skills.DollarMentioned | rune/harness/skills.py:260-263 | every '$' that starts a name mentions that name |
| Skills.ParseSkillFile | rune/harness/skills.py:112-122 | a parsed skill has the file's path and stripped name and description; a file without front matter fails with "missing frontmatter" |
| Skills.ParseFrontmatter | rune/harness/skills.py:117-122 | a skill parsed from front matter keeps its path and has a stripped name and description |
| Skills.ParseMapping | rune/harness/skills.py:117-122 | a mapping with text name and description gives the skill with both stripped exactly when neither is blank, else "missing name/description" |
| Skills.ParseNotMapping | rune/harness/skills.py:117-118 | front matter that loads as a truthy non-mapping is not a skill |
| Skills.SkillRoots | rune/harness/skills.py:56-68 | three roots are scanned |
| Skills.UniqueByPath | rune/harness/skills.py:84-87 | the first skill per unseen path is kept, every such path is kept, and kept paths differ pairwise |
| Skills.ParseAll | rune/harness/skills.py:78-82 | a skill is parsed exactly when its path was found and its file parses to it |
| Skills.StrLessTotal | rune/harness/skills.py:90 | string order is total |
| Skills.KeyLessAsymmetric | rune/harness/skills.py:90 | the sort key order is asymmetric |
| Skills.KeyLessTotal | rune/harness/skills.py:90 | skills at different paths are ordered one way or the other |
| Skills.SortSkills | rune/harness/skills.py:90 | sorting yields an ordered permutation |
| Skills.OrderedStrict | rune/harness/skills.py:90 | sorted skills at pairwise different paths strictly increase |
| Skills.DiscoverSkills | rune/harness/skills.py:70-91 | the discovered skills are exactly the parsing candidates, at pairwise different paths, in strictly increasing (lower-case name, path) order |
| Skills.SortUnique | rune/harness/skills.py:84-90 | sorting the first skill per path keeps exactly the parsed skills, at different paths, strictly ordered |
| Skills.DistinctPathsKept | rune/harness/skills.py:90 | a permutation keeps paths pairwise different |
| Skills.CachedSkills | rune/harness/skills.py:124-127 | the cache is reused unless reload is forced or it is empty, and always ends holding the returned list |
| Skills.Entries | rune/harness/skills.py:146-147 | one entry per skill, in order |
| Skills.RenderSkillsSection | rune/harness/skills.py:133-136 | there is no section exactly when there are no skills |
| Skills.SectionLayout | rune/harness/skills.py:138-163 | the section has the heading, the intro, "### Available skills", one "- name: description (file: path)" line per skill in order, and "### How to use skills" with its text |
| Skills.RemoveInjections | rune/harness/skills.py:177-181 | no injection survives and nothing is added |
| Skills.RemoveAppend | rune/harness/skills.py:177-181 | removing injections distributes over concatenation |
| Skills.RemoveNone | rune/harness/skills.py:177-181 | a history without injections is unchanged |
| Skills.RemoveAll | rune/harness/skills.py:177-181 | a history of injections is emptied |
| Skills.LastUser | rune/harness/skills.py:183 | the last user message is a user message with no user message after it, or there is none |
| Skills.ByName | rune/harness/skills.py:192-197 | a name lookup finds a skill of that name or proves none has it |
| Skills.AtPath | rune/harness/skills.py:205-208 | a path lookup finds a skill at that path or proves none is there |
| Skills.NameHits | rune/harness/skills.py:195-197 | every mentioned name with a skill selects that skill, and every selected skill is the one some mentioned name finds |
| Skills.PathHits | rune/harness/skills.py:199-208 | every mentioned SKILL.md path that locates a skill selects it, and every selected skill is the one some mentioned path locates |
| Skills.PathHit | rune/harness/skills.py:200-208 | a mention locates a skill exactly when its absolute path names a SKILL.md file and a skill lives at that path |
| Skills.Select | rune/harness/skills.py:195-212 | the selection holds only skills, at pairwise different paths; it covers every named skill and every located skill, and every selected skill was named or located by a mention |
| Skills.Injections | rune/harness/skills.py:218-229 | one injection per selected skill whose file reads, in order, each the system message of that skill's header and file text |
| Skills.Readable | rune/harness/skills.py:219-223 | the readable skills are exactly the selected ones whose file reads, all of them when every file reads |
| Skills.InsertAt | rune/harness/skills.py:217 | injections go after a leading system message, else first |
| Skills.InjectRemoved | rune/harness/skills.py:177-232 | removing injections undoes inserting them |
| Skills.InjectLayout | rune/harness/skills.py:231-232 | the history's head and tail stay in place and everything inserted between is an injection |
| Skills.Inject | rune/harness/skills.py:217-232 | the history's head and tail stay in place and exactly the readable selected skills' injections, in order, are inserted between them |
| Skills.ApplyTurnInjections | rune/harness/skills.py:169-232 | earlier injections are removed, and the readable skills the turn selects are injected, in order, after the leading system message of what remains |
| Skills.InjectIdempotent | rune/harness/skills.py:169-232 | applying injections twice with the same skills and files is applying them once |
| Skills.SelectNothing | rune/harness/skills.py:195-212 | no mentions select no skills |
| Skills.InjectNothing | rune/harness/skills.py:213-214 | with nothing selected the history is unchanged |
| Skills.NothingMentioned | rune/harness/skills.py:183-189 | with no last user message, or one that is empty or mentions nothing, only the old injections are removed |
| Skills.OneNameInjected | rune/harness/skills.py:195-232 | a single mentioned name whose file reads injects exactly "[SKILL:name @ path]", the body and "[END SKILL]" after the system prompt |
| AgentsMd.Parent | rune/harness/agents_md.py:88-91 | a directory's parent is a prefix of it, so climbing ends at the root |
| AgentsMd.WalkForGit | rune/harness/agents_md.py:50-58 | the walk returns an ancestor holding ".git", or none of the ancestors holds one |
| AgentsMd.WalkFindsNearest | rune/harness/agents_md.py:50-58 | the walk returns the nearest such ancestor |
| AgentsMd.Ancestry | rune/harness/agents_md.py:50-57 | the ancestors start at the directory, step parent by parent, and end at the root |
| AgentsMd.FindGitRoot | rune/harness/agents_md.py:30-58 | `git rev-parse` decides the root when it succeeds, else the walk does |
| AgentsMd.ChainAsWritten | rune/harness/agents_md.py:82-91 | the chain starts at the working directory, climbs parent by parent, and stops at the git root or at the filesystem root |
| AgentsMd.ChainAsWrittenClimbs | rune/harness/agents_md.py:82-91 | with no git root the loop as written climbs every ancestor |
| AgentsMd.ChainAsWrittenPastCwd | rune/harness/agents_md.py:80-91 | with no git root the loop as written goes past the working directory, where only it should be checked |
| AgentsMd.Chain | rune/harness/agents_md.py:80-91 | with no git root only the working directory is checked; with one, the chain climbs to it |
| AgentsMd.ChainReachesRoot | rune/harness/agents_md.py:80-91 | a git root among the ancestors ends the chain exactly there |
| AgentsMd.Reverse | rune/harness/agents_md.py:94 | the chain is reversed, root first |
| AgentsMd.Candidates | rune/harness/agents_md.py:96-102 | a path is discovered exactly when it is the resolved candidate file of a chain directory that is a file |
| AgentsMd.CandidatesSplit | rune/harness/agents_md.py:96-102 | files of upper directories come before those of lower ones |
| AgentsMd.DiscoverProjectDocPaths | rune/harness/agents_md.py:61-102 | a path is discovered exactly when it is the resolved candidate file of a directory on the chain as written that holds the file, and no more paths than chain directories come out |
| AgentsMd.DiscoverRootFirst | rune/harness/agents_md.py:82-102 | the discovered files of the parent directory come first and the working directory's own file last, unless the chain stops at the working directory |
| AgentsMd.Kept | rune/harness/agents_md.py:131-151 | the bytes kept never exceed the budget, each block is a prefix of its readable file and is not blank |
| AgentsMd.KeptAllWhenFits | rune/harness/agents_md.py:134-151 | when all files read, are not blank and fit the budget, each is kept whole |
| AgentsMd.SpentBudgetStops | rune/harness/agents_md.py:135-136 | a spent budget keeps nothing |
| AgentsMd.ReadDocs | rune/harness/agents_md.py:124-156 | a non-positive budget gives nothing; a result exists exactly when some block is kept, and it is the kept blocks, each "Instructions from: " with its path, a newline and its cleaned text, joined by blank lines in discovery order |
| AgentsMd.ReadProjectDocs | rune/harness/agents_md.py:105-156 | a non-positive budget gives nothing; otherwise the result is the blocks read from the discovered paths, present exactly when some block is kept |
| AgentsMd.JoinStartsWith | rune/harness/agents_md.py:156 | joining keeps the first part's prefix |
| Providers.ParseModelString | rune/harness/providers.py:62-76 | without "/" the whole string is an OpenAI model; otherwise the provider is "openai" or "anthropic", and nothing else is accepted |
| Providers.ParseModelStringNormalises | rune/harness/providers.py:67-75 | for a provider part without "/", the parse succeeds exactly when the lowered, stripped provider is "openai" or "anthropic", gives it with the stripped name, and otherwise names the normalised provider in the error |
| Providers.ModelStringRoundTrip | rune/harness/providers.py:62-76 | "provider/name" with a supported provider and a stripped name parses back to that pair |
| Providers.SlashAfter | rune/harness/providers.py:68 | the partition happens at the first '/', so a provider without '/' and any name come back apart |
| Providers.CreateProvider | rune/harness/providers.py:377-385 | a provider is created exactly when the model string parses, with its model name, and it is the Anthropic one exactly when the parsed provider is "anthropic" |
| Providers.FlatAppend | rune/harness/providers.py:295-307 | the blocks of two runs of messages are the blocks of the first, then the second |
| Providers.ToolBlocksAppend | rune/harness/providers.py:244-256 | picking tool blocks distributes over concatenation |
| Providers.AssistantBlocks | rune/harness/providers.py:239-267 | an assistant message always has a block; its text comes first when non-empty, and its tool blocks are exactly its calls' tool_use blocks |
| Providers.ToolRun | rune/harness/providers.py:273-281 | a run of tool messages ends at the first non-tool message |
| Providers.Results | rune/harness/providers.py:276-280 | each tool message becomes one tool_result block, in order |
| Providers.SystemParts | rune/harness/providers.py:228-232 | only non-empty system texts are collected |
| Providers.ToolRunSplit | rune/harness/providers.py:271-283 | a run of tool messages contributes its results, then conversion goes on after it |
| Providers.ConvertedTools | rune/harness/providers.py:223-286 | conversion keeps every tool_use and tool_result block, in order |
| Providers.Converted | rune/harness/providers.py:223-286 | conversion gives at most one message per input message, each from the user or the assistant; its blocks are exactly the blocks the input messages stand for, in order, and it opens with the assistant exactly when the first kept message is an assistant one |
| Providers.Greeted | rune/harness/providers.py:288-291 | greeting adds one user "Hello." message in front exactly when the first message is not from the user and keeps the rest; the blocks gain exactly that one text block and no tool block is lost |
| Providers.Combine | rune/harness/providers.py:298-305 | merging two contents concatenates their blocks, a string becoming one text block |
| Providers.StepAlternates | rune/harness/providers.py:296-307 | one merge step keeps the messages alternating and the first role fixed |
| Providers.MergeAlternates | rune/harness/providers.py:295-307 | merged messages alternate, never outnumber the input, are empty only for empty input, and keep the first role |
| Providers.StepKeepsBlocks | rune/harness/providers.py:296-307 | one merge step appends the message's blocks |
| Providers.MergeKeepsBlocks | rune/harness/providers.py:295-307 | merging keeps every block, in order |
| Providers.MergeAlternating | rune/harness/providers.py:295-307 | already alternating messages are left as they are |
| Providers.MergeSucceeds | rune/harness/providers.py:298-305 | merging messages that all have content cannot fail |
| Providers.Merge | rune/harness/providers.py:295-307 | a successful merge gives no more messages than it got, none only for no input, and keeps the last role |
| Providers.ConvertMessages | rune/harness/providers.py:207-309 | conversion fails exactly when some message is unreadable (a user message without content, or a tool message without a tool_call_id), with the KeyError of the first one; otherwise the system text is the non-empty system parts joined by blank lines, the messages alternate and start with the user, and their blocks are a "Hello." greeting when the first kept message is the assistant's, then every input message's blocks in order |
| Providers.EmptyCallIdRaises | rune/harness/providers.py:276-279 | a tool message without a tool_call_id fails the conversion with KeyError 'tool_call_id' |
| Providers.ConvertMessagesSucceeds | rune/harness/providers.py:288-307 | when every user message has content, greeting and merging the converted messages cannot fail |
| Providers.PlainTurnsUnchanged | rune/harness/providers.py:207-309 | a history of non-empty text turns alternating user and assistant, starting with the user, converts to the same turns, with no system text |
| Providers.TurnsConverted | rune/harness/providers.py:234-267 | non-empty text turns alternating user and assistant convert to the same turns, user text as a string and assistant text as one text block |
| Providers.ExpectedAlternates | rune/harness/providers.py:295-307 | the expected merged turns alternate and start with the given role |
| Providers.NoSystemParts | rune/harness/providers.py:228-232 | turns without system messages give no system text |
| Providers.ConvertTools | rune/harness/providers.py:314-331 | conversion succeeds exactly when every entry is convertible (a dict, and a function entry whose definition converts); it then gives one tool per function entry, in order, each that entry's conversion |
| Providers.FunctionDefs | rune/harness/providers.py:320-321 | the entries kept are exactly those whose type is "function" |
| Providers.ConvertTool | rune/harness/providers.py:322-329 | a function entry converts exactly when its "function" is a dict with a name, keeping the name and taking the description ("" when absent) and parameters (an empty object schema when absent) |
| Providers.ConvertFullTool | rune/harness/providers.py:319-330 | a full function definition keeps its name, description and parameters as the input schema |
| Providers.ConvertBareTool | rune/harness/providers.py:325-329 | a definition with only a name gets an empty description and the empty object schema |
| Providers.ConvertToolsOne | rune/harness/providers.py:319-330 | one function definition converts to one tool |
| Providers.SkipsOtherTypes | rune/harness/providers.py:320-321 | a definition whose type is not "function" is skipped |
| Providers.NormaliseAnthropic | rune/harness/providers.py:336-370 | the content is the text blocks joined by newlines, absent when there are none; tool calls are the tool_use blocks, absent when there are none; usage maps input and output tokens |
| Providers.NormaliseConvertRoundTrip | rune/harness/providers.py:344-354 | a normalised Anthropic reply, converted back, gives the same tool_use blocks when argument text parses back to what was dumped |
| Providers.CallsRoundTrip | rune/harness/providers.py:245-256 | the calls read from tool_use blocks convert back to those blocks |
| Providers.NormaliseOpenAI | rune/harness/providers.py:136-160 | the content passes through, tool calls are kept only when non-empty, and usage maps prompt and completion tokens |
| Providers.AnthropicChat | rune/harness/providers.py:176-202 | the request is built exactly when the messages and the tools convert, reporting the message error first; it carries the model, the token limit and the converted messages, a system text exactly when the joined system parts are non-empty, and the converted tools with `{"type": tool_choice}` exactly when some tool converts |
| Providers.JoinEmpty | rune/harness/providers.py:309 | the joined system text is empty exactly when there are no parts |
| AgentDefs.Permitted | rune/agents.py:58-64 | the listed definitions are exactly those whose names the permission set does not deny, in order |
| AgentDefs.PermittedAppend | rune/agents.py:58-66 | filtering distributes over concatenation |
| AgentDefs.PermittedNoneDenied | rune/agents.py:62-64 | when nothing is denied every definition is listed |
| AgentDefs.Names | rune/agents.py:59 | the names of the definitions, in order |
| AgentDefs.ListedTools | rune/agents.py:48-66 | without a permission set every built-in tool is listed; with one, only the permitted ones |
| AgentDefs.ToolLinesOf | rune/agents.py:66 | one "- name: description" line per listed tool, in order |
| AgentDefs.ToolLineSingle | rune/agents.py:66 | a tool with a single-line name and description gives a single line |
| AgentDefs.ToolListLines | rune/agents.py:68 | the joined list splits back into its lines, and is empty exactly when no tool is listed |
| AgentDefs.FormatToolsListLines | rune/agents.py:48-68 | the tool list reads back as one "- name: description" line per listed tool, and is empty exactly when every tool is denied |
| AgentDefs.BuildListsEverything | rune/agents.py:79 | the build prompt lists every built-in tool |
| AgentDefs.PlanListsReadOnly | rune/agents.py:95 | the plan prompt lists exactly the read-only tools plus web_fetch and web_search |
| AgentDefs.SubagentListsAllButTask | rune/agents.py:112 | the subagent prompt lists every tool but task |
| AgentDefs.GetAgent | rune/agents.py:158-166 | lookup succeeds exactly for a registered name, giving the agent of that name, and fails with the unknown-agent message naming the available ones |
| AgentDefs.ListAgents | rune/agents.py:169-173 | every registered agent, in registration order |
| AgentDefs.RegistryFacts | rune/agents.py:124-155 | build has 50 turns and the others 30; all have 4096 completion tokens; only subagent is a subagent, the rest are primary; each uses its own permission set |
| AgentLoop.StartMcp | rune/harness/agent.py:82-87 | without a configuration path there are no servers and no MCP tools; with one, the configured servers are started |
| AgentLoop.McpToolNames | rune/harness/agent.py:103 | the names of the MCP tools, in order |
| AgentLoop.McpInfo | rune/harness/agent.py:101-104 | the MCP line is there exactly when there are MCP tools |
| AgentLoop.SkillsInfo | rune/harness/agent.py:106-107 | the skills part is there exactly when there is a skills section |
| AgentLoop.BuildSystemPrompt | rune/harness/agent.py:98-109 | the prompt is the agent's prompt, a blank line, then the working-directory line; without MCP tools or skills nothing else follows |
| AgentLoop.Fresh | rune/harness/agent.py:92-96 | a new session holds only the system message with the built prompt, no turns and no usage, in the working directory, with no parent |
| AgentLoop.Instantiate | rune/harness/agent.py:53-96 | a new agent gets a fresh session and a subagent callback exactly when it is not a subagent |
| AgentLoop.Create | rune/harness/agent.py:53-96 | creating an agent succeeds exactly for a registered name, with that definition and a fresh session, and otherwise fails with the unknown-agent message |
| AgentLoop.Reset | rune/harness/agent.py:337-342 | resetting replaces only the session, with a fresh one built from the current prompt |
| AgentLoop.SwitchAgent | rune/harness/agent.py:319-332 | switching to a registered agent takes its definition, rebuilds only a leading system message, keeps every other message, and lets only primary agents spawn; an unknown name fails |
| AgentLoop.Offered | rune/harness/agent.py:111-124 | the offered built-in and MCP tools are exactly those the permission set does not deny |
| AgentLoop.PermittedTools | rune/harness/agent.py:111-124 | the permitted built-in definitions come first, then the permitted MCP definitions, each in order |
| AgentLoop.PlanOffersReadOnly | rune/harness/agent.py:111-124 | the plan agent is offered only read-only tools and web_fetch and web_search |
| AgentLoop.SubagentOffersNoTask | rune/harness/agent.py:111-124 | a subagent is never offered task |
| AgentLoop.Check | rune/harness/agent.py:223-249 | a call is cleared exactly when its arguments parse, it is not denied and the user does not refuse; refusals are failures with empty output, with the invalid-JSON and not-permitted messages as written |
| AgentLoop.AskOnlyWhenNeeded | rune/harness/agent.py:243-248 | an allowed tool, auto-approval or a missing callback never asks and always clears |
| AgentLoop.CallsJson | rune/harness/agent.py:155-165 | each tool call is recorded with its id, name and arguments, in order |
| AgentLoop.RecordReply | rune/harness/agent.py:145-150 | without usage the session is unchanged; with it, the token totals grow by the reported counts, missing ones as 0, and stay consistent |
| AgentLoop.SummaryOf | rune/harness/agent.py:304-315 | the summary is the reply's non-empty text, "No summary available." when it is empty, and the truncation note when the backend raises |
| AgentLoop.CompactIfNeeded | rune/harness/agent.py:297-315 | only a session over the threshold is compacted, with one model call, and afterwards it no longer needs compaction |
| AgentLoop.Callback | rune/harness/agent.py:75-79 | an agent holds the subagent callback exactly when it may spawn, and that callback adds no history message |
| AgentLoop.Stream | rune/harness/agent.py:126-200 | a stream counts one user turn, yields at most max-turns turns, and keeps the agent's definition, routes, identity and consistent usage |
| AgentLoop.StreamWith | rune/harness/agent.py:126-200 | the same for any callback that adds no history message |
| AgentLoop.Executor | rune/harness/agent.py:223-255 | the executor adds no history message |
| AgentLoop.OnePass | rune/harness/agent.py:138-198 | one pass keeps the agent's fixed parts and yields a turn in the agent's name with one result per call |
| AgentLoop.Loop | rune/harness/agent.py:134-200 | the loop keeps the agent's fixed parts and yields no more turns than it has passes |
| AgentLoop.Round | rune/harness/agent.py:171-180 | each call gets one result and exactly its tool message is appended, in order |
| AgentLoop.ExecuteCall | rune/harness/agent.py:223-255 | executing adds no history message, and a refused call returns its refusal and changes nothing |
| AgentLoop.Delegate | rune/harness/agent.py:257-295 | delegating adds no message to the parent's history and keeps its fixed parts; the parent lists the new child; on success the parent's usage grows by the child's prompt and completion tokens and the output is the child's final answer, and on failure the usage is unchanged and the error names the subagent failure |
| AgentLoop.ChildFork | rune/harness/agent.py:263-266 | the parent gains the child's id; the child records the parent and starts with no usage |
| AgentLoop.ChildRun | rune/harness/agent.py:267-286 | the child runs on the forked session under the new id, in the parent's working directory, and only consumes further model calls |
| AgentLoop.LoopYields | rune/harness/agent.py:134-200 | the loop's turns are tool turns, then at most one finished turn whose response is returned, or the turn-limit text once every pass is used |
| AgentLoop.StreamYields | rune/harness/agent.py:126-200 | the stream's turns read that way for its max-turns budget |
| AgentLoop.YieldsTurns | rune/harness/agent.py:182-200 | every turn names the agent, is finished exactly when it has no tool calls and has one result per call; only the last can be finished and its response is returned; otherwise a success is the turn-limit text after every pass |
| AgentLoop.ToolMessages | rune/harness/agent.py:175-180 | one tool message per call, with its result or "Error: " and the error |
| AgentLoop.PassAnswers | rune/harness/agent.py:143-198 | a reply without tool calls records the assistant's answer and finishes |
| AgentLoop.AnswerAtOnce | rune/harness/agent.py:126-198 | an immediate answer yields one finished turn, returns the answer and appends just the user and assistant messages |
| AgentLoop.LastResponse | rune/harness/agent.py:204-207 | the response of the last turn, or "" when there was none |
| AgentLoop.RunAsWritten | rune/harness/agent.py:202-207 | `run` as written returns the last turn's response, which can be None |
| AgentLoop.FinalAnswer | rune/harness/agent.py:202-207 | the corrected answer is the last response with None read as "" |
| AgentLoop.Run | rune/harness/agent.py:202-207 | the corrected run succeeds exactly when the written one does, and returns its answer with None read as "" |
| AgentLoop.RunAsWrittenReturnsNone | rune/harness/agent.py:198-207 | a first reply with no content and no tool calls makes `run` as written return None, where the corrected one returns "" |
| Signal.Normalise | rune/integrations/signal/send.py:35-39 | the recipient is stripped and loses one leading "signal:", nothing more |
| Signal.NameAfter | rune/integrations/signal/send.py:49-59 | a username is the stripped rest, and a blank one fails with "Invalid username format" |
| Signal.ParseTarget | rune/integrations/signal/send.py:41-71 | every refusal is a send error |
| Signal.ParseRecipient | rune/integrations/signal/send.py:17-71 | every refusal of a recipient is a send error |
| Signal.ParseTargetWellFormed | rune/integrations/signal/send.py:41-71 | an accepted target is well formed, and a phone number is the text itself |
| Signal.ParseRecipientWellFormed | rune/integrations/signal/send.py:17-71 | an accepted recipient is well formed, and a phone number is the normalised text |
| Signal.ParseGroup | rune/integrations/signal/send.py:42-46 | "group:" and a stripped id give that group |
| Signal.ParseUsername | rune/integrations/signal/send.py:49-53 | "username:" and a stripped name give that username |
| Signal.ParseShortUsername | rune/integrations/signal/send.py:55-59 | "u:" and a stripped name give that username |
| Signal.ParsePhone | rune/integrations/signal/send.py:61-71 | a stripped text starting with "+" is that phone number |
| Signal.ParseTargetFormat | rune/integrations/signal/send.py:41-71 | the written form of a well-formed recipient parses back to it |
| Signal.FormatNormal | rune/integrations/signal/send.py:35-39 | the written form of a well-formed recipient is unchanged by stripping and prefix removal |
| Signal.ParseRecipientRoundTrip | rune/integrations/signal/send.py:17-71 | a well-formed recipient's written form parses back to it, with or without "signal:" in front |
| Signal.ParseRecipientStrips | rune/integrations/signal/send.py:35 | surrounding whitespace does not change the parse |
| Signal.SignalPrefixDropped | rune/integrations/signal/send.py:38-39 | one "signal:" prefix is dropped |
| Signal.RejectedAsPhone | rune/integrations/signal/send.py:61-69 | anything that is not a group, a username or a "+" number fails with the phone-format message |
| Signal.SignalPrefixNotRestripped | rune/integrations/signal/send.py:35-69 | whitespace after "signal:" is not stripped again, so the text is refused as a phone number |
| Signal.BaseUrl | rune/integrations/signal/transport.py:383-389 | a missing or empty URL falls back to the default, and only trailing slashes are removed |
| Signal.CreateTransport | rune/integrations/signal/transport.py:363-400 | after lower-casing and stripping, "signalcli" and "rest" always give their transport with their default URL, "webhook" needs a URL, and every other name is a ValueError |
| Signal.BackendKeyIdempotent | rune/integrations/signal/transport.py:384 | normalising a backend name twice is normalising it once |
| Signal.DefaultTransport | rune/integrations/signal/send.py:130-131 | the default transport is signal-cli at the given base URL |
| Signal.Lift | rune/integrations/signal/client.py:77-89 | a Python error raised during a lookup is passed on as it is |
| Signal.Classify | rune/integrations/signal/client.py:76-89 | a reply succeeds exactly when it has "result" and no "error"; an error carries its message and code, defaulting to "Unknown error" and -1; a reply without either is the missing-result error |
| Signal.RpcOutcome | rune/integrations/signal/client.py:51-89 | the call succeeds exactly when the POST replied with JSON that classifies as a result; every failure is an RPC error or a raised one |
| Signal.RpcCall | rune/integrations/signal/client.py:17-89 | one POST to the RPC endpoint succeeds exactly when its reply is JSON that classifies as a result, and then returns the reply's "result" member; every failure is an RPC error or a raised one |
| Signal.RpcCallConforms | rune/integrations/signal/client.py:17-89 | against a daemon that answers JSON-RPC 2.0 at the RPC endpoint, the call returns what the method computed |
| Signal.RpcErrorDefaults | rune/integrations/signal/client.py:77-82 | an empty error object gives "Unknown error" with code -1 |
| Signal.Field | rune/integrations/signal/transport.py:111-112 | a lookup succeeds exactly on a dict and gives None for a missing key |
| Signal.EitherField | rune/integrations/signal/transport.py:252 | the first key's value when truthy, else the second's |
| Signal.ReceiptOf | rune/integrations/signal/transport.py:250-254 | a receipt is read exactly from a dict: its id is the first key's value, or when that is falsy the second key's, and its timestamp is the "timestamp" value, None when absent |
| Signal.CliParamsContent | rune/integrations/signal/transport.py:102-106 | the RPC parameters carry the text and the recipient, and the account and attachments exactly when given |
| Signal.CliSend | rune/integrations/signal/transport.py:90-113 | a recipient that does not parse fails before anything is sent; a failed RPC passes on its error; otherwise the send succeeds exactly when the result is a dict, with its "messageId" and "timestamp" |
| Signal.AcknowledgedSend | rune/integrations/signal/client.py:17-89 | a daemon that acknowledges "send" with an id and a timestamp returns a result holding exactly those |
| Signal.CliSendConforms | rune/integrations/signal/transport.py:90-113 | against a conforming daemon that acknowledges the send, the receipt carries exactly the daemon's message id and timestamp |
| Signal.TransportSend | rune/integrations/signal/transport.py:90-347 | whatever the transport, the send fails with its reply's error and succeeds exactly when the reply is a dict, reporting the id under the transport's keys and the reply's timestamp; signal-cli refuses a bad recipient and REST a payload it cannot build before anything is sent |
| Signal.RestRecipient | rune/integrations/signal/transport.py:172-206 | every recipient refusal is a send error |
| Signal.RestName | rune/integrations/signal/transport.py:191-196 | a username goes in "recipients" stripped, and a blank one fails with "Invalid username format" |
| Signal.RestAgreesWithParse | rune/integrations/signal/transport.py:172-206 | the REST transport accepts exactly the recipients the signal-cli parser accepts, with the same errors |
| Signal.RestTargetAgrees | rune/integrations/signal/transport.py:176-206 | the same after the "signal:" prefix is handled |
| Signal.NameAgrees | rune/integrations/signal/transport.py:191-196 | the same for usernames |
| Signal.RestKeys | rune/integrations/signal/transport.py:184-198 | the recipient part never sets "number" |
| Signal.EncodeAll | rune/integrations/signal/transport.py:214-226 | attachments encode exactly when every absolute path is a file, one base64 text each in order; otherwise "Attachment not found: " and a missing path |
| Signal.RestPayload | rune/integrations/signal/transport.py:169-226 | every payload refusal is a send error |
| Signal.RestBodyNumber | rune/integrations/signal/transport.py:208-210 | the body has "number" exactly when an account is given, and it is that account |
| Signal.RestNumberIffAccount | rune/integrations/signal/transport.py:169-226 | the same for the whole payload |
| Signal.RestOutcome | rune/integrations/signal/transport.py:231-248 | the send succeeds exactly when the POST replied, with the decoded body or {} when it is not JSON; every failure is a send error |
| Signal.RestSend | rune/integrations/signal/transport.py:161-254 | a payload that cannot be built fails before anything is sent; a failed POST gives its send error; otherwise the send succeeds exactly when the reply is a dict, with "id" or else "messageId" as the id and its "timestamp" |
| Signal.RestNonJsonReply | rune/integrations/signal/transport.py:245-254 | a reply that is not JSON still counts as sent, with neither id nor timestamp |
| Signal.RestMessageIdFallback | rune/integrations/signal/transport.py:250-254 | a reply with "messageId" and no "id" gives that message id and the timestamp |
| Signal.WebhookPayloadContent | rune/integrations/signal/transport.py:310-314 | the payload carries "to" and "message", and the account and attachments exactly when given |
| Signal.WebhookOutcome | rune/integrations/signal/transport.py:318-341 | the send succeeds exactly when the POST replied, with the decoded body or {} when it is not JSON; every failure is a send error |
| Signal.WebhookSend | rune/integrations/signal/transport.py:302-347 | a failed POST gives its send error; otherwise the send succeeds exactly when the reply is a dict, with "message_id" or else "id" as the id and its "timestamp" |
| Signal.WebhookReceiptRead | rune/integrations/signal/transport.py:338-347 | a reply with "message_id" and "timestamp" gives that id when it is truthy, None otherwise, and the timestamp |
| Signal.Resolve | rune/integrations/signal/send.py:117-127 | attachments resolve exactly when every absolute path exists and is a file, to those paths in order; otherwise the error is the not-found or not-a-file message for one of them |
| Signal.Wrap | rune/integrations/signal/send.py:136-146 | send errors pass through, and any other error becomes "Failed to send message via " and the transport's name |
| Signal.SendMessage | rune/integrations/signal/send.py:74-146 | every failure of a send is a send error |
| Signal.ResolveSome | rune/integrations/signal/send.py:118-127 | given attachments resolve as a whole or fail with the resolution error |
| Signal.AttachmentsCheckedFirst | rune/integrations/signal/send.py:117-127 | a bad attachment fails the send before any transport is used, whatever the transport or network |
| Signal.TransportGetsResolved | rune/integrations/signal/send.py:117-146 | with good attachments the transport gets their absolute paths and its outcome is wrapped |
| Signal.DefaultsToSignalCli | rune/integrations/signal/send.py:129-146 | without a transport the message goes through signal-cli at the base URL |
| Tui.StyleName | rune/cli/tui.py:91-107 | only unstyled text has an empty style name |
| Tui.NextTick | rune/cli/tui.py:87 | a found backtick is a position in the text holding a backtick |
| Tui.NextTickFirst | rune/cli/tui.py:87 | the backtick found is the first one, and none means there is none |
| Tui.LexLine | rune/cli/tui.py:79-110 | a line always gives fragments; a line starting with "> " is one user-input fragment |
| Tui.Lex | rune/cli/tui.py:83-110 | a non-empty text gives at least one fragment |
| Tui.GetLine | rune/cli/tui.py:73-77 | a line number gives nothing exactly when Python indexing would fail, negative numbers counting from the end |
| Tui.UnlexAppend | rune/cli/tui.py:83-108 | the text, shown text and code count of fragments add up over concatenation |
| Tui.LexRoundTrip | rune/cli/tui.py:83-110 | putting back the backticks around code fragments gives the original text |
| Tui.QuotedRoundTrip | rune/cli/tui.py:98-108 | the same for the text after an opening backtick |
| Tui.CodeRoundTrip | rune/cli/tui.py:105-108 | a code fragment and what follows give back the quoted text |
| Tui.LineRoundTrip | rune/cli/tui.py:73-110 | every line lexes to fragments that give the line back |
| Tui.LexTicks | rune/cli/tui.py:83-110 | no code fragment contains a backtick |
| Tui.QuotedTicks | rune/cli/tui.py:98-108 | the same after an opening backtick |
| Tui.LexShown | rune/cli/tui.py:83-110 | the shown text is the line less two backticks per code fragment, and an odd backtick count survives as one shown backtick |
| Tui.QuotedShown | rune/cli/tui.py:98-108 | the same after an opening backtick |
| Tui.TicksAt | rune/cli/tui.py:87 | a backtick at a position splits the count |
| Tui.Margin | rune/cli/tui.py:130-136 | the margin is the prompt line then one blank line of the prompt's width for each further line |
| Tui.MarginAligned | rune/cli/tui.py:127-136 | every margin line is as wide as the margin and ends in a newline |
| Tui.PromptChar | rune/cli/tui.py:241-242 | "#" exactly for build, "?" exactly for plan, ">" for every other agent |
| Tui.WordEnd | rune/cli/tui.py:474 | the first word ends at the first whitespace |
| Tui.SplitOnce | rune/cli/tui.py:474 | splitting once gives at most two pieces, and none exactly for blank text |
| Tui.SplitOnceParts | rune/cli/tui.py:474 | the first piece is a non-empty word and the rest starts with no whitespace |
| Tui.SplitOnceWords | rune/cli/tui.py:474 | a word, a gap and a rest split into the word and the rest |
| Tui.CommandOf | rune/cli/tui.py:477-530 | a name outside the known commands is unknown and keeps its name; switch with a blank agent is not a switch |
| Tui.Submit | rune/cli/tui.py:449-537 | the corrected submit never crashes, ignores exactly blank input, and sends the agent only stripped text that is not a command |
| Tui.SubmitAsWritten | rune/cli/tui.py:449-537 | the written submit ignores exactly blank input, sends the agent only stripped text that is not a command, and crashes only on a slash command with the unpacking error |
| Tui.SubmitKinds | rune/cli/tui.py:471-532 | input is a slash command exactly when it starts with "/", and refused as a bare command exactly when it looks like one |
| Tui.SlashCommand | rune/cli/tui.py:471-530 | "/" with a word, whitespace and an argument runs that command with that argument |
| Tui.SlashWord | rune/cli/tui.py:471-530 | "/" with a single word runs that command with no argument |
| Tui.SubmitFixesOnlyBareSlash | rune/cli/tui.py:471-475 | the written submit crashes exactly on a lone "/", and agrees with the corrected one everywhere else |
| Tui.EmptyCommandLine | rune/cli/tui.py:473 | the command line after "/" is blank exactly when the text is "/" |
| Tui.BareSlashCrashes | rune/cli/tui.py:474 | a lone "/" makes the unpacking raise, where the corrected submit reports an unknown command |

## Left out

- Filesystem, subprocesses, HTTP, the clock, generated ids and the LLM SDKs are parameters (a path→text map, oracle functions, given values). What the real operating system or network does is not modelled.
- Threads, timeouts and process lifetimes. The MCP reader thread is a replay of output lines. The `_send` deadline is "no response filed for the id". `MCPServer.shutdown` and `MCPManager.shutdown_all` (mcp_client.py:169-187, 254-257) only stop processes, so they are not modelled.
- The built-in tools `shell`, `apply_patch`, `list_files`, `glob`, `grep`, `tree` and `web_fetch` (tools.py:397-416, 494-646) run processes or walk real directories. They are one external oracle behind the dispatcher.
- Tools.ParseItem: a todo item whose "content" is not a string is refused, where Python would store the value as it is, because item content is text in this model.
- Tools.Task: a truthy prompt that is not a string is refused, because the subagent callback takes text.
- Tools.BuiltinToolsMatchHandlers: tool definitions keep each tool's name, description, property names and required list. The JSON-schema types and property descriptions are left out.
- Tools.ReadFile: its own contract only says reading changes nothing. What it returns is stated by Tools.ReadFileAgrees and the ReadText lemmas.
- Strings.Lower: only ASCII letters are lowered, where `str.lower` lowers every cased Unicode letter. This changes some comparisons with ASCII names: the KELVIN SIGN U+212A lowers to "k" in Python, so `create_transport` accepts "webhoo\u212a" as the webhook backend (transport.py:384) and skills.py:203 accepts a "S\u212aILL.md" file name, where Signal.CreateTransport refuses the first and Skills.Located does not recognise the second. The provider names "openai" and "anthropic" and the backends "signalcli" and "rest" hold no letter that a non-ASCII character lowers to, so those comparisons agree. The skill sort order differs only for names with non-ASCII capitals.
- Python `set` iteration order is taken as first-occurrence order wherever the source iterates a set (skill mentions, skills.py:248-265). Python itself leaves this order unspecified.
- Skills: `if not mentioned` at skills.py:188 can never be true, because a dataclass instance is always truthy. The model keeps that behaviour.
- AgentLoop: the skill injection inside `_call_model` (agent.py:213) is not composed into the loop. agent.py imports a `SkillsManager` that skills.py does not define. The injection itself is Skills.ApplyTurnInjections.
- AgentLoop: `shutdown` (agent.py:344-346) only stops MCP processes.
- Providers: how `OpenAIProvider.chat` builds its request (providers.py:122-130) is passed straight to the SDK and is not modelled. Only the normalisation of its reply is.
- Signal: the health checks (`check_daemon_health` in client.py, and the transports' health methods), logging, and rune/integrations/signal/daemon.py (process management) are not modelled. exceptions.py is modelled only as the send and RPC errors that the modelled code raises.
- Signal: the request id of an RPC call is a parameter instead of a fresh uuid. HTTP headers are only passed through. Reading an attachment that vanishes after validation is not modelled.
- Signal: `str()` of a Python exception is a render parameter, so error texts built from raised exceptions are stated up to that parameter.
- Tui: the spinner, key bindings, screen drawing, printing and what the slash commands do to the agent are not modelled. The prompt is a plain string instead of a callable. rune/tui.py is an older copy of the same UI and is not part of this model.
- Paths.Basename, Paths.Dirname: the contracts state only that the result is a suffix or prefix of the path. Their exact posixpath semantics are in the function bodies and are used through Skills and AgentsMd.
- Mcp.ReadLines: its own contract states only that filed ids are never forgotten and that a dead server reads nothing. The per-line behaviour is Mcp.ReadLine, and composition is Mcp.ReadLinesAppend.
- Mcp.AddServers: the contract states only that names stay unique. Replacing in place is Mcp.PutServer.
- Tui.Lex: the contract states only that a non-empty text gives fragments. What the fragments are is stated by Tui.LexRoundTrip, Tui.LexTicks and Tui.LexShown.
- Signal.ParseRecipient: the contract states only that refusals are send errors. Which recipients parse is stated by Signal.ParseRecipientWellFormed and Signal.ParseRecipientRoundTrip.
- Strings.Repr: characters above U+00FF that Python counts as non-printable (U+2028, U+200B and the like) are written raw, where `repr` writes a \u or \U escape. Python's table of printable characters is not modelled. This shows only in the "No MCP server provides tool" message.
- AgentLoop.Delegate: when the child's last reply has no content, `_spawn_subagent` returns None and the parent's tool message carries no content. The model returns the child's corrected final answer instead, which is "" in that case (see AgentLoop.FinalAnswer).
- Sessions.LoadData: a field holding another JSON type than `save` writes (for example `"turn_count": "3"` or a message content that is not a string) is refused. `Session.load` keeps such values as they are, but the modelled session has typed fields. The creation time is kept as its ISO text. `datetime.fromisoformat` is a parameter that gives the parsed time written back in ISO format or the ValueError text, so which strings Python accepts as dates is not modelled.
- Mcp.ParseTool: a "name" that is not a string is refused with "tool name is not a string". mcp_client.py:148 stores the value as it is, but tool names are text in this model.
- Permissions.Merge, Permissions.SetPermission: permission sets are values here. In Python, `merge` shares the rule objects of both sets (permissions.py:62-65) and `set_permission` changes a rule in place (permissions.py:52-53). Setting a level on a merged set therefore also changes the set the rule came from. That aliasing is not modelled.
- Skills.Located: an absolute mention is compared with skill paths as text. skills.py:200-208 compares `Path` objects, which read "//" and "/./" inside a path as "/" and drop a trailing "/". A skill path spelled that way in a message, for example with a "/" after "SKILL.md", is not recognised by the model.
- Json: the value type has no floats. A JSON number with a fraction or exponent in a tool argument, an MCP reply or a Signal reply is not representable, so the model cannot state what the code does with one (for example a float "timestamp" in a Signal reply, which the code passes into the receipt, or a float `cell_index`, on which list indexing raises a TypeError).
- AgentDefs: the agent definitions' `temperature` is not modelled, because no modelled operation reads it.

## Findings

| source | as written | input that shows it | evidently intended | confidence | as-written member | corrected member |
|---|---|---|---|---|---|---|
| rune/harness/tools.py:391 | the working-directory check is a string-prefix test on the normalised path | working directory "/a", path "../ab": it resolves to "/ab", which starts with "/a" and is accepted | accept only the working directory itself or paths below it, component by component | not executed | Paths.ResolvePathAsWritten, Paths.SiblingPrefixEscapes, Tools.SiblingFileFound | Paths.ResolvePath, Paths.ResolvePathContained |
| rune/harness/agent.py:207 | `run` returns the last turn's `response`, which is None when the final reply has no content | a first model reply with no content and no tool calls | return "" as the declared `str` result, as it already does when nothing was yielded | not executed | AgentLoop.RunAsWritten, AgentLoop.RunAsWrittenReturnsNone | AgentLoop.Run, AgentLoop.FinalAnswer |
| rune/cli/tui.py:474 | `cmd, *rest = cmdline.split(None, 1)` unpacks the words of the command line | the input "/" gives an empty word list, and the unpacking raises | report an empty command as unknown instead of crashing the submit handler | not executed | Tui.BareSlashCrashes, Tui.SubmitFixesOnlyBareSlash | Tui.Submit |
| rune/harness/agents_md.py:84-91 | with no git root the loop climbs to the filesystem root | working directory "/a/b" outside any git repository: the chain is "/a/b", "/a", "/" | check only the working directory, as the comment at agents_md.py:80-81 says | not executed | AgentsMd.ChainAsWritten, AgentsMd.ChainAsWrittenPastCwd, AgentsMd.DiscoverProjectDocPaths | AgentsMd.Chain, AgentsMd.ChainReachesRoot |

In the first and last rows the modelled file tools and the project-doc discovery follow the code as written (the prefix check and the climb to the filesystem root), so the model shows what the program does. The corrected members state what was evidently intended and are proved separately. In the second row the subagent tool uses the corrected answer.

=== FILE: agent_defs.dfy ===
/** The declarative agent definitions: the three built-in agents, their
    prompts with the permission-filtered tool list, and registry lookup. */
module AgentDefs {
  import opened Wrappers
  import opened Strings
  import opened Permissions
  import opened Tools
  import Paths

  /** One agent type. The sampling temperature, a float the harness only
      passes through, is not modelled. The system prompt is one of the
      three fixed texts below, named by `prompt`. */
  datatype AgentDef = AgentDef(
    name: string,
    description: string,
    mode: string,
    prompt: PromptText,
    permissions: PermissionSet,
    maxCompletionTokens: int,
    maxTurns: int)
  {
    function SystemPrompt(): string {
      match prompt
      case BuildText => BuildPrompt()
      case PlanText => PlanPrompt()
      case SubagentText => SubagentPrompt()
    }
  }

  datatype PromptText = BuildText | PlanText | SubagentText

  // ---------------------------------------------------------------------
  // Permission filtering
  // ---------------------------------------------------------------------

  /** The entries of `defs` whose tool the set does not deny, in their
      original order; `name` reads an entry's tool name. */
  function Permitted<T(!new)>(defs: seq<T>, name: T -> string, ps: PermissionSet): (r: seq<T>)
    ensures |r| <= |defs|
    ensures forall d :: d in r <==> d in defs && !IsDenied(ps, name(d))
  {
    if defs == [] then []
    else
      var rest := Permitted(defs[1..], name, ps);
      if IsDenied(ps, name(defs[0])) then rest else [defs[0]] + rest
  }

  /** Filtering a concatenation filters each part: the order of what is
      kept is the order it came in. */
  lemma {:induction false} PermittedAppend<T(!new)>(a: seq<T>, b: seq<T>, name: T -> string, ps: PermissionSet)
    ensures Permitted(a + b, name, ps) == Permitted(a, name, ps) + Permitted(b, name, ps)
  {
    if a != [] {
      PermittedAppend(a[1..], b, name, ps);
      assert (a + b)[0] == a[0];
      assert (a + b)[1..] == a[1..] + b;
      var pa, pb := Permitted(a[1..], name, ps), Permitted(b, name, ps);
      assert a + b != [];
      if IsDenied(ps, name(a[0])) {
        assert Permitted(a + b, name, ps) == Permitted(a[1..] + b, name, ps);
      } else {
        assert Permitted(a + b, name, ps) == [a[0]] + Permitted(a[1..] + b, name, ps);
        assert [a[0]] + (pa + pb) == ([a[0]] + pa) + pb;
      }
    } else {
      assert a + b == b;
    }
  }

  /** A set that denies nothing keeps every entry. */
  lemma {:induction false} PermittedNoneDenied<T(!new)>(defs: seq<T>, name: T -> string, ps: PermissionSet)
    requires forall k :: 0 <= k < |defs| ==> !IsDenied(ps, name(defs[k]))
    ensures Permitted(defs, name, ps) == defs
  {
    if defs != [] {
      PermittedNoneDenied(defs[1..], name, ps);
      assert [defs[0]] + defs[1..] == defs;
    }
  }

  function DefName(d: ToolDef): string {
    d.name
  }

  function Names(defs: seq<ToolDef>): (r: seq<string>)
    ensures |r| == |defs| && forall k :: 0 <= k < |defs| ==> r[k] == defs[k].name
  {
    seq(|defs|, k requires 0 <= k < |defs| => defs[k].name)
  }

  // ---------------------------------------------------------------------
  // The tool list in the prompts
  // ---------------------------------------------------------------------

  function ToolLine(d: ToolDef): string {
    "- " + d.name + ": " + d.description
  }

  /** `_format_tools_list`: one line per built-in definition, in order,
      leaving out the denied ones when a permission set is given. */
  function FormatToolsList(ps: Option<PermissionSet>): string {
    Join("\n", ToolLinesOf(ListedTools(ps)))
  }

  /** The formatted list reads back as one line per listed tool, and is
      empty exactly when every tool is denied, provided no listed name or
      description spans lines. */
  lemma FormatToolsListLines(ps: Option<PermissionSet>)
    requires forall k :: 0 <= k < |ListedTools(ps)| ==> SingleLine(ListedTools(ps)[k])
    ensures FormatToolsList(ps) == [] <==> ListedTools(ps) == []
    ensures ListedTools(ps) != [] ==> Split(FormatToolsList(ps), '\n') == ToolLinesOf(ListedTools(ps))
  {
    ToolListLines(ListedTools(ps));
  }

  function ListedTools(ps: Option<PermissionSet>): (r: seq<ToolDef>)
    ensures ps.None? ==> r == BuiltinTools
    ensures ps.Some? ==> r == Permitted(BuiltinTools, DefName, ps.value)
  {
    if ps.Some? then Permitted(BuiltinTools, DefName, ps.value) else BuiltinTools
  }

  function ToolLinesOf(defs: seq<ToolDef>): (r: seq<string>)
    ensures |r| == |defs| && forall k :: 0 <= k < |defs| ==> r[k] == ToolLine(defs[k])
  {
    seq(|defs|, k requires 0 <= k < |defs| => ToolLine(defs[k]))
  }

  predicate SingleLine(d: ToolDef) {
    '\n' !in d.name && '\n' !in d.description
  }

  lemma ToolLineSingle(d: ToolDef)
    requires SingleLine(d)
    ensures '\n' !in ToolLine(d)
  {
  }

  /** Reading a tool list back line by line gives one "- name:
      description" line per tool, in order, when no name or description
      spans more than one line. */
  lemma ToolListLines(defs: seq<ToolDef>)
    requires forall k :: 0 <= k < |defs| ==> SingleLine(defs[k])
    ensures defs != [] ==> Split(Join("\n", ToolLinesOf(defs)), '\n') == ToolLinesOf(defs)
    ensures defs == [] <==> Join("\n", ToolLinesOf(defs)) == []
  {
    var lines := ToolLinesOf(defs);
    forall k | 0 <= k < |lines| ensures '\n' !in lines[k] {
      ToolLineSingle(defs[k]);
    }
    if defs != [] {
      Paths.SplitJoin(lines, '\n');
      assert |ToolLine(defs[0])| > 0;
      JoinNonEmpty(lines);
    }
  }

  lemma {:induction false} JoinNonEmpty(parts: seq<string>)
    requires parts != [] && parts[0] != []
    ensures Join("\n", parts) != []
  {
  }

  // ---------------------------------------------------------------------
  // System prompts
  // ---------------------------------------------------------------------

  /** A prompt: an introduction, the tool list, then the instructions. */
  function PromptWith(intro: string, tools: string, instructions: string): string {
    intro + "\n\nAvailable tools:\n" + tools + "\n\n" + instructions
  }

  function BuildPrompt(): string {
    PromptWith("You are a coding assistant with full access to read, write, and execute code.",
      FormatToolsList(Some(BuildPermissions())),
      "When working on tasks:\n"
      + "1. Understand the codebase first \U{2014} read relevant files before making changes\n"
      + "2. Make changes incrementally and verify they work\n"
      + "3. Run tests when available\n"
      + "4. Use the todo tool to track multi-step work\n"
      + "5. Use the task tool to delegate independent subtasks to subagents\n"
      + "6. Be careful with destructive operations\n")
  }

  function PlanPrompt(): string {
    PromptWith("You are a read-only planning and analysis assistant. You can explore the codebase "
      + "and answer questions, but you CANNOT modify files or execute commands.",
      FormatToolsList(Some(PlanPermissions())),
      "Your role:\n"
      + "1. Explore and understand codebases\n"
      + "2. Design implementation plans with clear steps\n"
      + "3. Identify potential issues and architectural trade-offs\n"
      + "4. Answer questions about code structure and behavior\n\n"
      + "You CANNOT write files, edit files, run shell commands, or spawn subagents. "
      + "If the user needs changes made, suggest switching to the build agent.\n")
  }

  function SubagentPrompt(): string {
    PromptWith("You are a subagent handling a specific subtask. Complete the task autonomously "
      + "and return a clear summary of what you did.",
      FormatToolsList(Some(SubagentPermissions())),
      "Focus on:\n"
      + "1. Completing the assigned task efficiently\n"
      + "2. Returning a concise summary of actions taken and results\n")
  }

  /** The build prompt lists every built-in tool: nothing is denied. */
  lemma BuildListsEverything()
    ensures ListedTools(Some(BuildPermissions())) == BuiltinTools
  {
    forall k | 0 <= k < |BuiltinTools| ensures !IsDenied(BuildPermissions(), DefName(BuiltinTools[k])) {
    }
    PermittedNoneDenied(BuiltinTools, DefName, BuildPermissions());
  }

  /** The plan prompt lists exactly the read-only and web tools. */
  lemma PlanListsReadOnly(d: ToolDef)
    ensures d in ListedTools(Some(PlanPermissions()))
            <==> d in BuiltinTools && (d.name in ReadOnlyTools || d.name in {"web_fetch", "web_search"})
  {
  }

  /** The subagent prompt lists every built-in tool but `task`. */
  lemma SubagentListsAllButTask(d: ToolDef)
    ensures d in ListedTools(Some(SubagentPermissions())) <==> d in BuiltinTools && d.name != "task"
  {
  }

  // ---------------------------------------------------------------------
  // The registry
  // ---------------------------------------------------------------------

  function Build(): AgentDef {
    AgentDef("build", "Primary agent with full file and command access", "primary",
             BuildText, BuildPermissions(), 4096, 50)
  }

  function Plan(): AgentDef {
    AgentDef("plan", "Read-only agent for exploration and analysis", "primary",
             PlanText, PlanPermissions(), 4096, 30)
  }

  function Subagent(): AgentDef {
    AgentDef("subagent", "Subagent for handling delegated subtasks", "subagent",
             SubagentText, SubagentPermissions(), 4096, 30)
  }

  /** `AGENT_REGISTRY`, in insertion order. */
  function Registry(): seq<AgentDef> {
    [Build(), Plan(), Subagent()]
  }

  const RegisteredNames: seq<string> := ["build", "plan", "subagent"]

  /** `get_agent`: the registered definition, or the ValueError naming the
      agent and every registered name. */
  function GetAgent(name: string): (r: Result<AgentDef, string>)
    ensures r.Success? <==> name in RegisteredNames
    ensures r.Success? ==> r.value.name == name && r.value in Registry()
    ensures r.Failure? ==> r.error == UnknownAgent(name)
  {
    if name == "build" then Success(Build())
    else if name == "plan" then Success(Plan())
    else if name == "subagent" then Success(Subagent())
    else Failure(UnknownAgent(name))
  }

  /** The ValueError text: the name as `repr` shows it, then every
      registered name, comma-separated. */
  function UnknownAgent(name: string): string {
    "Unknown agent " + Repr(name) + ". Available: " + Join(", ", RegisteredNames)
  }

  /** `list_agents`: every registered definition, in registration order. */
  function ListAgents(): (r: seq<AgentDef>)
    ensures |r| == |RegisteredNames|
    ensures forall k :: 0 <= k < |r| ==> GetAgent(RegisteredNames[k]) == Success(r[k])
  {
    Registry()
  }

  /** The fixed turn budgets, and the one agent that runs as a subagent:
      a registered agent has mode "subagent" exactly when it is the
      subagent, and uses the permission set of its own name. */
  lemma RegistryFacts(name: string)
    requires GetAgent(name).Success?
    ensures var a := GetAgent(name).value;
            && a.maxTurns == (if name == "build" then 50 else 30)
            && a.maxCompletionTokens == 4096
            && (a.mode == "subagent" <==> name == "subagent")
            && (a.mode == "primary" <==> name != "subagent")
            && a.permissions.name == name
  {
  }
}

=== FILE: agent_loop.dfy ===
/** The agent loop of `rune/harness/agent.py`: one user input drives model
    calls and tool rounds until the model answers without tool calls or the
    turn budget runs out. A tool call passes the permission gate, then goes
    to an MCP server or to the built-in executor, and the `task` tool runs a
    child agent to completion on a fork of the session.

    The chat-completions backend, the approval callback, the MCP wire and
    the generated ids and times are parameters (`Runtime`). The backend is
    indexed by how many calls the whole agent tree has made, so the model
    may answer the same history differently at different times. */
module AgentLoop {
  import opened Wrappers
  import opened Strings
  import opened Json
  import opened Sessions
  import opened Permissions
  import opened Tools
  import opened AgentDefs
  import Mcp

  // ---------------------------------------------------------------------
  // The backend
  // ---------------------------------------------------------------------

  /** One tool call the model asked for; `arguments` is JSON text. */
  datatype ToolCall = ToolCall(id: string, name: string, arguments: string)

  /** The token counts of a usage block; either may be missing. */
  datatype Tokens = Tokens(prompt: Option<int>, completion: Option<int>)

  /** The first choice of a completion, and the usage block if there is one. */
  datatype Reply = Reply(content: Option<string>, toolCalls: seq<ToolCall>, usage: Option<Tokens>)

  /** A chat-completions request: the wire messages, the offered tool
      definitions (`None` when the request offers none), and the cap on
      completion tokens. The sampling temperature is not modelled. */
  datatype ModelRequest = ModelRequest(messages: seq<Json>, tools: Option<seq<Json>>, maxTokens: int)

  /** Everything the loop takes from outside.
      `complete` answers the n-th backend call, or raises with a message;
      `approve` is the optional approval callback;
      `mcpConfig` is the loaded MCP configuration, if a path was given;
      `launches` and `wire` drive the MCP servers, `start` is `start_all`
      on a configuration and `call` is `call_tool` on a manager;
      `exec` is the tool executor's `execute`;
      `skillsSection` is the rendered skills section ("" when none);
      `newId` and `clock` give session ids and times, by call count;
      `texts` gives an agent definition's prompt and `offer` the tool
      definitions a turn offers. In the program `start`, `call`, `exec`,
      `texts` and `offer` are fixed, as `Standard` states; the loop's
      contracts hold whatever they are. */
  datatype Runtime = Runtime(
    complete: (int, ModelRequest) -> Result<Reply, string>,
    approve: Option<(string, string, Json) -> bool>,
    autoApprove: bool,
    io: Io,
    mcpConfig: Option<Mcp.Manager>,
    launches: string -> bool,
    wire: Mcp.Wire,
    start: Mcp.Manager -> (Mcp.Manager, seq<Mcp.McpTool>),
    call: (Mcp.Manager, string, Json) -> (ToolResult, Mcp.Manager),
    exec: (Env, string, Json) -> Outcome,
    skillsSection: string,
    newId: int -> string,
    clock: int -> string,
    texts: AgentDef -> string,
    offer: (AgentDef, Mcp.Manager) -> seq<Json>)

  /** The runtime the program has: `start_all` and `call_tool` over the
      runtime's servers, the executor's dispatch, each definition's own prompt, and
      the tool definitions `_get_permitted_tools` builds. */
  ghost predicate Standard(rt: Runtime) {
    && (forall m :: rt.start(m) == Mcp.StartAll(m, rt.launches, rt.wire))
    && (forall m, n, x :: rt.call(m, n, x) == Mcp.CallTool(m, n, x, rt.wire))
    && (forall e, n, x :: rt.exec(e, n, x) == Execute(e, n, x, rt.io))
    && (forall d :: rt.texts(d) == d.SystemPrompt())
    && (forall d, m :: rt.offer(d, m) == PermittedTools(d, m))
  }

  /** An agent instance: its definition, its session, what its tool
      executor sees (working directory, files, shared todo list, and
      whether a subagent callback is installed), its MCP manager with the
      tools `start_all` announced, and the backend calls made so far. */
  datatype Agent = Agent(
    def: AgentDef,
    session: Session,
    env: Env,
    mcp: Mcp.Manager,
    mcpTools: seq<Mcp.McpTool>,
    calls: nat)

  /** A yielded `TurnResult`. */
  datatype Turn = Turn(
    response: Option<string>,
    toolCalls: seq<Json>,
    toolResults: seq<ToolResult>,
    finished: bool,
    agentName: string)

  /** A whole `stream`: the turns yielded, then the generator's return
      value or the message of the exception the backend raised. */
  datatype Streamed = Streamed(turns: seq<Turn>, returned: Result<Option<string>, string>, agent: Agent)

  const TurnLimitText: string := "Agent reached maximum turn limit."

  // ---------------------------------------------------------------------
  // Construction and the system prompt
  // ---------------------------------------------------------------------

  /** The MCP manager a new agent starts with: the configured servers
      started, or no servers when no configuration was given. */
  function StartMcp(rt: Runtime): (r: (Mcp.Manager, seq<Mcp.McpTool>))
    ensures rt.mcpConfig.None? ==> r == (Mcp.NoServers, [])
    ensures rt.mcpConfig.Some? ==> r == rt.start(rt.mcpConfig.value)
  {
    match rt.mcpConfig
    case None => (Mcp.NoServers, [])
    case Some(m) => rt.start(m)
  }

  function McpToolNames(tools: seq<Mcp.McpTool>): (r: seq<string>)
    ensures |r| == |tools| && forall k :: 0 <= k < |tools| ==> r[k] == tools[k].name
  {
    seq(|tools|, k requires 0 <= k < |tools| => tools[k].name)
  }

  /** The MCP part of the prompt: present exactly when tools were announced. */
  function McpInfo(tools: seq<Mcp.McpTool>): (r: string)
    ensures r == [] <==> tools == []
  {
    if tools == [] then []
    else "\nAdditional MCP tools available: " + Join(", ", McpToolNames(tools)) + "\n"
  }

  /** The skills part of the prompt: present exactly when there is a section. */
  function SkillsInfo(section: string): (r: string)
    ensures r == [] <==> section == []
  {
    if section == [] then [] else "\n" + section + "\n"
  }

  function WorkingDirLine(workingDir: string): string {
    "Working Directory: " + workingDir
  }

  /** `_build_system_prompt` around an agent prompt `sp`: the prompt, a
      blank line, the working directory line, then the MCP and skills
      parts if any. */
  function BuildSystemPrompt(sp: string, workingDir: string, mcpTools: seq<Mcp.McpTool>,
                             skills: string): (r: string)
    ensures |r| > |sp| + 2 && r[..|sp|] == sp && r[|sp|..|sp| + 2] == "\n\n"
    ensures OccursAt(r, WorkingDirLine(workingDir), |sp| + 2)
    ensures mcpTools == [] && skills == [] ==> r == sp + "\n\n" + WorkingDirLine(workingDir) + "\n"
  {
    var r := sp + "\n\n" + WorkingDirLine(workingDir) + "\n" + McpInfo(mcpTools) + SkillsInfo(skills);
    assert r[..|sp|] == sp;
    assert r[|sp|..|sp| + 2] == "\n\n";
    assert r[|sp| + 2..|sp| + 2 + |WorkingDirLine(workingDir)|] == WorkingDirLine(workingDir);
    r
  }

  /** `_build_system_prompt` for a definition, a working directory and
      the announced MCP tools. */
  function PromptFor(rt: Runtime, def: AgentDef, workingDir: string, mcpTools: seq<Mcp.McpTool>): string {
    BuildSystemPrompt(rt.texts(def), workingDir, mcpTools, rt.skillsSection)
  }

  function PromptOf(rt: Runtime, a: Agent): string {
    PromptFor(rt, a.def, a.env.workingDir, a.mcpTools)
  }

  /** An agent with a fresh session whose one message is its built
      prompt: what both the constructor and `reset` make. */
  function Fresh(rt: Runtime, def: AgentDef, env: Env, m: Mcp.Manager, mcpTools: seq<Mcp.McpTool>,
                 calls: nat): (r: Agent)
    ensures r == Agent(def, r.session, env, m, mcpTools, calls)
    ensures r.session.messages == [TextMessage("system", PromptFor(rt, def, env.workingDir, mcpTools))]
    ensures r.session.turnCount == 0 && r.session.usage == NoUsage
    ensures r.session.workingDir == env.workingDir && r.session.parentSessionId == None
  {
    var prompt := PromptFor(rt, def, env.workingDir, mcpTools);
    assert |prompt| > 2;
    Agent(def, NewSession(env.workingDir, prompt, rt.clock(calls), rt.newId(calls), None), env, m, mcpTools, calls)
  }

  /** `Agent.__init__` once the definition is found: a fresh session
      holding the built prompt, an empty todo list, the subagent callback
      unless it is itself a subagent, and freshly started MCP servers. */
  function Instantiate(rt: Runtime, def: AgentDef, workingDir: string, files: map<string, string>,
                       isSubagent: bool): (r: Agent)
    ensures r.def == def && r.env == Env(workingDir, files, [], !isSubagent) && r.calls == 0
    ensures r.session.messages == [TextMessage("system", PromptFor(rt, def, workingDir, r.mcpTools))]
    ensures r.session.turnCount == 0 && r.session.usage == NoUsage
  {
    var started := StartMcp(rt);
    Fresh(rt, def, Env(workingDir, files, [], !isSubagent), started.0, started.1, 0)
  }

  /** `Agent.__init__`: an unknown agent name fails with the registry's
      error; a registered one gives an agent of that definition on a fresh
      session whose only message is its built prompt, with an empty todo
      list and the subagent callback exactly when it is not itself a
      subagent. */
  function Create(rt: Runtime, name: string, workingDir: string, files: map<string, string>,
                  isSubagent: bool): (r: Result<Agent, string>)
    ensures r.Success? <==> name in RegisteredNames
    ensures r.Failure? ==> r.error == UnknownAgent(name)
    ensures r.Success? ==> GetAgent(name) == Success(r.value.def)
    ensures r.Success? ==> r.value.env == Env(workingDir, files, [], !isSubagent) && r.value.calls == 0
    ensures r.Success? ==> r.value.session.messages == [TextMessage("system", PromptOf(rt, r.value))]
    ensures r.Success? ==> r.value.session.turnCount == 0 && r.value.session.usage == NoUsage
  {
    match GetAgent(name)
    case Failure(e) => Failure(e)
    case Success(def) => Success(Instantiate(rt, def, workingDir, files, isSubagent))
  }

  /** `reset`: a fresh session with the rebuilt prompt; the rest of the
      agent stays. */
  function Reset(rt: Runtime, a: Agent): (r: Agent)
    ensures r == a.(session := r.session)
    ensures r.session.messages == [TextMessage("system", PromptOf(rt, a))]
    ensures r.session.turnCount == 0 && r.session.usage == NoUsage
    ensures r.session.workingDir == a.env.workingDir && r.session.parentSessionId == None
  {
    Fresh(rt, a.def, a.env, a.mcp, a.mcpTools, a.calls)
  }

  /** `switch_agent`: an unknown name fails and changes nothing; otherwise
      the definition changes, a leading system message gets the rebuilt
      prompt (no other message changes, and the session's recorded prompt
      stays as it was), and the subagent callback is installed exactly for
      a primary agent. */
  function SwitchAgent(rt: Runtime, a: Agent, name: string): (r: Result<Agent, string>)
    ensures r.Success? <==> name in RegisteredNames
    ensures r.Failure? ==> r.error == UnknownAgent(name)
    ensures r.Success? ==>
      var b := r.value;
      && b.def == GetAgent(name).value
      && b.env == a.env.(canSpawn := b.def.mode == "primary")
      && b.session == a.session.(messages := b.session.messages)
      && |b.session.messages| == |a.session.messages|
      && (forall k :: 0 < k < |a.session.messages| ==> b.session.messages[k] == a.session.messages[k])
      && (LeadingSystem(a.session.messages)
          ==> b.session.messages[0] == a.session.messages[0].(content := Some(PromptOf(rt, b))))
      && (!LeadingSystem(a.session.messages) ==> b.session.messages == a.session.messages)
      && b.mcp == a.mcp && b.mcpTools == a.mcpTools && b.calls == a.calls
  {
    var def :- GetAgent(name);
    var b := a.(def := def, env := a.env.(canSpawn := def.mode == "primary"));
    var msgs := a.session.messages;
    if LeadingSystem(msgs) then
      Success(b.(session := a.session.(messages := msgs[0 := msgs[0].(content := Some(PromptOf(rt, b)))])))
    else Success(b)
  }

  // ---------------------------------------------------------------------
  // Offered tools
  // ---------------------------------------------------------------------

  function McpName(t: Mcp.McpTool): string {
    t.name
  }

  /** `_get_permitted_tools`, typed: the built-in definitions the agent's
      set does not deny, then the MCP definitions it does not deny, each
      in its original order. */
  function Offered(def: AgentDef, m: Mcp.Manager): (r: (seq<ToolDef>, seq<Mcp.McpTool>))
    ensures forall d :: d in r.0 <==> d in BuiltinTools && !IsDenied(def.permissions, d.name)
    ensures forall t :: t in r.1 <==> t in Mcp.ToolDefinitions(m.servers) && !IsDenied(def.permissions, t.name)
  {
    (Permitted(BuiltinTools, DefName, def.permissions),
     Permitted(Mcp.ToolDefinitions(m.servers), McpName, def.permissions))
  }

  /** The offered definitions on the wire, built-in ones first. */
  function PermittedTools(def: AgentDef, m: Mcp.Manager): (r: seq<Json>)
    ensures var (b, e) := Offered(def, m);
            && |r| == |b| + |e|
            && (forall k :: 0 <= k < |b| ==> r[k] == DefinitionJson(b[k]))
            && (forall k :: 0 <= k < |e| ==> r[|b| + k] == Mcp.ToolJson(e[k]))
  {
    var (b, e) := Offered(def, m);
    seq(|b|, k requires 0 <= k < |b| => DefinitionJson(b[k]))
      + seq(|e|, k requires 0 <= k < |e| => Mcp.ToolJson(e[k]))
  }

  /** The plan agent is offered only read-only and web built-ins, and an
      MCP tool only if its name is one of those. */
  lemma PlanOffersReadOnly(m: Mcp.Manager)
    ensures forall d :: d in Offered(Plan(), m).0
              ==> d.name in ReadOnlyTools || d.name in {"web_fetch", "web_search"}
    ensures forall t :: t in Offered(Plan(), m).1
              ==> t.name in ReadOnlyTools || t.name in {"web_fetch", "web_search"}
  {
    forall d | d in Offered(Plan(), m).0
      ensures d.name in ReadOnlyTools || d.name in {"web_fetch", "web_search"}
    {
    }
    forall t | t in Offered(Plan(), m).1
      ensures t.name in ReadOnlyTools || t.name in {"web_fetch", "web_search"}
    {
    }
  }

  /** A subagent is never offered a tool named `task`, built-in or MCP. */
  lemma SubagentOffersNoTask(m: Mcp.Manager)
    ensures forall d :: d in Offered(Subagent(), m).0 ==> d.name != "task"
    ensures forall t :: t in Offered(Subagent(), m).1 ==> t.name != "task"
  {
  }

  // ---------------------------------------------------------------------
  // The permission gate
  // ---------------------------------------------------------------------

  /** A call either is refused with a result before anything runs, or is
      cleared with its decoded arguments. */
  datatype Gate = Refused(result: ToolResult) | Cleared(args: Json)

  function NotPermitted(tool: string, agent: string): string {
    "Tool " + Repr(tool) + " is not permitted for the " + agent + " agent"
  }

  /** The user was asked and said no: only for a tool that needs
      approval, with auto-approval off and a callback installed. */
  predicate UserRefuses(rt: Runtime, ps: PermissionSet, call: ToolCall, args: Json) {
    NeedsApproval(ps, call.name) && !rt.autoApprove && rt.approve.Some?
    && !rt.approve.value(call.name, call.id, args)
  }

  /** The checks `_execute_tool` makes before running anything, in order:
      the arguments must decode, the tool must not be denied, and the user
      must not refuse it. A call passes exactly when all three hold. */
  function Check(rt: Runtime, def: AgentDef, call: ToolCall): (g: Gate)
    ensures g.Cleared? <==> && rt.io.parse(call.arguments).Success?
                            && !IsDenied(def.permissions, call.name)
                            && !UserRefuses(rt, def.permissions, call, rt.io.parse(call.arguments).value)
    ensures g.Cleared? ==> rt.io.parse(call.arguments) == Success(g.args)
    ensures g.Refused? ==> !g.result.success && g.result.output == []
    ensures rt.io.parse(call.arguments).Failure?
            ==> g == Refused(Fail("Invalid JSON arguments: " + call.arguments))
    ensures rt.io.parse(call.arguments).Success? && IsDenied(def.permissions, call.name)
            ==> g == Refused(Fail(NotPermitted(call.name, def.name)))
  {
    match rt.io.parse(call.arguments)
    case Failure(_) => Refused(Fail("Invalid JSON arguments: " + call.arguments))
    case Success(args) =>
      if IsDenied(def.permissions, call.name) then Refused(Fail(NotPermitted(call.name, def.name)))
      else if UserRefuses(rt, def.permissions, call, args) then Refused(Fail("Tool execution denied by user"))
      else Cleared(args)
  }

  /** Nobody is asked for a tool the set allows outright, nor when
      auto-approval is on or no callback is installed. */
  lemma AskOnlyWhenNeeded(rt: Runtime, def: AgentDef, call: ToolCall)
    requires rt.io.parse(call.arguments).Success? && !IsDenied(def.permissions, call.name)
    requires IsAllowed(def.permissions, call.name) || rt.autoApprove || rt.approve.None?
    ensures Check(rt, def, call).Cleared?
  {
    ExactlyOneState(def.permissions, call.name);
  }

  // ---------------------------------------------------------------------
  // History entries
  // ---------------------------------------------------------------------

  /** An f-string of an optional error. */
  function ErrorText(e: Option<string>): string {
    match e
    case Some(s) => s
    case None => "None"
  }

  /** The content of the tool message recorded for a result. */
  function ResultText(res: ToolResult): string {
    if res.success then res.output else "Error: " + ErrorText(res.error)
  }

  /** The assistant message's record of one call. */
  function CallJson(c: ToolCall): Json {
    JObj([("id", JStr(c.id)), ("type", JStr("function")),
          ("function", JObj([("name", JStr(c.name)), ("arguments", JStr(c.arguments))]))])
  }

  function CallsJson(calls: seq<ToolCall>): (r: seq<Json>)
    ensures |r| == |calls| && forall k :: 0 <= k < |calls| ==> r[k] == CallJson(calls[k])
  {
    seq(|calls|, k requires 0 <= k < |calls| => CallJson(calls[k]))
  }

  /** The message recorded for call `c` with result `res`. */
  function ToolMessage(c: ToolCall, res: ToolResult): Message {
    Message("tool", Some(ResultText(res)), None, Some(c.id), Some(c.name))
  }

  /** A usage block adds its counts, a missing count counting as zero. */
  function RecordReply(s: Session, usage: Option<Tokens>): (r: Session)
    ensures r == s.(usage := r.usage)
    ensures usage.None? ==> r == s
    ensures usage.Some? ==> && r.usage.promptTokens == s.usage.promptTokens + usage.value.prompt.GetOr(0)
                            && r.usage.completionTokens == s.usage.completionTokens + usage.value.completion.GetOr(0)
    ensures s.usage.Consistent() ==> r.usage.Consistent()
  {
    match usage
    case None => s
    case Some(t) => RecordUsage(s, t.prompt.GetOr(0), t.completion.GetOr(0))
  }

  // ---------------------------------------------------------------------
  // Compaction
  // ---------------------------------------------------------------------

  const SummaryPrompt: string :=
    "Summarize the conversation so far in 2-3 paragraphs. "
    + "Include key decisions, files modified, and current state."

  const FallbackSummary: string := "(Automatic compaction \U{2014} older messages truncated)"

  /** The summarisation request: the history, then the summary prompt as a
      user message, with no tools and at most 1024 completion tokens. */
  function SummaryRequest(s: Session): ModelRequest {
    ModelRequest(ApiMessages(s.messages) + [JObj([("role", JStr("user")), ("content", JStr(SummaryPrompt))])],
                 None, 1024)
  }

  /** The summary compaction keeps: the model's text when it is non-empty,
      a fixed text when it is empty or missing, and the truncation notice
      when the call raised. */
  function SummaryOf(answer: Result<Reply, string>): (r: string)
    ensures answer.Failure? ==> r == FallbackSummary
    ensures answer.Success? && answer.value.content.Some? && answer.value.content.value != []
            ==> r == answer.value.content.value
    ensures answer.Success? && (answer.value.content.None? || answer.value.content.value == [])
            ==> r == "No summary available."
  {
    match answer
    case Failure(_) => FallbackSummary
    case Success(reply) =>
      if reply.content.Some? && reply.content.value != [] then reply.content.value else "No summary available."
  }

  /** The check at the top of every turn: a history over the threshold is
      summarised by one backend call and compacted; otherwise nothing
      happens. Either way the model is then sent at most the threshold. */
  function CompactIfNeeded(rt: Runtime, a: Agent): (r: Agent)
    ensures r == a.(session := r.session, calls := r.calls)
    ensures r.session == a.session.(messages := r.session.messages)
    ensures !NeedsCompaction(a.session, DefaultMaxMessages) ==> r == a
    ensures NeedsCompaction(a.session, DefaultMaxMessages)
            ==> r.calls == a.calls + 1
                && r.session == Compact(a.session, SummaryOf(rt.complete(a.calls, SummaryRequest(a.session))))
    ensures !NeedsCompaction(r.session, DefaultMaxMessages)
  {
    if NeedsCompaction(a.session, DefaultMaxMessages) then
      var summary := SummaryOf(rt.complete(a.calls, SummaryRequest(a.session)));
      CompactBounded(a.session, summary, summary);
      a.(session := Compact(a.session, summary), calls := a.calls + 1)
    else a
  }

  /** The request of a turn: the whole history and the offered tools. */
  function TurnRequest(rt: Runtime, a: Agent): ModelRequest {
    ModelRequest(ApiMessages(a.session.messages), Some(rt.offer(a.def, a.mcp)), a.def.maxCompletionTokens)
  }

  // ---------------------------------------------------------------------
  // The loop
  // ---------------------------------------------------------------------

  /** The number of passes `while turn_count < max_turns` makes. */
  function Budget(maxTurns: int): nat {
    if maxTurns < 0 then 0 else maxTurns
  }

  /** What no part of the loop changes: the definition, the working
      directory and callback, the MCP routes and announced tools, the
      session's identity, prompt and turn counter; the call counter only
      grows and the usage totals stay the sum of their parts. */
  predicate Keeps(a: Agent, b: Agent) {
    && b.def == a.def
    && b.env.workingDir == a.env.workingDir && b.env.canSpawn == a.env.canSpawn
    && b.mcp.routes == a.mcp.routes && b.mcpTools == a.mcpTools
    && b.session.sessionId == a.session.sessionId
    && b.session.systemPrompt == a.session.systemPrompt
    && b.session.turnCount == a.session.turnCount
    && a.calls <= b.calls
    && (a.session.usage.Consistent() ==> b.session.usage.Consistent())
  }

  /** The executor's subagent callback: given the agent at the time of the
      call and the task prompt, the tool result and the agent afterwards. */
  type Spawner = (Agent, string) -> (ToolResult, Agent)

  /** A callback that, like `_spawn_subagent`, adds no message to the
      caller's history and keeps what `Keeps` keeps. */
  ghost predicate Tame(spawn: Option<Spawner>) {
    spawn.Some? ==> forall b, p :: Keeps(b, spawn.value(b, p).1)
                                  && spawn.value(b, p).1.session.messages == b.session.messages
  }

  /** The callback an agent's executor holds: `_spawn_subagent` unless the
      agent is itself a subagent. */
  function Callback(rt: Runtime, a: Agent): (r: Option<Spawner>)
    ensures r.Some? <==> a.env.canSpawn
    ensures Tame(r)
  {
    if a.env.canSpawn then Some((b, p) => Delegate(rt, b, p)) else None
  }

  /** `stream` on an agent, with the callback its executor holds. */
  function Stream(rt: Runtime, a: Agent, input: string): (r: Streamed)
    ensures r.agent.session.turnCount == a.session.turnCount + 1
    ensures |r.turns| <= Budget(a.def.maxTurns)
    ensures Keeps(a.(session := AddUserMessage(a.session, input)), r.agent)
  {
    StreamWith(rt, a, input, Callback(rt, a))
  }

  /** `stream`: the user message is recorded once, then the passes of the
      `while` loop run, each one `OnePass` with `_execute_tool` as the
      executor. */
  function StreamWith(rt: Runtime, a: Agent, input: string, spawn: Option<Spawner>): (r: Streamed)
    requires Tame(spawn)
    ensures r.agent.session.turnCount == a.session.turnCount + 1
    ensures |r.turns| <= Budget(a.def.maxTurns)
    ensures Keeps(a.(session := AddUserMessage(a.session, input)), r.agent)
  {
    Loop(a.(session := AddUserMessage(a.session, input)), Budget(a.def.maxTurns), PassOf(rt, Executor(rt, spawn)))
  }

  /** What runs one requested call: given the agent and the call, the
      result and the agent afterwards. */
  type Exec = (Agent, ToolCall) -> (ToolResult, Agent)

  /** An executor that, like `_execute_tool`, adds no history message and
      keeps what `Keeps` keeps. */
  ghost predicate Steady(exec: Exec) {
    forall b, c :: Keeps(b, exec(b, c).1) && exec(b, c).1.session.messages == b.session.messages
  }

  /** `_execute_tool` with the given subagent callback. */
  function Executor(rt: Runtime, spawn: Option<Spawner>): (r: Exec)
    requires Tame(spawn)
    ensures Steady(r)
  {
    (b, c) => ExecuteCall(rt, b, c, spawn)
  }

  /** What one pass of the `while` loop produced: the backend raised; or
      the model answered without tool calls, which ends the stream; or it
      asked for tools, which ran. */
  datatype Pass =
    | Raised(error: string, agent: Agent)
    | Final(turn: Turn, agent: Agent)
    | Tools(turn: Turn, agent: Agent)

  /** The turn of a pass is yielded under the agent's name, is finished
      exactly when it ends the stream, and has one result per call: none
      for an answer, at least one for a tool round. */
  predicate Fits(p: Pass, name: string) {
    !p.Raised? ==>
      && p.turn.agentName == name
      && |p.turn.toolResults| == |p.turn.toolCalls|
      && (p.turn.finished <==> p.Final?)
      && (p.Final? ==> p.turn.toolCalls == [])
      && (p.Tools? ==> p.turn.toolCalls != [])
  }

  /** One pass: compaction if due, one backend call, its usage recorded;
      an answer without tool calls is recorded and ends the stream;
      otherwise the assistant message with its calls is recorded and the
      calls run as one tool round. */
  function OnePass(rt: Runtime, a: Agent, exec: Exec): (r: Pass)
    requires Steady(exec)
    ensures Keeps(a, r.agent) && Fits(r, a.def.name)
  {
    var a1 := CompactIfNeeded(rt, a);
    match rt.complete(a1.calls, TurnRequest(rt, a1))
    case Failure(e) => Raised(e, a1.(calls := a1.calls + 1))
    case Success(reply) =>
      var s2 := RecordReply(a1.session, reply.usage);
      if reply.toolCalls == [] then
        Final(Turn(reply.content, [], [], true, a.def.name),
              a1.(session := AddAssistantMessage(s2, reply.content, None), calls := a1.calls + 1))
      else
        var data := CallsJson(reply.toolCalls);
        var a3 := a1.(session := AddAssistantMessage(s2, reply.content, Some(data)), calls := a1.calls + 1);
        var (results, a4) := Round(a3, reply.toolCalls, exec);
        Tools(Turn(reply.content, data, results, false, a.def.name), a4)
  }

  /** What runs one pass of the loop on an agent. */
  type PassFn = Agent -> Pass

  /** A pass function that, like `OnePass`, keeps what `Keeps` keeps and
      yields fitting turns. */
  ghost predicate Sound(pass: PassFn) {
    forall b :: Keeps(b, pass(b).agent) && Fits(pass(b), b.def.name)
  }

  function PassOf(rt: Runtime, exec: Exec): (r: PassFn)
    requires Steady(exec)
    ensures Sound(r)
  {
    b => OnePass(rt, b, exec)
  }

  /** The `while` loop with `left` passes to go. */
  function Loop(a: Agent, left: nat, pass: PassFn): (r: Streamed)
    requires Sound(pass)
    ensures Keeps(a, r.agent)
    ensures |r.turns| <= left
    decreases left
  {
    if left == 0 then Streamed([], Success(Some(TurnLimitText)), a)
    else
      match pass(a)
      case Raised(e, a1) => Streamed([], Failure(e), a1)
      case Final(t, a1) => Streamed([t], Success(t.response), a1)
      case Tools(t, a1) =>
        var rest := Loop(a1, left - 1, pass);
        Streamed([t] + rest.turns, rest.returned, rest.agent)
  }

  /** One tool round: each call in order is executed and its result
      recorded as a tool message, so the history grows by one tool message
      per call, in order. */
  function Round(a: Agent, calls: seq<ToolCall>, exec: Exec): (r: (seq<ToolResult>, Agent))
    requires Steady(exec)
    ensures Keeps(a, r.1)
    ensures |r.0| == |calls|
    ensures r.1.session.messages == a.session.messages + ToolMessages(calls, r.0)
    decreases |calls|
  {
    if calls == [] then ([], a)
    else
      var (res, a1) := exec(a, calls[0]);
      var a2 := a1.(session := AddToolResult(a1.session, calls[0].id, calls[0].name, ResultText(res)));
      var (more, a3) := Round(a2, calls[1..], exec);
      ([res] + more, a3)
  }

  /** `_execute_tool`: a refused call changes nothing; a cleared one goes
      to the MCP server routed for its name, else to the executor, and a
      `task` request goes to the subagent callback. No history message is
      added here. */
  function ExecuteCall(rt: Runtime, a: Agent, call: ToolCall, spawn: Option<Spawner>): (r: (ToolResult, Agent))
    requires Tame(spawn)
    ensures Keeps(a, r.1) && r.1.session.messages == a.session.messages
    ensures Check(rt, a.def, call).Refused? ==> r == (Check(rt, a.def, call).result, a)
  {
    match Check(rt, a.def, call)
    case Refused(res) => (res, a)
    case Cleared(args) =>
      if Mcp.HasTool(a.mcp, call.name) then
        var (res, m) := rt.call(a.mcp, call.name, args);
        (res, a.(mcp := a.mcp.(servers := m.servers)))
      else
        match rt.exec(a.env, call.name, args)
        case Finished(res, env) => (res, a.(env := a.env.(files := env.files, todo := env.todo)))
        case SpawnSubagent(_, prompt, _) =>
          if spawn.Some? then spawn.value(a, prompt) else (Fail("Subagent spawning not available"), a)
  }

  /** The session fork of `_spawn_subagent`: the subagent's own prompt, and
      the next generated id and time. */
  function ChildFork(rt: Runtime, a: Agent): (r: (Session, Session))
    ensures r.0 == a.session.(childSessionIds := a.session.childSessionIds + [rt.newId(a.calls)])
    ensures r.1.parentSessionId == Some(a.session.sessionId) && r.1.usage == NoUsage
  {
    Fork(a.session, Some(rt.texts(Subagent())), rt.newId(a.calls), rt.clock(a.calls))
  }

  /** The child run of `_spawn_subagent`: a subagent without a callback,
      sharing the files and the todo list and with freshly started MCP
      servers, runs the task prompt on the forked session. Its session
      starts with no usage, so the usage it ends with is what the child
      spent. */
  function ChildRun(rt: Runtime, a: Agent, prompt: string): (r: Streamed)
    ensures r.agent.session.sessionId == rt.newId(a.calls)
    ensures a.calls <= r.agent.calls && r.agent.env.workingDir == a.env.workingDir
  {
    var fork := ChildFork(rt, a);
    var started := StartMcp(rt);
    var child := Agent(Subagent(), fork.1, a.env.(canSpawn := false), started.0, started.1, a.calls);
    var out := StreamWith(rt, child, prompt, None);
    assert Keeps(child.(session := AddUserMessage(child.session, prompt)), out.agent);
    out
  }

  /** `_spawn_subagent`: the parent records the child's id, the child's
      answer becomes the tool's output, and the child's prompt and
      completion tokens are added to the parent's usage. If the child's
      backend raises, the task fails and no usage is added, but the fork
      stays recorded. */
  function Delegate(rt: Runtime, a: Agent, prompt: string): (r: (ToolResult, Agent))
    ensures Keeps(a, r.1) && r.1.session.messages == a.session.messages
    ensures r.1.session.childSessionIds == a.session.childSessionIds + [rt.newId(a.calls)]
    ensures r.0.success <==> ChildRun(rt, a, prompt).returned.Success?
    ensures var u := ChildRun(rt, a, prompt).agent.session.usage;
            r.1.session.usage == if r.0.success then a.session.usage.Add(u.promptTokens, u.completionTokens)
                                 else a.session.usage
    ensures r.0.success ==> r.0.output == FinalAnswer(ChildRun(rt, a, prompt).turns)
    ensures !r.0.success ==> r.0.error == Some("Subagent failed: " + ChildRun(rt, a, prompt).returned.error)
  {
    var fork := ChildFork(rt, a);
    var out := ChildRun(rt, a, prompt);
    var a1 := a.(session := fork.0, env := out.agent.env.(canSpawn := a.env.canSpawn), calls := out.agent.calls);
    match out.returned
    case Failure(e) => (Fail("Subagent failed: " + e), a1)
    case Success(_) =>
      var u := out.agent.session.usage;
      (Ok(FinalAnswer(out.turns)), a1.(session := fork.0.(usage := fork.0.usage.Add(u.promptTokens, u.completionTokens))))
  }

  // ---------------------------------------------------------------------
  // What a stream yields
  // ---------------------------------------------------------------------

  /** The turns a stream of at most `left` passes yields, read front to
      back: tool turns, each with one result per requested call, then a
      finished turn without tool calls whose response the stream returns,
      or nothing more because the backend raised, or nothing more because
      every pass was used and the stream returns the turn-limit text.
      Every turn carries the agent's name. */
  predicate Yields(turns: seq<Turn>, returned: Result<Option<string>, string>, left: nat, name: string)
    decreases |turns|
  {
    if turns == [] then
      (returned.Failure? && left > 0) || (left == 0 && returned == Success(Some(TurnLimitText)))
    else
      && left > 0
      && turns[0].agentName == name
      && |turns[0].toolResults| == |turns[0].toolCalls|
      && if turns[0].finished then turns[0].toolCalls == [] && |turns| == 1 && returned == Success(turns[0].response)
         else turns[0].toolCalls != [] && Yields(turns[1..], returned, left - 1, name)
  }

  /** Whatever the passes do, the loop's turns read as `Yields` describes. */
  lemma {:induction false} LoopYields(a: Agent, left: nat, pass: PassFn, name: string)
    requires Sound(pass) && a.def.name == name
    ensures var r := Loop(a, left, pass);
            Yields(r.turns, r.returned, left, name)
    decreases left
  {
    if left > 0 && pass(a).Tools? {
      var t, a1 := pass(a).turn, pass(a).agent;
      LoopYields(a1, left - 1, pass, name);
      var rest := Loop(a1, left - 1, pass);
      assert ([t] + rest.turns)[1..] == rest.turns;
    }
  }

  /** Whatever the backend answers, a stream's turns read as `Yields`
      describes, within the agent's turn budget. */
  lemma StreamYields(rt: Runtime, a: Agent, input: string)
    ensures var r := Stream(rt, a, input);
            Yields(r.turns, r.returned, Budget(a.def.maxTurns), a.def.name)
  {
    var spawn := Callback(rt, a);
    LoopYields(a.(session := AddUserMessage(a.session, input)), Budget(a.def.maxTurns),
               PassOf(rt, Executor(rt, spawn)), a.def.name);
  }

  /** What `Yields` says turn by turn: at most `left` turns, each finished
      exactly when it asked for no tool and with one result per call; only
      the last may be finished, and then the stream returns its response;
      a stream without a finished turn either failed or used all `left`
      passes and returns the turn-limit text. */
  lemma {:induction false} YieldsTurns(turns: seq<Turn>, returned: Result<Option<string>, string>, left: nat, name: string)
    requires Yields(turns, returned, left, name)
    ensures |turns| <= left
    ensures forall k :: 0 <= k < |turns| ==> turns[k].agentName == name
    ensures forall k :: 0 <= k < |turns| ==> (turns[k].finished <==> turns[k].toolCalls == [])
    ensures forall k :: 0 <= k < |turns| ==> |turns[k].toolResults| == |turns[k].toolCalls|
    ensures forall k :: 0 <= k < |turns| - 1 ==> !turns[k].finished
    ensures turns != [] && turns[|turns| - 1].finished ==> returned == Success(turns[|turns| - 1].response)
    ensures (turns == [] || !turns[|turns| - 1].finished) && returned.Success?
            ==> |turns| == left && returned == Success(Some(TurnLimitText))
    decreases |turns|
  {
    if turns != [] && !turns[0].finished {
      YieldsTurns(turns[1..], returned, left - 1, name);
    }
  }

  /** The tool messages a round records, one per call in order. */
  function ToolMessages(calls: seq<ToolCall>, results: seq<ToolResult>): (r: seq<Message>)
    requires |results| == |calls|
    ensures |r| == |calls| && forall k :: 0 <= k < |calls| ==> r[k] == ToolMessage(calls[k], results[k])
  {
    seq(|calls|, k requires 0 <= k < |calls| => ToolMessage(calls[k], results[k]))
  }

  /** A pass on a history below the threshold whose backend call answers
      without tool calls records that answer and ends the stream. */
  lemma PassAnswers(rt: Runtime, a: Agent, exec: Exec, reply: Reply)
    requires Steady(exec)
    requires !NeedsCompaction(a.session, DefaultMaxMessages)
    requires rt.complete(a.calls, TurnRequest(rt, a)) == Success(reply) && reply.toolCalls == []
    ensures OnePass(rt, a, exec)
            == Final(Turn(reply.content, [], [], true, a.def.name),
                     a.(session := AddAssistantMessage(RecordReply(a.session, reply.usage), reply.content, None),
                        calls := a.calls + 1))
  {
    assert CompactIfNeeded(rt, a) == a;
  }

  /** An input the model answers at once, with no compaction due: one
      finished turn carrying the answer, which `stream` returns, and a
      history grown by the user message and the assistant's reply. */
  lemma AnswerAtOnce(rt: Runtime, a: Agent, input: string, reply: Reply, spawn: Option<Spawner>)
    requires Tame(spawn)
    requires a.def.maxTurns > 0
    requires !NeedsCompaction(AddUserMessage(a.session, input), DefaultMaxMessages)
    requires rt.complete(a.calls, TurnRequest(rt, a.(session := AddUserMessage(a.session, input)))) == Success(reply)
    requires reply.toolCalls == []
    ensures var r := StreamWith(rt, a, input, spawn);
            && r.turns == [Turn(reply.content, [], [], true, a.def.name)]
            && r.returned == Success(reply.content)
            && r.agent.calls == a.calls + 1
            && r.agent.session.messages
               == a.session.messages + [TextMessage("user", input), Message("assistant", reply.content, None, None, None)]
  {
    var a0 := a.(session := AddUserMessage(a.session, input));
    PassAnswers(rt, a0, Executor(rt, spawn), reply);
  }

  // ---------------------------------------------------------------------
  // run
  // ---------------------------------------------------------------------

  /** What `run` returns AS WRITTEN: the response of the last turn
      yielded, which is `None` when that reply had no text, or "" when
      nothing was yielded. */
  function LastResponse(turns: seq<Turn>): (r: Option<string>)
    ensures turns == [] ==> r == Some("")
    ensures turns != [] ==> r == turns[|turns| - 1].response
  {
    if turns == [] then Some("") else turns[|turns| - 1].response
  }

  /** `run` as the source writes it. */
  function RunAsWritten(rt: Runtime, a: Agent, input: string): (r: Result<(Option<string>, Agent), string>)
    ensures var s := Stream(rt, a, input);
            && (r.Success? <==> s.returned.Success?)
            && (r.Success? ==> r.value == (LastResponse(s.turns), s.agent))
  {
    var s := Stream(rt, a, input);
    if s.returned.Failure? then Failure(s.returned.error) else Success((LastResponse(s.turns), s.agent))
  }

  /** The final answer `run` is meant to give: a string in every case, a
      reply without text counting as "". */
  function FinalAnswer(turns: seq<Turn>): (r: string)
    ensures r == LastResponse(turns).GetOr("")
  {
    if turns == [] then "" else turns[|turns| - 1].response.GetOr("")
  }

  /** `run`, corrected so that it always returns a string. */
  function Run(rt: Runtime, a: Agent, input: string): (r: Result<(string, Agent), string>)
    ensures RunAsWritten(rt, a, input).Success? <==> r.Success?
    ensures r.Success? ==> r.value == (RunAsWritten(rt, a, input).value.0.GetOr(""), RunAsWritten(rt, a, input).value.1)
  {
    var s := Stream(rt, a, input);
    if s.returned.Failure? then Failure(s.returned.error) else Success((FinalAnswer(s.turns), s.agent))
  }

  /** A backend whose first answer has no text and no tool calls makes
      `run`, as written, return `None` where its signature promises a
      string; the corrected `run` returns "". */
  lemma RunAsWrittenReturnsNone(rt: Runtime, a: Agent, input: string)
    requires a.def.maxTurns > 0
    requires !NeedsCompaction(AddUserMessage(a.session, input), DefaultMaxMessages)
    requires rt.complete(a.calls, TurnRequest(rt, a.(session := AddUserMessage(a.session, input))))
             == Success(Reply(None, [], None))
    ensures RunAsWritten(rt, a, input).Success? && RunAsWritten(rt, a, input).value.0 == None
    ensures Run(rt, a, input).Success? && Run(rt, a, input).value.0 == ""
  {
    AnswerAtOnce(rt, a, input, Reply(None, [], None), Callback(rt, a));
  }
}

=== FILE: agents_md.dfy ===
/** AGENTS.md project documentation: the directory chain from the working
    directory up to the git root, the files found along it root first, and
    their concatenation under a shared byte budget. Paths are resolved
    absolute paths; the file system, `git rev-parse` and UTF-8 decoding are
    parameters. */
module AgentsMd {
  import opened Wrappers
  import opened Strings
  import Paths

  const DefaultFilename: string := "AGENTS.md"
  /** 32 KiB across all files. */
  const MaxTotalBytes: int := 32 * 1024

  type Bytes = seq<bv8>

  /** `Path.parent` of a resolved path: the root is its own parent. */
  function Parent(p: string): (r: string)
    ensures |r| <= |p| && r == p[..|r|]
    ensures r == p || |r| < |p|
  {
    var r := Paths.Dirname(p);
    assert |r| == |p| ==> r == p[..|p|] == p;
    r
  }

  /** A parent function that moves up: each step shortens the path until
      it reaches a root, which is its own parent. The walks below take the
      parent function as a parameter; `Parent` is one. */
  ghost predicate Upward(parent: string -> string) {
    forall p :: parent(p) == p || |parent(p)| < |p|
  }

  lemma ParentUpward()
    ensures Upward(Parent)
  {
    forall p ensures Parent(p) == p || |Parent(p)| < |p| {
      var r := Parent(p);
      if |r| == |p| { assert r == p[..|p|] == p; }
    }
  }

  /** The nearest of `cursor` and its ancestors for which `hasGit` holds
      (a `.git` entry exists there). */
  function WalkForGit(cursor: string, parent: string -> string, hasGit: string -> bool): (r: Option<string>)
    requires Upward(parent)
    ensures r.Some? ==> hasGit(r.value) && r.value in Ancestry(cursor, parent)
    ensures r.None? ==> forall d :: d in Ancestry(cursor, parent) ==> !hasGit(d)
    decreases |cursor|
  {
    if hasGit(cursor) then Some(cursor)
    else if parent(cursor) == cursor then None
    else WalkForGit(parent(cursor), parent, hasGit)
  }

  /** The walk stops at the first directory with a `.git` entry: none of
      the directories below the one it returns has one. */
  lemma {:induction false} WalkFindsNearest(cursor: string, parent: string -> string, hasGit: string -> bool) returns (k: nat)
    requires Upward(parent)
    requires WalkForGit(cursor, parent, hasGit).Some?
    ensures k < |Ancestry(cursor, parent)| && Ancestry(cursor, parent)[k] == WalkForGit(cursor, parent, hasGit).value
    ensures forall j :: 0 <= j < k ==> !hasGit(Ancestry(cursor, parent)[j])
    decreases |cursor|
  {
    if hasGit(cursor) {
      k := 0;
    } else {
      var up := parent(cursor);
      var a, b := Ancestry(cursor, parent), Ancestry(up, parent);
      assert a == [cursor] + b;
      var k1 := WalkFindsNearest(up, parent, hasGit);
      k := k1 + 1;
      forall j | 0 <= j < k ensures !hasGit(a[j]) {
        if j > 0 { assert a[j] == b[j - 1]; }
      }
    }
  }

  /** `cursor` and every ancestor of it, nearest first, up to the root. */
  function Ancestry(cursor: string, parent: string -> string): (r: seq<string>)
    requires Upward(parent)
    ensures r != [] && r[0] == cursor
    ensures parent(r[|r| - 1]) == r[|r| - 1]
    ensures forall k :: 0 <= k < |r| - 1 ==> r[k + 1] == parent(r[k]) && r[k + 1] != r[k]
    decreases |cursor|
  {
    if parent(cursor) == cursor then [cursor] else [cursor] + Ancestry(parent(cursor), parent)
  }

  /** `_find_git_root`: what `git rev-parse --show-toplevel` printed when
      it succeeded (`revParse`), else the manual walk. */
  function FindGitRoot(start: string, revParse: Option<string>, parent: string -> string, hasGit: string -> bool): (r: Option<string>)
    requires Upward(parent)
    ensures revParse.Some? ==> r == revParse
    ensures revParse.None? ==> r == WalkForGit(start, parent, hasGit)
  {
    if revParse.Some? then revParse else WalkForGit(start, parent, hasGit)
  }

  /** The directory chain as written: from `cwd` upward, ending at the git
      root when the walk meets it and at the file system root otherwise. */
  function ChainAsWritten(cwd: string, gitRoot: Option<string>, parent: string -> string): (r: seq<string>)
    requires Upward(parent)
    ensures r != [] && r[0] == cwd
    ensures forall k :: 0 <= k < |r| - 1 ==> r[k + 1] == parent(r[k]) && Some(r[k]) != gitRoot
    ensures Some(r[|r| - 1]) == gitRoot || parent(r[|r| - 1]) == r[|r| - 1]
    decreases |cwd|
  {
    if gitRoot == Some(cwd) || parent(cwd) == cwd then [cwd]
    else [cwd] + ChainAsWritten(parent(cwd), gitRoot, parent)
  }

  /** Without a git root the walk goes all the way up to the file system
      root: the chain is the whole ancestry, so an AGENTS.md in any
      ancestor is read, although only the working directory was meant to
      be checked. */
  lemma {:induction false} ChainAsWrittenClimbs(cwd: string, parent: string -> string)
    requires Upward(parent)
    ensures ChainAsWritten(cwd, None, parent) == Ancestry(cwd, parent)
    decreases |cwd|
  {
    if parent(cwd) != cwd {
      ChainAsWrittenClimbs(parent(cwd), parent);
    }
  }

  /** Below the root and with no git root, the chain as written goes
      past the working directory, where the corrected chain stops. */
  lemma ChainAsWrittenPastCwd(cwd: string, parent: string -> string)
    requires Upward(parent) && parent(cwd) != cwd
    ensures |ChainAsWritten(cwd, None, parent)| >= 2 && ChainAsWritten(cwd, None, parent)[1] == parent(cwd)
    ensures Chain(cwd, None, parent) == [cwd]
  {
  }

  /** The directory chain: from `cwd` up to and including the git root;
      only `cwd` itself when there is no git root. */
  function Chain(cwd: string, gitRoot: Option<string>, parent: string -> string): (r: seq<string>)
    requires Upward(parent)
    ensures r != [] && r[0] == cwd
    ensures gitRoot.None? ==> r == [cwd]
    ensures gitRoot.Some? ==> r == ChainAsWritten(cwd, gitRoot, parent)
  {
    if gitRoot.None? then [cwd] else ChainAsWritten(cwd, gitRoot, parent)
  }

  /** With a git root above the working directory, the chain is every
      directory from `cwd` to that root. */
  lemma {:induction false} ChainReachesRoot(cwd: string, root: string, parent: string -> string, k: nat)
    requires Upward(parent)
    requires k < |Ancestry(cwd, parent)| && Ancestry(cwd, parent)[k] == root
    requires forall j :: 0 <= j < k ==> Ancestry(cwd, parent)[j] != root
    ensures Chain(cwd, Some(root), parent) == Ancestry(cwd, parent)[..k + 1]
    decreases k
  {
    var a := Ancestry(cwd, parent);
    if k == 0 {
      assert a[..1] == [cwd];
    } else {
      var up := parent(cwd);
      var b := Ancestry(up, parent);
      assert a == [cwd] + b;
      forall j | 0 <= j < k - 1 ensures b[j] != root {
        assert b[j] == a[j + 1];
      }
      ChainReachesRoot(up, root, parent, k - 1);
      assert a[..k + 1] == [cwd] + b[..k];
    }
  }

  function Reverse<T>(xs: seq<T>): (r: seq<T>)
    ensures |r| == |xs| && forall k :: 0 <= k < |xs| ==> r[k] == xs[|xs| - 1 - k]
  {
    seq(|xs|, k requires 0 <= k < |xs| => xs[|xs| - 1 - k])
  }

  /** The candidate file of each directory, kept when `isFile` holds,
      passed through `resolve`. */
  function Candidates(dirs: seq<string>, filename: string, isFile: string -> bool, resolve: string -> string): (r: seq<string>)
    ensures |r| <= |dirs|
    ensures forall p :: p in r <==> exists d :: d in dirs && isFile(Paths.JoinPath(d, filename)) && p == resolve(Paths.JoinPath(d, filename))
  {
    if dirs == [] then []
    else
      var c := Paths.JoinPath(dirs[0], filename);
      var rest := Candidates(dirs[1..], filename, isFile, resolve);
      assert forall d :: d in dirs <==> d == dirs[0] || d in dirs[1..];
      if isFile(c) then [resolve(c)] + rest else rest
  }

  /** `discover_project_doc_paths` once the git root is known: the files
      along the chain as written, shallowest directory first. */
  function DiscoverProjectDocPaths(cwd: string, gitRoot: Option<string>, filename: string,
                                   isFile: string -> bool, resolve: string -> string): (r: seq<string>)
    ensures |r| <= |ChainAsWritten(cwd, gitRoot, Parent)|
            && forall p :: p in r <==> exists d :: d in ChainAsWritten(cwd, gitRoot, Parent)
                                                  && isFile(Paths.JoinPath(d, filename))
                                                  && p == resolve(Paths.JoinPath(d, filename))
  {
    ParentUpward();
    var chain := ChainAsWritten(cwd, gitRoot, Parent);
    assert forall d :: d in Reverse(chain) <==> d in chain by {
      forall d ensures d in Reverse(chain) <==> d in chain {
        if d in chain {
          var k :| 0 <= k < |chain| && chain[k] == d;
          assert Reverse(chain)[|chain| - 1 - k] == d;
        }
      }
    }
    Candidates(Reverse(chain), filename, isFile, resolve)
  }

  /** Root first, one path per directory holding the file: the files of the
      directories above `cwd` come before the file of `cwd` itself, and
      the climb stops at the git root or at the file system root. */
  lemma DiscoverRootFirst(cwd: string, gitRoot: Option<string>, filename: string,
                          isFile: string -> bool, resolve: string -> string)
    ensures var own := Paths.JoinPath(cwd, filename);
            var mine := if isFile(own) then [resolve(own)] else [];
            DiscoverProjectDocPaths(cwd, gitRoot, filename, isFile, resolve)
            == if gitRoot == Some(cwd) || Parent(cwd) == cwd then mine
               else DiscoverProjectDocPaths(Parent(cwd), gitRoot, filename, isFile, resolve) + mine
  {
    ParentUpward();
    var chain := ChainAsWritten(cwd, gitRoot, Parent);
    if gitRoot != Some(cwd) && Parent(cwd) != cwd {
      var rest := ChainAsWritten(Parent(cwd), gitRoot, Parent);
      assert chain == [cwd] + rest;
      CandidatesCons(cwd, rest, filename, isFile, resolve);
    } else {
      assert chain == [cwd];
      CandidatesCons(cwd, [], filename, isFile, resolve);
    }
  }

  /** Putting a directory below a chain puts its file after the chain's. */
  lemma CandidatesCons(d: string, rest: seq<string>, filename: string,
                       isFile: string -> bool, resolve: string -> string)
    ensures var own := Paths.JoinPath(d, filename);
            Candidates(Reverse([d] + rest), filename, isFile, resolve)
            == Candidates(Reverse(rest), filename, isFile, resolve) + (if isFile(own) then [resolve(own)] else [])
  {
    assert Reverse([d] + rest) == Reverse(rest) + [d] by {
      assert forall k :: 0 <= k < |rest| ==> Reverse([d] + rest)[k] == Reverse(rest)[k];
    }
    CandidatesSplit(Reverse(rest), [d], filename, isFile, resolve);
    assert Reverse(rest) == [] ==> Reverse(rest) + [d] == [d];
  }

  /** Root first: the files of the upper directories of the chain come
      before those of the lower ones. */
  lemma {:induction false} CandidatesSplit(upper: seq<string>, lower: seq<string>, filename: string,
                                           isFile: string -> bool, resolve: string -> string)
    ensures Candidates(upper + lower, filename, isFile, resolve)
            == Candidates(upper, filename, isFile, resolve) + Candidates(lower, filename, isFile, resolve)
  {
    if upper == [] {
      assert upper + lower == lower;
    } else {
      assert (upper + lower)[0] == upper[0] && (upper + lower)[1..] == upper[1..] + lower;
      CandidatesSplit(upper[1..], lower, filename, isFile, resolve);
    }
  }

  // ---------------------------------------------------------------------
  // Reading under the byte budget
  // ---------------------------------------------------------------------

  /** One block of the output: the file's path and the bytes kept. */
  datatype Block = Block(path: string, raw: Bytes)

  function Used(blocks: seq<Block>): nat {
    if blocks == [] then 0 else |blocks[0].raw| + Used(blocks[1..])
  }

  /** The reading loop from a budget of `remaining` bytes: a file that
      cannot be read (`read` gives `None`), or whose kept bytes decode
      (`clean`: UTF-8 with replacement, then `strip`) to nothing, is
      skipped at no cost; a file longer than the budget is cut to it; the
      loop stops once the budget is spent. */
  function Kept(paths: seq<string>, remaining: int, read: string -> Option<Bytes>, clean: Bytes -> string): (r: seq<Block>)
    ensures Used(r) <= if remaining < 0 then 0 else remaining
    ensures forall k :: 0 <= k < |r| ==> r[k].path in paths && clean(r[k].raw) != []
    ensures forall k :: 0 <= k < |r| ==> read(r[k].path).Some? && r[k].raw <= read(r[k].path).value
  {
    if paths == [] || remaining <= 0 then []
    else match read(paths[0])
      case None => Kept(paths[1..], remaining, read, clean)
      case Some(raw) =>
        var cut := if |raw| > remaining then raw[..remaining] else raw;
        if clean(cut) == [] then Kept(paths[1..], remaining, read, clean)
        else [Block(paths[0], cut)] + Kept(paths[1..], remaining - |cut|, read, clean)
  }

  /** When every file is readable and says something, and all of them
      fit in the budget together, each one is kept whole, in order. */
  lemma {:induction false} KeptAllWhenFits(paths: seq<string>, remaining: int, read: string -> Option<Bytes>, clean: Bytes -> string)
    requires clean([]) == []
    requires forall k :: 0 <= k < |paths| ==> read(paths[k]).Some? && clean(read(paths[k]).value) != []
    requires Total(paths, read) <= remaining
    ensures Kept(paths, remaining, read, clean) == Whole(paths, read)
  {
    if paths != [] {
      var raw := read(paths[0]).value;
      var rest := paths[1..];
      TotalNonNegative(rest, read);
      assert Total(paths, read) == |raw| + Total(rest, read);
      assert raw != [] by { assert clean(raw) != []; }
      assert 0 < |raw| <= remaining;
      assert Kept(paths, remaining, read, clean) == [Block(paths[0], raw)] + Kept(rest, remaining - |raw|, read, clean);
      forall k | 0 <= k < |rest| ensures read(rest[k]).Some? && clean(read(rest[k]).value) != [] {
        assert rest[k] == paths[k + 1];
      }
      KeptAllWhenFits(rest, remaining - |raw|, read, clean);
    }
  }

  /** Total size of the files, readable ones assumed. */
  function Total(paths: seq<string>, read: string -> Option<Bytes>): int {
    if paths == [] then 0
    else (match read(paths[0]) case Some(raw) => |raw| case None => 0) + Total(paths[1..], read)
  }

  lemma {:induction false} TotalNonNegative(paths: seq<string>, read: string -> Option<Bytes>)
    ensures Total(paths, read) >= 0
  {
    if paths != [] {
      TotalNonNegative(paths[1..], read);
    }
  }

  function Whole(paths: seq<string>, read: string -> Option<Bytes>): seq<Block>
    requires forall k :: 0 <= k < |paths| ==> read(paths[k]).Some?
  {
    if paths == [] then [] else [Block(paths[0], read(paths[0]).value)] + Whole(paths[1..], read)
  }

  /** A zero budget after an earlier file stops the loop: nothing later
      is read. */
  lemma SpentBudgetStops(paths: seq<string>, read: string -> Option<Bytes>, clean: Bytes -> string)
    ensures Kept(paths, 0, read, clean) == []
  {
  }

  function BlockText(b: Block, clean: Bytes -> string): string {
    "Instructions from: " + b.path + "\n" + clean(b.raw)
  }

  function BlockTexts(blocks: seq<Block>, clean: Bytes -> string): (r: seq<string>)
    ensures |r| == |blocks|
    ensures forall k :: 0 <= k < |blocks| ==> r[k] == "Instructions from: " + blocks[k].path + "\n" + clean(blocks[k].raw)
  {
    seq(|blocks|, k requires 0 <= k < |blocks| => BlockText(blocks[k], clean))
  }

  /** `read_project_docs` on the discovered paths: nothing when the
      budget is not positive or no block is kept, else the blocks joined
      by blank lines. */
  function ReadDocs(paths: seq<string>, maxBytes: int, read: string -> Option<Bytes>, clean: Bytes -> string): (r: Option<string>)
    ensures maxBytes <= 0 ==> r.None?
    ensures r.Some? <==> maxBytes > 0 && Kept(paths, maxBytes, read, clean) != []
    ensures r.Some? ==> StartsWith(r.value, "Instructions from: ")
    ensures r.Some? ==> r.value == Join("\n\n", BlockTexts(Kept(paths, maxBytes, read, clean), clean))
  {
    if maxBytes <= 0 || paths == [] then None
    else
      var blocks := Kept(paths, maxBytes, read, clean);
      if blocks == [] then None
      else
        var texts := BlockTexts(blocks, clean);
        JoinStartsWith(texts, "\n\n", "Instructions from: ");
        Some(Join("\n\n", texts))
  }

  lemma JoinStartsWith(parts: seq<string>, sep: string, prefix: string)
    requires parts != [] && StartsWith(parts[0], prefix)
    ensures StartsWith(Join(sep, parts), prefix)
  {
    if |parts| > 1 {
      assert Join(sep, parts) == parts[0] + (sep + Join(sep, parts[1..]));
      assert (parts[0] + (sep + Join(sep, parts[1..])))[..|prefix|] == parts[0][..|prefix|];
    }
  }

  /** `read_project_docs`: the git root from `git rev-parse` or the walk,
      the files along the chain, then the budgeted blocks. */
  function ReadProjectDocs(cwd: string, revParse: Option<string>, hasGit: string -> bool, filename: string, maxBytes: int,
                           isFile: string -> bool, resolve: string -> string,
                           read: string -> Option<Bytes>, clean: Bytes -> string): (r: Option<string>)
    ensures maxBytes <= 0 ==> r.None?
    ensures var paths := DiscoverProjectDocPaths(cwd, FindGitRoot(cwd, revParse, Parent, hasGit), filename, isFile, resolve);
            && r == ReadDocs(paths, maxBytes, read, clean)
            && (r.Some? <==> maxBytes > 0 && Kept(paths, maxBytes, read, clean) != [])
  {
    if maxBytes <= 0 then None
    else
      ParentUpward();
      var paths := DiscoverProjectDocPaths(cwd, FindGitRoot(cwd, revParse, Parent, hasGit), filename, isFile, resolve);
      ReadDocs(paths, maxBytes, read, clean)
  }
}

=== FILE: json.dfy ===
/** Decoded JSON values as Python sees them after `json.loads`: objects keep
    their keys in insertion order, like `dict`. Floating-point numbers are not
    modelled; every number is an integer. */
module Json {
  import opened Wrappers
  import opened Strings

  datatype Json =
    | JNull
    | JBool(b: bool)
    | JInt(i: int)
    | JStr(s: string)
    | JArr(items: seq<Json>)
    | JObj(fields: seq<(string, Json)>)

  /** Python truthiness (`bool(value)`). */
  predicate Truthy(j: Json) {
    match j
    case JNull => false
    case JBool(b) => b
    case JInt(i) => i != 0
    case JStr(s) => s != []
    case JArr(a) => a != []
    case JObj(f) => f != []
  }

  function Keys(fields: seq<(string, Json)>): seq<string> {
    if fields == [] then [] else [fields[0].0] + Keys(fields[1..])
  }

  /** `key in d`. */
  predicate HasKey(fields: seq<(string, Json)>, key: string) {
    fields != [] && (fields[0].0 == key || HasKey(fields[1..], key))
  }

  /** `d.get(key)` on the entries of a dict: the value stored under `key`. */
  function Lookup(fields: seq<(string, Json)>, key: string): (r: Option<Json>)
    ensures r.Some? <==> HasKey(fields, key)
  {
    if fields == [] then None
    else if fields[0].0 == key then Some(fields[0].1)
    else Lookup(fields[1..], key)
  }

  /** Looking a key up in two runs of entries placed one after the other:
      the first run wins. */
  lemma {:induction false} LookupConcat(a: seq<(string, Json)>, b: seq<(string, Json)>, key: string)
    ensures Lookup(a + b, key) == if HasKey(a, key) then Lookup(a, key) else Lookup(b, key)
  {
    if a != [] {
      assert (a + b)[1..] == a[1..] + b;
      LookupConcat(a[1..], b, key);
    } else {
      assert a + b == b;
    }
  }

  /** The first entry carrying `key` decides `Lookup`. */
  lemma {:induction false} LookupAt(f: seq<(string, Json)>, i: nat, key: string)
    requires i < |f| && f[i].0 == key
    requires forall j :: 0 <= j < i ==> f[j].0 != key
    ensures Lookup(f, key) == Some(f[i].1)
  {
    if i > 0 {
      LookupAt(f[1..], i - 1, key);
    }
  }

  /** A key no entry carries is absent. */
  lemma {:induction false} LookupAbsent(f: seq<(string, Json)>, key: string)
    requires forall j :: 0 <= j < |f| ==> f[j].0 != key
    ensures Lookup(f, key) == None && !HasKey(f, key)
  {
    if f != [] {
      LookupAbsent(f[1..], key);
    }
  }

  /** `d[key] = value`: overwrite in place when the key exists, else append. */
  function Put(fields: seq<(string, Json)>, key: string, value: Json): (r: seq<(string, Json)>)
    ensures Lookup(r, key) == Some(value)
    ensures forall k :: k != key ==> Lookup(r, k) == Lookup(fields, k)
  {
    if fields == [] then [(key, value)]
    else if fields[0].0 == key then [(key, value)] + fields[1..]
    else
      var rest := Put(fields[1..], key, value);
      assert ([fields[0]] + rest)[1..] == rest;
      [fields[0]] + rest
  }

  /** `d[key] = value` keeps the key order of the dict, appending a new key. */
  lemma {:induction false} PutKeys(fields: seq<(string, Json)>, key: string, value: Json)
    ensures Keys(Put(fields, key, value))
            == if HasKey(fields, key) then Keys(fields) else Keys(fields) + [key]
  {
    if fields != [] && fields[0].0 != key {
      PutKeys(fields[1..], key, value);
      var rest := Put(fields[1..], key, value);
      assert ([fields[0]] + rest)[1..] == rest;
      assert Keys([fields[0]] + rest) == [fields[0].0] + Keys(rest);
    } else if fields != [] {
      assert ([(key, value)] + fields[1..])[1..] == fields[1..];
    }
  }

  /** `type(value).__name__`. */
  function TypeName(j: Json): string {
    match j
    case JNull => "NoneType"
    case JBool(_) => "bool"
    case JInt(_) => "int"
    case JStr(_) => "str"
    case JArr(_) => "list"
    case JObj(_) => "dict"
  }

  /** The type a built-in's argument check names when it refuses a value:
      the type name, except that `None` is written as itself. */
  function ArgTypeName(j: Json): string {
    if j.JNull? then "None" else TypeName(j)
  }

  /** `str(KeyError(key))`. */
  function KeyErrorText(key: string): string {
    "'" + key + "'"
  }

  /** `value.get(key)`: `None` result when the key is absent; calling `get` on
      anything but a dict raises AttributeError. */
  function Get(j: Json, key: string): (r: Result<Option<Json>, string>)
    ensures r.Success? <==> j.JObj?
    ensures j.JObj? ==> r.value == Lookup(j.fields, key)
  {
    match j
    case JObj(f) => Success(Lookup(f, key))
    case _ => Failure("'" + TypeName(j) + "' object has no attribute 'get'")
  }

  /** `value.get(key, default)`. */
  function GetOr(j: Json, key: string, default: Json): Result<Json, string> {
    match Get(j, key)
    case Success(o) => Success(o.GetOr(default))
    case Failure(e) => Failure(e)
  }

  /** `value[key]` with a string key. */
  function Index(j: Json, key: string): (r: Result<Json, string>)
    ensures r.Success? <==> j.JObj? && HasKey(j.fields, key)
  {
    match j
    case JObj(f) =>
      (match Lookup(f, key)
       case Some(v) => Success(v)
       case None => Failure(KeyErrorText(key)))
    case JArr(_) => Failure("list indices must be integers or slices, not str")
    case JStr(_) => Failure("string indices must be integers, not 'str'")
    case _ => Failure("'" + TypeName(j) + "' object is not subscriptable")
  }

  /** `key in value` for a string key: a dict tests its keys, a list its
      items, a string its substrings; anything else is not a container. */
  function Member(key: string, j: Json): (r: Result<bool, string>)
    ensures r.Success? <==> j.JObj? || j.JArr? || j.JStr?
    ensures j.JObj? ==> r == Success(HasKey(j.fields, key))
  {
    match j
    case JObj(f) => Success(HasKey(f, key))
    case JArr(items) => Success(JStr(key) in items)
    case JStr(s) => Success(Contains(s, key))
    case _ => Failure("argument of type '" + TypeName(j) + "' is not iterable")
  }

  /** A JSON value used where Python expects an int (`bool` is an `int`). */
  function AsInt(j: Json): Option<int> {
    match j
    case JInt(i) => Some(i)
    case JBool(b) => Some(if b then 1 else 0)
    case _ => None
  }

  /** An object built from its entries, in order. */
  function Obj(fields: seq<(string, Json)>): Json {
    JObj(fields)
  }

  /** A list of strings as a JSON array. */
  function StrArray(ss: seq<string>): (r: Json)
    ensures r.JArr? && |r.items| == |ss|
    ensures forall k :: 0 <= k < |ss| ==> r.items[k] == JStr(ss[k])
  {
    if ss == [] then JArr([]) else JArr([JStr(ss[0])] + StrArray(ss[1..]).items)
  }

  /** `for x in value`: a list yields its items, a dict its keys, a string
      its characters; anything else is not iterable. */
  function Iterate(j: Json): (r: Result<seq<Json>, string>)
    ensures r.Success? <==> j.JArr? || j.JObj? || j.JStr?
    ensures j.JArr? ==> r == Success(j.items)
    ensures j.JObj? ==> r.Success? && |r.value| == |j.fields|
    ensures j.JStr? ==> r.Success? && |r.value| == |j.s|
  {
    match j
    case JArr(items) => Success(items)
    case JObj(f) => Success(KeyStrings(f))
    case JStr(s) => Success(CharStrings(s))
    case _ => Failure("'" + TypeName(j) + "' object is not iterable")
  }

  function KeyStrings(fields: seq<(string, Json)>): (r: seq<Json>)
    ensures |r| == |fields| && forall k :: 0 <= k < |r| ==> r[k] == JStr(fields[k].0)
  {
    if fields == [] then [] else [JStr(fields[0].0)] + KeyStrings(fields[1..])
  }

  function CharStrings(s: string): (r: seq<Json>)
    ensures |r| == |s| && forall k :: 0 <= k < |r| ==> r[k] == JStr([s[k]])
  {
    if s == [] then [] else [JStr([s[0]])] + CharStrings(s[1..])
  }

  /** `value[key] = v` with a string key: only a dict accepts it. */
  function SetItem(j: Json, key: string, v: Json): (r: Result<Json, string>)
    ensures r.Success? <==> j.JObj?
    ensures j.JObj? ==> r.value == JObj(Put(j.fields, key, v))
  {
    match j
    case JObj(f) => Success(JObj(Put(f, key, v)))
    case JArr(_) => Failure("list indices must be integers or slices, not str")
    case _ => Failure("'" + TypeName(j) + "' object does not support item assignment")
  }
}

=== FILE: mcp.dfy ===
/** The Model Context Protocol client: JSON-RPC 2.0 request framing, the
    reader that files responses by id, the correlation step that takes a
    request's own response back out, tool discovery and tool-call result
    decoding, and the manager that routes tool names to servers.

    Processes, the reader thread and polling are not modelled: what a
    server prints in answer to a line written to it comes from an oracle,
    and everything it prints is read before the response is looked for, so
    a timeout is "no response with the request's id". */
module Mcp {
  import opened Wrappers
  import opened Strings
  import opened Json
  import opened Tools

  // ---------------------------------------------------------------------
  // JSON-RPC 2.0 framing (section 4 of the JSON-RPC 2.0 specification)
  // ---------------------------------------------------------------------

  /** The id a request carries: the one given unless it is missing or
      empty, else a freshly generated one. */
  function RequestId(given: Option<string>, generated: string): (r: string)
    ensures given.Some? && given.value != [] ==> r == given.value
    ensures (given.None? || given.value == []) ==> r == generated
  {
    if given.Some? && given.value != [] then given.value else generated
  }

  /** `_jsonrpc_request`'s message: version, method and id, and the params
      only when there are some. */
  function RequestObject(rpcMethod: string, params: Option<Json>, id: string): (r: Json)
    ensures r.JObj?
    ensures Lookup(r.fields, "jsonrpc") == Some(JStr("2.0"))
    ensures Lookup(r.fields, "method") == Some(JStr(rpcMethod))
    ensures Lookup(r.fields, "id") == Some(JStr(id))
    ensures Lookup(r.fields, "params") == params
  {
    var head := [("jsonrpc", JStr("2.0")), ("method", JStr(rpcMethod)), ("id", JStr(id))];
    var f := head + if params.Some? then [("params", params.value)] else [];
    LookupAt(f, 0, "jsonrpc");
    LookupAt(f, 1, "method");
    LookupAt(f, 2, "id");
    if params.Some? then LookupAt(f, 3, "params"); JObj(f)
    else LookupAbsent(f, "params"); JObj(f)
  }

  /** `_jsonrpc_request`: the message serialised, then a newline. */
  function RequestLine(rpcMethod: string, params: Option<Json>, given: Option<string>, generated: string,
                       dump: Json -> string): (r: string)
    ensures |r| >= 1 && r[|r| - 1] == '\n'
    ensures r[..|r| - 1] == dump(RequestObject(rpcMethod, params, RequestId(given, generated)))
  {
    dump(RequestObject(rpcMethod, params, RequestId(given, generated))) + "\n"
  }

  /** A request as a server reads it. */
  datatype Request = Request(rpcMethod: string, id: string, params: Option<Json>)

  /** Reading a request object back: it must say version "2.0" and carry
      a string method and a string id. */
  function DecodeRequest(j: Json): Option<Request> {
    if !j.JObj? then None
    else match (Lookup(j.fields, "jsonrpc"), Lookup(j.fields, "method"), Lookup(j.fields, "id"))
      case (Some(JStr(v)), Some(JStr(m)), Some(JStr(id))) =>
        if v == "2.0" then Some(Request(m, id, Lookup(j.fields, "params"))) else None
      case _ => None
  }

  /** A framed request reads back as what was sent. */
  lemma RequestRoundTrip(rpcMethod: string, params: Option<Json>, id: string)
    ensures DecodeRequest(RequestObject(rpcMethod, params, id)) == Some(Request(rpcMethod, id, params))
  {
  }

  /** A notification: version and method and no id, so that no response
      is expected (section 4.1 of the JSON-RPC 2.0 specification). */
  function Notification(rpcMethod: string): (r: Json)
    ensures r.JObj? && !HasKey(r.fields, "id")
    ensures Lookup(r.fields, "method") == Some(JStr(rpcMethod))
    ensures DecodeRequest(r).None?
  {
    var f := [("jsonrpc", JStr("2.0")), ("method", JStr(rpcMethod))];
    LookupAbsent(f, "id");
    LookupAt(f, 1, "method");
    JObj(f)
  }

  function NotificationLine(rpcMethod: string, dump: Json -> string): string {
    dump(Notification(rpcMethod)) + "\n"
  }

  // ---------------------------------------------------------------------
  // The reader and the correlation table
  // ---------------------------------------------------------------------

  /** What the reader thread has filed, by id, and whether it is still
      reading: an exception other than a JSON decoding error ends it. */
  datatype Reader = Reader(buffer: map<Json, Json>, alive: bool)

  /** Ids Python cannot hash as dict keys. */
  predicate Unhashable(id: Json) {
    id.JArr? || id.JObj?
  }

  /** `_read_stdout` on one line: blank and undecodable lines are skipped;
      a dict with a truthy id is filed under that id, replacing an earlier
      one; a decoded value that is not a dict, or an id that cannot be a
      dict key, raises and ends the reader. */
  function ReadLine(rd: Reader, line: string, parse: string -> Option<Json>): (r: Reader)
    ensures !rd.alive ==> r == rd
    ensures rd.alive && (Strip(line) == [] || parse(Strip(line)).None?) ==> r == rd
    ensures rd.alive && Strip(line) != [] && parse(Strip(line)).Some? ==>
              var msg := parse(Strip(line)).value;
              if !msg.JObj? then r == rd.(alive := false)
              else var id := Lookup(msg.fields, "id").GetOr(JNull);
                   if !Truthy(id) then r == rd
                   else if Unhashable(id) then r == rd.(alive := false)
                   else r == Reader(rd.buffer[id := msg], true)
    ensures rd.buffer.Keys <= r.buffer.Keys
  {
    if !rd.alive then rd
    else
      var text := Strip(line);
      if text == [] then rd
      else match parse(text)
        case None => rd
        case Some(msg) =>
          match msg
          case JObj(f) =>
            var id := Lookup(f, "id").GetOr(JNull);
            if !Truthy(id) then rd
            else if Unhashable(id) then rd.(alive := false)
            else rd.(buffer := rd.buffer[id := msg])
          case _ => rd.(alive := false)
  }

  /** The reader on the lines a server prints, in order. */
  function ReadLines(rd: Reader, lines: seq<string>, parse: string -> Option<Json>): (r: Reader)
    ensures rd.buffer.Keys <= r.buffer.Keys
    ensures !rd.alive ==> r == rd
    decreases |lines|
  {
    if lines == [] then rd else ReadLines(ReadLine(rd, lines[0], parse), lines[1..], parse)
  }

  /** Reading two runs of output is reading one after the other. */
  lemma {:induction false} ReadLinesAppend(rd: Reader, a: seq<string>, b: seq<string>, parse: string -> Option<Json>)
    ensures ReadLines(rd, a + b, parse) == ReadLines(ReadLines(rd, a, parse), b, parse)
    decreases |a|
  {
    if a == [] {
      assert a + b == b;
    } else {
      assert (a + b)[0] == a[0];
      assert (a + b)[1..] == a[1..] + b;
      ReadLinesAppend(ReadLine(rd, a[0], parse), a[1..], b, parse);
    }
  }

  /** The correlation step of `_send`: the response filed under the
      request's id is handed back and removed; without one the request
      times out, naming the server and the method. */
  function TakeResponse(rd: Reader, id: string, server: string, rpcMethod: string)
    : (r: (Result<Json, string>, Reader))
    ensures JStr(id) in rd.buffer ==> r.0 == Success(rd.buffer[JStr(id)])
    ensures JStr(id) !in rd.buffer ==> r.0 == Failure(TimeoutText(server, rpcMethod)) && r.1 == rd
    ensures JStr(id) !in r.1.buffer && r.1.alive == rd.alive
    ensures forall k :: k != JStr(id) ==> (k in r.1.buffer <==> k in rd.buffer)
    ensures forall k :: k != JStr(id) && k in rd.buffer ==> r.1.buffer[k] == rd.buffer[k]
  {
    if JStr(id) in rd.buffer then (Success(rd.buffer[JStr(id)]), rd.(buffer := rd.buffer - {JStr(id)}))
    else (Failure(TimeoutText(server, rpcMethod)), rd)
  }

  function TimeoutText(server: string, rpcMethod: string): string {
    "MCP server " + Repr(server) + " did not respond to " + Repr(rpcMethod)
  }

  /** Filing a response under a fresh id and taking it back leaves the
      table as it was. */
  lemma FileThenTake(rd: Reader, id: string, msg: Json, server: string, rpcMethod: string)
    requires JStr(id) !in rd.buffer
    ensures TakeResponse(rd.(buffer := rd.buffer[JStr(id) := msg]), id, server, rpcMethod) == (Success(msg), rd)
  {
    var full := rd.buffer[JStr(id) := msg];
    assert full - {JStr(id)} == rd.buffer;
  }

  /** A server reached over its pipes: its configuration, the tools it
      announced, its reader, and how many requests were sent to it. */
  datatype Server = Server(
    name: string,
    command: Json,
    args: Json,
    env: Json,
    tools: seq<McpTool>,
    reader: Reader,
    sent: nat)

  /** `MCPTool`. The name is a string here: an entry whose "name" is not a
      string is refused with an error, where the Python class would keep
      whatever value the server sent. */
  datatype McpTool = McpTool(name: string, description: Json, parameters: Json, serverName: string)

  /** What cannot be seen from here: the lines a server prints after a
      line is written to it, the generated request ids, and JSON text. */
  datatype Wire = Wire(
    answer: (string, string) -> seq<string>,
    freshId: (string, nat) -> string,
    parse: string -> Option<Json>,
    dump: Json -> string)

  /** `_send`: write the request under a fresh id, read what the server
      prints, and take back the response carrying that id. */
  function Send(s: Server, rpcMethod: string, params: Option<Json>, w: Wire): (r: (Result<Json, string>, Server))
    ensures r.1.sent == s.sent + 1
    ensures r.1.name == s.name && r.1.tools == s.tools
    ensures r.0.Failure? ==> r.0.error == TimeoutText(s.name, rpcMethod)
  {
    var id := w.freshId(s.name, s.sent);
    var line := RequestLine(rpcMethod, params, Some(id), id, w.dump);
    var rd := ReadLines(s.reader, w.answer(s.name, line), w.parse);
    var (resp, rd') := TakeResponse(rd, id, s.name, rpcMethod);
    (resp, s.(reader := rd', sent := s.sent + 1))
  }

  /** A server that answers a request with its response line gets that
      response back from `_send`, whatever else it had filed. */
  lemma SendGetsItsAnswer(s: Server, rpcMethod: string, params: Option<Json>, w: Wire, msg: Json)
    requires s.reader.alive && msg.JObj?
    requires var id := w.freshId(s.name, s.sent);
             && id != []
             && Lookup(msg.fields, "id") == Some(JStr(id))
             && var line := RequestLine(rpcMethod, params, Some(id), id, w.dump);
                |w.answer(s.name, line)| == 1
                && Strip(w.answer(s.name, line)[0]) != []
                && w.parse(Strip(w.answer(s.name, line)[0])) == Some(msg)
    ensures Send(s, rpcMethod, params, w).0 == Success(msg)
  {
    var id := w.freshId(s.name, s.sent);
    var line := RequestLine(rpcMethod, params, Some(id), id, w.dump);
    var out := w.answer(s.name, line);
    assert ReadLines(s.reader, out, w.parse) == ReadLines(ReadLine(s.reader, out[0], w.parse), [], w.parse);
  }

  // ---------------------------------------------------------------------
  // Handshake and discovery
  // ---------------------------------------------------------------------

  function InitializeParams(): Json {
    JObj([("protocolVersion", JStr("2024-11-05")),
          ("clientInfo", JObj([("name", JStr("rune")), ("version", JStr("0.2.0"))])),
          ("capabilities", JObj([]))])
  }

  /** `initialize`: the handshake request, then the "initialized"
      notification; whatever the server prints in between is read too. */
  function Initialize(s: Server, w: Wire): (r: (Result<Json, string>, Server))
    ensures r.1.name == s.name && r.1.tools == s.tools
  {
    var (resp, s1) := Send(s, "initialize", Some(InitializeParams()), w);
    if resp.Failure? then (resp, s1)
    else
      var notice := NotificationLine("notifications/initialized", w.dump);
      (resp, s1.(reader := ReadLines(s1.reader, w.answer(s1.name, notice), w.parse)))
  }

  /** The schema an announced tool without "inputSchema" gets. */
  function EmptyObjectSchema(): Json {
    JObj([("type", JStr("object")), ("properties", JObj([]))])
  }

  /** One entry of a "tools/list" result (Model Context Protocol, revision
      2024-11-05, Tools): "name" is required, "description" defaults to the
      empty string and "inputSchema" to an empty object schema. */
  function ParseTool(t: Json, server: string): (r: Result<McpTool, string>)
    ensures r.Success? <==> t.JObj? && Lookup(t.fields, "name").Some? && Lookup(t.fields, "name").value.JStr?
    ensures r.Success? ==> r.value.serverName == server && r.value.name == Lookup(t.fields, "name").value.s
  {
    match Index(t, "name")
    case Failure(e) => Failure(e)
    case Success(n) =>
      if !n.JStr? then Failure("tool name is not a string")
      else Success(McpTool(n.s, Lookup(t.fields, "description").GetOr(JStr("")),
                           Lookup(t.fields, "inputSchema").GetOr(EmptyObjectSchema()), server))
  }

  /** An announced tool keeps its name and falls back to the defaults
      for what it leaves out. */
  lemma ParseToolDefaults(name: string, server: string)
    ensures ParseTool(JObj([("name", JStr(name))]), server)
            == Success(McpTool(name, JStr(""), EmptyObjectSchema(), server))
  {
  }

  /** The tools parsed before the first bad entry, and that entry's
      error: `discover_tools` appends as it goes, so a failure midway leaves
      the earlier tools in place. */
  function ParseTools(items: seq<Json>, server: string): (r: (seq<McpTool>, Option<string>))
    ensures |r.0| <= |items|
    ensures r.1.None? ==> |r.0| == |items|
    ensures r.1.Some? ==> |r.0| < |items| && ParseTool(items[|r.0|], server).Failure?
    ensures forall k :: 0 <= k < |r.0| ==> ParseTool(items[k], server) == Success(r.0[k])
  {
    if items == [] then ([], None)
    else match ParseTool(items[0], server)
      case Failure(e) => ([], Some(e))
      case Success(t) =>
        var (rest, err) := ParseTools(items[1..], server);
        assert err.Some? ==> items[1 + |rest|] == items[1..][|rest|];
        ([t] + rest, err)
  }

  /** `discover_tools` on the "tools/list" response: a missing "result" or
      "tools" counts as an empty list. */
  function DiscoverTools(resp: Json, server: string): (r: (seq<McpTool>, Option<string>))
    ensures forall k :: 0 <= k < |r.0| ==> r.0[k].serverName == server
    ensures resp.JObj? && !HasKey(resp.fields, "result") ==> r == ([], None)
  {
    match GetOr(resp, "result", JObj([]))
    case Failure(e) => ([], Some(e))
    case Success(result) =>
      match GetOr(result, "tools", JArr([]))
      case Failure(e) => ([], Some(e))
      case Success(list) =>
        match Iterate(list)
        case Failure(e) => ([], Some(e))
        case Success(items) => ParseTools(items, server)
  }

  // ---------------------------------------------------------------------
  // Tool calls
  // ---------------------------------------------------------------------

  /** The text of the "text" blocks of a tool result, in order; every
      block must be a dict. */
  function TextParts(blocks: seq<Json>): (r: Result<seq<Json>, string>)
    ensures r.Success? ==> |r.value| <= |blocks|
    ensures r.Success? <==> forall k :: 0 <= k < |blocks| ==> blocks[k].JObj?
  {
    if blocks == [] then Success([])
    else match blocks[0]
      case JObj(f) =>
        (match TextParts(blocks[1..])
         case Failure(e) => Failure(e)
         case Success(rest) =>
           if Lookup(f, "type") == Some(JStr("text"))
           then Success([Lookup(f, "text").GetOr(JStr(""))] + rest)
           else Success(rest))
      case _ => Failure("'" + TypeName(blocks[0]) + "' object has no attribute 'get'")
  }

  /** `"\n".join(parts)`: every part must be a string. */
  function JoinText(parts: seq<Json>): (r: Result<string, string>)
    ensures r.Success? <==> forall k :: 0 <= k < |parts| ==> parts[k].JStr?
    ensures r.Success? ==> r.value == Join("\n", Texts(parts))
  {
    JoinTextFrom(parts, 0)
  }

  function Texts(parts: seq<Json>): seq<string>
    requires forall k :: 0 <= k < |parts| ==> parts[k].JStr?
  {
    seq(|parts|, k requires 0 <= k < |parts| => parts[k].s)
  }

  function JoinTextFrom(parts: seq<Json>, first: nat): (r: Result<string, string>)
    ensures r.Success? <==> forall k :: 0 <= k < |parts| ==> parts[k].JStr?
    ensures r.Success? ==> r.value == Join("\n", Texts(parts))
    decreases |parts|
  {
    if parts == [] then Success([])
    else if !parts[0].JStr? then
      Failure("sequence item " + NatToString(first) + ": expected str instance, " + TypeName(parts[0]) + " found")
    else match JoinTextFrom(parts[1..], first + 1)
      case Failure(e) => Failure(e)
      case Success(rest) =>
        assert Texts(parts[1..]) == Texts(parts)[1..];
        Success(if |parts| == 1 then parts[0].s else parts[0].s + "\n" + rest)
  }

  /** `call_tool`'s decoding of a "tools/call" response: the text blocks
      joined by newlines are the output; "isError" decides success, and an
      error result repeats the output as its error. */
  function CallResult(resp: Json): (r: Result<ToolResult, string>)
    ensures resp.JObj? && !HasKey(resp.fields, "result") ==> r == Success(Ok(""))
    ensures r.Success? ==> r.value.error == (if r.value.success then None else Some(r.value.output))
  {
    match GetOr(resp, "result", JObj([]))
    case Failure(e) => Failure(e)
    case Success(result) =>
      match GetOr(result, "content", JArr([]))
      case Failure(e) => Failure(e)
      case Success(content) =>
        match Iterate(content)
        case Failure(e) => Failure(e)
        case Success(blocks) =>
          match TextParts(blocks)
          case Failure(e) => Failure(e)
          case Success(parts) =>
            match JoinText(parts)
            case Failure(e) => Failure(e)
            case Success(output) =>
              var isError := Truthy(Lookup(result.fields, "isError").GetOr(JBool(false)));
              Success(ToolResult(!isError, output, if isError then Some(output) else None))
  }

  function TextBlock(text: string): Json {
    JObj([("type", JStr("text")), ("text", JStr(text))])
  }

  function TextBlocks(texts: seq<string>): (r: seq<Json>)
    ensures |r| == |texts|
  {
    if texts == [] then [] else [TextBlock(texts[0])] + TextBlocks(texts[1..])
  }

  /** Text blocks give back their texts, in order. */
  lemma {:induction false} TextPartsOfTextBlocks(texts: seq<string>)
    ensures TextParts(TextBlocks(texts)) == Success(StrArray(texts).items)
  {
    if texts != [] {
      TextPartsOfTextBlocks(texts[1..]);
      LookupAt(TextBlock(texts[0]).fields, 0, "type");
      LookupAt(TextBlock(texts[0]).fields, 1, "text");
      assert TextBlocks(texts)[1..] == TextBlocks(texts[1..]);
      assert StrArray(texts).items == [JStr(texts[0])] + StrArray(texts[1..]).items;
    }
  }

  /** A result made of text blocks: their text, newline-joined, is the
      output, and "isError" decides success. */
  lemma CallResultText(texts: seq<string>, isError: bool)
    ensures var result := JObj([("content", JArr(TextBlocks(texts))), ("isError", JBool(isError))]);
            var output := Join("\n", texts);
            CallResult(JObj([("result", result)]))
            == Success(ToolResult(!isError, output, if isError then Some(output) else None))
  {
    var result := JObj([("content", JArr(TextBlocks(texts))), ("isError", JBool(isError))]);
    LookupAt([("result", result)], 0, "result");
    LookupAt(result.fields, 0, "content");
    LookupAt(result.fields, 1, "isError");
    TextPartsOfTextBlocks(texts);
    var parts := StrArray(texts).items;
    assert Texts(parts) == texts;
    assert JoinText(parts) == Success(Join("\n", texts));
  }

  /** `MCPServer.call_tool`: every failure, including a timeout, becomes a
      failed result carrying the exception's message. */
  function CallToolOn(s: Server, tool: string, arguments: Json, w: Wire): (r: (ToolResult, Server))
    ensures r.1.name == s.name && r.1.tools == s.tools && r.1.sent == s.sent + 1
    ensures !r.0.success ==> r.0.error.Some?
  {
    var (resp, s1) := Send(s, "tools/call", Some(JObj([("name", JStr(tool)), ("arguments", arguments)])), w);
    match resp
    case Failure(e) => (Fail(e), s1)
    case Success(m) =>
      match CallResult(m)
      case Failure(e) => (Fail(e), s1)
      case Success(tr) => (tr, s1)
  }

  // ---------------------------------------------------------------------
  // The manager
  // ---------------------------------------------------------------------

  /** `MCPManager`: the configured servers in configuration order, and the
      route from each tool name to the name of the server that serves it. */
  datatype Manager = Manager(servers: seq<Server>, routes: map<string, string>)

  const NoServers := Manager([], map[])

  function ServerNames(servers: seq<Server>): (r: seq<string>)
    ensures |r| == |servers| && forall k :: 0 <= k < |r| ==> r[k] == servers[k].name
  {
    seq(|servers|, k requires 0 <= k < |servers| => servers[k].name)
  }

  /** Server names are unique, as the keys of a dict are. */
  predicate UniqueNames(servers: seq<Server>) {
    forall i, j :: 0 <= i < j < |servers| ==> servers[i].name != servers[j].name
  }

  function FindServer(servers: seq<Server>, name: string): (r: Option<nat>)
    ensures r.Some? ==> r.value < |servers| && servers[r.value].name == name
    ensures r.None? ==> forall k :: 0 <= k < |servers| ==> servers[k].name != name
  {
    if servers == [] then None
    else if servers[0].name == name then Some(0)
    else match FindServer(servers[1..], name)
      case Some(k) => Some(k + 1)
      case None => None
  }

  /** `self.servers[name] = server`: replaces a server of that name in
      place, or appends a new one. */
  function PutServer(servers: seq<Server>, s: Server): (r: seq<Server>)
    ensures UniqueNames(servers) ==> UniqueNames(r)
    ensures FindServer(servers, s.name).Some? ==> r == servers[FindServer(servers, s.name).value := s]
    ensures FindServer(servers, s.name).None? ==> r == servers + [s]
  {
    match FindServer(servers, s.name)
    case Some(k) => servers[k := s]
    case None => servers + [s]
  }

  /** A configured server before it is started. */
  function Configured(name: string, command: Json, args: Json, env: Json): Server {
    Server(name, command, args, env, [], Reader(map[], true), 0)
  }

  /** `load_config` on the contents of the configuration file, if it
      exists: each entry of "servers" needs a "command"; "args" and "env"
      default to empty. */
  function LoadConfig(m: Manager, file: Option<string>, parse: string -> Result<Json, string>)
    : (r: Result<Manager, string>)
    ensures file.None? ==> r == Success(m)
    ensures r.Success? ==> r.value.routes == m.routes
    ensures r.Success? && UniqueNames(m.servers) ==> UniqueNames(r.value.servers)
  {
    if file.None? then Success(m)
    else
      match parse(file.value)
      case Failure(e) => Failure(e)
      case Success(config) =>
        match GetOr(config, "servers", JObj([]))
        case Failure(e) => Failure(e)
        case Success(entries) =>
          if !entries.JObj? then Failure("'" + TypeName(entries) + "' object has no attribute 'items'")
          else
            match AddServers(m.servers, entries.fields)
            case Failure(e) => Failure(e)
            case Success(servers) => Success(m.(servers := servers))
  }

  function AddServers(servers: seq<Server>, entries: seq<(string, Json)>): (r: Result<seq<Server>, string>)
    ensures r.Success? && UniqueNames(servers) ==> UniqueNames(r.value)
    decreases |entries|
  {
    if entries == [] then Success(servers)
    else
      var (name, cfg) := entries[0];
      match Index(cfg, "command")
      case Failure(e) => Failure(e)
      case Success(command) =>
        var args := Lookup(cfg.fields, "args").GetOr(JArr([]));
        var env := Lookup(cfg.fields, "env").GetOr(JObj([]));
        AddServers(PutServer(servers, Configured(name, command, args, env)), entries[1..])
  }

  /** Routing each tool's name to its server, in order: a later tool of the
      same name takes the route over. */
  function RouteAll(routes: map<string, string>, tools: seq<McpTool>): (r: map<string, string>)
    ensures r.Keys == routes.Keys + set t | t in tools :: t.name
    decreases |tools|
  {
    if tools == [] then routes
    else RouteAll(routes[tools[0].name := tools[0].serverName], tools[1..])
  }

  /** The last tool of a given name decides its route. */
  lemma {:induction false} RouteAllLastWins(routes: map<string, string>, tools: seq<McpTool>, i: nat)
    requires i < |tools|
    requires forall j :: i < j < |tools| ==> tools[j].name != tools[i].name
    ensures RouteAll(routes, tools)[tools[i].name] == tools[i].serverName
    decreases |tools|
  {
    var n := tools[i].name;
    var next := routes[tools[0].name := tools[0].serverName];
    if i == 0 {
      RouteAllKeeps(next, tools[1..], n);
    } else {
      RouteAllLastWins(next, tools[1..], i - 1);
    }
  }

  /** A name no tool carries keeps its route. */
  lemma {:induction false} RouteAllKeeps(routes: map<string, string>, tools: seq<McpTool>, n: string)
    requires n in routes
    requires forall j :: 0 <= j < |tools| ==> tools[j].name != n
    ensures RouteAll(routes, tools)[n] == routes[n]
    decreases |tools|
  {
    if tools != [] {
      RouteAllKeeps(routes[tools[0].name := tools[0].serverName], tools[1..], n);
    }
  }

  /** Routing two runs of tools is routing one after the other. */
  lemma {:induction false} RouteAllAppend(routes: map<string, string>, a: seq<McpTool>, b: seq<McpTool>)
    ensures RouteAll(routes, a + b) == RouteAll(RouteAll(routes, a), b)
    decreases |a|
  {
    if a == [] {
      assert a + b == b;
    } else {
      assert (a + b)[0] == a[0];
      assert (a + b)[1..] == a[1..] + b;
      RouteAllAppend(routes[a[0].name := a[0].serverName], a[1..], b);
    }
  }

  /** Starting one server: launch it, shake hands, discover its tools.
      Any failure skips it; a failure during discovery still leaves the
      tools read before it on the server. On success the server's tools
      are announced. */
  function StartServer(s: Server, launches: string -> bool, w: Wire): (r: (Server, Option<seq<McpTool>>))
    ensures r.0.name == s.name
    ensures r.1.Some? ==> r.1.value == r.0.tools
    ensures r.0.tools == s.tools || forall k :: 0 <= k < |r.0.tools| ==> r.0.tools[k].serverName == s.name
  {
    if !launches(s.name) then (s, None)
    else
      var (init, s1) := Initialize(s, w);
      if init.Failure? then (s1, None)
      else
        var (resp, s2) := Send(s1, "tools/list", None, w);
        if resp.Failure? then (s2, None)
        else
          var (tools, err) := DiscoverTools(resp.value, s.name);
          if err.Some? then (s2.(tools := tools), None)
          else (s2.(tools := tools), Some(tools))
  }

  /** How starting each configured server went. Servers are started one
      after another but none depends on another's start. */
  function Outcomes(servers: seq<Server>, launches: string -> bool, w: Wire)
    : (r: seq<(Server, Option<seq<McpTool>>)>)
    ensures |r| == |servers|
    ensures forall k :: 0 <= k < |r| ==> r[k] == StartServer(servers[k], launches, w)
  {
    seq(|servers|, k requires 0 <= k < |servers| => StartServer(servers[k], launches, w))
  }

  /** The tools of the servers that started, in server order. */
  function Announced(outs: seq<(Server, Option<seq<McpTool>>)>): seq<McpTool> {
    if outs == [] then []
    else (if outs[0].1.Some? then outs[0].1.value else []) + Announced(outs[1..])
  }

  /** `start_all`: every server in configuration order is started, and the
      tools of each one that started are routed to it in order, a later
      route replacing an earlier one; the announced tools are returned. */
  function StartAll(m: Manager, launches: string -> bool, w: Wire): (r: (Manager, seq<McpTool>))
    ensures ServerNames(r.0.servers) == ServerNames(m.servers)
    ensures forall k :: 0 <= k < |m.servers| ==> r.0.servers[k] == StartServer(m.servers[k], launches, w).0
  {
    var outs := Outcomes(m.servers, launches, w);
    var servers := seq(|outs|, k requires 0 <= k < |outs| => outs[k].0);
    assert ServerNames(servers) == ServerNames(m.servers);
    var tools := Announced(outs);
    (Manager(servers, RouteAll(m.routes, tools)), tools)
  }

  /** After `start_all`, a tool name is routed to the server of the last
      announced tool of that name. */
  lemma StartAllLastWins(m: Manager, launches: string -> bool, w: Wire, i: nat)
    requires var tools := StartAll(m, launches, w).1;
             i < |tools| && forall j :: i < j < |tools| ==> tools[j].name != tools[i].name
    ensures var (m', tools) := StartAll(m, launches, w);
            m'.routes[tools[i].name] == tools[i].serverName
  {
    var outs := Outcomes(m.servers, launches, w);
    RouteAllLastWins(m.routes, Announced(outs), i);
  }

  /** A server that started announces exactly the tools it now holds,
      each naming it as its server. */
  lemma {:induction false} AnnouncedFromServers(outs: seq<(Server, Option<seq<McpTool>>)>, t: McpTool)
    requires forall k :: 0 <= k < |outs| && outs[k].1.Some? ==> outs[k].1.value == outs[k].0.tools
    ensures t in Announced(outs) <==> exists k :: 0 <= k < |outs| && outs[k].1.Some? && t in outs[k].0.tools
  {
    if outs != [] {
      AnnouncedFromServers(outs[1..], t);
      if t in Announced(outs[1..]) {
        var k :| 0 <= k < |outs[1..]| && outs[1..][k].1.Some? && t in outs[1..][k].0.tools;
        assert outs[k + 1] == outs[1..][k];
      }
      forall k | 0 < k < |outs| && outs[k].1.Some? && t in outs[k].0.tools
        ensures t in Announced(outs[1..])
      {
        assert outs[1..][k - 1] == outs[k];
      }
    }
  }

  /** `has_tool`. */
  predicate HasTool(m: Manager, tool: string) {
    tool in m.routes
  }

  /** `MCPManager.call_tool`: an unrouted name fails; a routed one is sent
      to its server. */
  function CallTool(m: Manager, tool: string, arguments: Json, w: Wire): (r: (ToolResult, Manager))
    ensures !HasTool(m, tool) ==> r == (Fail("No MCP server provides tool " + Repr(tool)), m)
    ensures r.1.routes == m.routes && ServerNames(r.1.servers) == ServerNames(m.servers)
  {
    if tool !in m.routes then (Fail("No MCP server provides tool " + Repr(tool)), m)
    else match FindServer(m.servers, m.routes[tool])
      case None => (Fail("No MCP server provides tool " + Repr(tool)), m)
      case Some(k) => CallRouted(m, k, tool, arguments, w)
  }

  function CallRouted(m: Manager, k: nat, tool: string, arguments: Json, w: Wire): (r: (ToolResult, Manager))
    requires k < |m.servers|
    ensures r.1.routes == m.routes && ServerNames(r.1.servers) == ServerNames(m.servers)
  {
    var (result, s) := CallToolOn(m.servers[k], tool, arguments, w);
    SameNamesUpdate(m.servers, k, s);
    (result, m.(servers := m.servers[k := s]))
  }

  lemma SameNamesUpdate(servers: seq<Server>, k: nat, s: Server)
    requires k < |servers| && s.name == servers[k].name
    ensures ServerNames(servers[k := s]) == ServerNames(servers)
  {
    assert forall j :: 0 <= j < |servers| ==> ServerNames(servers[k := s])[j] == ServerNames(servers)[j];
  }

  /** The OpenAI-format definition of an MCP tool. */
  function ToolJson(t: McpTool): Json {
    JObj([("type", JStr("function")),
          ("function", JObj([("name", JStr(t.name)), ("description", t.description),
                             ("parameters", t.parameters)]))])
  }

  /** `get_tool_definitions`: every server's tools, server by server, in
      order, duplicates included. */
  function ToolDefinitions(servers: seq<Server>): seq<McpTool> {
    if servers == [] then [] else servers[0].tools + ToolDefinitions(servers[1..])
  }

  /** Every tool of every server is offered, so two servers announcing
      the same name are both offered. */
  lemma {:induction false} ToolDefinitionsOffer(servers: seq<Server>, i: nat, k: nat)
    requires i < |servers| && k < |servers[i].tools|
    ensures servers[i].tools[k] in ToolDefinitions(servers)
    decreases |servers|
  {
    if i > 0 {
      ToolDefinitionsOffer(servers[1..], i - 1, k);
    }
  }

  /** Offering the tools of two runs of servers is offering one run's,
      then the other's. */
  lemma {:induction false} ToolDefinitionsAppend(a: seq<Server>, b: seq<Server>)
    ensures ToolDefinitions(a + b) == ToolDefinitions(a) + ToolDefinitions(b)
    decreases |a|
  {
    if a == [] {
      assert a + b == b;
    } else {
      assert (a + b)[0] == a[0];
      assert (a + b)[1..] == a[1..] + b;
      ToolDefinitionsAppend(a[1..], b);
    }
  }
}

=== FILE: paths.dfy ===
/** POSIX path arithmetic as `posixpath` does it on strings: `join`,
    `normpath`, `basename`, `dirname`, and the working-directory containment
    check of the tool executor. */
module Paths {
  import opened Wrappers
  import opened Strings

  /** `os.path.join(a, b)`: an absolute `b` replaces `a`. */
  function JoinPath(a: string, b: string): (r: string)
    ensures StartsWith(b, "/") ==> r == b
    ensures !StartsWith(b, "/") ==> |b| <= |r| && r[|r| - |b|..] == b && StartsWith(r, a)
  {
    if StartsWith(b, "/") then b
    else if a == [] || a[|a| - 1] == '/' then a + b
    else a + "/" + b
  }

  /** `'/' * n`. */
  function Slashes(n: nat): (r: string)
    ensures |r| == n && forall k :: 0 <= k < n ==> r[k] == '/'
  {
    if n == 0 then [] else "/" + Slashes(n - 1)
  }

  /** Leading slashes `normpath` keeps: POSIX lets exactly two leading
      slashes mean something else, so two are kept and three or more
      collapse to one. */
  function LeadingSlashes(p: string): nat {
    if !StartsWith(p, "/") then 0
    else if StartsWith(p, "//") && !StartsWith(p, "///") then 2
    else 1
  }

  /** One component step of `normpath`: drop empty and "." components, let
      ".." cancel the previous component, and keep a ".." that cannot
      cancel anything in a relative path (an absolute path drops it). */
  function Step(acc: seq<string>, c: string, absolute: bool): seq<string> {
    if c == [] || c == "." then acc
    else if c != ".." || (!absolute && acc == []) || (acc != [] && acc[|acc| - 1] == "..") then acc + [c]
    else if acc != [] then acc[..|acc| - 1]
    else acc
  }

  function Fold(comps: seq<string>, acc: seq<string>, absolute: bool): seq<string>
    decreases |comps|
  {
    if comps == [] then acc else Fold(comps[1..], Step(acc, comps[0], absolute), absolute)
  }

  /** `os.path.normpath(p)`: never empty, and absolute exactly when `p`
      is. */
  function Normpath(p: string): (r: string)
    ensures r != []
    ensures StartsWith(r, "/") <==> StartsWith(p, "/")
  {
    if p == [] then assert "."[..1] == "."; "."
    else
      var k := LeadingSlashes(p);
      var comps := Fold(Split(p, '/'), [], k > 0);
      FoldClean(Split(p, '/'), [], k > 0);
      SlashesHead(k, comps, k > 0);
      var r := Slashes(k) + Join("/", comps);
      if r == [] then assert "."[..1] == "."; "." else r
  }

  /** Leading slashes before clean components joined with "/" are the only
      way such a text starts with a slash. */
  lemma SlashesHead(k: nat, comps: seq<string>, absolute: bool)
    requires Clean(comps, absolute)
    ensures StartsWith(Slashes(k) + Join("/", comps), "/") <==> k > 0
  {
    var r := Slashes(k) + Join("/", comps);
    if k > 0 {
      assert r[..1] == "/";
    } else if comps != [] {
      JoinNonEmpty(comps);
      assert r[0] != '/';
    }
  }

  /** The components `normpath` can leave: no empty or "." component, no
      "/", and ".." only in a leading run of a relative path. */
  predicate Clean(comps: seq<string>, absolute: bool) {
    forall i :: 0 <= i < |comps| ==>
      comps[i] != [] && comps[i] != "." && '/' !in comps[i]
      && (comps[i] == ".." ==> !absolute && forall j :: 0 <= j < i ==> comps[j] == "..")
  }

  lemma StepClean(acc: seq<string>, c: string, absolute: bool)
    requires Clean(acc, absolute) && '/' !in c
    ensures Clean(Step(acc, c, absolute), absolute)
  {
    var r := Step(acc, c, absolute);
    if c != [] && c != "." && c == ".." && acc != [] && acc[|acc| - 1] == ".." {
      forall i | 0 <= i < |r| ensures r[i] == ".." {
        if i < |acc| {
          assert acc[|acc| - 1] == "..";
        }
      }
    }
  }

  lemma {:induction false} FoldClean(comps: seq<string>, acc: seq<string>, absolute: bool)
    requires Clean(acc, absolute)
    requires forall k :: 0 <= k < |comps| ==> '/' !in comps[k]
    ensures Clean(Fold(comps, acc, absolute), absolute)
    decreases |comps|
  {
    if comps != [] {
      StepClean(acc, comps[0], absolute);
      FoldClean(comps[1..], Step(acc, comps[0], absolute), absolute);
    }
  }

  /** Folding components that are already clean changes nothing. */
  lemma {:induction false} FoldCleanIdentity(comps: seq<string>, acc: seq<string>, absolute: bool)
    requires Clean(acc + comps, absolute)
    ensures Fold(comps, acc, absolute) == acc + comps
    decreases |comps|
  {
    if comps != [] {
      var c := comps[0];
      assert (acc + comps)[|acc|] == c;
      if c == ".." {
        if acc != [] {
          assert (acc + comps)[|acc| - 1] == acc[|acc| - 1];
        }
      }
      assert Step(acc, c, absolute) == acc + [c];
      assert acc + [c] + comps[1..] == acc + comps;
      FoldCleanIdentity(comps[1..], acc + [c], absolute);
    }
  }

  /** `n` empty components. */
  function Empties(n: nat): (r: seq<string>)
    ensures |r| == n && forall k :: 0 <= k < n ==> r[k] == []
  {
    if n == 0 then [] else [[]] + Empties(n - 1)
  }

  /** Empty components contribute nothing to the fold. */
  lemma {:induction false} FoldEmpties(n: nat, comps: seq<string>, absolute: bool)
    ensures Fold(Empties(n) + comps, [], absolute) == Fold(comps, [], absolute)
    decreases n
  {
    if n > 0 {
      var e := Empties(n);
      assert e == [[]] + Empties(n - 1);
      assert e + comps == [[]] + (Empties(n - 1) + comps);
      assert (e + comps)[1..] == Empties(n - 1) + comps;
      assert Step([], [], absolute) == [];
      FoldEmpties(n - 1, comps, absolute);
    } else {
      assert Empties(n) + comps == comps;
    }
  }

  /** `s.split(c)` on `a + c + b` splits `a` and `b` separately. */
  lemma {:induction false} SplitAppend(a: string, b: string, c: char)
    ensures Split(a + [c] + b, c) == Split(a, c) + Split(b, c)
    decreases |a|
  {
    match IndexOf(a, c)
    case None =>
      SplitAppendNoSep(a, b, c);
    case Some(i) =>
      SplitAppend(a[i + 1..], b, c);
      SplitAppendStep(a, b, c, i);
  }

  /** One step of `SplitAppend`: the first `c` of `a` cuts off the same
      first piece from `a + c + b`. */
  lemma SplitAppendStep(a: string, b: string, c: char, i: nat)
    requires IndexOf(a, c) == Some(i)
    requires Split(a[i + 1..] + [c] + b, c) == Split(a[i + 1..], c) + Split(b, c)
    ensures Split(a + [c] + b, c) == Split(a, c) + Split(b, c)
  {
    var s := a + [c] + b;
    var x, y, z := [a[..i]], Split(a[i + 1..], c), Split(b, c);
    SplitAppendCut(a, b, c, i);
    SplitAt(s, c, i);
    assert Split(s, c) == x + (y + z);
    SplitAt(a, c, i);
    assert Split(a, c) == x + y;
    Assoc(x, y, z);
  }

  lemma Assoc<T>(x: seq<T>, y: seq<T>, z: seq<T>)
    ensures x + (y + z) == (x + y) + z
  {
  }

  /** Where the first `c` of `a` cuts `a + c + b`. */
  lemma SplitAppendCut(a: string, b: string, c: char, i: nat)
    requires IndexOf(a, c) == Some(i)
    ensures IndexOf(a + [c] + b, c) == Some(i)
    ensures (a + [c] + b)[..i] == a[..i]
    ensures (a + [c] + b)[i + 1..] == a[i + 1..] + [c] + b
  {
    assert a + [c] + b == a + ([c] + b);
    IndexOfPrefix(a, [c] + b, c);
  }

  lemma SplitAt(s: string, c: char, i: nat)
    requires IndexOf(s, c) == Some(i)
    ensures Split(s, c) == [s[..i]] + Split(s[i + 1..], c)
  {
  }

  lemma SplitAppendNoSep(a: string, b: string, c: char)
    requires IndexOf(a, c).None?
    ensures Split(a + [c] + b, c) == Split(a, c) + Split(b, c)
  {
    var s := a + [c] + b;
    assert s == a + ([c] + b);
    IndexOfPrefix(a, [c] + b, c);
    assert IndexOf([c] + b, c) == Some(0);
    SplitAt(s, c, |a|);
    assert s[|a| + 1..] == b;
    assert s[..|a|] == a;
  }

  /** The first `c` of `a + b` is the first `c` of `a`, if `a` has one,
      and otherwise comes from `b`. */
  lemma {:induction false} IndexOfPrefix(a: string, b: string, c: char)
    ensures IndexOf(a + b, c)
            == match IndexOf(a, c)
               case Some(i) => Some(i)
               case None => match IndexOf(b, c)
                            case Some(j) => Some(|a| + j)
                            case None => None
    decreases |a|
  {
    if a == [] {
      assert a + b == b;
    } else {
      assert (a + b)[1..] == a[1..] + b;
      IndexOfPrefix(a[1..], b, c);
    }
  }

  /** Splitting a "/"-joined list of slash-free parts gives the parts back. */
  lemma {:induction false} SplitJoin(parts: seq<string>, c: char)
    requires parts != []
    requires forall k :: 0 <= k < |parts| ==> c !in parts[k]
    ensures Split(Join([c], parts), c) == parts
    decreases |parts|
  {
    if |parts| == 1 {
      assert IndexOf(parts[0], c).None?;
    } else {
      assert Join([c], parts) == parts[0] + [c] + Join([c], parts[1..]);
      SplitAppend(parts[0], Join([c], parts[1..]), c);
      assert IndexOf(parts[0], c).None?;
      SplitJoin(parts[1..], c);
      assert [parts[0]] + parts[1..] == parts;
    }
  }

  /** A leading separator splits off one empty piece. */
  lemma SplitLeadingSep(s: string, c: char)
    ensures Split([c] + s, c) == [[]] + Split(s, c)
  {
    assert IndexOf([c] + s, c) == Some(0);
    assert ([c] + s)[1..] == s;
  }

  /** `n` leading slashes split into `n` empty components before the rest. */
  lemma {:induction false} SplitSlashes(n: nat, s: string)
    requires s != []
    ensures Split(Slashes(n) + s, '/') == Empties(n) + Split(s, '/')
    decreases n
  {
    if n == 0 {
      assert Slashes(n) + s == s;
    } else {
      SplitSlashesStep(n, s);
      SplitSlashes(n - 1, s);
    }
  }

  /** One slash more splits off one empty component more. */
  lemma SplitSlashesStep(n: nat, s: string)
    requires n > 0
    ensures Split(Slashes(n) + s, '/') == [[]] + Split(Slashes(n - 1) + s, '/')
    ensures Empties(n) == [[]] + Empties(n - 1)
  {
    assert Slashes(n) + s == ['/'] + (Slashes(n - 1) + s);
    SplitLeadingSep(Slashes(n - 1) + s, '/');
  }

  /** The result of `normpath` is its leading slashes followed by clean
      components joined with "/", or "." when that is empty. */
  lemma NormpathShape(p: string)
    requires p != []
    ensures var k := LeadingSlashes(p);
            var comps := Fold(Split(p, '/'), [], k > 0);
            && Clean(comps, k > 0)
            && Normpath(p) == (if k == 0 && comps == [] then "." else Slashes(k) + Join("/", comps))
  {
    var k := LeadingSlashes(p);
    FoldClean(Split(p, '/'), [], k > 0);
    var comps := Fold(Split(p, '/'), [], k > 0);
    if comps != [] {
      assert Join("/", comps) != [] by {
        JoinNonEmpty(comps);
      }
    }
  }

  lemma {:induction false} JoinNonEmpty(parts: seq<string>)
    requires parts != [] && parts[0] != []
    ensures Join("/", parts) != [] && Join("/", parts)[0] == parts[0][0]
    decreases |parts|
  {
  }

  /** Up to two slashes before a text that does not start with one are
      counted exactly. */
  lemma LeadingSlashesOf(k: nat, body: string)
    requires k <= 2 && (body == [] || body[0] != '/')
    requires k == 0 ==> body != []
    ensures LeadingSlashes(Slashes(k) + body) == k
  {
    var r := Slashes(k) + body;
    if k == 0 {
      assert r[0] == body[0];
    } else if k == 1 {
      assert r[0] == '/';
      assert |r| >= 2 ==> r[1] == body[0];
    } else {
      assert r[0] == '/' && r[1] == '/';
      assert |r| >= 3 ==> r[2] == body[0];
    }
  }

  /** A root of one or two slashes is its own normal form. */
  lemma NormpathRoot(k: nat)
    requires 1 <= k <= 2
    ensures Normpath(Slashes(k)) == Slashes(k)
  {
    LeadingSlashesOf(k, []);
    assert Slashes(k) + [] == Slashes(k);
    SplitAllSlashes(k);
    FoldEmpties(k + 1, [], true);
    assert Empties(k + 1) + [] == Empties(k + 1);
  }

  /** Clean components behind their leading slashes are their own normal
      form. */
  lemma NormpathOfClean(k: nat, comps: seq<string>)
    requires k <= 2 && comps != [] && Clean(comps, k > 0)
    ensures Normpath(Slashes(k) + Join("/", comps)) == Slashes(k) + Join("/", comps)
  {
    JoinNonEmpty(comps);
    var body := Join("/", comps);
    assert body[0] != '/' by {
      assert '/' !in comps[0];
    }
    LeadingSlashesOf(k, body);
    SplitSlashes(k, body);
    SplitJoin(comps, '/');
    FoldEmpties(k, comps, k > 0);
    FoldCleanIdentity(comps, [], k > 0);
    assert [] + comps == comps;
  }

  /** `normpath` is idempotent. */
  lemma NormpathIdempotent(p: string)
    ensures Normpath(Normpath(p)) == Normpath(p)
  {
    if p != [] {
      NormpathShape(p);
      var k := LeadingSlashes(p);
      var comps := Fold(Split(p, '/'), [], k > 0);
      if comps == [] {
        if k == 0 {
          assert Split(".", '/') == ["."];
        } else {
          assert Join("/", comps) == [];
          assert Slashes(k) + [] == Slashes(k);
          NormpathRoot(k);
        }
      } else {
        NormpathOfClean(k, comps);
      }
    }
  }

  /** A string of `k >= 1` slashes splits into `k + 1` empty components. */
  lemma {:induction false} SplitAllSlashes(k: nat)
    requires k >= 1
    ensures Split(Slashes(k), '/') == Empties(k + 1)
    decreases k
  {
    if k == 1 {
      assert Slashes(1) == [] + ['/'] + [];
      SplitAppend([], [], '/');
    } else {
      assert Slashes(k) == [] + ['/'] + Slashes(k - 1);
      SplitAppend([], Slashes(k - 1), '/');
      SplitAllSlashes(k - 1);
    }
  }

  // ---------------------------------------------------------------------
  // Working-directory containment
  // ---------------------------------------------------------------------

  /** The path `_resolve_path` computes before its check. */
  function Resolve(workingDir: string, path: string): string {
    Normpath(JoinPath(workingDir, path))
  }

  /** The path lies in the tree rooted at `dir`: `dir`'s components are a
      prefix of its components. */
  predicate InTree(path: string, dir: string) {
    var d := Split(dir, '/');
    var p := Split(path, '/');
    |d| <= |p| && p[..|d|] == d
  }

  /** `_resolve_path` as written: accept when the resolved text starts with
      the working directory's text. */
  function ResolvePathAsWritten(workingDir: string, path: string): (r: Result<string, string>)
    ensures r.Success? <==> StartsWith(Resolve(workingDir, path), workingDir)
    ensures r.Success? ==> r.value == Resolve(workingDir, path)
    ensures r.Failure? ==> r.error == "Path " + path + " is outside working directory"
  {
    var resolved := Resolve(workingDir, path);
    if StartsWith(resolved, workingDir) then Success(resolved)
    else Failure("Path " + path + " is outside working directory")
  }

  lemma SplitExamples()
    ensures Split("/a/../ab", '/') == ["", "a", "..", "ab"]
  {
    assert Join("/", ["", "a", "..", "ab"]) == "/a/../ab";
    SplitJoin(["", "a", "..", "ab"], '/');
  }

  lemma SplitExampleSibling()
    ensures Split("/ab", '/') == ["", "ab"]
  {
    assert Join("/", ["", "ab"]) == "/ab";
    SplitJoin(["", "ab"], '/');
  }

  lemma SplitExampleDir()
    ensures Split("/a", '/') == ["", "a"]
  {
    assert Join("/", ["", "a"]) == "/a";
    SplitJoin(["", "a"], '/');
  }

  lemma FoldExample()
    ensures Fold(["", "a", "..", "ab"], [], true) == ["ab"]
  {
    assert Fold(["ab"], [], true) == ["ab"];
    assert Fold(["..", "ab"], ["a"], true) == ["ab"];
    assert Fold(["a", "..", "ab"], [], true) == ["ab"];
  }

  lemma LeadingSlashesExample()
    ensures LeadingSlashes("/a/../ab") == 1
  {
    LeadingSlashesOf(1, "a/../ab");
    assert Slashes(1) + "a/../ab" == "/a/../ab";
  }

  lemma NormpathExample()
    ensures Normpath("/a/../ab") == "/ab"
  {
    SplitExamples();
    FoldExample();
    LeadingSlashesExample();
    var comps := Fold(Split("/a/../ab", '/'), [], true);
    assert comps == ["ab"];
    assert Join("/", comps) == "ab";
    assert Slashes(1) == "/";
  }

  lemma JoinPathExample()
    ensures JoinPath("/a", "../ab") == "/a/../ab"
  {
    assert !StartsWith("../ab", "/") by { assert "../ab"[..1] == "."; }
  }

  lemma NotInTreeExample()
    ensures !InTree("/ab", "/a")
  {
    SplitExampleSibling();
    SplitExampleDir();
    assert ["", "ab"][..2] != ["", "a"] by {
      assert ["", "ab"][1] != ["", "a"][1];
    }
  }

  /** A sibling directory whose name extends the working directory's name
      passes the check as written. */
  lemma SiblingPrefixEscapes()
    ensures ResolvePathAsWritten("/a", "../ab") == Success("/ab")
    ensures !InTree("/ab", "/a")
  {
    JoinPathExample();
    NormpathExample();
    assert StartsWith("/ab", "/a") by {
      assert "/ab"[..2] == "/a";
    }
    NotInTreeExample();
  }

  /** The directory prefix a path inside `dir` must start with. */
  function DirPrefix(dir: string): string {
    if dir != [] && dir[|dir| - 1] == '/' then dir else dir + "/"
  }

  /** `_resolve_path` with the check it evidently intends: the resolved
      path is the working directory itself or lies below it. */
  function ResolvePath(workingDir: string, path: string): (r: Result<string, string>)
    ensures r.Success? ==> r.value == Resolve(workingDir, path)
    ensures r.Failure? ==> r.error == "Path " + path + " is outside working directory"
  {
    var resolved := Resolve(workingDir, path);
    if resolved == workingDir || StartsWith(resolved, DirPrefix(workingDir)) then Success(resolved)
    else Failure("Path " + path + " is outside working directory")
  }

  /** The corrected check only ever refuses more than the one as written. */
  lemma ResolvePathStricter(workingDir: string, path: string)
    ensures ResolvePath(workingDir, path).Success? ==> ResolvePathAsWritten(workingDir, path).Success?
  {
  }

  /** Whatever the corrected check accepts lies in the working directory's
      tree, for any working directory not ending in "/" (a normalised
      absolute path other than "/" never does). */
  lemma ResolvePathContained(workingDir: string, path: string)
    requires workingDir != [] && workingDir[|workingDir| - 1] != '/'
    ensures ResolvePath(workingDir, path).Success? ==> InTree(ResolvePath(workingDir, path).value, workingDir)
  {
    var resolved := Resolve(workingDir, path);
    if resolved == workingDir || StartsWith(resolved, DirPrefix(workingDir)) {
      AcceptedInTree(workingDir, resolved);
    }
  }

  /** The directory itself, and any text starting with it and a "/", lie
      in its tree. */
  lemma AcceptedInTree(workingDir: string, resolved: string)
    requires workingDir != [] && workingDir[|workingDir| - 1] != '/'
    requires resolved == workingDir || StartsWith(resolved, DirPrefix(workingDir))
    ensures InTree(resolved, workingDir)
  {
    if resolved != workingDir {
      var rest := resolved[|workingDir| + 1..];
      assert resolved == workingDir + ['/'] + rest;
      SplitAppend(workingDir, rest, '/');
    }
  }

  // ---------------------------------------------------------------------
  // Names
  // ---------------------------------------------------------------------

  /** Index just past the last "/" of `p` (0 when there is none). */
  function AfterLastSlash(p: string): (r: nat)
    ensures r <= |p|
    ensures r > 0 ==> p[r - 1] == '/'
    ensures forall k :: r <= k < |p| ==> p[k] != '/'
  {
    if p == [] then 0
    else if p[|p| - 1] == '/' then |p|
    else AfterLastSlash(p[..|p| - 1])
  }

  /** `os.path.basename(p)`: the text after the last "/". */
  function Basename(p: string): (r: string)
    ensures '/' !in r
    ensures |r| <= |p| && r == p[|p| - |r|..]
  {
    p[AfterLastSlash(p)..]
  }

  /** `os.path.dirname(p)`: the text up to the last "/", with trailing
      slashes dropped unless it consists of slashes only. */
  function Dirname(p: string): (r: string)
    ensures |r| <= |p| && r == p[..|r|]
  {
    var head := p[..AfterLastSlash(p)];
    if head != [] && head != Slashes(|head|) then RStripChar(head, '/') else head
  }
}

=== FILE: permissions.dfy ===
/** Per-agent tool access: a default level plus per-tool overrides, and the
    three preset sets the agents use. */
module Permissions {
  import opened Wrappers

  datatype Level = Allow | Ask | Deny

  /** A rule for one tool. The argument constraints are carried as data;
      nothing in the harness consults them. */
  datatype ToolPermission = ToolPermission(
    toolName: string,
    level: Level,
    allowedArgs: Option<map<string, string>>,
    deniedPatterns: Option<seq<string>>)

  function Rule(name: string, level: Level): ToolPermission {
    ToolPermission(name, level, None, None)
  }

  datatype PermissionSet = PermissionSet(name: string, defaultLevel: Level, rules: map<string, ToolPermission>)

  /** `get_permission`: a tool's own rule wins over the default. */
  function GetPermission(ps: PermissionSet, tool: string): (r: Level)
    ensures tool !in ps.rules ==> r == ps.defaultLevel
    ensures tool in ps.rules ==> r == ps.rules[tool].level
  {
    if tool in ps.rules then ps.rules[tool].level else ps.defaultLevel
  }

  predicate IsAllowed(ps: PermissionSet, tool: string) {
    GetPermission(ps, tool) == Allow
  }

  predicate IsDenied(ps: PermissionSet, tool: string) {
    GetPermission(ps, tool) == Deny
  }

  predicate NeedsApproval(ps: PermissionSet, tool: string) {
    GetPermission(ps, tool) == Ask
  }

  /** Every tool is in exactly one of the three states. */
  lemma ExactlyOneState(ps: PermissionSet, tool: string)
    ensures IsAllowed(ps, tool) || IsDenied(ps, tool) || NeedsApproval(ps, tool)
    ensures !(IsAllowed(ps, tool) && IsDenied(ps, tool))
    ensures !(IsAllowed(ps, tool) && NeedsApproval(ps, tool))
    ensures !(IsDenied(ps, tool) && NeedsApproval(ps, tool))
  {
  }

  /** `set_permission`: an existing rule keeps its argument constraints and
      only changes level; a missing one is created bare. */
  function SetPermission(ps: PermissionSet, tool: string, level: Level): (r: PermissionSet)
    ensures GetPermission(r, tool) == level
    ensures forall t :: t != tool ==> GetPermission(r, t) == GetPermission(ps, t)
    ensures r.rules.Keys == ps.rules.Keys + {tool}
    ensures tool in ps.rules ==> r.rules[tool] == ps.rules[tool].(level := level)
    ensures r.name == ps.name && r.defaultLevel == ps.defaultLevel
  {
    var rule := if tool in ps.rules then ps.rules[tool].(level := level) else Rule(tool, level);
    ps.(rules := ps.rules[tool := rule])
  }

  /** Setting the same level twice is the same as setting it once. */
  lemma SetPermissionIdempotent(ps: PermissionSet, tool: string, level: Level)
    ensures SetPermission(SetPermission(ps, tool, level), tool, level) == SetPermission(ps, tool, level)
  {
  }

  /** `merge`: the other set's default and rules take precedence. */
  function Merge(a: PermissionSet, b: PermissionSet): (r: PermissionSet)
    ensures r.name == a.name + "+" + b.name
    ensures r.rules.Keys == a.rules.Keys + b.rules.Keys
    ensures forall t :: (GetPermission(r, t) ==
                         if t in b.rules then b.rules[t].level
                         else if t in a.rules then a.rules[t].level
                         else b.defaultLevel)
  {
    PermissionSet(a.name + "+" + b.name, b.defaultLevel, a.rules + b.rules)
  }

  /** Merging a set into itself changes nothing but the name. */
  lemma MergeSelf(a: PermissionSet, t: string)
    ensures GetPermission(Merge(a, a), t) == GetPermission(a, t)
  {
  }

  /** Merging with a set that has no rules of its own replaces only the
      default. */
  lemma MergeWithDefaultOnly(a: PermissionSet, b: PermissionSet, t: string)
    requires b.rules == map[]
    ensures t in a.rules ==> GetPermission(Merge(a, b), t) == GetPermission(a, t)
    ensures t !in a.rules ==> GetPermission(Merge(a, b), t) == b.defaultLevel
  {
  }

  // ---------------------------------------------------------------------
  // Presets
  // ---------------------------------------------------------------------

  const ShellDeniedPatterns: seq<string> := ["rm -rf /", "mkfs", "> /dev/"]

  /** Full access: everything allowed, except the shell and web tools,
      which need approval. */
  function BuildPermissions(): (r: PermissionSet)
    ensures r.name == "build" && r.defaultLevel == Allow
    ensures forall t :: GetPermission(r, t) == if t in AskTools then Ask else Allow
  {
    PermissionSet("build", Allow, map[
      "shell" := ToolPermission("shell", Ask, None, Some(ShellDeniedPatterns)),
      "read_file" := Rule("read_file", Allow),
      "write_file" := Rule("write_file", Allow),
      "edit_file" := Rule("edit_file", Allow),
      "multi_edit" := Rule("multi_edit", Allow),
      "apply_patch" := Rule("apply_patch", Allow),
      "list_files" := Rule("list_files", Allow),
      "glob" := Rule("glob", Allow),
      "grep" := Rule("grep", Allow),
      "tree" := Rule("tree", Allow),
      "web_fetch" := Rule("web_fetch", Ask),
      "web_search" := Rule("web_search", Ask),
      "task" := Rule("task", Allow),
      "todo" := Rule("todo", Allow),
      "notebook_edit" := Rule("notebook_edit", Allow)])
  }

  /** Read-only: reading and searching allowed, web tools need approval,
      everything else denied. */
  function PlanPermissions(): (r: PermissionSet)
    ensures r.name == "plan" && r.defaultLevel == Deny
    ensures forall t :: GetPermission(r, t)
                        == if t in ReadOnlyTools then Allow else if t in {"web_fetch", "web_search"} then Ask else Deny
  {
    PermissionSet("plan", Deny, map[
      "read_file" := Rule("read_file", Allow),
      "list_files" := Rule("list_files", Allow),
      "glob" := Rule("glob", Allow),
      "grep" := Rule("grep", Allow),
      "tree" := Rule("tree", Allow),
      "web_fetch" := Rule("web_fetch", Ask),
      "web_search" := Rule("web_search", Ask),
      "todo" := Rule("todo", Allow)])
  }

  /** Build's rules with task spawning denied. */
  function SubagentPermissions(): (r: PermissionSet)
    ensures r.name == "subagent" && IsDenied(r, "task")
    ensures forall t :: t != "task" ==> GetPermission(r, t) == GetPermission(BuildPermissions(), t)
  {
    var ps := BuildPermissions();
    ps.(name := "subagent", rules := ps.rules["task" := Rule("task", Deny)])
  }

  const AskTools: set<string> := {"shell", "web_fetch", "web_search"}
  const ReadOnlyTools: set<string> := {"read_file", "list_files", "glob", "grep", "tree", "todo"}
}

=== FILE: providers.dfy ===
/** The provider layer of `rune/harness/providers.py`: the `provider/model`
    string, the rewrite of chat-completions messages and tool definitions
    into the Anthropic messages format, and the normalisation of both
    vendors' responses into one response shape. The SDK clients are not
    modelled; `json.loads` and `json.dumps` are parameters. */
module Providers {
  import opened Wrappers
  import opened Strings
  import opened Json

  // ---------------------------------------------------------------------
  // Model strings and the factory
  // ---------------------------------------------------------------------

  /** `parse_model_string`: without a "/" the whole string is an OpenAI
      model name, untouched; otherwise the text before the first "/" is
      the provider (lower-cased, then stripped) and the rest, stripped, is
      the model name. Only "openai" and "anthropic" are accepted. */
  function ParseModelString(model: string): (r: Result<(string, string), string>)
    ensures '/' !in model ==> r == Success(("openai", model))
    ensures r.Success? ==> r.value.0 == "openai" || r.value.0 == "anthropic"
    ensures r.Failure? ==> '/' in model
  {
    match IndexOf(model, '/')
    case None => Success(("openai", model))
    case Some(i) =>
      var provider := Strip(Lower(model[..i]));
      var name := Strip(model[i + 1..]);
      if provider != "openai" && provider != "anthropic" then
        Failure("Unknown provider " + Repr(provider) + ". Supported: openai, anthropic")
      else Success((provider, name))
  }

  /** A known provider and a model name without surrounding whitespace,
      written as `provider/model`, parse back to themselves. */
  lemma ModelStringRoundTrip(provider: string, name: string)
    requires provider == "openai" || provider == "anthropic"
    requires name == [] || (!IsSpace(name[0]) && !IsSpace(name[|name| - 1]))
    ensures ParseModelString(provider + "/" + name) == Success((provider, name))
  {
    var model := provider + "/" + name;
    var i := |provider|;
    assert IndexOf(model, '/') == Some(i)
           && Strip(Lower(model[..i])) == provider && Strip(model[i + 1..]) == name by {
      if provider == "openai" { OpenAIFixed(); } else { AnthropicFixed(); }
      SlashAfter(provider, name);
      StripKeeps(name);
    }
  }

  /** Any `provider/name` with no "/" in `provider`: the provider is
      lower-cased and stripped, the name stripped, and only the two known
      providers are accepted; any other is refused with its repr. */
  lemma ParseModelStringNormalises(provider: string, name: string)
    requires '/' !in provider
    ensures var r, p := ParseModelString(provider + "/" + name), Strip(Lower(provider));
            && (r.Success? <==> p == "openai" || p == "anthropic")
            && (r.Success? ==> r.value == (p, Strip(name)))
            && (r.Failure? ==> r.error == "Unknown provider " + Repr(p) + ". Supported: openai, anthropic")
  {
    SlashAfter(provider, name);
  }

  /** In `provider/name` with no "/" in `provider`, the first "/" is the
      one written between them. */
  lemma SlashAfter(provider: string, name: string)
    requires forall i :: 0 <= i < |provider| ==> provider[i] != '/'
    ensures var model := provider + "/" + name;
            IndexOf(model, '/') == Some(|provider|)
            && model[..|provider|] == provider && model[|provider| + 1..] == name
  {
    var model := provider + "/" + name;
    var i := |provider|;
    assert model[i] == '/';
    assert model[..i] == provider && model[i + 1..] == name;
    forall j | 0 <= j < i ensures model[j] != '/' {
      assert model[j] == provider[j];
    }
    var r := IndexOf(model, '/');
    assert r.Some? && r.value <= i;
  }

  /** The two provider names are lower case, have no surrounding
      whitespace and no "/". */
  lemma OpenAIFixed()
    ensures Strip(Lower("openai")) == "openai"
    ensures forall i :: 0 <= i < |"openai"| ==> "openai"[i] != '/'
  {
    var p := "openai";
    assert forall i :: 0 <= i < |p| ==> 'a' <= p[i] <= 'z';
    LettersFixed(p);
  }

  lemma AnthropicFixed()
    ensures Strip(Lower("anthropic")) == "anthropic"
    ensures forall i :: 0 <= i < |"anthropic"| ==> "anthropic"[i] != '/'
  {
    var p := "anthropic";
    assert forall i :: 0 <= i < |p| ==> 'a' <= p[i] <= 'z';
    LettersFixed(p);
  }

  /** The two provider classes `create_provider` can build. */
  datatype Kind = OpenAIKind | AnthropicKind

  /** `create_provider`: the Anthropic provider for "anthropic", the
      OpenAI one otherwise, with the parsed model name. */
  function CreateProvider(modelString: string): (r: Result<(Kind, string), string>)
    ensures r.Success? <==> ParseModelString(modelString).Success?
    ensures r.Success? ==> r.value.1 == ParseModelString(modelString).value.1
    ensures r.Success? ==> (r.value.0 == AnthropicKind <==> ParseModelString(modelString).value.0 == "anthropic")
    ensures '/' !in modelString ==> r == Success((OpenAIKind, modelString))
  {
    match ParseModelString(modelString)
    case Failure(e) => Failure(e)
    case Success((provider, name)) =>
      if provider == "anthropic" then Success((AnthropicKind, name)) else Success((OpenAIKind, name))
  }

  // ---------------------------------------------------------------------
  // Messages in and out
  // ---------------------------------------------------------------------

  /** One entry of an assistant message's `tool_calls`: the id and the
      function's name and JSON-encoded arguments. */
  datatype WireCall = WireCall(id: string, name: string, arguments: string)

  /** A chat-completions message as the provider receives it: the role,
      the content (`None` when absent or null), the tool calls (empty when
      absent) and, for a tool message, the id of the call it answers. */
  datatype WireMessage = WireMessage(role: string, content: Option<string>, toolCalls: seq<WireCall>, toolCallId: string)

  /** An Anthropic content block. */
  datatype Block =
    | TextBlock(text: string)
    | ToolUse(id: string, name: string, input: Json)
    | ToolResult(toolUseId: string, output: string)

  /** The content of an Anthropic message: a plain string, a list of
      blocks, or the `None` a user message without content carries. */
  datatype Content = Text(s: string) | Blocks(blocks: seq<Block>) | Absent

  datatype AMessage = AMessage(role: string, content: Content)

  /** The blocks a content stands for: a string is one text block. */
  function Items(c: Content): seq<Block> {
    match c
    case Text(s) => [TextBlock(s)]
    case Blocks(bs) => bs
    case Absent => []
  }

  /** Every block of the messages, in order. */
  function Flat(ms: seq<AMessage>): seq<Block> {
    if ms == [] then [] else Items(ms[0].content) + Flat(ms[1..])
  }

  lemma {:induction false} FlatAppend(a: seq<AMessage>, b: seq<AMessage>)
    ensures Flat(a + b) == Flat(a) + Flat(b)
  {
    if a == [] {
      assert a + b == b;
    } else {
      assert (a + b)[1..] == a[1..] + b;
      FlatAppend(a[1..], b);
    }
  }

  /** The tool blocks among `bs`, in order: what the model asked for and
      what the tools answered. */
  function ToolBlocks(bs: seq<Block>): seq<Block> {
    if bs == [] then [] else (if bs[0].TextBlock? then [] else [bs[0]]) + ToolBlocks(bs[1..])
  }

  lemma {:induction false} ToolBlocksAppend(a: seq<Block>, b: seq<Block>)
    ensures ToolBlocks(a + b) == ToolBlocks(a) + ToolBlocks(b)
  {
    if a == [] {
      assert a + b == b;
    } else {
      assert (a + b)[1..] == a[1..] + b;
      ToolBlocksAppend(a[1..], b);
    }
  }

  // ---------------------------------------------------------------------
  // `_convert_messages`
  // ---------------------------------------------------------------------

  /** `json.loads` of a call's arguments, `{}` when they do not parse. */
  function InputOf(arguments: string, parse: string -> Option<Json>): Json {
    match parse(arguments)
    case Some(j) => j
    case None => JObj([])
  }

  /** The tool_use blocks of an assistant message's calls, in order. */
  function Uses(calls: seq<WireCall>, parse: string -> Option<Json>): (r: seq<Block>)
    ensures |r| == |calls|
    ensures forall k :: 0 <= k < |calls| ==> r[k] == ToolUse(calls[k].id, calls[k].name, InputOf(calls[k].arguments, parse))
  {
    seq(|calls|, k requires 0 <= k < |calls| => ToolUse(calls[k].id, calls[k].name, InputOf(calls[k].arguments, parse)))
  }

  /** An assistant message as blocks: its text when non-empty, then one
      tool_use per call; an empty text block when there is neither. */
  function AssistantBlocks(m: WireMessage, parse: string -> Option<Json>): (r: seq<Block>)
    ensures r != []
    ensures ToolBlocks(r) == Uses(m.toolCalls, parse)
    ensures m.content.Some? && m.content.value != [] ==> r[0] == TextBlock(m.content.value)
  {
    var head := if m.content.Some? && m.content.value != [] then [TextBlock(m.content.value)] else [];
    var blocks := head + Uses(m.toolCalls, parse);
    UsesAreTools(m.toolCalls, parse);
    ToolBlocksAppend(head, Uses(m.toolCalls, parse));
    if blocks == [] then [TextBlock("")] else blocks
  }

  lemma {:induction false} UsesAreTools(calls: seq<WireCall>, parse: string -> Option<Json>)
    ensures ToolBlocks(Uses(calls, parse)) == Uses(calls, parse)
  {
    if calls != [] {
      assert Uses(calls, parse)[1..] == Uses(calls[1..], parse);
      UsesAreTools(calls[1..], parse);
    }
  }

  /** The number of tool messages at the front of `msgs`: the run one
      user message of tool results gathers. */
  function ToolRun(msgs: seq<WireMessage>): (n: nat)
    ensures n <= |msgs|
    ensures msgs != [] && msgs[0].role == "tool" ==> n >= 1
    ensures n < |msgs| ==> msgs[n].role != "tool"
  {
    if msgs != [] && msgs[0].role == "tool" then 1 + ToolRun(msgs[1..]) else 0
  }

  /** The tool_result block answering a tool message: its content, or ""
      when that is absent or empty. */
  function ResultOf(m: WireMessage): Block {
    ToolResult(m.toolCallId, m.content.GetOr(""))
  }

  function Results(run: seq<WireMessage>): (r: seq<Block>)
    ensures |r| == |run| && forall k :: 0 <= k < |run| ==> r[k] == ResultOf(run[k])
  {
    seq(|run|, k requires 0 <= k < |run| => ResultOf(run[k]))
  }

  /** The roles conversion keeps; every other role is dropped. */
  predicate KeptRole(role: string) {
    role == "user" || role == "assistant" || role == "tool"
  }

  /** The blocks the input stands for, message by message: a user
      message's text, an assistant message's blocks and a tool message's
      result; system messages and unknown roles stand for nothing. */
  function BlocksIn(msgs: seq<WireMessage>, parse: string -> Option<Json>): seq<Block> {
    if msgs == [] then []
    else
      var m := msgs[0];
      (if m.role == "user" then (if m.content.Some? then [TextBlock(m.content.value)] else [])
       else if m.role == "assistant" then AssistantBlocks(m, parse)
       else if m.role == "tool" then [ResultOf(m)]
       else [])
      + BlocksIn(msgs[1..], parse)
  }

  /** The first message of a kept role is an assistant message. */
  predicate OpensWithAssistant(msgs: seq<WireMessage>) {
    msgs != [] && (if KeptRole(msgs[0].role) then msgs[0].role == "assistant" else OpensWithAssistant(msgs[1..]))
  }

  /** A run of tool messages stands for its results, in order. */
  lemma {:induction false} BlocksInToolRun(msgs: seq<WireMessage>, parse: string -> Option<Json>)
    ensures BlocksIn(msgs, parse) == Results(msgs[..ToolRun(msgs)]) + BlocksIn(msgs[ToolRun(msgs)..], parse)
  {
    var n := ToolRun(msgs);
    if n > 0 {
      var rest := msgs[1..];
      assert ToolRun(rest) == n - 1;
      BlocksInToolRun(rest, parse);
      assert rest[..n - 1] == msgs[1..n];
      assert rest[n - 1..] == msgs[n..];
      assert BlocksIn(msgs, parse) == [ResultOf(msgs[0])] + BlocksIn(rest, parse);
      assert Results(msgs[..n]) == [ResultOf(msgs[0])] + Results(msgs[1..n]);
    } else {
      assert msgs[..0] == [];
      assert Results([]) == [];
    }
  }

  /** The blocks of one message followed by more messages. */
  lemma FlatCons(head: AMessage, rest: seq<AMessage>)
    ensures Flat([head] + rest) == Items(head.content) + Flat(rest)
  {
    assert ([head] + rest)[1..] == rest;
  }

  /** The converted messages before greeting and merging: system
      messages and unknown roles are dropped, a user message keeps its
      content, an assistant message becomes blocks, and each run of tool
      messages becomes one user message of tool results. Their blocks are
      the input's, message by message, and they open with an assistant
      message exactly when the input's first kept message is one. */
  function Converted(msgs: seq<WireMessage>, parse: string -> Option<Json>): (r: seq<AMessage>)
    ensures |r| <= |msgs|
    ensures forall k :: 0 <= k < |r| ==> r[k].role == "user" || r[k].role == "assistant"
    ensures Flat(r) == BlocksIn(msgs, parse)
    ensures r != [] && r[0].role == "assistant" <==> OpensWithAssistant(msgs)
    decreases |msgs|
  {
    if msgs == [] then []
    else
      var m := msgs[0];
      if m.role == "user" then
        var head := AMessage("user", if m.content.Some? then Text(m.content.value) else Absent);
        FlatCons(head, Converted(msgs[1..], parse));
        [head] + Converted(msgs[1..], parse)
      else if m.role == "assistant" then
        var head := AMessage("assistant", Blocks(AssistantBlocks(m, parse)));
        FlatCons(head, Converted(msgs[1..], parse));
        [head] + Converted(msgs[1..], parse)
      else if m.role == "tool" then
        var n := ToolRun(msgs);
        var head := AMessage("user", Blocks(Results(msgs[..n])));
        FlatCons(head, Converted(msgs[n..], parse));
        BlocksInToolRun(msgs, parse);
        [head] + Converted(msgs[n..], parse)
      else Converted(msgs[1..], parse)
  }

  /** The texts of the system messages with non-empty content, in order. */
  function SystemParts(msgs: seq<WireMessage>): (r: seq<string>)
    ensures forall k :: 0 <= k < |r| ==> r[k] != []
  {
    if msgs == [] then []
    else
      (if msgs[0].role == "system" && msgs[0].content.Some? && msgs[0].content.value != []
       then [msgs[0].content.value] else [])
      + SystemParts(msgs[1..])
  }

  /** The tool blocks the input carries, message by message: the calls of
      each assistant message and the answer of each tool message. */
  function ToolBlocksIn(msgs: seq<WireMessage>, parse: string -> Option<Json>): seq<Block> {
    if msgs == [] then []
    else
      var m := msgs[0];
      (if m.role == "assistant" then Uses(m.toolCalls, parse)
       else if m.role == "tool" then [ResultOf(m)]
       else [])
      + ToolBlocksIn(msgs[1..], parse)
  }

  /** A run of tool messages contributes its results, in order. */
  lemma {:induction false} ToolRunSplit(msgs: seq<WireMessage>, parse: string -> Option<Json>)
    ensures ToolBlocksIn(msgs, parse) == Results(msgs[..ToolRun(msgs)]) + ToolBlocksIn(msgs[ToolRun(msgs)..], parse)
  {
    var n := ToolRun(msgs);
    if n > 0 {
      var rest := msgs[1..];
      assert ToolRun(rest) == n - 1;
      ToolRunSplit(rest, parse);
      assert rest[..n - 1] == msgs[1..n];
      assert rest[n - 1..] == msgs[n..];
      ToolBlocksInTool(msgs, parse);
      assert Results(msgs[..n]) == [ResultOf(msgs[0])] + Results(msgs[1..n]);
    } else {
      assert msgs[..0] == [];
      assert Results([]) == [];
    }
  }

  lemma ToolBlocksInTool(msgs: seq<WireMessage>, parse: string -> Option<Json>)
    requires msgs != [] && msgs[0].role == "tool"
    ensures ToolBlocksIn(msgs, parse) == [ResultOf(msgs[0])] + ToolBlocksIn(msgs[1..], parse)
  {
  }

  lemma {:induction false} ResultsAreTools(run: seq<WireMessage>)
    ensures ToolBlocks(Results(run)) == Results(run)
  {
    if run != [] {
      assert Results(run)[1..] == Results(run[1..]);
      ResultsAreTools(run[1..]);
    }
  }

  /** Conversion keeps every tool call and every tool answer, in order. */
  lemma {:induction false} ConvertedTools(msgs: seq<WireMessage>, parse: string -> Option<Json>)
    ensures ToolBlocks(Flat(Converted(msgs, parse))) == ToolBlocksIn(msgs, parse)
    decreases |msgs|
  {
    if msgs != [] {
      var m := msgs[0];
      if m.role == "user" {
        ConvertedTools(msgs[1..], parse);
        var head := AMessage("user", if m.content.Some? then Text(m.content.value) else Absent);
        FlatAppend([head], Converted(msgs[1..], parse));
        ToolBlocksAppend(Items(head.content), Flat(Converted(msgs[1..], parse)));
      } else if m.role == "assistant" {
        ConvertedTools(msgs[1..], parse);
        var head := AMessage("assistant", Blocks(AssistantBlocks(m, parse)));
        FlatAppend([head], Converted(msgs[1..], parse));
        ToolBlocksAppend(Items(head.content), Flat(Converted(msgs[1..], parse)));
      } else if m.role == "tool" {
        var n := ToolRun(msgs);
        ConvertedTools(msgs[n..], parse);
        ToolRunSplit(msgs, parse);
        ResultsAreTools(msgs[..n]);
        var head := AMessage("user", Blocks(Results(msgs[..n])));
        FlatAppend([head], Converted(msgs[n..], parse));
        ToolBlocksAppend(Items(head.content), Flat(Converted(msgs[n..], parse)));
      } else {
        ConvertedTools(msgs[1..], parse);
      }
    }
  }

  /** The synthetic first turn: a "Hello." user message goes in front
      when the first message is not from the user. */
  function Greeted(ms: seq<AMessage>): (r: seq<AMessage>)
    ensures r != [] ==> r[0].role == "user"
    ensures |r| == |ms| + (if ms != [] && ms[0].role != "user" then 1 else 0)
    ensures r[|r| - |ms|..] == ms
    ensures ms != [] && ms[0].role != "user" ==> r[0] == AMessage("user", Text("Hello."))
    ensures Flat(r) == (if ms != [] && ms[0].role != "user" then [TextBlock("Hello.")] else []) + Flat(ms)
    ensures ToolBlocks(Flat(r)) == ToolBlocks(Flat(ms))
  {
    if ms != [] && ms[0].role != "user" then
      FlatCons(AMessage("user", Text("Hello.")), ms);
      ToolBlocksAppend([TextBlock("Hello.")], Flat(ms));
      [AMessage("user", Text("Hello."))] + ms
    else ms
  }

  // ---------------------------------------------------------------------
  // Merging messages of the same role
  // ---------------------------------------------------------------------

  /** No two neighbours share a role. */
  predicate Alternating(ms: seq<AMessage>) {
    forall k :: 0 <= k < |ms| - 1 ==> ms[k].role != ms[k + 1].role
  }

  /** The content of two merged messages: both as block lists, one after
      the other. Concatenating with a `None` content raises TypeError. */
  function Combine(prev: Content, cur: Content): (r: Result<Content, string>)
    ensures r.Success? <==> !prev.Absent? && !cur.Absent?
    ensures r.Success? ==> Items(r.value) == Items(prev) + Items(cur)
  {
    if prev.Absent? then
      Failure("unsupported operand type(s) for +: 'NoneType' and '" + (if cur.Absent? then "NoneType" else "list") + "'")
    else if cur.Absent? then Failure("can only concatenate list (not \"NoneType\") to list")
    else Success(Blocks(Items(prev) + Items(cur)))
  }

  /** One step of the merge loop: fold `m` into the last merged message
      when the roles agree, else append it. */
  function Step(merged: seq<AMessage>, m: AMessage): (r: Result<seq<AMessage>, string>)
    ensures r.Success? ==> r.value != [] && |merged| <= |r.value| <= |merged| + 1
    ensures r.Success? ==> r.value[|r.value| - 1].role == m.role
  {
    if merged != [] && merged[|merged| - 1].role == m.role then
      match Combine(merged[|merged| - 1].content, m.content)
      case Failure(e) => Failure(e)
      case Success(c) => Success(merged[..|merged| - 1] + [AMessage(m.role, c)])
    else Success(merged + [m])
  }

  /** The merge loop over `ms`, front to back. */
  function Merge(ms: seq<AMessage>): (r: Result<seq<AMessage>, string>)
    ensures r.Success? ==> |r.value| <= |ms| && (r.value == [] <==> ms == [])
    ensures r.Success? && ms != [] ==> r.value[|r.value| - 1].role == ms[|ms| - 1].role
    decreases |ms|
  {
    if ms == [] then Success([])
    else
      match Merge(ms[..|ms| - 1])
      case Failure(e) => Failure(e)
      case Success(acc) => Step(acc, ms[|ms| - 1])
  }

  /** One merge step keeps the merged messages alternating, and the
      first role. */
  lemma StepAlternates(acc: seq<AMessage>, m: AMessage)
    requires Alternating(acc)
    requires Step(acc, m).Success?
    ensures Alternating(Step(acc, m).value)
    ensures |Step(acc, m).value| <= |acc| + 1 && Step(acc, m).value != []
    ensures Step(acc, m).value[0].role == if acc == [] then m.role else acc[0].role
  {
    var r := Step(acc, m).value;
    if acc != [] && acc[|acc| - 1].role == m.role {
      assert |r| == |acc| && r[|r| - 1].role == acc[|acc| - 1].role;
      forall k | 0 <= k < |r| - 1 ensures r[k].role != r[k + 1].role {
        assert r[k] == acc[k];
        if k + 1 < |r| - 1 { assert r[k + 1] == acc[k + 1]; }
      }
      if |acc| == 1 { assert r[0].role == acc[0].role; }
    } else {
      assert r == acc + [m];
      forall k | 0 <= k < |r| - 1 ensures r[k].role != r[k + 1].role {
        assert r[k] == acc[k];
        if k + 1 < |r| - 1 { assert r[k + 1] == acc[k + 1]; }
      }
    }
  }

  /** Merging leaves no two neighbours with the same role, and keeps the
      role of the first message. */
  lemma {:induction false} MergeAlternates(ms: seq<AMessage>)
    requires Merge(ms).Success?
    ensures Alternating(Merge(ms).value)
    ensures |Merge(ms).value| <= |ms| && (Merge(ms).value == [] <==> ms == [])
    ensures ms != [] ==> Merge(ms).value[0].role == ms[0].role
    decreases |ms|
  {
    if ms != [] {
      var init, m := ms[..|ms| - 1], ms[|ms| - 1];
      MergeAlternates(init);
      StepAlternates(Merge(init).value, m);
      if init != [] { assert init[0] == ms[0]; }
    }
  }

  /** One merge step adds the blocks of the new message after those
      already merged. */
  lemma StepKeepsBlocks(acc: seq<AMessage>, m: AMessage)
    requires Step(acc, m).Success?
    ensures Flat(Step(acc, m).value) == Flat(acc) + Items(m.content)
  {
    if acc != [] && acc[|acc| - 1].role == m.role {
      var last, front := acc[|acc| - 1], acc[..|acc| - 1];
      var c := Combine(last.content, m.content).value;
      assert acc == front + [last];
      FlatLast(front, last);
      FlatLast(front, AMessage(m.role, c));
    } else {
      FlatLast(acc, m);
    }
  }

  /** Merging keeps every block in order, a string content becoming one
      text block. */
  lemma {:induction false} MergeKeepsBlocks(ms: seq<AMessage>)
    requires Merge(ms).Success?
    ensures Flat(Merge(ms).value) == Flat(ms)
    decreases |ms|
  {
    if ms != [] {
      var init, m := ms[..|ms| - 1], ms[|ms| - 1];
      assert ms == init + [m];
      MergeKeepsBlocks(init);
      FlatLast(init, m);
      StepKeepsBlocks(Merge(init).value, m);
    }
  }

  lemma FlatLast(front: seq<AMessage>, x: AMessage)
    ensures Flat(front + [x]) == Flat(front) + Items(x.content)
  {
    FlatAppend(front, [x]);
    assert [x][1..] == [];
  }

  /** Messages that already alternate come out of the merge unchanged:
      merging is idempotent. */
  lemma {:induction false} MergeAlternating(ms: seq<AMessage>)
    requires Alternating(ms)
    ensures Merge(ms) == Success(ms)
    decreases |ms|
  {
    if ms != [] {
      var init := ms[..|ms| - 1];
      assert Alternating(init) by {
        forall k | 0 <= k < |init| - 1 ensures init[k].role != init[k + 1].role {
          assert init[k] == ms[k] && init[k + 1] == ms[k + 1];
        }
      }
      MergeAlternating(init);
      assert ms == init + [ms[|ms| - 1]];
      if init != [] {
        assert init[|init| - 1] == ms[|ms| - 2];
      }
    }
  }

  /** Without a `None` content the merge cannot fail. */
  lemma {:induction false} MergeSucceeds(ms: seq<AMessage>)
    requires forall k :: 0 <= k < |ms| ==> !ms[k].content.Absent?
    ensures Merge(ms).Success?
    ensures forall k :: 0 <= k < |Merge(ms).value| ==> !Merge(ms).value[k].content.Absent?
    decreases |ms|
  {
    if ms != [] {
      var init := ms[..|ms| - 1];
      MergeSucceeds(init);
    }
  }

  /** The result of `_convert_messages`: the system text and the
      Anthropic messages. */
  datatype Conversion = Conversion(system: string, messages: seq<AMessage>)

  /** A user message without content: `to_api_format` leaves its
      "content" key out, so `msg["content"]` raises KeyError. */
  predicate LacksContent(m: WireMessage) {
    m.role == "user" && m.content.None?
  }

  /** A message `_convert_messages` cannot read: a user message without
      content, or a tool message whose empty call id `to_api_format` left
      out, so that `tmsg["tool_call_id"]` raises KeyError. */
  predicate Unreadable(m: WireMessage) {
    LacksContent(m) || (m.role == "tool" && m.toolCallId == [])
  }

  /** The key whose absence makes an unreadable message raise. */
  function MissingKey(m: WireMessage): string {
    if m.role == "user" then "content" else "tool_call_id"
  }

  /** The position of the first unreadable message, if any. */
  function FirstUnreadable(msgs: seq<WireMessage>): (r: Option<nat>)
    ensures r.None? <==> forall k :: 0 <= k < |msgs| ==> !Unreadable(msgs[k])
    ensures r.Some? ==> r.value < |msgs| && Unreadable(msgs[r.value])
                        && forall j :: 0 <= j < r.value ==> !Unreadable(msgs[j])
  {
    if msgs == [] then None
    else if Unreadable(msgs[0]) then Some(0)
    else match FirstUnreadable(msgs[1..])
      case None => None
      case Some(k) => Some(k + 1)
  }

  /** `_convert_messages`, on messages as `get_api_messages` gives them:
      the loop raises KeyError at the first unreadable message, and
      otherwise always succeeds. The result carries the system texts, and
      alternating messages whose blocks are the input's, after a "Hello."
      when the first kept message is the assistant's. */
  function ConvertMessages(msgs: seq<WireMessage>, parse: string -> Option<Json>): (r: Result<Conversion, string>)
    ensures r.Failure? <==> exists k :: 0 <= k < |msgs| && Unreadable(msgs[k])
    ensures r.Failure? ==> exists k :: 0 <= k < |msgs| && Unreadable(msgs[k])
                                       && (forall j :: 0 <= j < k ==> !Unreadable(msgs[j]))
                                       && r.error == KeyErrorText(MissingKey(msgs[k]))
    ensures r.Success? ==> r.value.system == Join("\n\n", SystemParts(msgs))
    ensures r.Success? ==> Alternating(r.value.messages)
    ensures r.Success? ==> r.value.messages == [] || r.value.messages[0].role == "user"
    ensures r.Success? ==> Flat(r.value.messages)
                           == (if OpensWithAssistant(msgs) then [TextBlock("Hello.")] else []) + BlocksIn(msgs, parse)
    ensures r.Success? ==> ToolBlocks(Flat(r.value.messages)) == ToolBlocksIn(msgs, parse)
  {
    match FirstUnreadable(msgs)
    case Some(k) => Failure(KeyErrorText(MissingKey(msgs[k])))
    case None =>
      var greeted := Greeted(Converted(msgs, parse));
      ConvertedTools(msgs, parse);
      ConvertMessagesSucceeds(msgs, parse);
      var merged := Merge(greeted).value;
      MergeAlternates(greeted);
      MergeKeepsBlocks(greeted);
      Success(Conversion(Join("\n\n", SystemParts(msgs)), merged))
  }

  /** A tool message with an empty call id stops the conversion with
      KeyError 'tool_call_id'. */
  lemma EmptyCallIdRaises(content: Option<string>, parse: string -> Option<Json>)
    ensures ConvertMessages([WireMessage("tool", content, [], "")], parse) == Failure(KeyErrorText("tool_call_id"))
  {
    assert FirstUnreadable([WireMessage("tool", content, [], "")]) == Some(0);
  }

  /** When every user message has content, no converted message lacks
      one, so greeting and merging cannot fail. */
  lemma ConvertMessagesSucceeds(msgs: seq<WireMessage>, parse: string -> Option<Json>)
    requires forall k :: 0 <= k < |msgs| ==> !LacksContent(msgs[k])
    ensures Merge(Greeted(Converted(msgs, parse))).Success?
  {
    var c := Converted(msgs, parse);
    ConvertedPresent(msgs, parse);
    GreetedPresent(c);
    MergeSucceeds(Greeted(c));
  }

  /** The greeting turn has content, so greeting adds no absent one. */
  lemma GreetedPresent(c: seq<AMessage>)
    requires forall k :: 0 <= k < |c| ==> !c[k].content.Absent?
    ensures forall k :: 0 <= k < |Greeted(c)| ==> !Greeted(c)[k].content.Absent?
  {
    var g := Greeted(c);
    if c != [] && c[0].role != "user" {
      forall k | 0 <= k < |g| ensures !g[k].content.Absent? {
        if k > 0 { assert g[k] == c[k - 1]; }
      }
    }
  }

  lemma {:induction false} ConvertedPresent(msgs: seq<WireMessage>, parse: string -> Option<Json>)
    requires forall k :: 0 <= k < |msgs| ==> !LacksContent(msgs[k])
    ensures forall k :: 0 <= k < |Converted(msgs, parse)| ==> !Converted(msgs, parse)[k].content.Absent?
    decreases |msgs|
  {
    if msgs != [] {
      var n := if msgs[0].role == "tool" then ToolRun(msgs) else 1;
      assert forall k :: 0 <= k < |msgs[n..]| ==> msgs[n..][k] == msgs[n + k];
      ConvertedPresent(msgs[n..], parse);
    }
  }

  /** A history that already alternates user and assistant text turns,
      starting with the user, converts to the same turns. */
  lemma PlainTurnsUnchanged(texts: seq<string>, parse: string -> Option<Json>)
    requires forall k :: 0 <= k < |texts| ==> texts[k] != []
    ensures ConvertMessages(Turns(texts, "user"), parse) == Success(Conversion("", Expected(texts, "user")))
  {
    var ms, e := Turns(texts, "user"), Expected(texts, "user");
    TurnsHaveContent(texts, "user");
    assert FirstUnreadable(ms) == None;
    TurnsConverted(texts, "user", parse);
    ExpectedAlternates(texts, "user");
    assert Greeted(Converted(ms, parse)) == e;
    MergeAlternating(e);
    assert SystemParts(ms) == [] by { NoSystemParts(texts, "user"); }
  }

  lemma {:induction false} TurnsHaveContent(texts: seq<string>, role: string)
    requires role == "user" || role == "assistant"
    ensures forall k :: 0 <= k < |Turns(texts, role)| ==> !Unreadable(Turns(texts, role)[k])
  {
    if texts != [] {
      TurnsHaveContent(texts[1..], Other(role));
      var ms := Turns(texts, role);
      assert forall k :: 1 <= k < |ms| ==> ms[k] == Turns(texts[1..], Other(role))[k - 1];
    }
  }

  function Other(role: string): string {
    if role == "user" then "assistant" else "user"
  }

  /** Text turns alternating between the roles, starting with `role`. */
  function Turns(texts: seq<string>, role: string): seq<WireMessage> {
    if texts == [] then [] else [WireMessage(role, Some(texts[0]), [], "")] + Turns(texts[1..], Other(role))
  }

  /** What those turns convert to: user text stays a string, assistant
      text becomes one text block. */
  function Expected(texts: seq<string>, role: string): seq<AMessage> {
    if texts == [] then []
    else [AMessage(role, if role == "user" then Text(texts[0]) else Blocks([TextBlock(texts[0])]))]
         + Expected(texts[1..], Other(role))
  }

  lemma {:induction false} TurnsConverted(texts: seq<string>, role: string, parse: string -> Option<Json>)
    requires role == "user" || role == "assistant"
    requires forall k :: 0 <= k < |texts| ==> texts[k] != []
    ensures Converted(Turns(texts, role), parse) == Expected(texts, role)
  {
    if texts != [] {
      var ms := Turns(texts, role);
      assert ms[1..] == Turns(texts[1..], Other(role));
      if role == "assistant" {
        assert AssistantBlocks(ms[0], parse) == [TextBlock(texts[0])];
      }
      TurnsConverted(texts[1..], Other(role), parse);
    }
  }

  lemma {:induction false} ExpectedAlternates(texts: seq<string>, role: string)
    ensures Alternating(Expected(texts, role))
    ensures Expected(texts, role) != [] ==> Expected(texts, role)[0].role == role
    ensures Expected(texts, role) == [] || Expected(texts, role)[0].role == "user" || role != "user"
  {
    if texts != [] {
      ExpectedAlternates(texts[1..], Other(role));
      var e := Expected(texts, role);
      var rest := Expected(texts[1..], Other(role));
      assert e == [e[0]] + rest;
      forall k | 0 <= k < |e| - 1 ensures e[k].role != e[k + 1].role {
        if k > 0 { assert e[k] == rest[k - 1] && e[k + 1] == rest[k]; }
      }
    }
  }

  lemma {:induction false} NoSystemParts(texts: seq<string>, role: string)
    requires role == "user" || role == "assistant"
    ensures SystemParts(Turns(texts, role)) == []
  {
    if texts != [] {
      NoSystemParts(texts[1..], Other(role));
    }
  }

  // ---------------------------------------------------------------------
  // `_convert_tools`
  // ---------------------------------------------------------------------

  /** The schema used when a function definition has no `parameters`. */
  const EmptySchema: Json := JObj([("type", JStr("object")), ("properties", JObj([]))])

  /** One Anthropic tool definition. */
  function AnthropicTool(name: Json, description: Json, schema: Json): Json {
    JObj([("name", name), ("description", description), ("input_schema", schema)])
  }

  /** One function definition as Anthropic expects it: the function's
      name, its description or "", and its parameters or the empty object
      schema. A definition whose `function` entry or name is missing
      raises KeyError. */
  function ConvertTool(def: Json): (r: Result<Json, string>)
    ensures r.Success? <==> def.JObj? && Lookup(def.fields, "function").Some?
                            && Lookup(def.fields, "function").value.JObj?
                            && Lookup(Lookup(def.fields, "function").value.fields, "name").Some?
    ensures r.Success? ==>
              var fn := Lookup(def.fields, "function").value.fields;
              r.value == AnthropicTool(Lookup(fn, "name").value, Lookup(fn, "description").GetOr(JStr("")),
                                       Lookup(fn, "parameters").GetOr(EmptySchema))
  {
    var fn :- Index(def, "function");
    var name :- Index(fn, "name");
    Success(AnthropicTool(name, Lookup(fn.fields, "description").GetOr(JStr("")),
                          Lookup(fn.fields, "parameters").GetOr(EmptySchema)))
  }

  /** An entry `_convert_tools` converts: a dict whose "type" is "function". */
  predicate IsFunctionDef(t: Json) {
    t.JObj? && Lookup(t.fields, "type") == Some(JStr("function"))
  }

  /** The entries `_convert_tools` converts, in order. */
  function FunctionDefs(tools: seq<Json>): (r: seq<Json>)
    ensures forall t :: t in r <==> t in tools && IsFunctionDef(t)
  {
    if tools == [] then []
    else
      assert forall t :: t in tools <==> t == tools[0] || t in tools[1..];
      (if IsFunctionDef(tools[0]) then [tools[0]] else []) + FunctionDefs(tools[1..])
  }

  /** An entry `_convert_tools` gets through: a dict, which converts when
      it is a function definition. */
  predicate Convertible(t: Json) {
    t.JObj? && (IsFunctionDef(t) ==> ConvertTool(t).Success?)
  }

  /** Every entry gets through. */
  predicate AllConvertible(tools: seq<Json>) {
    forall t :: t in tools ==> Convertible(t)
  }

  /** `_convert_tools`: entries whose `type` is not "function" are
      skipped, and the others become one Anthropic tool each, in order.
      It succeeds exactly when every entry is a dict and every function
      entry converts. */
  function ConvertTools(tools: seq<Json>): (r: Result<seq<Json>, string>)
    ensures r.Success? <==> AllConvertible(tools)
    ensures r.Success? ==> |r.value| == |FunctionDefs(tools)|
    ensures r.Success? ==> forall k :: 0 <= k < |r.value| ==> ConvertTool(FunctionDefs(tools)[k]) == Success(r.value[k])
  {
    if tools == [] then Success([])
    else
      ToolsCons(tools);
      var first :- ConvertEntry(tools[0]);
      var rest :- ConvertTools(tools[1..]);
      match first
      case None => Success(rest)
      case Some(one) =>
        ConsAgrees(tools[0], FunctionDefs(tools[1..]), one, rest);
        Success([one] + rest)
  }

  /** One entry of the loop: `tool.get("type")`, then the conversion of a
      function definition; other entries give nothing. */
  function ConvertEntry(t: Json): (r: Result<Option<Json>, string>)
    ensures r.Success? <==> Convertible(t)
    ensures r.Success? ==> (r.value.Some? <==> IsFunctionDef(t))
    ensures r.Success? && r.value.Some? ==> ConvertTool(t) == Success(r.value.value)
  {
    var kind :- Get(t, "type");
    if kind != Some(JStr("function")) then Success(None)
    else
      var one :- ConvertTool(t);
      Success(Some(one))
  }

  /** The first entry and the rest, for `ConvertTools`. */
  lemma ToolsCons(tools: seq<Json>)
    requires tools != []
    ensures AllConvertible(tools) <==> Convertible(tools[0]) && AllConvertible(tools[1..])
    ensures FunctionDefs(tools) == (if IsFunctionDef(tools[0]) then [tools[0]] else []) + FunctionDefs(tools[1..])
  {
    assert forall t :: t in tools <==> t == tools[0] || t in tools[1..];
  }

  /** One converted definition in front of the conversions of the rest. */
  lemma ConsAgrees(d: Json, defs: seq<Json>, one: Json, rest: seq<Json>)
    requires ConvertTool(d) == Success(one)
    requires |rest| == |defs| && forall k :: 0 <= k < |rest| ==> ConvertTool(defs[k]) == Success(rest[k])
    ensures forall k :: 0 <= k < |rest| + 1 ==> ConvertTool(([d] + defs)[k]) == Success(([one] + rest)[k])
  {
    forall k | 0 <= k < |rest| + 1 ensures ConvertTool(([d] + defs)[k]) == Success(([one] + rest)[k]) {
      if k > 0 { assert ([d] + defs)[k] == defs[k - 1] && ([one] + rest)[k] == rest[k - 1]; }
    }
  }

  /** A chat-completions function definition. */
  function FunctionDef(fields: seq<(string, Json)>): Json {
    JObj([("type", JStr("function")), ("function", JObj(fields))])
  }

  /** A full definition converts to its name, description and schema. */
  lemma ConvertFullTool(name: string, description: string, schema: Json)
    ensures ConvertTools([FunctionDef([("name", JStr(name)), ("description", JStr(description)), ("parameters", schema)])])
            == Success([AnthropicTool(JStr(name), JStr(description), schema)])
  {
    var fields := [("name", JStr(name)), ("description", JStr(description)), ("parameters", schema)];
    var def := FunctionDef(fields);
    assert Lookup(def.fields, "type") == Some(JStr("function"));
    LookupAt(def.fields, 1, "function");
    LookupAt(fields, 0, "name");
    LookupAt(fields, 1, "description");
    LookupAt(fields, 2, "parameters");
    assert Get(def, "type") == Success(Some(JStr("function")));
    assert Index(def, "function") == Success(JObj(fields));
    assert Index(JObj(fields), "name") == Success(JStr(name));
    assert GetOr(JObj(fields), "description", JStr("")) == Success(JStr(description));
    assert GetOr(JObj(fields), "parameters", EmptySchema) == Success(schema);
    assert ConvertTool(def) == Success(AnthropicTool(JStr(name), JStr(description), schema));
    assert [def][1..] == [];
    ConvertToolsOne(def);
  }

  /** A definition with only a name gets an empty description and the
      empty object schema. */
  lemma ConvertBareTool(name: string)
    ensures ConvertTools([FunctionDef([("name", JStr(name))])])
            == Success([AnthropicTool(JStr(name), JStr(""), EmptySchema)])
  {
    var fields := [("name", JStr(name))];
    var def := FunctionDef(fields);
    assert Lookup(def.fields, "type") == Some(JStr("function"));
    LookupAt(def.fields, 1, "function");
    LookupAbsent(fields, "description");
    LookupAbsent(fields, "parameters");
    assert Get(def, "type") == Success(Some(JStr("function")));
    assert Index(def, "function") == Success(JObj(fields));
    assert Index(JObj(fields), "name") == Success(JStr(name));
    assert GetOr(JObj(fields), "description", JStr("")) == Success(JStr(""));
    assert GetOr(JObj(fields), "parameters", EmptySchema) == Success(EmptySchema);
    assert ConvertTool(def) == Success(AnthropicTool(JStr(name), JStr(""), EmptySchema));
    ConvertToolsOne(def);
  }

  /** A single function definition converts to its own conversion. */
  lemma ConvertToolsOne(def: Json)
    requires def.JObj? && Lookup(def.fields, "type") == Some(JStr("function"))
    requires ConvertTool(def).Success?
    ensures ConvertTools([def]) == Success([ConvertTool(def).value])
  {
    var t := [def];
    var one := ConvertTool(def).value;
    assert t[0] == def && t[1..] == [];
    assert Get(t[0], "type") == Success(Some(JStr("function")));
    assert ConvertTools(t[1..]) == Success([]);
    assert [one] + [] == [one];
  }

  /** An entry of another type is skipped wherever it stands. */
  lemma SkipsOtherTypes(tools: seq<Json>, kind: string)
    requires kind != "function"
    ensures ConvertTools([JObj([("type", JStr(kind))])] + tools) == ConvertTools(tools)
  {
    var t := [JObj([("type", JStr(kind))])] + tools;
    assert t[1..] == tools;
    assert Lookup(t[0].fields, "type") == Some(JStr(kind));
  }

  // ---------------------------------------------------------------------
  // The normalised response
  // ---------------------------------------------------------------------

  /** A tool call of the normalised response; `arguments` is JSON text. */
  datatype ToolCall = ToolCall(id: string, name: string, arguments: string)

  /** The message of the single choice of a normalised response. */
  datatype ChatMessage = ChatMessage(content: Option<string>, toolCalls: Option<seq<ToolCall>>)

  datatype Usage = Usage(promptTokens: int, completionTokens: int)

  /** `ChatResponse`: always exactly one choice. */
  datatype ChatResponse = ChatResponse(message: ChatMessage, usage: Usage)

  /** A token count read with `getattr(usage, name, 0) or 0`. */
  function Count(c: Option<int>): (r: int)
    ensures c.None? ==> r == 0
    ensures c.Some? ==> r == c.value
  {
    match c
    case Some(n) => n
    case None => 0
  }

  /** A block of an Anthropic response: text, a tool call, or a kind the
      normaliser ignores. */
  datatype RespBlock = RText(text: string) | RToolUse(id: string, name: string, input: Json) | ROther

  /** An Anthropic response: its blocks and the usage counts (`None` when
      missing or null). */
  datatype AnthropicResp = AnthropicResp(blocks: seq<RespBlock>, inputTokens: Option<int>, outputTokens: Option<int>)

  function RespTexts(bs: seq<RespBlock>): (r: seq<string>)
    ensures |r| <= |bs|
  {
    if bs == [] then [] else (if bs[0].RText? then [bs[0].text] else []) + RespTexts(bs[1..])
  }

  function RespCalls(bs: seq<RespBlock>, dumps: Json -> string): (r: seq<ToolCall>)
    ensures |r| <= |bs|
  {
    if bs == [] then []
    else (if bs[0].RToolUse? then [ToolCall(bs[0].id, bs[0].name, dumps(bs[0].input))] else [])
         + RespCalls(bs[1..], dumps)
  }

  /** Anthropic `_normalise`: the text blocks joined by newlines (no
      content when there is none), the tool_use blocks as calls with
      their input re-encoded (no calls when there is none), and the usage
      counts with 0 for a missing one. */
  function NormaliseAnthropic(resp: AnthropicResp, dumps: Json -> string): (r: ChatResponse)
    ensures r.message.content.None? <==> RespTexts(resp.blocks) == []
    ensures r.message.content.Some? ==> r.message.content.value == Join("\n", RespTexts(resp.blocks))
    ensures r.message.toolCalls.None? <==> RespCalls(resp.blocks, dumps) == []
    ensures r.message.toolCalls.Some? ==> r.message.toolCalls.value == RespCalls(resp.blocks, dumps)
    ensures r.usage == Usage(Count(resp.inputTokens), Count(resp.outputTokens))
  {
    var texts := RespTexts(resp.blocks);
    var calls := RespCalls(resp.blocks, dumps);
    ChatResponse(
      ChatMessage(if texts == [] then None else Some(Join("\n", texts)), if calls == [] then None else Some(calls)),
      Usage(Count(resp.inputTokens), Count(resp.outputTokens)))
  }

  /** The tool_use blocks of a response, as the request blocks they are. */
  function RespUses(bs: seq<RespBlock>): seq<Block> {
    if bs == [] then []
    else (if bs[0].RToolUse? then [ToolUse(bs[0].id, bs[0].name, bs[0].input)] else []) + RespUses(bs[1..])
  }

  /** The assistant message the agent records from a normalised reply. */
  function Recorded(m: ChatMessage): WireMessage {
    var calls := if m.toolCalls.Some? then m.toolCalls.value else [];
    WireMessage("assistant", m.content,
                seq(|calls|, k requires 0 <= k < |calls| => WireCall(calls[k].id, calls[k].name, calls[k].arguments)), "")
  }

  /** Normalising a response and converting the recorded reply back gives
      the same tool_use blocks, when `json.loads` reads back what
      `json.dumps` wrote. */
  lemma NormaliseConvertRoundTrip(resp: AnthropicResp, dumps: Json -> string, parse: string -> Option<Json>)
    requires forall j :: parse(dumps(j)) == Some(j)
    ensures ToolBlocks(AssistantBlocks(Recorded(NormaliseAnthropic(resp, dumps).message), parse)) == RespUses(resp.blocks)
  {
    var calls := RespCalls(resp.blocks, dumps);
    var w := Recorded(NormaliseAnthropic(resp, dumps).message);
    assert |w.toolCalls| == |calls|;
    CallsRoundTrip(resp.blocks, dumps, parse);
    assert Uses(w.toolCalls, parse) == Uses(seq(|calls|, k requires 0 <= k < |calls| => WireCall(calls[k].id, calls[k].name, calls[k].arguments)), parse);
  }

  lemma {:induction false} CallsRoundTrip(bs: seq<RespBlock>, dumps: Json -> string, parse: string -> Option<Json>)
    requires forall j :: parse(dumps(j)) == Some(j)
    ensures var calls := RespCalls(bs, dumps);
            Uses(seq(|calls|, k requires 0 <= k < |calls| => WireCall(calls[k].id, calls[k].name, calls[k].arguments)), parse)
            == RespUses(bs)
  {
    if bs != [] {
      CallsRoundTrip(bs[1..], dumps, parse);
      var calls := RespCalls(bs, dumps);
      var rest := RespCalls(bs[1..], dumps);
      var w := seq(|calls|, k requires 0 <= k < |calls| => WireCall(calls[k].id, calls[k].name, calls[k].arguments));
      var wr := seq(|rest|, k requires 0 <= k < |rest| => WireCall(rest[k].id, rest[k].name, rest[k].arguments));
      if bs[0].RToolUse? {
        assert calls == [ToolCall(bs[0].id, bs[0].name, dumps(bs[0].input))] + rest;
        assert w == [WireCall(bs[0].id, bs[0].name, dumps(bs[0].input))] + wr;
        assert Uses(w, parse) == [ToolUse(bs[0].id, bs[0].name, bs[0].input)] + Uses(wr, parse);
      } else {
        assert calls == rest;
      }
    }
  }

  /** A message of an OpenAI completion: content and tool calls pass
      through (`None` calls when the list is missing or empty). */
  datatype OpenAIResp = OpenAIResp(content: Option<string>, toolCalls: Option<seq<ToolCall>>,
                                   promptTokens: Option<int>, completionTokens: Option<int>)

  /** OpenAI `_normalise`. */
  function NormaliseOpenAI(resp: OpenAIResp): (r: ChatResponse)
    ensures r.message.content == resp.content
    ensures r.message.toolCalls.Some? <==> resp.toolCalls.Some? && resp.toolCalls.value != []
    ensures r.message.toolCalls.Some? ==> r.message.toolCalls == resp.toolCalls
    ensures r.usage == Usage(Count(resp.promptTokens), Count(resp.completionTokens))
  {
    var calls := if resp.toolCalls.Some? && resp.toolCalls.value != [] then resp.toolCalls else None;
    ChatResponse(ChatMessage(resp.content, calls), Usage(Count(resp.promptTokens), Count(resp.completionTokens)))
  }

  // ---------------------------------------------------------------------
  // The Anthropic request
  // ---------------------------------------------------------------------

  /** The keyword arguments of `messages.create`: `system` only when the
      system text is not empty, and the tools with `{"type": choice}` only
      when at least one tool converted. The temperature is not modelled. */
  datatype AnthropicRequest = AnthropicRequest(model: string, messages: seq<AMessage>, maxTokens: int,
                                               system: Option<string>, tools: Option<(seq<Json>, Json)>)

  /** `AnthropicProvider.chat` up to the SDK call: the request carries
      the converted messages, the joined system text when there is one,
      and the converted tools with the tool choice when there are some.
      The message conversion raises first, then the tool conversion. */
  function AnthropicChat(model: string, msgs: seq<WireMessage>, tools: seq<Json>, toolChoice: string,
                         maxTokens: int, parse: string -> Option<Json>): (r: Result<AnthropicRequest, string>)
    ensures r.Success? <==> ConvertMessages(msgs, parse).Success? && ConvertTools(tools).Success?
    ensures ConvertMessages(msgs, parse).Failure? ==> r == Failure(ConvertMessages(msgs, parse).error)
    ensures ConvertMessages(msgs, parse).Success? && ConvertTools(tools).Failure? ==> r == Failure(ConvertTools(tools).error)
    ensures r.Success? ==> r.value.model == model && r.value.maxTokens == maxTokens
    ensures r.Success? ==> r.value.messages == ConvertMessages(msgs, parse).value.messages
    ensures r.Success? ==> (r.value.system.Some? <==> SystemParts(msgs) != [])
    ensures r.Success? && r.value.system.Some? ==> r.value.system.value == ConvertMessages(msgs, parse).value.system
    ensures r.Success? ==> (r.value.tools.Some? <==> ConvertTools(tools).value != [])
    ensures r.Success? && r.value.tools.Some? ==>
              r.value.tools.value == (ConvertTools(tools).value, JObj([("type", JStr(toolChoice))]))
    ensures r.Success? ==> Alternating(r.value.messages)
  {
    var conv :- ConvertMessages(msgs, parse);
    var converted :- ConvertTools(tools);
    JoinEmpty(SystemParts(msgs));
    Success(AnthropicRequest(model, conv.messages, maxTokens,
                             if conv.system != [] then Some(conv.system) else None,
                             if converted != [] then Some((converted, JObj([("type", JStr(toolChoice))]))) else None))
  }

  /** Joining non-empty parts gives the empty string only for no parts. */
  lemma JoinEmpty(parts: seq<string>)
    requires forall k :: 0 <= k < |parts| ==> parts[k] != []
    ensures Join("\n\n", parts) == [] <==> parts == []
  {
    if |parts| > 1 {
      assert |Join("\n\n", parts)| >= |parts[0]|;
    }
  }
}

=== FILE: session.dfy ===
/** Conversation history of one agent: messages, turn counter, token usage,
    fork lineage, compaction and the saved-file field mapping. Every mutator
    of the Python `Session` object is a function returning the new value. */
module Sessions {
  import opened Wrappers
  import opened Json

  /** Default threshold of `needs_compaction`. */
  const DefaultMaxMessages: int := 100
  /** Number of trailing messages compaction keeps. */
  const KeptTail: nat := 10

  datatype Message = Message(
    role: string,
    content: Option<string>,
    toolCalls: Option<seq<Json>>,
    toolCallId: Option<string>,
    name: Option<string>)

  /** A message with only a role and text. */
  function TextMessage(role: string, text: string): Message {
    Message(role, Some(text), None, None, None)
  }

  datatype Usage = Usage(promptTokens: int, completionTokens: int, totalTokens: int) {
    predicate Consistent() {
      totalTokens == promptTokens + completionTokens
    }

    /** `UsageStats.add`: each counter grows by its share, so the running
        total stays the sum of the other two. */
    function Add(prompt: int, completion: int): (r: Usage)
      ensures r.promptTokens - promptTokens == prompt
      ensures r.completionTokens - completionTokens == completion
      ensures r.totalTokens - totalTokens == prompt + completion
      ensures Consistent() ==> r.Consistent()
    {
      Usage(promptTokens + prompt, completionTokens + completion, totalTokens + prompt + completion)
    }
  }

  const NoUsage := Usage(0, 0, 0)

  datatype Session = Session(
    workingDir: string,
    systemPrompt: string,
    messages: seq<Message>,
    createdAt: string,
    turnCount: int,
    sessionId: string,
    parentSessionId: Option<string>,
    childSessionIds: seq<string>,
    usage: Usage)

  // ---------------------------------------------------------------------
  // Construction and appends
  // ---------------------------------------------------------------------

  /** `Session(working_dir, system_prompt, ...)` with no messages given: a
      non-empty prompt becomes the single system message. The id and the
      creation time, generated in the source, are parameters. */
  function NewSession(workingDir: string, systemPrompt: string, createdAt: string,
                      sessionId: string, parent: Option<string>): (r: Session)
    ensures systemPrompt != [] ==> r.messages == [TextMessage("system", systemPrompt)]
    ensures systemPrompt == [] ==> r.messages == []
    ensures r.turnCount == 0 && r.usage == NoUsage
    ensures r.childSessionIds == [] && r.parentSessionId == parent && r.sessionId == sessionId
    ensures r.workingDir == workingDir && r.systemPrompt == systemPrompt && r.createdAt == createdAt
  {
    Session(workingDir, systemPrompt,
            if systemPrompt != [] then [TextMessage("system", systemPrompt)] else [],
            createdAt, 0, sessionId, parent, [], NoUsage)
  }

  function AddUserMessage(s: Session, content: string): (r: Session)
    ensures r.messages == s.messages + [TextMessage("user", content)]
    ensures r.turnCount == s.turnCount + 1
    ensures r == s.(messages := r.messages, turnCount := r.turnCount)
  {
    s.(messages := s.messages + [TextMessage("user", content)], turnCount := s.turnCount + 1)
  }

  function AddAssistantMessage(s: Session, content: Option<string>, toolCalls: Option<seq<Json>>): (r: Session)
    ensures r.messages == s.messages + [Message("assistant", content, toolCalls, None, None)]
    ensures r == s.(messages := r.messages)
  {
    s.(messages := s.messages + [Message("assistant", content, toolCalls, None, None)])
  }

  function AddToolResult(s: Session, toolCallId: string, name: string, result: string): (r: Session)
    ensures r.messages == s.messages + [Message("tool", Some(result), None, Some(toolCallId), Some(name))]
    ensures r == s.(messages := r.messages)
  {
    s.(messages := s.messages + [Message("tool", Some(result), None, Some(toolCallId), Some(name))])
  }

  function RecordUsage(s: Session, promptTokens: int, completionTokens: int): (r: Session)
    ensures r.usage.promptTokens == s.usage.promptTokens + promptTokens
    ensures r.usage.completionTokens == s.usage.completionTokens + completionTokens
    ensures s.usage.Consistent() ==> r.usage.Consistent()
    ensures r == s.(usage := r.usage)
  {
    s.(usage := s.usage.Add(promptTokens, completionTokens))
  }

  /** One history operation; used to state what a run of appends does. */
  datatype HistoryOp =
    | UserOp(text: string)
    | AssistantOp(content: Option<string>, toolCalls: Option<seq<Json>>)
    | ToolOp(callId: string, toolName: string, result: string)

  function Apply(s: Session, op: HistoryOp): Session {
    match op
    case UserOp(t) => AddUserMessage(s, t)
    case AssistantOp(c, tc) => AddAssistantMessage(s, c, tc)
    case ToolOp(id, n, res) => AddToolResult(s, id, n, res)
  }

  function ApplyAll(s: Session, ops: seq<HistoryOp>): Session
    decreases |ops|
  {
    if ops == [] then s else ApplyAll(Apply(s, ops[0]), ops[1..])
  }

  function UserOps(ops: seq<HistoryOp>): nat {
    if ops == [] then 0 else (if ops[0].UserOp? then 1 else 0) + UserOps(ops[1..])
  }

  /** Every append adds exactly one message; only user messages move the
      turn counter, each by one. */
  lemma {:induction false} ApplyAllCounts(s: Session, ops: seq<HistoryOp>)
    ensures |ApplyAll(s, ops).messages| == |s.messages| + |ops|
    ensures ApplyAll(s, ops).turnCount == s.turnCount + UserOps(ops)
    ensures ApplyAll(s, ops).messages[..|s.messages|] == s.messages
    decreases |ops|
  {
    if ops != [] {
      var s1 := Apply(s, ops[0]);
      ApplyAllCounts(s1, ops[1..]);
      assert s1.messages[..|s.messages|] == s.messages;
    }
  }

  /** Starting from a fresh session, the history holds one message per call
      plus the system message when a prompt was given. */
  lemma MessageCountFromFresh(workingDir: string, prompt: string, createdAt: string,
                              id: string, ops: seq<HistoryOp>)
    ensures |ApplyAll(NewSession(workingDir, prompt, createdAt, id, None), ops).messages|
            == |ops| + (if prompt != [] then 1 else 0)
    ensures ApplyAll(NewSession(workingDir, prompt, createdAt, id, None), ops).turnCount == UserOps(ops)
  {
    var s0 := NewSession(workingDir, prompt, createdAt, id, None);
    assert |s0.messages| == (if prompt != [] then 1 else 0);
    ApplyAllCounts(s0, ops);
  }

  // ---------------------------------------------------------------------
  // Forking
  // ---------------------------------------------------------------------

  /** The prompt a forked child starts from: the one given, unless it is
      None or empty, in which case the parent's. */
  function ChildPrompt(parent: Session, systemPrompt: Option<string>): (r: string)
    ensures r == parent.systemPrompt || systemPrompt == Some(r)
    ensures r == [] ==> parent.systemPrompt == []
  {
    if systemPrompt.Some? && systemPrompt.value != [] then systemPrompt.value else parent.systemPrompt
  }

  /** `fork`: the child starts a fresh history from its prompt and records
      its parent; the parent only learns the child's id. The child's id and
      creation time are parameters. */
  function Fork(parent: Session, systemPrompt: Option<string>, childId: string, createdAt: string)
    : (r: (Session, Session))
    ensures r.0 == parent.(childSessionIds := parent.childSessionIds + [childId])
    ensures r.1.parentSessionId == Some(parent.sessionId) && r.1.sessionId == childId
    ensures r.1.workingDir == parent.workingDir && r.1.systemPrompt == ChildPrompt(parent, systemPrompt)
    ensures ChildPrompt(parent, systemPrompt) != [] ==> r.1.messages == [TextMessage("system", ChildPrompt(parent, systemPrompt))]
    ensures ChildPrompt(parent, systemPrompt) == [] ==> r.1.messages == []
    ensures r.1.turnCount == 0 && r.1.usage == NoUsage && r.1.childSessionIds == []
  {
    var prompt := ChildPrompt(parent, systemPrompt);
    var child := NewSession(parent.workingDir, prompt, createdAt, childId, Some(parent.sessionId));
    (parent.(childSessionIds := parent.childSessionIds + [childId]), child)
  }

  /** Forking twice leaves the parent's history alone and lists both
      children, in order. */
  lemma ForkTwiceLineage(p: Session, a: Option<string>, b: Option<string>,
                         id1: string, id2: string, t1: string, t2: string)
    ensures var (p1, c1) := Fork(p, a, id1, t1);
            var (p2, c2) := Fork(p1, b, id2, t2);
            p2.messages == p.messages && p2.childSessionIds == p.childSessionIds + [id1, id2]
            && c1.parentSessionId == c2.parentSessionId == Some(p.sessionId)
  {
  }

  // ---------------------------------------------------------------------
  // Compaction
  // ---------------------------------------------------------------------

  predicate LeadingSystem(msgs: seq<Message>) {
    msgs != [] && msgs[0].role == "system"
  }

  function SummaryText(summary: string): string {
    "[CONVERSATION SUMMARY]\n" + summary + "\n[END SUMMARY]"
  }

  /** `compact(summary)`: the leading system message if there is one, then
      the summary, then the last ten messages — but only when there were more
      than ten; with ten or fewer no tail is kept at all. */
  function Compact(s: Session, summary: string): (r: Session)
    ensures var lead := if LeadingSystem(s.messages) then 1 else 0;
            var tail := if |s.messages| > KeptTail then KeptTail else 0;
            && |r.messages| == lead + 1 + tail
            && (LeadingSystem(s.messages) ==> r.messages[0] == s.messages[0])
            && r.messages[lead] == TextMessage("system", SummaryText(summary))
            && r.messages[lead + 1..] == s.messages[|s.messages| - tail..]
    ensures r.messages[0].role == "system"
    ensures r == s.(messages := r.messages)
  {
    var head := if LeadingSystem(s.messages) then [s.messages[0]] else [];
    var recent := if |s.messages| > KeptTail then s.messages[|s.messages| - KeptTail..] else [];
    s.(messages := head + [TextMessage("system", SummaryText(summary))] + recent)
  }

  /** `needs_compaction(max_messages)`. */
  predicate NeedsCompaction(s: Session, maxMessages: int) {
    |s.messages| > maxMessages
  }

  /** Whatever the size before, compaction leaves at most twelve messages,
      and compacting again keeps that bound. */
  lemma CompactBounded(s: Session, s1: string, s2: string)
    ensures |Compact(s, s1).messages| <= 12
    ensures |Compact(Compact(s, s1), s2).messages| <= 12
    ensures !NeedsCompaction(Compact(s, s1), 12)
  {
  }

  /** A session of 101 messages opening with its system prompt needs
      compaction at the default threshold; compacting it yields the system
      message, the summary and the last ten messages, in that order. */
  lemma CompactOverThreshold(s: Session, summary: string)
    requires |s.messages| == 101 && s.messages[0].role == "system"
    ensures NeedsCompaction(s, DefaultMaxMessages)
    ensures Compact(s, summary).messages
            == [s.messages[0], TextMessage("system", SummaryText(summary))] + s.messages[91..]
  {
    var r := Compact(s, summary);
    assert r.messages[2..] == s.messages[91..];
    assert r.messages == r.messages[..2] + r.messages[2..];
  }

  // ---------------------------------------------------------------------
  // Clearing
  // ---------------------------------------------------------------------

  /** `clear`: only a leading system message survives and the turn counter
      restarts. */
  function Clear(s: Session): (r: Session)
    ensures |r.messages| <= 1 && r.messages <= s.messages
    ensures |r.messages| == 1 <==> LeadingSystem(s.messages)
    ensures r.turnCount == 0
    ensures r == s.(messages := r.messages, turnCount := 0)
  {
    s.(messages := if LeadingSystem(s.messages) then [s.messages[0]] else [], turnCount := 0)
  }

  /** Clearing is idempotent, and a cleared session needs no compaction at
      any positive threshold. */
  lemma ClearIdempotent(s: Session, n: int)
    requires n >= 1
    ensures Clear(Clear(s)) == Clear(s)
    ensures !NeedsCompaction(Clear(s), n)
  {
  }

  // ---------------------------------------------------------------------
  // Wire format and the saved-file mapping
  // ---------------------------------------------------------------------

  function OptStr(o: Option<string>): Json {
    match o
    case Some(v) => JStr(v)
    case None => JNull
  }

  /** One optional entry of a wire message. */
  function Entry(key: string, present: bool, value: Json): seq<(string, Json)> {
    if present then [(key, value)] else []
  }

  /** `Message.to_api_format`: role always; content whenever it is not None;
      tool calls, call id and name only when they are truthy. */
  function ToApi(m: Message): (r: Json)
    ensures r.JObj? && Lookup(r.fields, "role") == Some(JStr(m.role))
  {
    JObj([("role", JStr(m.role))]
         + (Entry("content", m.content.Some?, OptStr(m.content))
         + (Entry("tool_calls", m.toolCalls.Some? && m.toolCalls.value != [],
                  JArr(m.toolCalls.GetOr([])))
         + (Entry("tool_call_id", m.toolCallId.Some? && m.toolCallId.value != [], OptStr(m.toolCallId))
         + Entry("name", m.name.Some? && m.name.value != [], OptStr(m.name))))))
  }

  lemma EntryLookup(key: string, present: bool, value: Json, k: string)
    ensures HasKey(Entry(key, present, value), k) <==> present && k == key
    ensures Lookup(Entry(key, present, value), k) == if present && k == key then Some(value) else None
  {
  }

  /** The five runs of entries `to_api_format` puts one after the other. */
  function ApiRuns(m: Message): seq<seq<(string, Json)>> {
    [[("role", JStr(m.role))],
     Entry("content", m.content.Some?, OptStr(m.content)),
     Entry("tool_calls", m.toolCalls.Some? && m.toolCalls.value != [], JArr(m.toolCalls.GetOr([]))),
     Entry("tool_call_id", m.toolCallId.Some? && m.toolCallId.value != [], OptStr(m.toolCallId)),
     Entry("name", m.name.Some? && m.name.value != [], OptStr(m.name))]
  }

  /** Looking up key `i`'s name in the wire message reaches run `i`. */
  lemma ToApiLookup(m: Message, i: nat, k: string)
    requires 1 <= i < 5
    requires k == ["role", "content", "tool_calls", "tool_call_id", "name"][i]
    ensures Lookup(ToApi(m).fields, k) == Lookup(ApiRuns(m)[i], k)
  {
    var r := ApiRuns(m);
    assert ToApi(m).fields == r[0] + (r[1] + (r[2] + (r[3] + r[4])));
    assert !HasKey(r[0], k);
    EntryLookup("content", m.content.Some?, OptStr(m.content), k);
    EntryLookup("tool_calls", m.toolCalls.Some? && m.toolCalls.value != [], JArr(m.toolCalls.GetOr([])), k);
    EntryLookup("tool_call_id", m.toolCallId.Some? && m.toolCallId.value != [], OptStr(m.toolCallId), k);
    EntryLookup("name", m.name.Some? && m.name.value != [], OptStr(m.name), k);
    LookupConcat(r[0], r[1] + (r[2] + (r[3] + r[4])), k);
    LookupConcat(r[1], r[2] + (r[3] + r[4]), k);
    LookupConcat(r[2], r[3] + r[4], k);
    LookupConcat(r[3], r[4], k);
  }

  /** What each optional key of the wire message holds. */
  lemma ToApiFields(m: Message)
    ensures Lookup(ToApi(m).fields, "content") == if m.content.Some? then Some(JStr(m.content.value)) else None
    ensures Lookup(ToApi(m).fields, "tool_calls")
            == if m.toolCalls.Some? && m.toolCalls.value != [] then Some(JArr(m.toolCalls.value)) else None
    ensures Lookup(ToApi(m).fields, "tool_call_id")
            == if m.toolCallId.Some? && m.toolCallId.value != [] then Some(JStr(m.toolCallId.value)) else None
    ensures Lookup(ToApi(m).fields, "name")
            == if m.name.Some? && m.name.value != [] then Some(JStr(m.name.value)) else None
  {
    ToApiLookup(m, 1, "content");
    ToApiLookup(m, 2, "tool_calls");
    ToApiLookup(m, 3, "tool_call_id");
    ToApiLookup(m, 4, "name");
  }

  /** `get_api_messages`. */
  function ApiMessages(msgs: seq<Message>): (r: seq<Json>)
    ensures |r| == |msgs|
    ensures forall k :: 0 <= k < |msgs| ==> r[k] == ToApi(msgs[k])
  {
    if msgs == [] then [] else [ToApi(msgs[0])] + ApiMessages(msgs[1..])
  }

  /** A value stored where the source keeps a `str | None`. A value of any
      other JSON type is refused here, where Python would keep it as is. */
  function OptionalString(v: Option<Json>, what: string): Result<Option<string>, string> {
    match v
    case None => Success(None)
    case Some(JNull) => Success(None)
    case Some(JStr(s)) => Success(Some(s))
    case Some(_) => Failure(what + " is not a string")
  }

  function RequiredString(v: Json, what: string): Result<string, string> {
    match v
    case JStr(s) => Success(s)
    case _ => Failure(what + " is not a string")
  }

  /** A value stored where the source keeps a list of tool calls or None. */
  function OptionalList(v: Option<Json>): Result<Option<seq<Json>>, string> {
    match v
    case None => Success(None)
    case Some(JNull) => Success(None)
    case Some(JArr(items)) => Success(Some(items))
    case Some(_) => Failure("tool_calls is not a list")
  }

  /** A message assembled from the values found under its five keys. */
  function BuildMessage(role: Option<Json>, content: Option<Json>, calls: Option<Json>,
                        callId: Option<Json>, name: Option<Json>): Result<Message, string>
  {
    var roleJ :- match role case Some(v) => Success(v) case None => Failure(KeyErrorText("role"));
    var r :- RequiredString(roleJ, "role");
    var c :- OptionalString(content, "content");
    var tc :- OptionalList(calls);
    var id :- OptionalString(callId, "tool_call_id");
    var n :- OptionalString(name, "name");
    Success(Message(r, c, tc, id, n))
  }

  /** The message rebuilt by `load` from one saved entry: `role` must be
      present, every other key is read with `get`. */
  function FromApi(j: Json): (r: Result<Message, string>)
    ensures r.Success? ==> j.JObj? && HasKey(j.fields, "role")
  {
    match j
    case JObj(f) =>
      BuildMessage(Lookup(f, "role"), Lookup(f, "content"), Lookup(f, "tool_calls"),
                   Lookup(f, "tool_call_id"), Lookup(f, "name"))
    case _ => var e := Index(j, "role"); Failure(e.error)
  }

  /** A message survives the wire format unchanged exactly when none of its
      optional fields holds an empty value that `to_api_format` drops. */
  predicate RoundTrips(m: Message) {
    m.toolCalls != Some([]) && m.toolCallId != Some([]) && m.name != Some([])
  }

  /** The values `to_api_format` leaves under the optional keys rebuild the
      message, with every empty optional value read back as None. */
  lemma BuildFromApiValues(m: Message)
    ensures BuildMessage(Some(JStr(m.role)),
                         if m.content.Some? then Some(JStr(m.content.value)) else None,
                         if m.toolCalls.Some? && m.toolCalls.value != [] then Some(JArr(m.toolCalls.value)) else None,
                         if m.toolCallId.Some? && m.toolCallId.value != [] then Some(JStr(m.toolCallId.value)) else None,
                         if m.name.Some? && m.name.value != [] then Some(JStr(m.name.value)) else None)
            == Success(m.(toolCalls := if m.toolCalls == Some([]) then None else m.toolCalls,
                          toolCallId := if m.toolCallId == Some([]) then None else m.toolCallId,
                          name := if m.name == Some([]) then None else m.name))
  {
  }

  lemma WireRoundTrip(m: Message)
    ensures FromApi(ToApi(m)).Success?
    ensures FromApi(ToApi(m)) == Success(m) <==> RoundTrips(m)
  {
    ToApiFields(m);
    BuildFromApiValues(m);
    var j := ToApi(m);
    assert FromApi(j) == BuildMessage(Lookup(j.fields, "role"), Lookup(j.fields, "content"),
      Lookup(j.fields, "tool_calls"), Lookup(j.fields, "tool_call_id"), Lookup(j.fields, "name"));
  }

  function DecodeMessages(items: seq<Json>): (r: Result<seq<Message>, string>)
    ensures r.Success? ==> |r.value| == |items|
  {
    if items == [] then Success([])
    else
      var m :- FromApi(items[0]);
      var rest :- DecodeMessages(items[1..]);
      Success([m] + rest)
  }

  lemma {:induction false} DecodeApiMessages(msgs: seq<Message>)
    ensures DecodeMessages(ApiMessages(msgs)).Success?
    ensures DecodeMessages(ApiMessages(msgs)) == Success(msgs)
            <==> forall k :: 0 <= k < |msgs| ==> RoundTrips(msgs[k])
  {
    if msgs != [] {
      WireRoundTrip(msgs[0]);
      DecodeApiMessages(msgs[1..]);
      assert ApiMessages(msgs)[1..] == ApiMessages(msgs[1..]);
      var d := DecodeMessages(ApiMessages(msgs));
      if d == Success(msgs) {
        assert FromApi(ToApi(msgs[0])) == Success(msgs[0]);
        assert DecodeMessages(ApiMessages(msgs[1..])).value == msgs[1..];
        forall k | 0 <= k < |msgs| ensures RoundTrips(msgs[k]) {
          if k > 0 { assert msgs[k] == msgs[1..][k - 1]; }
        }
      }
      if forall k :: 0 <= k < |msgs| ==> RoundTrips(msgs[k]) {
        assert forall k :: 0 <= k < |msgs[1..]| ==> RoundTrips(msgs[1..][k]);
        assert [msgs[0]] + msgs[1..] == msgs;
      }
    }
  }

  function UsageToJson(u: Usage): Json {
    JObj([("prompt_tokens", JInt(u.promptTokens)),
          ("completion_tokens", JInt(u.completionTokens)),
          ("total_tokens", JInt(u.totalTokens))])
  }

  /** The entries of the record `save` writes, in its key order (before
      `json.dump` turns it into text; the creation time is kept as its
      ISO text). */
  function SaveFields(s: Session): seq<(string, Json)> {
    [("session_id", JStr(s.sessionId)),
     ("parent_session_id", OptStr(s.parentSessionId)),
     ("child_session_ids", StrArray(s.childSessionIds)),
     ("working_dir", JStr(s.workingDir)),
     ("system_prompt", JStr(s.systemPrompt)),
     ("messages", JArr(ApiMessages(s.messages))),
     ("created_at", JStr(s.createdAt)),
     ("turn_count", JInt(s.turnCount)),
     ("usage", UsageToJson(s.usage))]
  }

  function SaveData(s: Session): Json {
    JObj(SaveFields(s))
  }

  function DecodeStrings(items: seq<Json>): Result<seq<string>, string> {
    if items == [] then Success([])
    else
      var h :- RequiredString(items[0], "child session id");
      var t :- DecodeStrings(items[1..]);
      Success([h] + t)
  }

  function IntOr(v: Result<Json, string>): Result<int, string> {
    match v
    case Success(JInt(i)) => Success(i)
    case Success(_) => Failure("usage counter is not an int")
    case Failure(e) => Failure(e)
  }

  /** `data[key]` on a dict. */
  function Require(f: seq<(string, Json)>, key: string): (r: Result<Json, string>)
    ensures r == Index(JObj(f), key)
  {
    match Lookup(f, key)
    case Some(v) => Success(v)
    case None => Failure(KeyErrorText(key))
  }

  /** The four keys the constructor call of `Session.load` subscripts, in
      argument order. `fromIso` is `datetime.fromisoformat`: the parsed
      time written back in ISO format, or the text of its ValueError. */
  function LoadRequired(f: seq<(string, Json)>, fromIso: string -> Result<string, string>)
    : Result<(string, string, string, int), string>
  {
    var wdJ :- Require(f, "working_dir");
    var wd :- RequiredString(wdJ, "working_dir");
    var spJ :- Require(f, "system_prompt");
    var sp :- RequiredString(spJ, "system_prompt");
    var caJ :- Require(f, "created_at");
    var createdText :- RequiredString(caJ, "created_at");
    var createdAt :- fromIso(createdText);
    var tcJ :- Require(f, "turn_count");
    var turnCount :- match tcJ case JInt(i) => Success(i) case _ => Failure("turn_count is not an int");
    Success((wd, sp, createdAt, turnCount))
  }

  /** Id, parent and children, each read with `get` and its default. */
  function LoadLineage(f: seq<(string, Json)>, freshId: string)
    : Result<(string, Option<string>, seq<string>), string>
  {
    var id :- RequiredString(Lookup(f, "session_id").GetOr(JStr(freshId)), "session_id");
    var parent :- OptionalString(Lookup(f, "parent_session_id"), "parent_session_id");
    var children :- match Lookup(f, "child_session_ids").GetOr(JArr([]))
                    case JArr(items) => DecodeStrings(items)
                    case _ => Failure("child_session_ids is not a list");
    Success((id, parent, children))
  }

  /** The usage counters, each defaulting to zero. */
  function LoadUsage(f: seq<(string, Json)>): Result<Usage, string> {
    var usageJ := Lookup(f, "usage").GetOr(JObj([]));
    var pt :- IntOr(GetOr(usageJ, "prompt_tokens", JInt(0)));
    var ct :- IntOr(GetOr(usageJ, "completion_tokens", JInt(0)));
    var tt :- IntOr(GetOr(usageJ, "total_tokens", JInt(0)));
    Success(Usage(pt, ct, tt))
  }

  /** `Session.load` on a decoded dict: the required keys, then the optional
      ones with their defaults, then the messages. `freshId` stands for the
      id a new session would generate when the file has none. */
  function LoadFields(f: seq<(string, Json)>, freshId: string, fromIso: string -> Result<string, string>)
    : Result<Session, string>
  {
    var (wd, sp, createdAt, turnCount) :- LoadRequired(f, fromIso);
    var (id, parent, children) :- LoadLineage(f, freshId);
    var usage :- LoadUsage(f);
    var msgsJ :- Require(f, "messages");
    var msgs :- match msgsJ case JArr(items) => DecodeMessages(items) case _ => Failure("messages is not a list");
    Success(Session(wd, sp, msgs, createdAt, turnCount, id, parent, children, usage))
  }

  /** `Session.load` applied to the decoded file contents: anything but a
      dict fails at its first subscript. */
  function LoadData(data: Json, freshId: string, fromIso: string -> Result<string, string>): (r: Result<Session, string>)
    ensures r.Success? ==> data.JObj? && HasKey(data.fields, "working_dir") && HasKey(data.fields, "messages")
  {
    match data
    case JObj(f) => LoadFields(f, freshId, fromIso)
    case _ => Failure(Index(data, "working_dir").error)
  }

  /** The keys of the saved record, in order. */
  const SaveKeys: seq<string> := ["session_id", "parent_session_id", "child_session_ids",
    "working_dir", "system_prompt", "messages", "created_at", "turn_count", "usage"]

  /** The value `save` leaves under its `i`-th key. */
  lemma SaveLookup(s: Session, i: nat)
    requires i < |SaveKeys|
    ensures Lookup(SaveFields(s), SaveKeys[i]) == Some(SaveFields(s)[i].1)
  {
    var f := SaveFields(s);
    assert forall j :: 0 <= j < |f| ==> f[j].0 == SaveKeys[j];
    assert forall j, k :: 0 <= j < k < |SaveKeys| ==> SaveKeys[j] != SaveKeys[k];
    LookupAt(f, i, SaveKeys[i]);
  }

  lemma {:induction false} DecodeStrArray(ss: seq<string>)
    ensures DecodeStrings(StrArray(ss).items) == Success(ss)
  {
    if ss != [] {
      DecodeStrArray(ss[1..]);
      var items := StrArray(ss).items;
      assert items[0] == JStr(ss[0]);
      assert items[1..] == StrArray(ss[1..]).items;
      assert [ss[0]] + ss[1..] == ss;
    }
  }

  /** The usage record reads back counter by counter. */
  lemma UsageReadBack(u: Usage)
    ensures IntOr(GetOr(UsageToJson(u), "prompt_tokens", JInt(0))) == Success(u.promptTokens)
    ensures IntOr(GetOr(UsageToJson(u), "completion_tokens", JInt(0))) == Success(u.completionTokens)
    ensures IntOr(GetOr(UsageToJson(u), "total_tokens", JInt(0))) == Success(u.totalTokens)
  {
    var f := UsageToJson(u).fields;
    LookupAt(f, 0, "prompt_tokens");
    LookupAt(f, 1, "completion_tokens");
    LookupAt(f, 2, "total_tokens");
  }

  /** `load` on any dict whose entries hold well-typed values and whose
      creation time parses to its own ISO text. */
  lemma LoadWellTyped(f: seq<(string, Json)>, freshId: string, fromIso: string -> Result<string, string>,
                      s: Session, msgs: seq<Json>)
    requires Lookup(f, "session_id") == Some(JStr(s.sessionId))
    requires Lookup(f, "parent_session_id") == Some(OptStr(s.parentSessionId))
    requires Lookup(f, "child_session_ids") == Some(StrArray(s.childSessionIds))
    requires Lookup(f, "working_dir") == Some(JStr(s.workingDir))
    requires Lookup(f, "system_prompt") == Some(JStr(s.systemPrompt))
    requires Lookup(f, "messages") == Some(JArr(msgs))
    requires Lookup(f, "created_at") == Some(JStr(s.createdAt))
    requires Lookup(f, "turn_count") == Some(JInt(s.turnCount))
    requires Lookup(f, "usage") == Some(UsageToJson(s.usage))
    requires fromIso(s.createdAt) == Success(s.createdAt)
    ensures LoadFields(f, freshId, fromIso)
            == match DecodeMessages(msgs)
               case Success(ms) => Success(s.(messages := ms))
               case Failure(e) => Failure(e)
  {
    LoadRequiredOf(f, fromIso, s);
    LoadLineageOf(f, freshId, s);
    LoadUsageOf(f, s.usage);
  }

  lemma LoadRequiredOf(f: seq<(string, Json)>, fromIso: string -> Result<string, string>, s: Session)
    requires Lookup(f, "working_dir") == Some(JStr(s.workingDir))
    requires Lookup(f, "system_prompt") == Some(JStr(s.systemPrompt))
    requires Lookup(f, "created_at") == Some(JStr(s.createdAt))
    requires Lookup(f, "turn_count") == Some(JInt(s.turnCount))
    requires fromIso(s.createdAt) == Success(s.createdAt)
    ensures LoadRequired(f, fromIso) == Success((s.workingDir, s.systemPrompt, s.createdAt, s.turnCount))
  {
  }

  /** A creation time that `fromisoformat` refuses fails the load with its
      ValueError, once the working directory and the system prompt have
      been read, and before "turn_count" is looked at. */
  lemma LoadBadCreatedAt(f: seq<(string, Json)>, freshId: string, fromIso: string -> Result<string, string>,
                         workingDir: string, systemPrompt: string, created: string)
    requires Lookup(f, "working_dir") == Some(JStr(workingDir))
    requires Lookup(f, "system_prompt") == Some(JStr(systemPrompt))
    requires Lookup(f, "created_at") == Some(JStr(created))
    requires fromIso(created).Failure?
    ensures LoadData(JObj(f), freshId, fromIso) == Failure(fromIso(created).error)
  {
  }

  lemma LoadLineageOf(f: seq<(string, Json)>, freshId: string, s: Session)
    requires Lookup(f, "session_id") == Some(JStr(s.sessionId))
    requires Lookup(f, "parent_session_id") == Some(OptStr(s.parentSessionId))
    requires Lookup(f, "child_session_ids") == Some(StrArray(s.childSessionIds))
    ensures LoadLineage(f, freshId) == Success((s.sessionId, s.parentSessionId, s.childSessionIds))
  {
    DecodeStrArray(s.childSessionIds);
  }

  lemma LoadUsageOf(f: seq<(string, Json)>, u: Usage)
    requires Lookup(f, "usage") == Some(UsageToJson(u))
    ensures LoadUsage(f) == Success(u)
  {
    UsageReadBack(u);
  }

  /** Saving then loading restores the session exactly when every message
      survives the wire format. `save` writes the creation time with
      `isoformat()`, which `fromisoformat` reads back as the same time. */
  lemma SaveLoadRoundTrip(s: Session, freshId: string, fromIso: string -> Result<string, string>)
    requires fromIso(s.createdAt) == Success(s.createdAt)
    ensures LoadData(SaveData(s), freshId, fromIso).Success?
    ensures LoadData(SaveData(s), freshId, fromIso) == Success(s)
            <==> forall k :: 0 <= k < |s.messages| ==> RoundTrips(s.messages[k])
  {
    DecodeApiMessages(s.messages);
    SavedLineage(s);
    SavedRequired(s);
    SavedRest(s);
    LoadWellTyped(SaveFields(s), freshId, fromIso, s, ApiMessages(s.messages));
  }

  lemma SavedLineage(s: Session)
    ensures Lookup(SaveFields(s), "session_id") == Some(JStr(s.sessionId))
    ensures Lookup(SaveFields(s), "parent_session_id") == Some(OptStr(s.parentSessionId))
    ensures Lookup(SaveFields(s), "child_session_ids") == Some(StrArray(s.childSessionIds))
  {
    SaveLookup(s, 0);
    SaveLookup(s, 1);
    SaveLookup(s, 2);
  }

  lemma SavedRequired(s: Session)
    ensures Lookup(SaveFields(s), "working_dir") == Some(JStr(s.workingDir))
    ensures Lookup(SaveFields(s), "system_prompt") == Some(JStr(s.systemPrompt))
    ensures Lookup(SaveFields(s), "messages") == Some(JArr(ApiMessages(s.messages)))
  {
    SaveLookup(s, 3);
    SaveLookup(s, 4);
    SaveLookup(s, 5);
  }

  lemma SavedRest(s: Session)
    ensures Lookup(SaveFields(s), "created_at") == Some(JStr(s.createdAt))
    ensures Lookup(SaveFields(s), "turn_count") == Some(JInt(s.turnCount))
    ensures Lookup(SaveFields(s), "usage") == Some(UsageToJson(s.usage))
  {
    SaveLookup(s, 6);
    SaveLookup(s, 7);
    SaveLookup(s, 8);
  }
}

=== FILE: signal.dfy ===
/** The Signal integration: recipient parsing, the three transports'
    payloads and result mapping, the JSON-RPC client's response
    classification, and `send_signal_message`'s attachment checks and
    error wrapping. HTTP, the file system and request ids are parameters. */
module Signal {
  import opened Wrappers
  import opened Strings
  import opened Json

  /** The exceptions the integration raises: `SignalSendError`,
      `SignalRPCError` (its message argument and its `code`), `ValueError`,
      and any other Python exception escaping from a `.get` or `[]` on an
      unexpected JSON value. */
  datatype Error =
    | SendError(message: string)
    | RpcError(detail: Json, code: Option<Json>)
    | ValueError(message: string)
    | Raised(message: string)

  /** `str(e)`; a non-string RPC error message is shown by `render`. */
  function Text(e: Error, render: Json -> string): string {
    match e
    case SendError(m) => m
    case RpcError(JStr(s), _) => s
    case RpcError(j, _) => render(j)
    case ValueError(m) => m
    case Raised(m) => m
  }

  /** Python truthiness of an optional string argument. */
  predicate Given(o: Option<string>) {
    o.Some? && o.value != []
  }

  /** Python truthiness of an optional list argument. */
  predicate GivenList(o: Option<seq<string>>) {
    o.Some? && o.value != []
  }

  // ---------------------------------------------------------------------
  // Recipients (send.py: parse_recipient)
  // ---------------------------------------------------------------------

  /** The three kinds of addressee a message can have. */
  datatype Recipient = Group(id: string) | Username(name: string) | Phone(number: string)

  /** Non-empty text with no whitespace at either end. */
  predicate Trimmed(s: string) {
    s != [] && !IsSpace(s[0]) && !IsSpace(s[|s| - 1])
  }

  /** What a successful parse can produce: trimmed ids and names, and a
      trimmed number starting with "+". */
  predicate WellFormed(r: Recipient) {
    match r
    case Group(id) => Trimmed(id)
    case Username(n) => Trimmed(n)
    case Phone(p) => Trimmed(p) && p[0] == '+'
  }

  /** The recipient string with surrounding whitespace stripped and then
      one leading "signal:" dropped; what follows it is not stripped again. */
  function Normalise(raw: string): (r: string)
    ensures r == [] || !IsSpace(r[|r| - 1])
    ensures r == Strip(raw) || (StartsWith(Strip(raw), "signal:") && r == Strip(raw)[7..])
  {
    var s := Strip(raw);
    if StartsWith(s, "signal:") then s[7..] else s
  }

  function PhoneFormatError(r: string): string {
    "Phone numbers must start with '+': " + r + "\nSupported formats:\n  - Phone: +1234567890\n"
    + "  - Group: group:groupId\n  - Username: u:alice or username:alice"
  }

  /** A username after its prefix: stripped, and rejected when blank. */
  function NameAfter(rest: string): (r: Result<Recipient, Error>)
    ensures r.Success? <==> Strip(rest) != []
    ensures r.Success? ==> r == Success(Username(Strip(rest)))
    ensures r.Failure? ==> r.error == SendError("Invalid username format")
  {
    var n := Strip(rest);
    if n == [] then Failure(SendError("Invalid username format")) else Success(Username(n))
  }

  /** The prefix dispatch of `parse_recipient` on a normalised string:
      "group:" first, then "username:", then "u:", then a phone number. */
  function ParseTarget(s: string): (r: Result<Recipient, Error>)
    ensures r.Failure? ==> r.error.SendError?
  {
    if StartsWith(s, "group:") then
      var id := Strip(s[6..]);
      if id == [] then Failure(SendError("Invalid group ID format")) else Success(Group(id))
    else if StartsWith(s, "username:") then NameAfter(s[9..])
    else if StartsWith(s, "u:") then NameAfter(s[2..])
    else if StartsWith(s, "+") then Success(Phone(s))
    else Failure(SendError(PhoneFormatError(s)))
  }

  /** `parse_recipient`. */
  function ParseRecipient(raw: string): (r: Result<Recipient, Error>)
    ensures r.Failure? ==> r.error.SendError?
  {
    ParseTarget(Normalise(raw))
  }

  /** `+` as the first character is what a phone number is checked for. */
  lemma PlusFirst(s: string)
    ensures StartsWith(s, "+") <==> s != [] && s[0] == '+'
  {
    if s != [] && s[0] == '+' {
      assert s[..1] == "+";
    }
  }

  /** What `ParseTarget` accepts, given text with no trailing whitespace:
      group ids and usernames come back stripped and non-empty, and a phone
      number is the whole text, starting with "+". */
  lemma ParseTargetWellFormed(s: string)
    requires s == [] || !IsSpace(s[|s| - 1])
    ensures ParseTarget(s).Success? ==> WellFormed(ParseTarget(s).value)
    ensures ParseTarget(s).Success? && ParseTarget(s).value.Phone? ==> ParseTarget(s).value.number == s
  {
    if StartsWith(s, "group:") {
    } else if StartsWith(s, "username:") {
    } else if StartsWith(s, "u:") {
    } else {
      PlusFirst(s);
    }
  }

  /** Every recipient `parse_recipient` returns is well formed; a phone
      number is the normalised input itself. */
  lemma ParseRecipientWellFormed(raw: string)
    ensures ParseRecipient(raw).Success? ==> WellFormed(ParseRecipient(raw).value)
    ensures ParseRecipient(raw).Success? && ParseRecipient(raw).value.Phone? ==>
      ParseRecipient(raw).value.number == Normalise(raw)
  {
    ParseTargetWellFormed(Normalise(raw));
  }

  /** The RPC parameters `parse_recipient` returns for a recipient. */
  function RecipientParams(r: Recipient): seq<(string, Json)> {
    match r
    case Group(id) => [("groupId", JStr(id))]
    case Username(n) => [("username", JStr(n))]
    case Phone(p) => [("recipient", StrArray([p]))]
  }

  /** The canonical text naming a recipient. */
  function Format(r: Recipient): string {
    match r
    case Group(id) => "group:" + id
    case Username(n) => "username:" + n
    case Phone(p) => p
  }

  lemma PrefixOf(p: string, rest: string)
    ensures StartsWith(p + rest, p) && (p + rest)[|p|..] == rest
  {
    assert (p + rest)[..|p|] == p;
  }

  lemma DiffersAt(s: string, p: string, i: nat)
    requires i < |s| && i < |p| && s[i] != p[i]
    ensures !StartsWith(s, p)
  {
    if |p| <= |s| {
      assert s[..|p|][i] != p[i];
    }
  }

  lemma FirstDiffers(s: string, p: string)
    requires s != [] && p != [] && s[0] != p[0]
    ensures !StartsWith(s, p)
  {
    DiffersAt(s, p, 0);
  }

  lemma PrefixedTrimmed(p: string, rest: string)
    requires p != [] && !IsSpace(p[0]) && Trimmed(rest)
    ensures Trimmed(p + rest) && Strip(p + rest) == p + rest
  {
    var s := p + rest;
    assert s[0] == p[0] && s[|s| - 1] == rest[|rest| - 1];
    StripKeeps(s);
  }

  lemma ParseGroup(id: string)
    requires Trimmed(id)
    ensures ParseTarget("group:" + id) == Success(Group(id))
  {
    PrefixOf("group:", id);
    StripKeeps(id);
  }

  lemma ParseUsername(n: string)
    requires Trimmed(n)
    ensures ParseTarget("username:" + n) == Success(Username(n))
  {
    var s := "username:" + n;
    FirstDiffers(s, "group:");
    PrefixOf("username:", n);
    StripKeeps(n);
  }

  lemma ParseShortUsername(n: string)
    requires Trimmed(n)
    ensures ParseTarget("u:" + n) == Success(Username(n))
  {
    var s := "u:" + n;
    FirstDiffers(s, "group:");
    assert s[1] == ':' && "username:"[1] == 's';
    DiffersAt(s, "username:", 1);
    PrefixOf("u:", n);
    StripKeeps(n);
  }

  lemma ParsePhone(p: string)
    requires Trimmed(p) && p[0] == '+'
    ensures ParseTarget(p) == Success(Phone(p))
  {
    FirstDiffers(p, "group:");
    FirstDiffers(p, "username:");
    FirstDiffers(p, "u:");
    assert p[..1] == "+";
  }

  /** The canonical text of a well-formed recipient parses back to it. */
  lemma ParseTargetFormat(r: Recipient)
    requires WellFormed(r)
    ensures ParseTarget(Format(r)) == Success(r)
  {
    match r
    case Group(id) => ParseGroup(id);
    case Username(n) => ParseUsername(n);
    case Phone(p) => ParsePhone(p);
  }

  /** A canonical text is already trimmed and does not start with "signal:". */
  lemma FormatNormal(r: Recipient)
    requires WellFormed(r)
    ensures Trimmed(Format(r)) && Normalise(Format(r)) == Format(r)
  {
    match r
    case Group(id) => PrefixedNormal("group:", id);
    case Username(n) => PrefixedNormal("username:", n);
    case Phone(p) => PrefixedNormal([], p);
  }

  lemma PrefixedNormal(p: string, rest: string)
    requires p == [] || (!IsSpace(p[0]) && p[0] != 's')
    requires Trimmed(rest) && (p == [] ==> rest[0] != 's')
    ensures Trimmed(p + rest) && Normalise(p + rest) == p + rest
  {
    var s := p + rest;
    if p == [] {
      assert s == rest;
      StripKeeps(rest);
    } else {
      PrefixedTrimmed(p, rest);
    }
    assert s[0] != 's';
    FirstDiffers(s, "signal:");
  }

  /** Formatting a well-formed recipient and parsing the text gives it back,
      with or without a "signal:" prefix. */
  lemma ParseRecipientRoundTrip(r: Recipient)
    requires WellFormed(r)
    ensures ParseRecipient(Format(r)) == Success(r)
    ensures ParseRecipient("signal:" + Format(r)) == Success(r)
  {
    var s := Format(r);
    FormatNormal(r);
    ParseTargetFormat(r);
    var t := "signal:" + s;
    PrefixedTrimmed("signal:", s);
    PrefixOf("signal:", s);
    assert Normalise(t) == s;
  }

  /** Surrounding whitespace never changes the outcome. */
  lemma ParseRecipientStrips(raw: string)
    ensures ParseRecipient(Strip(raw)) == ParseRecipient(raw)
  {
    StripIdempotent(raw);
  }

  /** One leading "signal:" is dropped from otherwise trimmed text. */
  lemma SignalPrefixDropped(rest: string)
    requires rest != [] && !IsSpace(rest[|rest| - 1])
    ensures Normalise("signal:" + rest) == rest
  {
    var t := "signal:" + rest;
    assert t[0] == 's' && t[|t| - 1] == rest[|rest| - 1];
    StripKeeps(t);
    PrefixOf("signal:", rest);
  }

  /** Text that starts with none of the recognised prefixes is reported as a
      phone number lacking its "+". */
  lemma RejectedAsPhone(s: string)
    requires s != [] && s[0] != 'g' && s[0] != 'u' && s[0] != '+'
    ensures ParseTarget(s) == Failure(SendError(PhoneFormatError(s)))
  {
    FirstDiffers(s, "group:");
    FirstDiffers(s, "username:");
    FirstDiffers(s, "u:");
    FirstDiffers(s, "+");
  }

  /** Whitespace after "signal:" is not stripped again, so the text that
      follows is rejected as a phone number lacking its "+". */
  lemma SignalPrefixNotRestripped(rest: string)
    requires rest != [] && IsSpace(rest[0]) && !IsSpace(rest[|rest| - 1])
    ensures ParseRecipient("signal:" + rest) == Failure(SendError(PhoneFormatError(rest)))
  {
    SignalPrefixDropped(rest);
    RejectedAsPhone(rest);
  }

  // ---------------------------------------------------------------------
  // Transports (transport.py: create_transport and the three classes)
  // ---------------------------------------------------------------------

  /** A configured transport: the signal-cli daemon, the REST container, or
      a webhook with its extra headers. */
  datatype Transport =
    | SignalCli(baseUrl: string)
    | Rest(baseUrl: string)
    | Webhook(url: string, headers: seq<(string, string)>)

  /** The transport's `name` property. */
  function Name(t: Transport): string {
    match t
    case SignalCli(_) => "signal-cli"
    case Rest(_) => "rest"
    case Webhook(_, _) => "webhook"
  }

  /** The backend name `create_transport` builds each transport for. */
  function Backend(t: Transport): string {
    match t
    case SignalCli(_) => "signalcli"
    case Rest(_) => "rest"
    case Webhook(_, _) => "webhook"
  }

  const SignalCliDefault: string := "http://localhost:7583"
  const RestDefault: string := "http://localhost:8080"

  /** `s` is `r` followed by nothing but slashes. */
  predicate SlashPadded(r: string, s: string) {
    |r| <= |s| && s[..|r|] == r && forall i :: |r| <= i < |s| ==> s[i] == '/'
  }

  /** `(base_url or default).rstrip("/")`: a missing or empty URL falls back
      to the default, and trailing slashes are removed. */
  function BaseUrl(given: Option<string>, default: string): (r: string)
    ensures r == [] || r[|r| - 1] != '/'
    ensures SlashPadded(r, if Given(given) then given.value else default)
  {
    RStripChar(if Given(given) then given.value else default, '/')
  }

  /** The backend name as `create_transport` compares it. */
  function BackendKey(backend: string): string {
    Strip(Lower(backend))
  }

  /** `create_transport`. */
  function CreateTransport(backend: string, baseUrl: Option<string>, webhookUrl: Option<string>,
                           headers: Option<seq<(string, string)>>): (r: Result<Transport, Error>)
    ensures r.Success? <==> (BackendKey(backend) in {"signalcli", "rest"}
                             || (BackendKey(backend) == "webhook" && Given(webhookUrl)))
    ensures r.Success? ==> Backend(r.value) == BackendKey(backend)
    ensures r.Success? && r.value.SignalCli? ==> r.value.baseUrl == BaseUrl(baseUrl, SignalCliDefault)
    ensures r.Success? && r.value.Rest? ==> r.value.baseUrl == BaseUrl(baseUrl, RestDefault)
    ensures r.Success? && r.value.Webhook? ==> r.value.url == webhookUrl.value
    ensures r.Failure? ==> r.error.ValueError?
  {
    var b := BackendKey(backend);
    if b == "signalcli" then Success(SignalCli(BaseUrl(baseUrl, SignalCliDefault)))
    else if b == "rest" then Success(Rest(BaseUrl(baseUrl, RestDefault)))
    else if b == "webhook" then
      if Given(webhookUrl) then Success(Webhook(webhookUrl.value, headers.GetOr([])))
      else Failure(ValueError("webhook_url is required for the webhook backend"))
    else Failure(ValueError("Unknown Signal backend: " + Repr(b) + ". Choose from: signalcli, rest, webhook"))
  }

  /** Lower-casing and stripping an already normalised name changes nothing,
      so any spelling that normalises to a backend's name selects it. */
  lemma BackendKeyIdempotent(backend: string)
    ensures BackendKey(BackendKey(backend)) == BackendKey(backend)
  {
    var l := Lower(backend);
    assert forall i :: 0 <= i < |l| ==> LowerChar(l[i]) == l[i];
    var k := Strip(l);
    StripKeepsLower(l);
    LowerKeepsFolded(k);
    StripIdempotent(l);
  }

  /** Stripping keeps only characters of the original. */
  lemma StripKeepsLower(l: string)
    requires forall i :: 0 <= i < |l| ==> LowerChar(l[i]) == l[i]
    ensures forall i :: 0 <= i < |Strip(l)| ==> LowerChar(Strip(l)[i]) == Strip(l)[i]
  {
    var r := TrimRight(l);
    assert forall i :: 0 <= i < |r| ==> r[i] == l[i];
    var k := TrimLeft(r);
    assert forall i :: 0 <= i < |k| ==> k[i] == r[|r| - |k| + i];
  }

  /** Text that lower-casing leaves alone is its own `lower()`. */
  lemma LowerKeepsFolded(k: string)
    requires forall i :: 0 <= i < |k| ==> LowerChar(k[i]) == k[i]
    ensures Lower(k) == k
  {
  }

  /** The transport `send_signal_message` builds when given none. */
  lemma DefaultTransport(baseUrl: string)
    ensures CreateTransport("signalcli", Some(baseUrl), None, None)
         == Success(SignalCli(BaseUrl(Some(baseUrl), SignalCliDefault)))
  {
    var p := "signalcli";
    assert forall i :: 0 <= i < |p| ==> 'a' <= p[i] <= 'z';
    LettersFixed(p);
  }

  // ---------------------------------------------------------------------
  // HTTP, files and the JSON-RPC client (client.py: signal_rpc_request)
  // ---------------------------------------------------------------------

  /** A POST as the code sees it: `raise_for_status` and connection
      failures surface as httpx exceptions carrying a message; a reply's
      body is the decoded JSON, or the message `response.json()` raised. */
  datatype Http =
    | ConnectFailed(message: string)
    | TimedOut(message: string)
    | StatusFailed(status: int, text: string, message: string)
    | OtherFailed(message: string)
    | Replied(body: Result<Json, string>)

  datatype Request = Request(url: string, body: Json, headers: seq<(string, string)>)

  /** `os.path.abspath`, `os.path.exists` (`present`), `os.path.isfile`, and the base64
      text of a file's bytes. */
  datatype FileSystem = FileSystem(
    abspath: string -> string,
    present: string -> bool,
    isFile: string -> bool,
    base64: string -> string)

  /** Everything outside the code: the network, the file system, the
      request id `uuid4` would draw, and `str()` of a non-string value. */
  datatype Env = Env(post: Request -> Http, fs: FileSystem, requestId: string, render: Json -> string)

  /** `signal_rpc_request`'s default timeout of 10 seconds, as its f-string prints it. */
  const DefaultTimeout: string := "10"

  function RpcUrl(baseUrl: string): string {
    baseUrl + "/api/v1/rpc"
  }

  /** The JSON-RPC 2.0 request object. */
  function RpcRequest(id: string, name: string, params: Json): Json {
    JObj([("jsonrpc", JStr("2.0")), ("id", JStr(id)), ("method", JStr(name)), ("params", params)])
  }

  /** An exception the client raises itself carries no code. */
  function RpcFailure<T>(message: string): Result<T, Error> {
    Failure(RpcError(JStr(message), None))
  }

  /** A Python error escaping from a lookup, as an `Error`. */
  function Lift<T>(r: Result<T, string>): (o: Result<T, Error>)
    ensures o.Success? <==> r.Success?
    ensures r.Success? ==> o.value == r.value
    ensures r.Failure? ==> o.error == Raised(r.error)
  {
    match r
    case Success(v) => Success(v)
    case Failure(m) => Failure(Raised(m))
  }

  /** The decoded body of a JSON-RPC reply: an "error" member, checked
      first, raises `SignalRPCError` with its message and code (defaults
      "Unknown error" and -1); otherwise the "result" member is returned,
      and its absence is an error of its own. */
  function Classify(data: Json): (r: Result<Json, Error>)
    ensures r.Success? <==> data.JObj? && !HasKey(data.fields, "error") && HasKey(data.fields, "result")
    ensures r.Success? ==> Some(r.value) == Lookup(data.fields, "result")
    ensures data.JObj? && !HasKey(data.fields, "error") && !HasKey(data.fields, "result") ==>
      r == RpcFailure("RPC response missing 'result' field")
    ensures data.JObj? && HasKey(data.fields, "error") && Lookup(data.fields, "error").value.JObj? ==>
      var e := Lookup(data.fields, "error").value.fields;
      r == Failure(RpcError(Lookup(e, "message").GetOr(JStr("Unknown error")), Some(Lookup(e, "code").GetOr(JInt(-1)))))
  {
    var hasError :- Lift(Member("error", data));
    if hasError then
      var error :- Lift(Index(data, "error"));
      var code :- Lift(GetOr(error, "code", JInt(-1)));
      var message := Lookup(error.fields, "message").GetOr(JStr("Unknown error"));
      Failure(RpcError(message, Some(code)))
    else
      var hasResult := Member("result", data).value;
      if !hasResult then RpcFailure("RPC response missing 'result' field")
      else Lift(Index(data, "result"))
  }

  /** `signal_rpc_request` after the POST: transport failures, a body that
      is not JSON, then the classification of the decoded reply. */
  function RpcOutcome(http: Http, timeout: string): (r: Result<Json, Error>)
    ensures r.Success? <==> http.Replied? && http.body.Success? && Classify(http.body.value).Success?
    ensures r.Failure? ==> r.error.RpcError? || r.error.Raised?
  {
    match http
    case ConnectFailed(_) =>
      RpcFailure("Cannot connect to signal-cli daemon. Is it running?\n"
        + "Start it with: signal-cli -a +PHONE daemon --http localhost:7583")
    case TimedOut(_) => RpcFailure("Request to signal-cli timed out after " + timeout + "s")
    case StatusFailed(_, _, m) => RpcFailure("HTTP error from signal-cli: " + m)
    case OtherFailed(m) => RpcFailure("Failed to communicate with signal-cli: " + m)
    case Replied(Failure(m)) => RpcFailure("Invalid JSON response from signal-cli: " + m)
    case Replied(Success(data)) => Classify(data)
  }

  /** `signal_rpc_request`: one POST of the request object to the daemon's
      RPC endpoint. */
  function RpcCall(baseUrl: string, name: string, params: Json, id: string, timeout: string,
                   post: Request -> Http): (r: Result<Json, Error>)
    ensures var h := post(Request(RpcUrl(baseUrl), RpcRequest(id, name, params), []));
            && (r.Success? <==> h.Replied? && h.body.Success? && Classify(h.body.value).Success?)
            && (r.Success? ==> h.body.value.JObj? && Some(r.value) == Lookup(h.body.value.fields, "result"))
    ensures r.Failure? ==> r.error.RpcError? || r.error.Raised?
  {
    RpcOutcome(post(Request(RpcUrl(baseUrl), RpcRequest(id, name, params), [])), timeout)
  }

  /** A daemon that answers JSON-RPC 2.0 requests at `baseUrl`'s RPC
      endpoint, echoing the id and computing the result from the method and
      the parameters; anything else is a 404. */
  function RpcServer(baseUrl: string, handler: (Json, Json) -> Json): Request -> Http {
    (req: Request) => Answer(baseUrl, handler, req)
  }

  function Answer(baseUrl: string, handler: (Json, Json) -> Json, req: Request): Http {
    if req.url == RpcUrl(baseUrl) && req.body.JObj?
       && Lookup(req.body.fields, "jsonrpc") == Some(JStr("2.0"))
    then Replied(Success(JObj([
      ("jsonrpc", JStr("2.0")),
      ("id", Lookup(req.body.fields, "id").GetOr(JNull)),
      ("result", handler(Lookup(req.body.fields, "method").GetOr(JNull),
                         Lookup(req.body.fields, "params").GetOr(JNull)))])))
    else StatusFailed(404, "", "404 Not Found")
  }

  /** Against a conforming daemon the client returns exactly what the
      method computed: the request goes to the RPC endpoint, declares
      version 2.0, and carries the method and parameters. */
  lemma RpcCallConforms(baseUrl: string, name: string, params: Json, id: string, timeout: string,
                        handler: (Json, Json) -> Json)
    ensures RpcCall(baseUrl, name, params, id, timeout, RpcServer(baseUrl, handler))
         == Success(handler(JStr(name), params))
  {
    var req := Request(RpcUrl(baseUrl), RpcRequest(id, name, params), []);
    var f := req.body.fields;
    assert Lookup(f, "jsonrpc") == Some(JStr("2.0"));
    LookupAt(f, 1, "id");
    LookupAt(f, 2, "method");
    LookupAt(f, 3, "params");
    var v := handler(JStr(name), params);
    var reply := [("jsonrpc", JStr("2.0")), ("id", JStr(id)), ("result", v)];
    assert RpcServer(baseUrl, handler)(req) == Answer(baseUrl, handler, req);
    assert Answer(baseUrl, handler, req) == Replied(Success(JObj(reply)));
    LookupAt(reply, 2, "result");
    LookupAbsent(reply, "error");
    assert Classify(JObj(reply)) == Success(v);
  }

  /** An error object without message or code is reported with the
      defaults. */
  lemma RpcErrorDefaults(timeout: string)
    ensures RpcOutcome(Replied(Success(JObj([("error", JObj([]))]))), timeout)
         == Failure(RpcError(JStr("Unknown error"), Some(JInt(-1))))
  {
  }

  // ---------------------------------------------------------------------
  // Receipts: the dict every transport's `send` returns
  // ---------------------------------------------------------------------

  /** `{"success": True, "message_id": ..., "timestamp": ...}`; success is
      always true, so only the two looked-up values vary. */
  datatype Receipt = Receipt(messageId: Json, timestamp: Json)

  function ReceiptJson(r: Receipt): Json {
    JObj([("success", JBool(true)), ("message_id", r.messageId), ("timestamp", r.timestamp)])
  }

  /** `data.get(key)`, with `None` for a missing key. */
  function Field(data: Json, key: string): (r: Result<Json, Error>)
    ensures r.Success? <==> data.JObj?
    ensures data.JObj? ==> r.value == Lookup(data.fields, key).GetOr(JNull)
  {
    var o :- Lift(Get(data, key));
    Success(o.GetOr(JNull))
  }

  /** `data.get(first) or data.get(second)`. */
  function EitherField(data: Json, first: string, second: string): (r: Result<Json, Error>)
    ensures r.Success? <==> data.JObj?
    ensures data.JObj? && Truthy(Lookup(data.fields, first).GetOr(JNull)) ==>
      r.value == Lookup(data.fields, first).value
    ensures data.JObj? && !Truthy(Lookup(data.fields, first).GetOr(JNull)) ==>
      r.value == Lookup(data.fields, second).GetOr(JNull)
  {
    var a :- Field(data, first);
    if Truthy(a) then Success(a) else Field(data, second)
  }

  /** The message id a reply's entries name: `data.get(first)` alone, or
      `data.get(first) or data.get(second)` when a fallback key is given. */
  function MessageId(fields: seq<(string, Json)>, first: string, second: Option<string>): Json {
    var a := Lookup(fields, first).GetOr(JNull);
    if second.None? || Truthy(a) then a else Lookup(fields, second.value).GetOr(JNull)
  }

  /** The receipt read from a reply with the given id keys. */
  function ReceiptOf(data: Json, first: string, second: Option<string>): (r: Result<Receipt, Error>)
    ensures r.Success? <==> data.JObj?
    ensures r.Success? ==>
      r.value == Receipt(MessageId(data.fields, first, second), Lookup(data.fields, "timestamp").GetOr(JNull))
  {
    var id :- if second.Some? then EitherField(data, first, second.value) else Field(data, first);
    Success(Receipt(id, Field(data, "timestamp").value))
  }

  /** The reply of the REST and webhook transports: a body that is not JSON
      reads as `{}`. */
  function ReplyData(body: Result<Json, string>): Json {
    match body
    case Success(d) => d
    case Failure(_) => JObj([])
  }

  // ---------------------------------------------------------------------
  // The signal-cli transport
  // ---------------------------------------------------------------------

  /** The RPC parameters of a "send": the message, the recipient's entry,
      then the account and the attachments when given. */
  function CliParams(r: Recipient, text: string, account: Option<string>, attachments: Option<seq<string>>)
    : seq<(string, Json)>
  {
    [("message", JStr(text))] + RecipientParams(r)
    + (if Given(account) then [("account", JStr(account.value))] else [])
    + (if GivenList(attachments) then [("attachments", StrArray(attachments.value))] else [])
  }

  /** The parameters carry the text, the recipient, and the account and
      attachments exactly when they were given. */
  lemma CliParamsContent(r: Recipient, text: string, account: Option<string>, attachments: Option<seq<string>>)
    ensures var p := CliParams(r, text, account, attachments);
      && Lookup(p, "message") == Some(JStr(text))
      && (HasKey(p, "account") <==> Given(account))
      && (Given(account) ==> Lookup(p, "account") == Some(JStr(account.value)))
      && (HasKey(p, "attachments") <==> GivenList(attachments))
      && (GivenList(attachments) ==> Lookup(p, "attachments") == Some(StrArray(attachments.value)))
      && Lookup(p, RecipientParams(r)[0].0) == Some(RecipientParams(r)[0].1)
  {
    var p := CliParams(r, text, account, attachments);
    var rp := RecipientParams(r);
    var a := if Given(account) then [("account", JStr(account.value))] else [];
    var f := if GivenList(attachments) then [("attachments", StrArray(attachments.value))] else [];
    assert p == [("message", JStr(text))] + rp + a + f;
    assert |rp| == 1 && rp[0].0 != "message" && rp[0].0 != "account" && rp[0].0 != "attachments";
    LookupAt(p, 0, "message");
    LookupAt(p, 1, rp[0].0);
    if Given(account) {
      LookupAt(p, 2, "account");
    } else {
      LookupAbsent(p, "account");
    }
    if GivenList(attachments) {
      LookupAt(p, |p| - 1, "attachments");
    } else {
      LookupAbsent(p, "attachments");
    }
  }

  /** `SignalCLITransport.send`: parse the recipient, call "send" on the
      daemon, read "messageId" and "timestamp" from the result. */
  function CliSend(baseUrl: string, to: string, text: string, account: Option<string>,
                   attachments: Option<seq<string>>, env: Env): (r: Result<Receipt, Error>)
    ensures ParseRecipient(to).Failure? ==> r == Failure(ParseRecipient(to).error)
    ensures ParseRecipient(to).Success? ==>
      var call := RpcCall(baseUrl, "send", JObj(CliParams(ParseRecipient(to).value, text, account, attachments)),
                          env.requestId, DefaultTimeout, env.post);
      && (call.Failure? ==> r == Failure(call.error))
      && (r.Success? <==> call.Success? && call.value.JObj?)
      && (r.Success? ==> r.value == Receipt(Lookup(call.value.fields, "messageId").GetOr(JNull),
                                            Lookup(call.value.fields, "timestamp").GetOr(JNull)))
  {
    var recipient :- ParseRecipient(to);
    var params := JObj(CliParams(recipient, text, account, attachments));
    var result :- RpcCall(baseUrl, "send", params, env.requestId, DefaultTimeout, env.post);
    ReceiptOf(result, "messageId", None)
  }

  /** A daemon method that acknowledges every call with a message id and a
      timestamp. */
  function Acknowledge(messageId: Json, timestamp: Json): (Json, Json) -> Json {
    (name: Json, params: Json) => JObj([("messageId", messageId), ("timestamp", timestamp)])
  }

  /** Against a conforming daemon that acknowledges the "send", the
      signal-cli transport reports exactly the daemon's id and timestamp. */
  lemma CliSendConforms(baseUrl: string, to: string, text: string, account: Option<string>,
                        attachments: Option<seq<string>>, fs: FileSystem, id: string, render: Json -> string,
                        messageId: Json, timestamp: Json)
    requires ParseRecipient(to).Success?
    ensures CliSend(baseUrl, to, text, account, attachments,
                    Env(RpcServer(baseUrl, Acknowledge(messageId, timestamp)), fs, id, render))
         == Success(Receipt(messageId, timestamp))
  {
    AcknowledgedSend(baseUrl, JObj(CliParams(ParseRecipient(to).value, text, account, attachments)), id,
                     messageId, timestamp);
  }

  /** The daemon's acknowledgement of one "send", read as a receipt. */
  lemma AcknowledgedSend(baseUrl: string, params: Json, id: string, messageId: Json, timestamp: Json)
    ensures var call := RpcCall(baseUrl, "send", params, id, DefaultTimeout,
                                RpcServer(baseUrl, Acknowledge(messageId, timestamp)));
      && call.Success? && call.value.JObj?
      && Lookup(call.value.fields, "messageId").GetOr(JNull) == messageId
      && Lookup(call.value.fields, "timestamp").GetOr(JNull) == timestamp
  {
    RpcCallConforms(baseUrl, "send", params, id, DefaultTimeout, Acknowledge(messageId, timestamp));
    var reply := [("messageId", messageId), ("timestamp", timestamp)];
    LookupAt(reply, 0, "messageId");
    LookupAt(reply, 1, "timestamp");
  }

  // ---------------------------------------------------------------------
  // The REST transport
  // ---------------------------------------------------------------------

  /** The recipient part of a REST payload, as `RESTTransport.send` derives
      it from the raw recipient string. */
  function RestRecipient(to: string): (r: Result<seq<(string, Json)>, Error>)
    ensures r.Failure? ==> r.error.SendError?
  {
    RestTarget(Normalise(to))
  }

  /** The REST transport's own prefix dispatch: one branch for both
      username spellings, with the prefix length chosen inside it. */
  function RestTarget(s: string): (r: Result<seq<(string, Json)>, Error>)
    ensures r.Failure? ==> r.error.SendError?
  {
    if StartsWith(s, "group:") then
      var g := Strip(s[6..]);
      if g == [] then Failure(SendError("Invalid group ID format"))
      else Success([("recipients", JArr([])), ("group_id", JStr(g))])
    else if StartsWith(s, "username:") || StartsWith(s, "u:") then
      RestName(s[(if StartsWith(s, "username:") then 9 else 2)..])
    else if StartsWith(s, "+") then Success([("recipients", StrArray([s]))])
    else Failure(SendError(PhoneFormatError(s)))
  }

  function RestName(rest: string): (r: Result<seq<(string, Json)>, Error>)
    ensures r.Failure? ==> r.error == SendError("Invalid username format")
    ensures r.Success? ==> r.value == [("recipients", StrArray([Strip(rest)]))]
  {
    var n := Strip(rest);
    if n == [] then Failure(SendError("Invalid username format"))
    else Success([("recipients", StrArray([n]))])
  }

  /** The REST recipient fields of a parsed recipient. */
  function RestFields(r: Recipient): seq<(string, Json)> {
    match r
    case Group(g) => [("recipients", JArr([])), ("group_id", JStr(g))]
    case Username(n) => [("recipients", StrArray([n]))]
    case Phone(p) => [("recipients", StrArray([p]))]
  }

  /** The REST transport accepts exactly the recipients `parse_recipient`
      accepts, rejects the rest with the same error, and addresses a group
      by "group_id" with no individual recipients. */
  lemma RestAgreesWithParse(to: string)
    ensures ParseRecipient(to).Success? ==> RestRecipient(to) == Success(RestFields(ParseRecipient(to).value))
    ensures ParseRecipient(to).Failure? ==> RestRecipient(to) == Failure(ParseRecipient(to).error)
  {
    RestTargetAgrees(Normalise(to));
  }

  lemma RestTargetAgrees(s: string)
    ensures ParseTarget(s).Success? ==> RestTarget(s) == Success(RestFields(ParseTarget(s).value))
    ensures ParseTarget(s).Failure? ==> RestTarget(s) == Failure(ParseTarget(s).error)
  {
    if StartsWith(s, "group:") {
    } else if StartsWith(s, "username:") {
      assert RestTarget(s) == RestName(s[9..]);
      NameAgrees(s[9..]);
    } else if StartsWith(s, "u:") {
      assert RestTarget(s) == RestName(s[2..]);
      NameAgrees(s[2..]);
    } else {
    }
  }

  lemma NameAgrees(rest: string)
    ensures NameAfter(rest).Success? ==> RestName(rest) == Success(RestFields(NameAfter(rest).value))
    ensures NameAfter(rest).Failure? ==> RestName(rest) == Failure(NameAfter(rest).error)
  {
  }

  /** REST recipient fields never include the sender's "number". */
  lemma RestKeys(s: string)
    ensures RestTarget(s).Success? ==>
      forall k :: 0 <= k < |RestTarget(s).value| ==> RestTarget(s).value[k].0 != "number"
  {
    if StartsWith(s, "group:") {
    } else if StartsWith(s, "username:") || StartsWith(s, "u:") {
    } else {
    }
  }

  /** Each attachment's base64 text, after checking it is a regular file. */
  function EncodeAll(paths: seq<string>, fs: FileSystem): (r: Result<seq<string>, Error>)
    ensures r.Success? <==> forall k :: 0 <= k < |paths| ==> fs.isFile(fs.abspath(paths[k]))
    ensures r.Success? ==> (|r.value| == |paths|
      && forall k :: 0 <= k < |paths| ==> r.value[k] == fs.base64(fs.abspath(paths[k])))
    ensures r.Failure? ==>
      exists k :: 0 <= k < |paths| && !fs.isFile(fs.abspath(paths[k]))
                  && r.error == SendError("Attachment not found: " + fs.abspath(paths[k]))
  {
    if paths == [] then Success([])
    else
      var abs := fs.abspath(paths[0]);
      if !fs.isFile(abs) then Failure(SendError("Attachment not found: " + abs))
      else
        var rest :- EncodeAll(paths[1..], fs);
        assert forall k :: 1 <= k < |paths| ==> paths[k] == paths[1..][k - 1];
        Success([fs.base64(abs)] + rest)
  }

  /** The JSON body `RESTTransport.send` posts to "/v2/send". */
  function RestPayload(to: string, text: string, account: Option<string>, attachments: Option<seq<string>>,
                       fs: FileSystem): (r: Result<Json, Error>)
    ensures r.Failure? ==> r.error.SendError?
  {
    var recipients :- RestRecipient(to);
    var files :- if GivenList(attachments) then EncodeAll(attachments.value, fs) else Success([]);
    Success(JObj(RestBody(text, recipients, account, GivenList(attachments), files)))
  }

  /** The payload's entries in insertion order: message, recipient fields,
      sender number, encoded attachments. */
  function RestBody(text: string, recipients: seq<(string, Json)>, account: Option<string>,
                    withFiles: bool, files: seq<string>): seq<(string, Json)>
  {
    [("message", JStr(text))] + recipients
    + (if Given(account) then [("number", JStr(account.value))] else [])
    + (if withFiles then [("base64_attachments", StrArray(files))] else [])
  }

  lemma RestBodyNumber(text: string, recipients: seq<(string, Json)>, account: Option<string>,
                       withFiles: bool, files: seq<string>)
    requires forall k :: 0 <= k < |recipients| ==> recipients[k].0 != "number"
    ensures var p := RestBody(text, recipients, account, withFiles, files);
      && (HasKey(p, "number") <==> Given(account))
      && (Given(account) ==> Lookup(p, "number") == Some(JStr(account.value)))
  {
    var head := [("message", JStr(text))] + recipients;
    var n := if Given(account) then [("number", JStr(account.value))] else [];
    var f := if withFiles then [("base64_attachments", StrArray(files))] else [];
    assert forall k :: 0 <= k < |head| ==> head[k].0 != "number";
    LookupAbsent(head, "number");
    LookupAbsent(f, "number");
    LookupConcat(head + n, f, "number");
    LookupConcat(head, n, "number");
  }

  /** The sender's number appears in the REST payload exactly when an
      account is given. */
  lemma RestNumberIffAccount(to: string, text: string, account: Option<string>,
                             attachments: Option<seq<string>>, fs: FileSystem)
    requires RestPayload(to, text, account, attachments, fs).Success?
    ensures var p := RestPayload(to, text, account, attachments, fs).value.fields;
      && (HasKey(p, "number") <==> Given(account))
      && (Given(account) ==> Lookup(p, "number") == Some(JStr(account.value)))
  {
    var recipients := RestRecipient(to).value;
    var files := if GivenList(attachments) then EncodeAll(attachments.value, fs).value else [];
    RestKeys(Normalise(to));
    RestBodyNumber(text, recipients, account, GivenList(attachments), files);
    assert RestPayload(to, text, account, attachments, fs).value.fields
        == RestBody(text, recipients, account, GivenList(attachments), files);
  }

  /** After the POST: httpx failures become `SignalSendError`, and the reply
      is read leniently. */
  function RestOutcome(http: Http): (r: Result<Json, Error>)
    ensures r.Success? <==> http.Replied?
    ensures http.Replied? ==> r.value == ReplyData(http.body)
    ensures r.Failure? ==> r.error.SendError?
  {
    match http
    case ConnectFailed(_) =>
      Failure(SendError("Cannot connect to signal-cli-rest-api. Is the container running?\n"
        + "Start it with:\n  docker run -d -p 8080:8080 bbernhard/signal-cli-rest-api"))
    case StatusFailed(code, body, _) => Failure(SendError("REST API error: " + IntToString(code) + " " + body))
    case TimedOut(m) => Failure(SendError("REST API request failed: " + m))
    case OtherFailed(m) => Failure(SendError("REST API request failed: " + m))
    case Replied(body) => Success(ReplyData(body))
  }

  /** `RESTTransport.send`: the message id is "id", else "messageId". */
  function RestSend(baseUrl: string, to: string, text: string, account: Option<string>,
                    attachments: Option<seq<string>>, env: Env): (r: Result<Receipt, Error>)
    ensures RestPayload(to, text, account, attachments, env.fs).Failure? ==>
      r == Failure(RestPayload(to, text, account, attachments, env.fs).error)
    ensures RestPayload(to, text, account, attachments, env.fs).Success? ==>
      var h := env.post(Request(baseUrl + "/v2/send", RestPayload(to, text, account, attachments, env.fs).value, []));
      && (!h.Replied? ==> r == Failure(RestOutcome(h).error))
      && (r.Success? <==> h.Replied? && ReplyData(h.body).JObj?)
      && (r.Success? ==> r.value == Receipt(MessageId(ReplyData(h.body).fields, "id", Some("messageId")),
                                            Lookup(ReplyData(h.body).fields, "timestamp").GetOr(JNull)))
  {
    var payload :- RestPayload(to, text, account, attachments, env.fs);
    var data :- RestOutcome(env.post(Request(baseUrl + "/v2/send", payload, [])));
    ReceiptOf(data, "id", Some("messageId"))
  }

  /** A body that is not JSON still counts as sent: the receipt has neither
      an id nor a timestamp. */
  lemma RestNonJsonReply(baseUrl: string, to: string, text: string, account: Option<string>,
                         attachments: Option<seq<string>>, env: Env, message: string)
    requires RestPayload(to, text, account, attachments, env.fs).Success?
    requires env.post(Request(baseUrl + "/v2/send", RestPayload(to, text, account, attachments, env.fs).value, []))
          == Replied(Failure(message))
    ensures RestSend(baseUrl, to, text, account, attachments, env) == Success(Receipt(JNull, JNull))
  {
    LookupAbsent([], "id");
    LookupAbsent([], "messageId");
    LookupAbsent([], "timestamp");
  }

  /** The REST container's own reply names the id "messageId"; with no
      "id" member that is the receipt's id. */
  lemma RestMessageIdFallback(baseUrl: string, to: string, text: string, account: Option<string>,
                              attachments: Option<seq<string>>, env: Env, messageId: Json, timestamp: Json)
    requires RestPayload(to, text, account, attachments, env.fs).Success?
    requires env.post(Request(baseUrl + "/v2/send", RestPayload(to, text, account, attachments, env.fs).value, []))
          == Replied(Success(JObj([("messageId", messageId), ("timestamp", timestamp)])))
    ensures RestSend(baseUrl, to, text, account, attachments, env) == Success(Receipt(messageId, timestamp))
  {
    ContainerReply(messageId, timestamp);
  }

  lemma ContainerReply(messageId: Json, timestamp: Json)
    ensures var reply := [("messageId", messageId), ("timestamp", timestamp)];
      && MessageId(reply, "id", Some("messageId")) == messageId
      && Lookup(reply, "timestamp").GetOr(JNull) == timestamp
  {
    var reply := [("messageId", messageId), ("timestamp", timestamp)];
    LookupAbsent(reply, "id");
    LookupAt(reply, 0, "messageId");
    LookupAt(reply, 1, "timestamp");
  }

  // ---------------------------------------------------------------------
  // The webhook transport
  // ---------------------------------------------------------------------

  /** The JSON body `WebhookTransport.send` posts: the raw recipient and the
      text, then the account and the attachments when given. */
  function WebhookPayload(to: string, text: string, account: Option<string>, attachments: Option<seq<string>>)
    : Json
  {
    JObj([("to", JStr(to)), ("message", JStr(text))]
      + (if Given(account) then [("account", JStr(account.value))] else [])
      + (if GivenList(attachments) then [("attachments", StrArray(attachments.value))] else []))
  }

  /** The webhook body passes the recipient through untouched and carries
      the account and attachments exactly when given. */
  lemma WebhookPayloadContent(to: string, text: string, account: Option<string>, attachments: Option<seq<string>>)
    ensures var p := WebhookPayload(to, text, account, attachments).fields;
      && Lookup(p, "to") == Some(JStr(to))
      && Lookup(p, "message") == Some(JStr(text))
      && (HasKey(p, "account") <==> Given(account))
      && (Given(account) ==> Lookup(p, "account") == Some(JStr(account.value)))
      && (HasKey(p, "attachments") <==> GivenList(attachments))
  {
    var p := WebhookPayload(to, text, account, attachments).fields;
    LookupAt(p, 0, "to");
    LookupAt(p, 1, "message");
    if Given(account) {
      LookupAt(p, 2, "account");
    } else {
      LookupAbsent(p, "account");
    }
    if GivenList(attachments) {
      LookupAt(p, |p| - 1, "attachments");
    } else {
      LookupAbsent(p, "attachments");
    }
  }

  function WebhookOutcome(url: string, http: Http): (r: Result<Json, Error>)
    ensures r.Success? <==> http.Replied?
    ensures http.Replied? ==> r.value == ReplyData(http.body)
    ensures r.Failure? ==> r.error.SendError?
  {
    match http
    case ConnectFailed(_) => Failure(SendError("Cannot connect to webhook URL: " + url))
    case StatusFailed(code, body, _) => Failure(SendError("Webhook returned " + IntToString(code) + ": " + body))
    case TimedOut(m) => Failure(SendError("Webhook request failed: " + m))
    case OtherFailed(m) => Failure(SendError("Webhook request failed: " + m))
    case Replied(body) => Success(ReplyData(body))
  }

  /** `WebhookTransport.send`: the message id is "message_id", else "id". */
  function WebhookSend(url: string, headers: seq<(string, string)>, to: string, text: string,
                       account: Option<string>, attachments: Option<seq<string>>, env: Env): (r: Result<Receipt, Error>)
    ensures var h := env.post(Request(url, WebhookPayload(to, text, account, attachments), headers));
      && (!h.Replied? ==> r == Failure(WebhookOutcome(url, h).error))
      && (r.Success? <==> h.Replied? && ReplyData(h.body).JObj?)
      && (r.Success? ==> r.value == Receipt(MessageId(ReplyData(h.body).fields, "message_id", Some("id")),
                                            Lookup(ReplyData(h.body).fields, "timestamp").GetOr(JNull)))
  {
    var data :- WebhookOutcome(url, env.post(Request(url, WebhookPayload(to, text, account, attachments), headers)));
    ReceiptOf(data, "message_id", Some("id"))
  }

  /** A webhook reply of the documented shape gives its "message_id" when
      that is truthy; otherwise the absent "id" makes the id None. */
  lemma WebhookReceiptRead(url: string, headers: seq<(string, string)>, to: string, text: string,
                           account: Option<string>, attachments: Option<seq<string>>, env: Env,
                           messageId: Json, timestamp: Json)
    requires env.post(Request(url, WebhookPayload(to, text, account, attachments), headers))
          == Replied(Success(JObj([("message_id", messageId), ("timestamp", timestamp)])))
    ensures WebhookSend(url, headers, to, text, account, attachments, env)
         == Success(Receipt(if Truthy(messageId) then messageId else JNull, timestamp))
  {
    WebhookReply(messageId, timestamp);
  }

  lemma WebhookReply(messageId: Json, timestamp: Json)
    ensures var reply := [("message_id", messageId), ("timestamp", timestamp)];
      && MessageId(reply, "message_id", Some("id")) == (if Truthy(messageId) then messageId else JNull)
      && Lookup(reply, "timestamp").GetOr(JNull) == timestamp
  {
    var reply := [("message_id", messageId), ("timestamp", timestamp)];
    LookupAbsent(reply, "id");
    LookupAt(reply, 0, "message_id");
    LookupAt(reply, 1, "timestamp");
  }

  /** The keys each transport reads the message id from: "messageId" for
      signal-cli, "id" then "messageId" for REST, "message_id" then "id"
      for a webhook. */
  function IdKeys(t: Transport): (string, Option<string>) {
    match t
    case SignalCli(_) => ("messageId", None)
    case Rest(_) => ("id", Some("messageId"))
    case Webhook(_, _) => ("message_id", Some("id"))
  }

  /** The data a transport reads its receipt from: the daemon's result of
      "send", or the leniently decoded body of the POST. */
  function ReplyOf(t: Transport, to: string, text: string, account: Option<string>,
                   attachments: Option<seq<string>>, env: Env): Result<Json, Error>
  {
    match t
    case SignalCli(u) =>
      var recipient :- ParseRecipient(to);
      RpcCall(u, "send", JObj(CliParams(recipient, text, account, attachments)), env.requestId, DefaultTimeout, env.post)
    case Rest(u) =>
      var payload :- RestPayload(to, text, account, attachments, env.fs);
      RestOutcome(env.post(Request(u + "/v2/send", payload, [])))
    case Webhook(u, h) => WebhookOutcome(u, env.post(Request(u, WebhookPayload(to, text, account, attachments), h)))
  }

  /** `transport.send(...)`: whichever the transport, the send fails with
      the reply's error, succeeds exactly when the reply is a dict, and then
      reports the id under the transport's keys and the reply's timestamp. */
  function TransportSend(t: Transport, to: string, text: string, account: Option<string>,
                         attachments: Option<seq<string>>, env: Env): (r: Result<Receipt, Error>)
    ensures t.SignalCli? && ParseRecipient(to).Failure? ==> r == Failure(ParseRecipient(to).error)
    ensures t.Rest? && RestPayload(to, text, account, attachments, env.fs).Failure? ==>
      r == Failure(RestPayload(to, text, account, attachments, env.fs).error)
    ensures var reply := ReplyOf(t, to, text, account, attachments, env);
      && (reply.Failure? ==> r == Failure(reply.error))
      && (r.Success? <==> reply.Success? && reply.value.JObj?)
      && (r.Success? ==> r.value == Receipt(MessageId(reply.value.fields, IdKeys(t).0, IdKeys(t).1),
                                            Lookup(reply.value.fields, "timestamp").GetOr(JNull)))
  {
    match t
    case SignalCli(u) => CliSend(u, to, text, account, attachments, env)
    case Rest(u) => RestSend(u, to, text, account, attachments, env)
    case Webhook(u, h) => WebhookSend(u, h, to, text, account, attachments, env)
  }

  // ---------------------------------------------------------------------
  // send.py: send_signal_message
  // ---------------------------------------------------------------------

  /** The absolute path of each attachment, each checked to exist and then
      to be a regular file. */
  function Resolve(paths: seq<string>, fs: FileSystem): (r: Result<seq<string>, Error>)
    ensures r.Success? <==> forall k :: 0 <= k < |paths| ==>
      fs.present(fs.abspath(paths[k])) && fs.isFile(fs.abspath(paths[k]))
    ensures r.Success? ==> (|r.value| == |paths|
      && forall k :: 0 <= k < |paths| ==> r.value[k] == fs.abspath(paths[k]))
    ensures r.Failure? ==> exists k :: 0 <= k < |paths| && r.error == AttachmentError(fs, paths[k])
  {
    if paths == [] then Success([])
    else
      var abs := fs.abspath(paths[0]);
      if !fs.present(abs) || !fs.isFile(abs) then Failure(AttachmentError(fs, paths[0]))
      else
        var rest :- Resolve(paths[1..], fs);
        assert forall k :: 1 <= k < |paths| ==> paths[k] == paths[1..][k - 1];
        Success([abs] + rest)
  }

  /** The error for an attachment that is missing, or present but not a
      regular file. */
  function AttachmentError(fs: FileSystem, path: string): Error {
    var abs := fs.abspath(path);
    if !fs.present(abs) then SendError("Attachment not found: " + abs)
    else SendError("Attachment is not a file: " + abs)
  }

  /** Every failure of the transport leaves as `SignalSendError`: one
      already of that type unchanged, any other wrapped with the
      transport's name. */
  function Wrap(t: Transport, r: Result<Receipt, Error>, render: Json -> string): (o: Result<Receipt, Error>)
    ensures o.Success? <==> r.Success?
    ensures o.Failure? ==> o.error.SendError?
    ensures r.Success? || r.error.SendError? ==> o == r
    ensures r.Failure? && !r.error.SendError? ==>
      StartsWith(o.error.message, "Failed to send message via " + Name(t) + ": ")
  {
    match r
    case Success(_) => r
    case Failure(SendError(_)) => r
    case Failure(e) =>
      var prefix := "Failed to send message via " + Name(t) + ": ";
      var m := prefix + Text(e, render);
      assert m[..|prefix|] == prefix;
      Failure(SendError(m))
  }

  /** `send_signal_message`: validate the attachments, fall back to a
      signal-cli transport at `baseUrl`, send, and wrap failures. */
  function SendMessage(to: string, text: string, account: Option<string>, attachments: Option<seq<string>>,
                       baseUrl: string, transport: Option<Transport>, env: Env): (r: Result<Receipt, Error>)
    ensures r.Failure? ==> r.error.SendError?
  {
    var resolved :- if GivenList(attachments) then ResolveSome(attachments.value, env.fs) else Success(None);
    var t := if transport.Some? then transport.value else SignalCli(BaseUrl(Some(baseUrl), SignalCliDefault));
    Wrap(t, TransportSend(t, to, text, account, resolved, env), env.render)
  }

  function ResolveSome(paths: seq<string>, fs: FileSystem): (r: Result<Option<seq<string>>, Error>)
    ensures r.Success? <==> Resolve(paths, fs).Success?
    ensures r.Success? ==> r.value == Some(Resolve(paths, fs).value)
    ensures r.Failure? ==> r.error == Resolve(paths, fs).error
  {
    var p :- Resolve(paths, fs);
    Success(Some(p))
  }

  /** An attachment that fails its check ends the call before any transport
      is chosen or contacted: the result does not depend on the transport or
      the network. */
  lemma AttachmentsCheckedFirst(to: string, text: string, account: Option<string>, attachments: Option<seq<string>>,
                                baseUrl: string, transport: Option<Transport>, env: Env,
                                other: Option<Transport>, post: Request -> Http)
    requires GivenList(attachments) && Resolve(attachments.value, env.fs).Failure?
    ensures SendMessage(to, text, account, attachments, baseUrl, transport, env)
         == Failure(Resolve(attachments.value, env.fs).error)
    ensures SendMessage(to, text, account, attachments, baseUrl, transport, env)
         == SendMessage(to, text, account, attachments, baseUrl, other, env.(post := post))
  {
  }

  /** With valid attachments, the chosen transport receives their absolute
      paths; without any, it receives none. */
  lemma TransportGetsResolved(to: string, text: string, account: Option<string>, attachments: Option<seq<string>>,
                              baseUrl: string, t: Transport, env: Env)
    requires GivenList(attachments) ==> Resolve(attachments.value, env.fs).Success?
    ensures var resolved := if GivenList(attachments) then Some(Resolve(attachments.value, env.fs).value) else None;
      SendMessage(to, text, account, attachments, baseUrl, Some(t), env)
      == Wrap(t, TransportSend(t, to, text, account, resolved, env), env.render)
  {
  }

  /** Without an explicit transport the message goes to the signal-cli
      daemon `create_transport("signalcli", base_url=...)` builds. */
  lemma DefaultsToSignalCli(to: string, text: string, account: Option<string>, baseUrl: string, env: Env)
    ensures var t := SignalCli(BaseUrl(Some(baseUrl), SignalCliDefault));
      && CreateTransport("signalcli", Some(baseUrl), None, None) == Success(t)
      && SendMessage(to, text, account, None, baseUrl, None, env)
         == Wrap(t, TransportSend(t, to, text, account, None, env), env.render)
  {
    DefaultTransport(baseUrl);
  }
}

=== FILE: skills.dfy ===
/** The skills harness: SKILL.md front matter, discovery order, the
    prompt section listing the skills, explicit `$name` and
    `[$name](path)` mentions, and the per-turn injection of the mentioned
    skills' bodies into the message history. The file system (directory
    walk, `Path.resolve`, reading files) and the YAML parser are
    parameters. */
module Skills {
  import opened Wrappers
  import opened Strings
  import opened Json
  import opened Sessions
  import Paths

  /** One discovered skill; `path` is the resolved SKILL.md path. */
  datatype Skill = Skill(name: string, description: string, path: string)

  const SkillFilename: string := "SKILL.md"

  // ---------------------------------------------------------------------
  // Front matter
  // ---------------------------------------------------------------------

  /** A line of `text.splitlines(True)` without its line break. */
  function DropBreak(line: string): (r: string)
    ensures r <= line && |line| - 2 <= |r|
  {
    if |line| >= 2 && line[|line| - 2..] == "\r\n" then line[..|line| - 2]
    else if line != [] && IsLineBreak(line[|line| - 1]) then line[..|line| - 1]
    else line
  }

  /** `text.splitlines()`: the lines of `text` without their breaks. */
  function Lines(text: string): (r: seq<string>)
    ensures |r| == |SplitLinesKeepEnds(text)|
    ensures forall k :: 0 <= k < |r| ==> r[k] == DropBreak(SplitLinesKeepEnds(text)[k])
  {
    var ls := SplitLinesKeepEnds(text);
    seq(|ls|, k requires 0 <= k < |ls| => DropBreak(ls[k]))
  }

  /** A front matter delimiter: a line that strips to "---". */
  predicate IsFence(line: string) {
    Strip(line) == "---"
  }

  /** Index of the first line at or after `from` that `p` holds of. */
  function FirstMatch(lines: seq<string>, from: nat, p: string -> bool): (r: Option<nat>)
    requires from <= |lines|
    ensures r.Some? ==> from <= r.value < |lines| && p(lines[r.value])
    ensures r.Some? ==> forall k :: from <= k < r.value ==> !p(lines[k])
    ensures r.None? ==> forall k :: from <= k < |lines| ==> !p(lines[k])
    decreases |lines| - from
  {
    if from == |lines| then None
    else if p(lines[from]) then Some(from)
    else FirstMatch(lines, from + 1, p)
  }

  /** Index of the first fence at or after `from`. */
  function NextFence(lines: seq<string>, from: nat): Option<nat>
    requires from <= |lines|
  {
    FirstMatch(lines, from, IsFence)
  }

  /** `_extract_frontmatter` on the lines of a file: the lines between an
      opening fence on the first line and the next fence, joined and
      stripped; `None` when the file does not open with a fence, when no
      fence closes it, or when the block is blank. */
  function FrontmatterOfLines(lines: seq<string>): (r: Option<string>)
    ensures r.Some? ==> lines != [] && IsFence(lines[0]) && NextFence(lines, 1).Some?
    ensures r.Some? ==> r.value != [] && Strip(r.value) == r.value
  {
    if lines == [] || !IsFence(lines[0]) then None
    else match NextFence(lines, 1)
      case None => None
      case Some(k) =>
        var block := Strip(Join("\n", lines[1..k]));
        StripIdempotent(Join("\n", lines[1..k]));
        if block == [] then None else Some(block)
  }

  function ExtractFrontmatter(contents: string): (r: Option<string>)
    ensures r.Some? ==> r.value != [] && Strip(r.value) == r.value
  {
    FrontmatterOfLines(Lines(contents))
  }

  /** A file that opens with a fence and closes it on line `c`: the front
      matter is the stripped block in between, or nothing when it is
      blank. */
  lemma FrontmatterOfBlock(lines: seq<string>, c: nat)
    requires 0 < c < |lines| && IsFence(lines[0]) && IsFence(lines[c])
    requires forall k :: 0 < k < c ==> !IsFence(lines[k])
    ensures var f := Strip(Join("\n", lines[1..c]));
            FrontmatterOfLines(lines) == (if f == [] then None else Some(f))
  {
    FenceFound(lines, 1, c);
  }

  /** The search finds the first fence. */
  lemma FenceFound(lines: seq<string>, from: nat, c: nat)
    requires from <= c < |lines| && IsFence(lines[c])
    requires forall k :: from <= k < c ==> !IsFence(lines[k])
    ensures NextFence(lines, from) == Some(c)
  {
  }

  /** A file whose first line is not a fence, or that never closes its
      front matter, has none. */
  lemma FrontmatterNeedsFences(lines: seq<string>)
    requires lines == [] || !IsFence(lines[0]) || forall k :: 1 <= k < |lines| ==> !IsFence(lines[k])
    ensures FrontmatterOfLines(lines) == None
  {
    if lines != [] && IsFence(lines[0]) {
      assert NextFence(lines, 1).None?;
    }
  }

  // ---------------------------------------------------------------------
  // Explicit mentions
  // ---------------------------------------------------------------------

  /** The characters of a skill name, `[A-Za-z0-9_-]`. */
  predicate NameChar(c: char) {
    ('A' <= c <= 'Z') || ('a' <= c <= 'z') || ('0' <= c <= '9') || c == '_' || c == '-'
  }

  predicate IsName(s: string) {
    s != [] && forall k :: 0 <= k < |s| ==> NameChar(s[k])
  }

  /** Length of the longest run of name characters starting at `i`. */
  function NameRun(s: string, i: nat): (n: nat)
    requires i <= |s|
    ensures i + n <= |s|
    ensures forall k :: i <= k < i + n ==> NameChar(s[k])
    ensures i + n == |s| || !NameChar(s[i + n])
    decreases |s| - i
  {
    if i < |s| && NameChar(s[i]) then 1 + NameRun(s, i + 1) else 0
  }

  /** Length of the longest run of characters other than ')' at `i`. */
  function PathRun(s: string, i: nat): (n: nat)
    requires i <= |s|
    ensures i + n <= |s|
    ensures forall k :: i <= k < i + n ==> s[k] != ')'
    ensures i + n == |s| || s[i + n] == ')'
    decreases |s| - i
  {
    if i < |s| && s[i] != ')' then 1 + PathRun(s, i + 1) else 0
  }

  /** The name after a '$' at `i`: the maximal run of name characters. */
  function NameAfter(s: string, i: nat): (r: string)
    requires i < |s|
    ensures r == s[i + 1..i + 1 + NameRun(s, i + 1)]
  {
    s[i + 1..i + 1 + NameRun(s, i + 1)]
  }

  /** Where the plain pattern `\$(name)` matches: a '$' followed by at
      least one name character. */
  predicate PlainAt(s: string, i: nat) {
    i < |s| && s[i] == '$' && NameRun(s, i + 1) > 0
  }

  /** A match of the linked pattern: its name, its raw path, and where
      the name's '$' stands. */
  datatype Link = Link(name: string, path: string, at: nat)

  /** A match of the linked pattern `\[\$(name)\]\((path)\)` at `i`, and
      the index just after its closing ')'. */
  function LinkAt(s: string, i: nat): (r: Option<(Link, nat)>)
    requires i <= |s|
    ensures r.Some? ==> r.value.0.at == i + 1 && i + 1 < |s| && s[i] == '[' && PlainAt(s, i + 1)
    ensures r.Some? ==> r.value.0.name == NameAfter(s, i + 1) && r.value.0.path != [] && i < r.value.1 <= |s|
  {
    if i + 2 <= |s| && s[i] == '[' && s[i + 1] == '$' then
      var n := NameRun(s, i + 2);
      var j := i + 2 + n;
      if n > 0 && j + 2 <= |s| && s[j] == ']' && s[j + 1] == '(' then
        var p := PathRun(s, j + 2);
        var e := j + 2 + p;
        if p > 0 && e < |s| then Some((Link(s[i + 2..j], s[j + 2..e], i + 1), e + 1)) else None
      else None
    else None
  }

  /** `_LINKED.finditer(text)` from `i`: the matches left to right, each
      search resuming after the previous match. */
  function LinkedFrom(s: string, i: nat): (r: seq<Link>)
    requires i <= |s|
    ensures forall k :: 0 <= k < |r| ==> IsName(r[k].name) && r[k].path != []
    ensures forall k :: 0 <= k < |r| ==> i <= r[k].at < |s| && PlainAt(s, r[k].at) && r[k].name == NameAfter(s, r[k].at)
    decreases |s| - i
  {
    if i == |s| then []
    else match LinkAt(s, i)
      case Some((l, e)) => [l] + LinkedFrom(s, e)
      case None => LinkedFrom(s, i + 1)
  }

  /** `_PLAIN.finditer(text)` from `i`: where each match's '$' stands,
      each search resuming after the previous match. */
  function PlainFrom(s: string, i: nat): (r: seq<nat>)
    requires i <= |s|
    ensures forall k :: 0 <= k < |r| ==> i <= r[k] < |s| && PlainAt(s, r[k])
    decreases |s| - i
  {
    if i == |s| then []
    else if PlainAt(s, i) then [i] + PlainFrom(s, i + 1 + NameRun(s, i + 1))
    else PlainFrom(s, i + 1)
  }

  /** The plain scan stops at every '$' that starts a name: a match never
      swallows a '$', since a name has none. */
  lemma {:induction false} PlainFromComplete(s: string, i: nat, j: nat)
    requires i <= j < |s| && PlainAt(s, j)
    ensures j in PlainFrom(s, i)
    decreases |s| - i
  {
    if j > i {
      if PlainAt(s, i) {
        NoDollarInRun(s, i + 1, j);
        PlainFromComplete(s, i + 1 + NameRun(s, i + 1), j);
      } else {
        PlainFromComplete(s, i + 1, j);
      }
    }
  }

  /** A name run holds no '$'. */
  lemma NoDollarInRun(s: string, i: nat, j: nat)
    requires i <= |s| && j < |s| && s[j] == '$'
    ensures j < i || i + NameRun(s, i) <= j
  {
  }

  /** The names at the plain matches. */
  function PlainNames(s: string, at: seq<nat>): (r: seq<string>)
    requires forall k :: 0 <= k < |at| ==> at[k] < |s|
    ensures |r| == |at| && forall k :: 0 <= k < |at| ==> r[k] == NameAfter(s, at[k])
  {
    seq(|at|, k requires 0 <= k < |at| => NameAfter(s, at[k]))
  }

  /** Keeps the first occurrence of each element. */
  function Dedup<T(==,!new)>(xs: seq<T>): (r: seq<T>)
    ensures forall x :: x in r <==> x in xs
    ensures forall a, b :: 0 <= a < b < |r| ==> r[a] != r[b]
  {
    DedupFrom(xs, [])
  }

  function DedupFrom<T(==,!new)>(xs: seq<T>, seen: seq<T>): (r: seq<T>)
    requires forall a, b :: 0 <= a < b < |seen| ==> seen[a] != seen[b]
    ensures forall x :: x in r <==> x in seen || x in xs
    ensures forall a, b :: 0 <= a < b < |r| ==> r[a] != r[b]
    ensures |seen| <= |r| && r[..|seen|] == seen
    decreases |xs|
  {
    if xs == [] then seen
    else if xs[0] in seen then DedupFrom(xs[1..], seen)
    else DedupFrom(xs[1..], seen + [xs[0]])
  }

  /** `ToolMentions`: the mentioned names and paths, each once. Python
      keeps both in sets; here they keep the order of first mention. */
  datatype Mentions = Mentions(names: seq<string>, paths: seq<string>)

  function LinkedNames(ls: seq<Link>): (r: seq<string>)
    ensures |r| == |ls| && forall k :: 0 <= k < |ls| ==> r[k] == ls[k].name
  {
    seq(|ls|, k requires 0 <= k < |ls| => ls[k].name)
  }

  /** The stripped paths of the linked matches. */
  function StrippedPaths(ls: seq<Link>): (r: seq<string>)
    ensures |r| == |ls| && forall k :: 0 <= k < |ls| ==> r[k] == Strip(ls[k].path)
  {
    seq(|ls|, k requires 0 <= k < |ls| => Strip(ls[k].path))
  }

  /** The non-empty strings of `xs`, in order. */
  function NonBlank(xs: seq<string>): (r: seq<string>)
    ensures forall x :: x in r <==> x in xs && x != []
  {
    if xs == [] then []
    else if xs[0] == [] then NonBlank(xs[1..])
    else [xs[0]] + NonBlank(xs[1..])
  }

  /** Text with no whitespace at either end, as `strip` leaves it. */
  predicate Trimmed(p: string) {
    p != [] && !IsSpace(p[0]) && !IsSpace(p[|p| - 1])
  }

  /** `extract_tool_mentions`: the names of both patterns and the stripped
      non-blank paths of the linked one. */
  function ExtractMentions(text: string): (r: Mentions)
    ensures forall p :: p in r.paths ==> Trimmed(p)
    ensures forall n :: n in r.names ==> IsName(n)
  {
    var linked := LinkedFrom(text, 0);
    var plain := PlainFrom(text, 0);
    var found := LinkedNames(linked) + PlainNames(text, plain);
    assert forall k :: 0 <= k < |found| ==> IsName(found[k]) by {
      forall k | 0 <= k < |found| ensures IsName(found[k]) {
        if k < |linked| { assert found[k] == linked[k].name; }
        else { assert found[k] == NameAfter(text, plain[k - |linked|]); }
      }
    }
    var stripped := StrippedPaths(linked);
    forall p | p in NonBlank(stripped) ensures Trimmed(p) {
      var k :| 0 <= k < |stripped| && stripped[k] == p;
    }
    Mentions(Dedup(found), Dedup(NonBlank(stripped)))
  }

  /** The mentioned names are exactly the maximal name runs after a '$':
      every name the linked pattern finds, the plain one finds too. */
  lemma MentionedNames(text: string, name: string)
    ensures name in ExtractMentions(text).names
            <==> exists j :: 0 <= j < |text| && PlainAt(text, j) && NameAfter(text, j) == name
  {
    if name in ExtractMentions(text).names {
      var j := MentionedWhere(text, name);
    }
    if exists j :: 0 <= j < |text| && PlainAt(text, j) && NameAfter(text, j) == name {
      var j :| 0 <= j < |text| && PlainAt(text, j) && NameAfter(text, j) == name;
      DollarMentioned(text, j);
    }
  }

  /** Where a mentioned name's '$' stands. */
  lemma MentionedWhere(text: string, name: string) returns (j: nat)
    requires name in ExtractMentions(text).names
    ensures j < |text| && PlainAt(text, j) && NameAfter(text, j) == name
  {
    var linked, plain := LinkedFrom(text, 0), PlainFrom(text, 0);
    var found := LinkedNames(linked) + PlainNames(text, plain);
    assert ExtractMentions(text).names == Dedup(found);
    if name in LinkedNames(linked) {
      var k :| 0 <= k < |linked| && linked[k].name == name;
      j := linked[k].at;
    } else {
      var k :| 0 <= k < |plain| && PlainNames(text, plain)[k] == name;
      j := plain[k];
    }
  }

  /** Every '$' that starts a name mentions it. */
  lemma DollarMentioned(text: string, j: nat)
    requires j < |text| && PlainAt(text, j)
    ensures NameAfter(text, j) in ExtractMentions(text).names
  {
    var linked, plain := LinkedFrom(text, 0), PlainFrom(text, 0);
    var found := LinkedNames(linked) + PlainNames(text, plain);
    assert ExtractMentions(text).names == Dedup(found);
    PlainFromComplete(text, 0, j);
    var k :| 0 <= k < |plain| && plain[k] == j;
    var names := PlainNames(text, plain);
    assert names[k] == NameAfter(text, j);
    assert found[|linked| + k] == names[k];
    assert NameAfter(text, j) in found;
  }

  // ---------------------------------------------------------------------
  // Parsing a SKILL.md file
  // ---------------------------------------------------------------------

  /** `str(value)`: text is itself, integers are written in decimal, and
      `show` renders every other value. */
  function PyStr(j: Json, show: Json -> string): string {
    match j
    case JStr(t) => t
    case JInt(i) => IntToString(i)
    case _ => show(j)
  }

  /** `_parse_skill_file`: the file's text (or the error reading it) and
      its front matter, which must be there. */
  function ParseSkillFile(path: string, text: Result<string, string>,
                          load: string -> Result<Json, string>, show: Json -> string): (r: Result<Skill, string>)
    ensures r.Success? ==> r.value.path == path && Trimmed(r.value.name) && Trimmed(r.value.description)
    ensures r.Success? ==> text.Success? && ExtractFrontmatter(text.value).Some?
    ensures text.Success? && ExtractFrontmatter(text.value).None? ==> r == Failure("missing frontmatter")
  {
    match text
    case Failure(e) => Failure(e)
    case Success(t) =>
      match ExtractFrontmatter(t)
      case None => Failure("missing frontmatter")
      case Some(fm) => ParseFrontmatter(path, fm, load, show)
  }

  /** The front matter loaded by `load` (`yaml.safe_load`, or the error it
      raises), a falsy document read as an empty mapping, and the stripped
      name and description, both required. */
  function ParseFrontmatter(path: string, fm: string,
                            load: string -> Result<Json, string>, show: Json -> string): (r: Result<Skill, string>)
    ensures r.Success? ==> r.value.path == path && Trimmed(r.value.name) && Trimmed(r.value.description)
  {
    match load(fm)
    case Failure(e) => Failure(e)
    case Success(v) =>
      var data := if Truthy(v) then v else JObj([]);
      match GetOr(data, "name", JStr(""))
      case Failure(e) => Failure(e)
      case Success(n) =>
        match GetOr(data, "description", JStr(""))
        case Failure(e) => Failure(e)
        case Success(d) =>
          var name := Strip(PyStr(n, show));
          var description := Strip(PyStr(d, show));
          if name == [] || description == [] then Failure("missing name/description")
          else Success(Skill(name, description, path))
  }

  /** A front matter that loads as a mapping with text under "name" and
      "description" gives the skill with both stripped, exactly when
      neither is blank. */
  lemma ParseMapping(path: string, fm: string, fields: seq<(string, Json)>, name: string, description: string,
                     load: string -> Result<Json, string>, show: Json -> string)
    requires load(fm) == Success(JObj(fields))
    requires Lookup(fields, "name") == Some(JStr(name)) && Lookup(fields, "description") == Some(JStr(description))
    ensures var r := ParseFrontmatter(path, fm, load, show);
            && (r.Success? <==> Strip(name) != [] && Strip(description) != [])
            && (r.Success? ==> r.value == Skill(Strip(name), Strip(description), path))
            && (r.Failure? ==> r.error == "missing name/description")
  {
    assert fields != [];
    assert GetOr(JObj(fields), "name", JStr("")) == Success(JStr(name));
    assert GetOr(JObj(fields), "description", JStr("")) == Success(JStr(description));
    assert PyStr(JStr(name), show) == name && PyStr(JStr(description), show) == description;
    var n, d := Strip(name), Strip(description);
    assert ParseFrontmatter(path, fm, load, show)
        == if n == [] || d == [] then Failure("missing name/description") else Success(Skill(n, d, path));
  }

  /** A front matter that loads as something other than a mapping, and is
      not falsy, makes `data.get` raise: the file is not a skill. */
  lemma ParseNotMapping(path: string, fm: string, v: Json,
                        load: string -> Result<Json, string>, show: Json -> string)
    requires load(fm) == Success(v)
    requires Truthy(v) && !v.JObj?
    ensures ParseFrontmatter(path, fm, load, show).Failure?
  {
  }

  // ---------------------------------------------------------------------
  // Discovery
  // ---------------------------------------------------------------------

  /** `_skill_roots`: the three repository-local directories scanned. */
  function SkillRoots(workingDir: string): (r: seq<string>)
    ensures |r| == 3
  {
    [Paths.JoinPath(Paths.JoinPath(workingDir, ".agents"), "skills"),
     Paths.JoinPath(Paths.JoinPath(workingDir, ".codex"), "skills"),
     Paths.JoinPath(workingDir, "skills")]
  }

  function PathsOf(skills: seq<Skill>): set<string> {
    set s | s in skills :: s.path
  }

  /** The skills of `xs` whose path is not yet taken, first one first. */
  function UniqueByPath(xs: seq<Skill>, seen: set<string>): (r: seq<Skill>)
    ensures forall s :: s in r ==> s in xs && s.path !in seen
    ensures forall s :: s in xs && s.path !in seen ==> s.path in PathsOf(r)
    ensures forall a, b :: 0 <= a < b < |r| ==> r[a].path != r[b].path
    decreases |xs|
  {
    if xs == [] then []
    else if xs[0].path in seen then UniqueByPath(xs[1..], seen)
    else
      var rest := UniqueByPath(xs[1..], seen + {xs[0].path});
      assert forall s :: s in xs[1..] && s.path !in seen && s.path != xs[0].path ==> s.path in PathsOf(rest);
      [xs[0]] + rest
  }

  /** Every candidate file that parses, in walk order. */
  function ParseAll(found: seq<string>, read: string -> Result<string, string>,
                    load: string -> Result<Json, string>, show: Json -> string): (r: seq<Skill>)
    ensures forall s :: s in r <==> s.path in found && ParseSkillFile(s.path, read(s.path), load, show) == Success(s)
  {
    if found == [] then []
    else
      var rest := ParseAll(found[1..], read, load, show);
      match ParseSkillFile(found[0], read(found[0]), load, show)
      case Success(s) => [s] + rest
      case Failure(_) => rest
  }

  /** Python's `<` on strings: code point by code point. */
  predicate StrLess(a: string, b: string) {
    b != [] && (a == [] || a[0] < b[0] || (a[0] == b[0] && StrLess(a[1..], b[1..])))
  }

  lemma {:induction false} StrLessIrreflexive(a: string, b: string)
    ensures StrLess(a, b) ==> !StrLess(b, a) && a != b
  {
    if a != [] && b != [] && a[0] == b[0] {
      StrLessIrreflexive(a[1..], b[1..]);
      if a == b { assert a[1..] == b[1..]; }
    }
  }

  lemma {:induction false} StrLessTotal(a: string, b: string)
    ensures a == b || StrLess(a, b) || StrLess(b, a)
  {
    if a != [] && b != [] && a[0] == b[0] {
      StrLessTotal(a[1..], b[1..]);
      if a[1..] == b[1..] { assert a == [a[0]] + a[1..] && b == [b[0]] + b[1..]; }
    }
  }

  /** The sort key `(s.name.lower(), str(s.path))`, compared as a tuple. */
  predicate KeyLess(x: Skill, y: Skill) {
    StrLess(Lower(x.name), Lower(y.name)) || (Lower(x.name) == Lower(y.name) && StrLess(x.path, y.path))
  }

  lemma KeyLessAsymmetric(x: Skill, y: Skill)
    ensures KeyLess(x, y) ==> !KeyLess(y, x)
  {
    StrLessIrreflexive(Lower(x.name), Lower(y.name));
    StrLessIrreflexive(x.path, y.path);
  }

  /** Two skills at different paths are ordered one way or the other. */
  lemma KeyLessTotal(x: Skill, y: Skill)
    requires x.path != y.path
    ensures KeyLess(x, y) || KeyLess(y, x)
  {
    StrLessTotal(Lower(x.name), Lower(y.name));
    StrLessTotal(x.path, y.path);
  }

  predicate Ordered(xs: seq<Skill>) {
    forall k :: 0 <= k < |xs| - 1 ==> !KeyLess(xs[k + 1], xs[k])
  }

  /** Inserts `x` before the first element that does not sort below it. */
  function Insert(x: Skill, ys: seq<Skill>): (r: seq<Skill>)
    requires Ordered(ys)
    ensures Ordered(r) && multiset(r) == multiset(ys) + multiset{x}
    ensures r != [] && (r[0] == x || (ys != [] && r[0] == ys[0]))
  {
    if ys == [] || !KeyLess(ys[0], x) then [x] + ys
    else
      var rest := Insert(x, ys[1..]);
      KeyLessAsymmetric(ys[0], x);
      assert ys == [ys[0]] + ys[1..];
      [ys[0]] + rest
  }

  /** `list.sort` by the key: insertion sort, stable like Python's. */
  function SortSkills(xs: seq<Skill>): (r: seq<Skill>)
    ensures Ordered(r) && multiset(r) == multiset(xs)
  {
    if xs == [] then []
    else
      assert xs == [xs[0]] + xs[1..];
      Insert(xs[0], SortSkills(xs[1..]))
  }

  /** Sorted skills at pairwise different paths strictly increase. */
  lemma OrderedStrict(xs: seq<Skill>)
    requires Ordered(xs)
    requires forall a, b :: 0 <= a < b < |xs| ==> xs[a].path != xs[b].path
    ensures forall k :: 0 <= k < |xs| - 1 ==> KeyLess(xs[k], xs[k + 1])
  {
    forall k | 0 <= k < |xs| - 1 ensures KeyLess(xs[k], xs[k + 1]) {
      KeyLessTotal(xs[k], xs[k + 1]);
    }
  }

  /** `_discover_skills`: the SKILL.md files `walk` finds under each root
      in turn, parsed, the first skill per path kept, sorted by lower-case
      name and then path. */
  function DiscoverSkills(workingDir: string, walk: string -> seq<string>, read: string -> Result<string, string>,
                          load: string -> Result<Json, string>, show: Json -> string): (r: seq<Skill>)
    ensures forall s :: s in r <==> s.path in Candidates(workingDir, walk) && ParseSkillFile(s.path, read(s.path), load, show) == Success(s)
    ensures forall a, b :: 0 <= a < b < |r| ==> r[a].path != r[b].path
    ensures forall k :: 0 <= k < |r| - 1 ==> KeyLess(r[k], r[k + 1])
  {
    var parsed := ParseAll(Candidates(workingDir, walk), read, load, show);
    SortUnique(parsed);
    SortSkills(UniqueByPath(parsed, {}))
  }

  /** Sorting the first skill per path keeps exactly the skills of the
      list, at pairwise different paths, in strictly increasing order. */
  lemma SortUnique(parsed: seq<Skill>)
    requires forall s, t :: s in parsed && t in parsed && s.path == t.path ==> s == t
    ensures var r := SortSkills(UniqueByPath(parsed, {}));
            && (forall s :: s in r <==> s in parsed)
            && (forall a, b :: 0 <= a < b < |r| ==> r[a].path != r[b].path)
            && (forall k :: 0 <= k < |r| - 1 ==> KeyLess(r[k], r[k + 1]))
  {
    var unique := UniqueByPath(parsed, {});
    var r := SortSkills(unique);
    forall s ensures s in r <==> s in unique {
      assert s in r <==> s in multiset(r);
    }
    forall s | s in parsed ensures s in unique {
      var t :| t in unique && t.path == s.path;
    }
    DistinctPathsKept(unique, r);
    OrderedStrict(r);
  }

  function Candidates(workingDir: string, walk: string -> seq<string>): seq<string> {
    var roots := SkillRoots(workingDir);
    walk(roots[0]) + walk(roots[1]) + walk(roots[2])
  }

  /** Reordering keeps paths pairwise different. */
  lemma DistinctPathsKept(xs: seq<Skill>, ys: seq<Skill>)
    requires multiset(xs) == multiset(ys)
    requires forall a, b :: 0 <= a < b < |xs| ==> xs[a].path != xs[b].path
    ensures forall a, b :: 0 <= a < b < |ys| ==> ys[a].path != ys[b].path
  {
    forall a, b | 0 <= a < b < |ys| ensures ys[a].path != ys[b].path {
      if ys[a].path == ys[b].path {
        assert ys[a] in multiset(xs) && ys[b] in multiset(xs);
        var i :| 0 <= i < |xs| && xs[i] == ys[a];
        var j :| 0 <= j < |xs| && xs[j] == ys[b];
        if ys[a] == ys[b] {
          assert ys == ys[..a] + [ys[a]] + ys[a + 1..b] + [ys[b]] + ys[b + 1..];
          assert multiset(ys)[ys[a]] >= 2;
          SingleCount(xs, i);
          assert false;
        }
      }
    }
  }

  /** An element of a sequence whose paths differ pairwise occurs once. */
  lemma SingleCount(xs: seq<Skill>, i: nat)
    requires i < |xs|
    requires forall a, b :: 0 <= a < b < |xs| ==> xs[a].path != xs[b].path
    ensures multiset(xs)[xs[i]] == 1
  {
    if |xs| > 0 {
      assert xs == [xs[0]] + xs[1..];
      if i == 0 {
        assert xs[0] !in xs[1..];
      } else {
        SingleCount(xs[1..], i - 1);
      }
    }
  }

  /** `skills()`: the cached list, discovered again when forced or when
      nothing is cached yet. Returns the list and the new cache. */
  function CachedSkills(cache: Option<seq<Skill>>, forceReload: bool, discover: seq<Skill>): (r: (seq<Skill>, Option<seq<Skill>>))
    ensures r.1 == Some(r.0)
    ensures !forceReload && cache.Some? ==> r.0 == cache.value
    ensures forceReload || cache.None? ==> r.0 == discover
  {
    if forceReload || cache.None? then (discover, Some(discover)) else (cache.value, cache)
  }

  // ---------------------------------------------------------------------
  // The prompt section
  // ---------------------------------------------------------------------

  function Entry(s: Skill): string {
    "- " + s.name + ": " + s.description + " (file: " + s.path + ")"
  }

  function Entries(skills: seq<Skill>): (r: seq<string>)
    ensures |r| == |skills| && forall k :: 0 <= k < |skills| ==> r[k] == Entry(skills[k])
  {
    seq(|skills|, k requires 0 <= k < |skills| => Entry(skills[k]))
  }

  const SkillsIntro: string :=
    "A skill is a set of local instructions to follow that is stored in a `SKILL.md` file. "
    + "Below is the list of skills that can be used. Each entry includes a name, description, "
    + "and file path so you can open the source for full instructions when using a specific skill."

  const SkillsUsage: string :=
    "- Trigger rules: If the user names a skill (with `$SkillName` or plain text) OR the task clearly "
    + "matches a skill's description shown above, you must use that skill for that turn. Multiple mentions "
    + "mean use them all. Do not carry skills across turns unless re-mentioned.\n"
    + "- How to use a skill (progressive disclosure):\n"
    + "  1) After deciding to use a skill, open its `SKILL.md`. Read only enough to follow the workflow.\n"
    + "  2) When `SKILL.md` references relative paths, resolve them relative to the skill directory first.\n"
    + "  3) Load only the specific files needed; don't bulk-load everything.\n"
    + "  4) Prefer running or patching referenced scripts instead of retyping large code blocks.\n"
    + "- Safety and fallback: If a skill can't be applied cleanly (missing files, unclear instructions), "
    + "state the issue, pick the next-best approach, and continue."

  function SectionLines(skills: seq<Skill>): seq<string> {
    ["## Skills", SkillsIntro, "### Available skills"] + Entries(skills) + ["### How to use skills", SkillsUsage]
  }

  /** `render_skills_section`: nothing without skills, else the section's
      lines joined. */
  function RenderSkillsSection(skills: seq<Skill>): (r: Option<string>)
    ensures r.None? <==> skills == []
  {
    if skills == [] then None else Some(Join("\n", SectionLines(skills)))
  }

  /** The section lists each skill on its own line, in order, between the
      "### Available skills" and "### How to use skills" headings. */
  lemma SectionLayout(skills: seq<Skill>)
    ensures var lines := SectionLines(skills);
            && |lines| == |skills| + 5
            && lines[0] == "## Skills" && lines[2] == "### Available skills"
            && lines[3 + |skills|] == "### How to use skills"
            && forall k :: 0 <= k < |skills| ==> lines[3 + k] == "- " + skills[k].name + ": " + skills[k].description + " (file: " + skills[k].path + ")"
  {
  }

  // ---------------------------------------------------------------------
  // Per-turn injection
  // ---------------------------------------------------------------------

  const InjectionTag: string := "[SKILL:"

  /** A message an earlier injection left: a system message whose text
      starts with "[SKILL:". */
  predicate IsInjection(m: Message) {
    m.role == "system" && StartsWith(m.content.GetOr(""), InjectionTag)
  }

  predicate NoInjections(ms: seq<Message>) {
    forall k :: 0 <= k < |ms| ==> !IsInjection(ms[k])
  }

  /** The history with every earlier injection removed, order kept. */
  function RemoveInjections(ms: seq<Message>): (r: seq<Message>)
    ensures NoInjections(r) && |r| <= |ms|
  {
    if ms == [] then []
    else
      var rest := RemoveInjections(ms[1..]);
      if IsInjection(ms[0]) then rest else [ms[0]] + rest
  }

  lemma {:induction false} RemoveAppend(a: seq<Message>, b: seq<Message>)
    ensures RemoveInjections(a + b) == RemoveInjections(a) + RemoveInjections(b)
  {
    if a == [] {
      assert a + b == b;
    } else {
      assert (a + b)[0] == a[0] && (a + b)[1..] == a[1..] + b;
      RemoveAppend(a[1..], b);
    }
  }

  lemma {:induction false} RemoveNone(ms: seq<Message>)
    requires NoInjections(ms)
    ensures RemoveInjections(ms) == ms
  {
    if ms != [] {
      RemoveNone(ms[1..]);
      assert ms == [ms[0]] + ms[1..];
    }
  }

  lemma {:induction false} RemoveAll(ms: seq<Message>)
    requires forall k :: 0 <= k < |ms| ==> IsInjection(ms[k])
    ensures RemoveInjections(ms) == []
  {
    if ms != [] {
      RemoveAll(ms[1..]);
    }
  }

  /** The last message from the user. */
  function LastUser(ms: seq<Message>): (r: Option<Message>)
    ensures r.Some? ==> r.value in ms && r.value.role == "user"
    ensures r.None? ==> forall k :: 0 <= k < |ms| ==> ms[k].role != "user"
    ensures r.Some? ==> exists k :: 0 <= k < |ms| && ms[k] == r.value && forall j :: k < j < |ms| ==> ms[j].role != "user"
  {
    if ms == [] then None
    else if ms[|ms| - 1].role == "user" then Some(ms[|ms| - 1])
    else
      var r := LastUser(ms[..|ms| - 1]);
      assert forall j :: 0 <= j < |ms| - 1 ==> ms[..|ms| - 1][j] == ms[j];
      r
  }

  /** `by_name[name]` of the dict built from the list: the last skill
      with that name. */
  function ByName(skills: seq<Skill>, name: string): (r: Option<Skill>)
    ensures r.Some? ==> r.value in skills && r.value.name == name
    ensures r.None? ==> forall s :: s in skills ==> s.name != name
    decreases |skills|
  {
    if skills == [] then None
    else if skills[|skills| - 1].name == name then Some(skills[|skills| - 1])
    else ByName(skills[..|skills| - 1], name)
  }

  /** The first skill at `path`. */
  function AtPath(skills: seq<Skill>, path: string): (r: Option<Skill>)
    ensures r.Some? ==> r.value in skills && r.value.path == path
    ensures r.None? ==> forall s :: s in skills ==> s.path != path
  {
    if skills == [] then None
    else if skills[0].path == path then Some(skills[0])
    else AtPath(skills[1..], path)
  }

  /** `s` is what `by_name` gives for one of the mentioned names. */
  predicate NamedBy(s: Skill, names: seq<string>, skills: seq<Skill>) {
    exists n :: n in names && ByName(skills, n) == Some(s)
  }

  /** The skills named by the mentioned names, in mention order: every
      mentioned name with a skill contributes it, and nothing else is
      taken. */
  function NameHits(names: seq<string>, skills: seq<Skill>): (r: seq<Skill>)
    ensures forall s :: s in r ==> s in skills && NamedBy(s, names, skills)
    ensures forall n :: n in names && ByName(skills, n).Some? ==> ByName(skills, n).value in r
  {
    if names == [] then []
    else
      var rest := NameHits(names[1..], skills);
      assert forall s :: NamedBy(s, names[1..], skills) ==> NamedBy(s, names, skills) by {
        forall s | NamedBy(s, names[1..], skills) ensures NamedBy(s, names, skills) {
          var n :| n in names[1..] && ByName(skills, n) == Some(s);
          assert n in names;
        }
      }
      match ByName(skills, names[0])
      case Some(s) => [s] + rest
      case None => rest
  }

  /** Where a mentioned path points: itself when absolute, else resolved
      against the working directory by `resolve` (`Path.resolve`). */
  function Located(path: string, workingDir: string, resolve: string -> string): string {
    if StartsWith(path, "/") then path else resolve(Paths.JoinPath(workingDir, path))
  }

  /** A mentioned path is used only when its file name is SKILL.md, in
      any letter case. */
  predicate NamesSkillFile(path: string) {
    Lower(Paths.Basename(path)) == "skill.md"
  }

  /** The skill one mentioned path selects: the one at the file it points
      to, when that file is a SKILL.md. */
  function PathHit(p: string, skills: seq<Skill>, workingDir: string, resolve: string -> string): (r: Option<Skill>)
    ensures r.Some? <==> NamesSkillFile(Located(p, workingDir, resolve)) && AtPath(skills, Located(p, workingDir, resolve)).Some?
    ensures r.Some? ==> r == AtPath(skills, Located(p, workingDir, resolve))
  {
    var sp := Located(p, workingDir, resolve);
    if NamesSkillFile(sp) then AtPath(skills, sp) else None
  }

  /** `s` is the skill one of the mentioned paths selects. */
  predicate LocatedBy(s: Skill, paths: seq<string>, skills: seq<Skill>, workingDir: string, resolve: string -> string) {
    exists p :: p in paths && PathHit(p, skills, workingDir, resolve) == Some(s)
  }

  /** The skills at the mentioned SKILL.md paths, in mention order: every
      such path with a skill contributes it, and nothing else is taken. */
  function PathHits(paths: seq<string>, skills: seq<Skill>, workingDir: string, resolve: string -> string): (r: seq<Skill>)
    ensures forall s :: s in r ==> s in skills && NamesSkillFile(s.path)
    ensures forall s :: s in r ==> LocatedBy(s, paths, skills, workingDir, resolve)
    ensures forall p :: p in paths && PathHit(p, skills, workingDir, resolve).Some?
                        ==> PathHit(p, skills, workingDir, resolve).value in r
  {
    if paths == [] then []
    else
      var rest := PathHits(paths[1..], skills, workingDir, resolve);
      LocatedByTail(paths, skills, workingDir, resolve);
      match PathHit(paths[0], skills, workingDir, resolve)
      case Some(s) => [s] + rest
      case None => rest
  }

  lemma LocatedByTail(paths: seq<string>, skills: seq<Skill>, workingDir: string, resolve: string -> string)
    requires paths != []
    ensures forall s :: LocatedBy(s, paths[1..], skills, workingDir, resolve) ==> LocatedBy(s, paths, skills, workingDir, resolve)
    ensures forall s :: PathHit(paths[0], skills, workingDir, resolve) == Some(s) ==> LocatedBy(s, paths, skills, workingDir, resolve)
  {
    forall s | LocatedBy(s, paths[1..], skills, workingDir, resolve)
      ensures LocatedBy(s, paths, skills, workingDir, resolve)
    {
      var p :| p in paths[1..] && PathHit(p, skills, workingDir, resolve) == Some(s);
      assert p in paths;
    }
  }

  /** The selected skills: by name, then by path, each path once. */
  function Select(m: Mentions, skills: seq<Skill>, workingDir: string, resolve: string -> string): (r: seq<Skill>)
    ensures forall s :: s in r ==> s in skills
    ensures forall a, b :: 0 <= a < b < |r| ==> r[a].path != r[b].path
    ensures forall n :: n in m.names && ByName(skills, n).Some? ==> ByName(skills, n).value.path in PathsOf(r)
    ensures forall p :: p in m.paths && PathHit(p, skills, workingDir, resolve).Some?
                        ==> Located(p, workingDir, resolve) in PathsOf(r)
    ensures forall s :: s in r ==> NamedBy(s, m.names, skills) || LocatedBy(s, m.paths, skills, workingDir, resolve)
  {
    UniqueByPath(NameHits(m.names, skills) + PathHits(m.paths, skills, workingDir, resolve), {})
  }

  /** The injected message of one skill. */
  function InjectionText(s: Skill, contents: string): string {
    InjectionTag + s.name + " @ " + s.path + "]\n" + contents + "\n[END SKILL]"
  }

  /** The selected skills whose file `read` can read, in selection order. */
  function Readable(selected: seq<Skill>, read: string -> Result<string, string>): (r: seq<Skill>)
    ensures |r| <= |selected|
    ensures forall s :: s in r <==> s in selected && read(s.path).Success?
    ensures (forall s :: s in selected ==> read(s.path).Success?) ==> r == selected
  {
    if selected == [] then []
    else
      assert forall s :: s in selected <==> s == selected[0] || s in selected[1..];
      (if read(selected[0].path).Success? then [selected[0]] else []) + Readable(selected[1..], read)
  }

  /** The injected system message of a skill whose file reads. */
  function InjectionOf(s: Skill, read: string -> Result<string, string>): (m: Message)
    requires read(s.path).Success?
    ensures IsInjection(m)
  {
    var m := TextMessage("system", InjectionText(s, read(s.path).value));
    assert m.content.GetOr("") == InjectionTag + (s.name + " @ " + s.path + "]\n" + read(s.path).value + "\n[END SKILL]");
    m
  }

  /** One system message per selected skill whose file `read` can read,
      in selection order; unreadable skills are skipped. */
  function Injections(selected: seq<Skill>, read: string -> Result<string, string>): (r: seq<Message>)
    ensures |r| <= |selected|
    ensures forall k :: 0 <= k < |r| ==> IsInjection(r[k])
    ensures (forall s :: s in selected ==> read(s.path).Success?) ==> |r| == |selected|
    ensures |r| == |Readable(selected, read)|
    ensures forall k :: 0 <= k < |r| ==> r[k] == InjectionOf(Readable(selected, read)[k], read)
  {
    if selected == [] then []
    else
      var rest := Injections(selected[1..], read);
      match read(selected[0].path)
      case Failure(_) => rest
      case Success(c) =>
        var m := InjectionOf(selected[0], read);
        ConsInjections(selected[0], Readable(selected[1..], read), m, rest, read);
        [m] + rest
  }

  lemma ConsInjections(s: Skill, later: seq<Skill>, m: Message, rest: seq<Message>,
                       read: string -> Result<string, string>)
    requires read(s.path).Success? && m == InjectionOf(s, read)
    requires forall t :: t in later ==> read(t.path).Success?
    requires |rest| == |later| && forall k :: 0 <= k < |rest| ==> rest[k] == InjectionOf(later[k], read)
    ensures forall k :: 0 <= k < |rest| + 1 ==> ([m] + rest)[k] == InjectionOf(([s] + later)[k], read)
  {
    forall k | 0 <= k < |rest| + 1 ensures ([m] + rest)[k] == InjectionOf(([s] + later)[k], read) {
      if k > 0 { assert ([m] + rest)[k] == rest[k - 1] && ([s] + later)[k] == later[k - 1]; }
    }
  }

  /** `r` is `kept` with the injection of each skill of `inj`, in order,
      right after a leading system message, or first. */
  predicate InjectedAt(r: seq<Message>, kept: seq<Message>, inj: seq<Skill>, read: string -> Result<string, string>)
    requires forall s :: s in inj ==> read(s.path).Success?
  {
    var at := InsertAt(kept);
    && |r| == |kept| + |inj|
    && r[..at] == kept[..at]
    && r[at + |inj|..] == kept[at..]
    && forall k :: 0 <= k < |inj| ==> r[at + k] == InjectionOf(inj[k], read)
  }

  /** Where injections go: after a leading system message, else first. */
  function InsertAt(ms: seq<Message>): (r: nat)
    ensures r <= |ms|
    ensures r == 1 <==> ms != [] && ms[0].role == "system"
  {
    if ms != [] && ms[0].role == "system" then 1 else 0
  }

  /** What the injection selects for a history with no injections: the
      skills the last user message mentions, or none. */
  function Selected(kept: seq<Message>, skills: seq<Skill>, workingDir: string, resolve: string -> string): seq<Skill> {
    match LastUser(kept)
    case None => []
    case Some(u) =>
      if u.content.GetOr("") == "" then []
      else Select(ExtractMentions(u.content.value), skills, workingDir, resolve)
  }

  /** Puts the injections of the selected skills into a history. */
  function Inject(kept: seq<Message>, selected: seq<Skill>, read: string -> Result<string, string>): (r: seq<Message>)
    ensures |kept| <= |r| <= |kept| + |selected|
    ensures (forall s :: s in selected ==> read(s.path).Success?) ==> |r| == |kept| + |selected|
    ensures InjectedAt(r, kept, Readable(selected, read), read)
  {
    var at := InsertAt(kept);
    var inj := Injections(selected, read);
    InsertShape(kept[..at], inj, kept[at..]);
    kept[..at] + inj + kept[at..]
  }

  /** Removing injections undoes `Inject` on a history that had none. */
  lemma InjectRemoved(kept: seq<Message>, selected: seq<Skill>, read: string -> Result<string, string>)
    requires NoInjections(kept)
    ensures RemoveInjections(Inject(kept, selected, read)) == kept
  {
    InjectUnfold(kept, selected, read);
    var inj := Injections(selected, read);
    if InsertAt(kept) == 0 {
      assert kept[..0] == [] && kept[0..] == kept;
      RemoveAround([], inj, kept);
    } else {
      NoInjectionsSplit(kept, 1);
      RemoveAround(kept[..1], inj, kept[1..]);
      assert kept[..1] + kept[1..] == kept;
    }
  }

  lemma InjectUnfold(kept: seq<Message>, selected: seq<Skill>, read: string -> Result<string, string>)
    ensures Inject(kept, selected, read) == kept[..InsertAt(kept)] + Injections(selected, read) + kept[InsertAt(kept)..]
  {
  }

  lemma NoInjectionsSplit(kept: seq<Message>, at: nat)
    requires at <= |kept| && NoInjections(kept)
    ensures NoInjections(kept[..at]) && NoInjections(kept[at..])
  {
    assert forall k :: 0 <= k < |kept[..at]| ==> kept[..at][k] == kept[k];
    assert forall k :: 0 <= k < |kept[at..]| ==> kept[at..][k] == kept[at + k];
  }

  /** Removing injections from a run of them between two runs without
      any leaves the two runs. */
  lemma RemoveAround(head: seq<Message>, mid: seq<Message>, tail: seq<Message>)
    requires NoInjections(head) && NoInjections(tail)
    requires forall k :: 0 <= k < |mid| ==> IsInjection(mid[k])
    ensures RemoveInjections(head + mid + tail) == head + tail
  {
    RemoveAppend(head, mid);
    RemoveAppend(head + mid, tail);
    RemoveAll(mid);
    RemoveNone(head);
    RemoveNone(tail);
    assert RemoveInjections(head + mid) == head;
  }

  /** `Inject` keeps the history's first `at` messages in front and the
      rest at the back, and everything in between is an injection. */
  lemma InjectLayout(kept: seq<Message>, selected: seq<Skill>, read: string -> Result<string, string>)
    ensures var r, at := Inject(kept, selected, read), InsertAt(kept);
            && kept[..at] <= r
            && r[|r| - (|kept| - at)..] == kept[at..]
            && forall k :: at <= k < |r| - (|kept| - at) ==> IsInjection(r[k])
  {
    var at := InsertAt(kept);
    var inj := Injections(selected, read);
    var head, tail := kept[..at], kept[at..];
    var r := head + inj + tail;
    assert r[..at] == head;
    assert r[at + |inj|..] == tail;
    forall k | at <= k < at + |inj| ensures IsInjection(r[k]) {
      MiddleOf(head, inj, tail, k);
    }
  }

  /** A run put between a head and a tail keeps both in place. */
  lemma InsertShape(head: seq<Message>, mid: seq<Message>, tail: seq<Message>)
    ensures var r := head + mid + tail;
            && r[..|head|] == head && r[|head| + |mid|..] == tail
            && forall k :: 0 <= k < |mid| ==> r[|head| + k] == mid[k]
  {
  }

  lemma MiddleOf(a: seq<Message>, b: seq<Message>, c: seq<Message>, k: nat)
    requires |a| <= k < |a| + |b|
    ensures (a + b + c)[k] == b[k - |a|]
  {
  }

  /** `apply_turn_injections`: drops the earlier injections, then puts one
      system message per readable skill the last user message mentions
      right after the leading system message, leaving every other message
      where it was. */
  function ApplyTurnInjections(ms: seq<Message>, skills: seq<Skill>, workingDir: string,
                               resolve: string -> string, read: string -> Result<string, string>): (r: seq<Message>)
    ensures RemoveInjections(r) == RemoveInjections(ms)
    ensures var kept := RemoveInjections(ms);
            InjectedAt(r, kept, Readable(Selected(kept, skills, workingDir, resolve), read), read)
    ensures var kept, at := RemoveInjections(ms), InsertAt(RemoveInjections(ms));
            && kept[..at] <= r
            && r[|r| - (|kept| - at)..] == kept[at..]
            && forall k :: at <= k < |r| - (|kept| - at) ==> IsInjection(r[k])
  {
    var kept := RemoveInjections(ms);
    var selected := Selected(kept, skills, workingDir, resolve);
    InjectRemoved(kept, selected, read);
    InjectLayout(kept, selected, read);
    Inject(kept, selected, read)
  }

  /** Applying the injections a second time, with the same skills and the
      same file contents, changes nothing: the first application's
      messages are removed and put back. */
  lemma InjectIdempotent(ms: seq<Message>, skills: seq<Skill>, workingDir: string,
                         resolve: string -> string, read: string -> Result<string, string>)
    ensures var once := ApplyTurnInjections(ms, skills, workingDir, resolve, read);
            ApplyTurnInjections(once, skills, workingDir, resolve, read) == once
  {
  }

  lemma SelectNothing(skills: seq<Skill>, workingDir: string, resolve: string -> string)
    ensures Select(Mentions([], []), skills, workingDir, resolve) == []
  {
    assert NameHits([], skills) + PathHits([], skills, workingDir, resolve) == [];
  }

  lemma InjectNothing(kept: seq<Message>, read: string -> Result<string, string>)
    requires NoInjections(kept)
    ensures Inject(kept, [], read) == kept
  {
    assert Injections([], read) == [];
    assert kept[..InsertAt(kept)] + kept[InsertAt(kept)..] == kept;
  }

  /** A last user message that mentions no skill, or no last user message
      at all, leaves only the earlier injections removed. */
  lemma NothingMentioned(ms: seq<Message>, skills: seq<Skill>, workingDir: string,
                         resolve: string -> string, read: string -> Result<string, string>)
    requires var u := LastUser(RemoveInjections(ms));
             u.None? || u.value.content.GetOr("") == [] || ExtractMentions(u.value.content.value) == Mentions([], [])
    ensures ApplyTurnInjections(ms, skills, workingDir, resolve, read) == RemoveInjections(ms)
  {
    var kept := RemoveInjections(ms);
    SelectNothing(skills, workingDir, resolve);
    assert Selected(kept, skills, workingDir, resolve) == [];
    InjectNothing(kept, read);
  }

  /** A mentioned name with a skill puts that skill's body right after
      the system prompt, when its file reads, and that is the only
      mention. */
  lemma OneNameInjected(ms: seq<Message>, skills: seq<Skill>, workingDir: string, name: string, contents: string,
                        resolve: string -> string, read: string -> Result<string, string>)
    requires var u := LastUser(RemoveInjections(ms));
             u.Some? && u.value.content.Some? && u.value.content.value != []
             && ExtractMentions(u.value.content.value) == Mentions([name], [])
    requires ByName(skills, name).Some? && read(ByName(skills, name).value.path) == Success(contents)
    ensures var kept := RemoveInjections(ms);
            var at := InsertAt(kept);
            ApplyTurnInjections(ms, skills, workingDir, resolve, read)
            == kept[..at] + [TextMessage("system", InjectionText(ByName(skills, name).value, contents))] + kept[at..]
  {
    var kept := RemoveInjections(ms);
    var s := ByName(skills, name).value;
    assert Select(Mentions([name], []), skills, workingDir, resolve) == [s] by {
      assert NameHits([name], skills) == [s];
      assert NameHits([name], skills) + PathHits([], skills, workingDir, resolve) == [s];
      assert UniqueByPath([s], {}) == [s];
    }
    assert Selected(kept, skills, workingDir, resolve) == [s];
    assert Injections([s], read) == [TextMessage("system", InjectionText(s, contents))];
    assert ApplyTurnInjections(ms, skills, workingDir, resolve, read) == Inject(kept, [s], read);
  }
}

=== FILE: strings.dfy ===
/** The handful of Python `str` operations the harness relies on, written
    out over `seq<char>` with the semantics CPython gives them. */
module Strings {
  import opened Wrappers

  // ---------------------------------------------------------------------
  // Whitespace and stripping (str.strip / str.rstrip)
  // ---------------------------------------------------------------------

  /** Characters `str.strip()` removes (`str.isspace`): ASCII whitespace,
      the information separators \x1c-\x1f, NEL, and the Unicode space
      separators and line/paragraph separators. */
  predicate IsSpace(c: char) {
    c == ' ' || c == '\t' || c == '\n' || c == '\r' || c == '\U{0B}' || c == '\U{0C}'
    || ('\U{1C}' <= c <= '\U{1F}') || c == '\U{85}' || c == '\U{A0}' || c == '\U{1680}'
    || ('\U{2000}' <= c <= '\U{200A}') || c == '\U{2028}' || c == '\U{2029}'
    || c == '\U{202F}' || c == '\U{205F}' || c == '\U{3000}'
  }

  function TrimLeft(s: string): (r: string)
    ensures |r| <= |s| && r == s[|s| - |r|..]
    ensures r == [] || !IsSpace(r[0])
    ensures forall i :: 0 <= i < |s| - |r| ==> IsSpace(s[i])
  {
    if |s| > 0 && IsSpace(s[0]) then TrimLeft(s[1..]) else s
  }

  /** `str.rstrip()`. */
  function TrimRight(s: string): (r: string)
    ensures |r| <= |s| && r == s[..|r|]
    ensures r == [] || !IsSpace(r[|r| - 1])
    ensures forall i :: |r| <= i < |s| ==> IsSpace(s[i])
  {
    if |s| > 0 && IsSpace(s[|s| - 1]) then TrimRight(s[..|s| - 1]) else s
  }

  /** `str.strip()`: the slice of `s` between its leading and trailing
      whitespace runs. */
  function Strip(s: string): (r: string)
    ensures |r| <= |s|
    ensures r == [] || (!IsSpace(r[0]) && !IsSpace(r[|r| - 1]))
  {
    TrimLeft(TrimRight(s))
  }

  predicate AllSpace(s: string) {
    forall i :: 0 <= i < |s| ==> IsSpace(s[i])
  }

  lemma {:induction false} TrimLeftAllSpace(s: string)
    ensures TrimLeft(s) == [] <==> AllSpace(s)
  {
    if |s| > 0 && IsSpace(s[0]) {
      TrimLeftAllSpace(s[1..]);
      assert AllSpace(s) <==> AllSpace(s[1..]) by {
        if AllSpace(s[1..]) {
          forall i | 0 <= i < |s| ensures IsSpace(s[i]) {
            if i > 0 { assert s[i] == s[1..][i - 1]; }
          }
        }
      }
    }
  }

  lemma {:induction false} TrimRightAllSpace(s: string)
    ensures TrimRight(s) == [] <==> AllSpace(s)
  {
    if |s| > 0 && IsSpace(s[|s| - 1]) {
      TrimRightAllSpace(s[..|s| - 1]);
      assert AllSpace(s) <==> AllSpace(s[..|s| - 1]) by {
        if AllSpace(s[..|s| - 1]) {
          forall i | 0 <= i < |s| ensures IsSpace(s[i]) {
            if i < |s| - 1 { assert s[i] == s[..|s| - 1][i]; }
          }
        }
      }
    }
  }

  /** `s.strip()` is empty exactly when `s` is blank. */
  lemma StripEmptyIffBlank(s: string)
    ensures Strip(s) == [] <==> AllSpace(s)
  {
    var t := TrimRight(s);
    TrimRightAllSpace(s);
    TrimLeftAllSpace(t);
  }

  /** Text with no whitespace at either end is its own `strip()`. */
  lemma StripKeeps(s: string)
    requires s == [] || (!IsSpace(s[0]) && !IsSpace(s[|s| - 1]))
    ensures Strip(s) == s
  {
    if s != [] {
      assert TrimRight(s) == s;
    }
  }

  /** Stripping twice strips nothing more. */
  lemma StripIdempotent(s: string)
    ensures Strip(Strip(s)) == Strip(s)
  {
    var r := Strip(s);
    if r != [] {
      assert !IsSpace(r[|r| - 1]) && !IsSpace(r[0]);
      var t := TrimRight(r);
      assert t == r;
      assert TrimLeft(t) == r;
    }
  }

  // ---------------------------------------------------------------------
  // Case folding (ASCII only) and prefixes
  // ---------------------------------------------------------------------

  function LowerChar(c: char): char {
    if 'A' <= c <= 'Z' then (c as int + 32) as char else c
  }

  /** `str.lower()` restricted to ASCII letters. */
  function Lower(s: string): (r: string)
    ensures |r| == |s|
    ensures forall i :: 0 <= i < |s| ==> r[i] == LowerChar(s[i])
  {
    if s == [] then [] else [LowerChar(s[0])] + Lower(s[1..])
  }

  /** A word of lower-case ASCII letters is its own `lower().strip()`. */
  lemma LettersFixed(p: string)
    requires p != [] && forall i :: 0 <= i < |p| ==> 'a' <= p[i] <= 'z'
    ensures Strip(Lower(p)) == p
  {
    LowerKeeps(p);
    LetterNotSpace(p[0]);
    LetterNotSpace(p[|p| - 1]);
    StripKeeps(p);
  }

  /** Text without upper-case ASCII letters is its own `lower()`. */
  lemma LowerKeeps(s: string)
    requires forall i :: 0 <= i < |s| ==> 'a' <= s[i] <= 'z'
    ensures Lower(s) == s
  {
    assert forall i :: 0 <= i < |s| ==> Lower(s)[i] == s[i];
  }

  lemma LetterNotSpace(c: char)
    requires 'a' <= c <= 'z'
    ensures !IsSpace(c)
  {
  }

  /** `s.startswith(p)`. */
  predicate StartsWith(s: string, p: string) {
    |p| <= |s| && s[..|p|] == p
  }

  /** `s.rstrip(c)` for a single character. */
  function RStripChar(s: string, c: char): (r: string)
    ensures |r| <= |s| && r == s[..|r|]
    ensures r == [] || r[|r| - 1] != c
    ensures forall i :: |r| <= i < |s| ==> s[i] == c
  {
    if |s| > 0 && s[|s| - 1] == c then RStripChar(s[..|s| - 1], c) else s
  }

  // ---------------------------------------------------------------------
  // Substring search, count and replace
  // ---------------------------------------------------------------------

  predicate OccursAt(s: string, sub: string, i: int) {
    0 <= i && i + |sub| <= |s| && s[i..i + |sub|] == sub
  }

  /** Leftmost occurrence of `sub` at or after `from`. */
  function FindFrom(s: string, sub: string, from: nat): (r: Option<nat>)
    requires from <= |s|
    ensures r.Some? ==> from <= r.value && OccursAt(s, sub, r.value)
    ensures r.Some? ==> forall j :: from <= j < r.value ==> !OccursAt(s, sub, j)
    ensures r.None? ==> forall j :: from <= j ==> !OccursAt(s, sub, j)
    decreases |s| - from
  {
    if OccursAt(s, sub, from) then Some(from)
    else if from + |sub| >= |s| then None
    else FindFrom(s, sub, from + 1)
  }

  /** `s.find(sub)`, with `None` for -1. */
  function Find(s: string, sub: string): (r: Option<nat>)
    ensures r.Some? ==> OccursAt(s, sub, r.value)
    ensures r.Some? ==> forall j :: 0 <= j < r.value ==> !OccursAt(s, sub, j)
    ensures r.None? ==> forall j :: !OccursAt(s, sub, j)
  {
    FindFrom(s, sub, 0)
  }

  /** `sub in s`. */
  predicate Contains(s: string, sub: string) {
    Find(s, sub).Some?
  }

  /** Non-overlapping occurrences of a non-empty `sub` from `from` on. */
  function CountFrom(s: string, sub: string, from: nat): nat
    requires sub != [] && from <= |s|
    decreases |s| - from
  {
    match FindFrom(s, sub, from)
    case None => 0
    case Some(i) => 1 + CountFrom(s, sub, i + |sub|)
  }

  /** `s.count(sub)`; the empty string occurs `len(s) + 1` times. */
  function Count(s: string, sub: string): nat {
    if sub == [] then |s| + 1 else CountFrom(s, sub, 0)
  }

  /** `s.replace(pat, repl, 1)`. */
  function ReplaceFirst(s: string, pat: string, repl: string): string {
    match Find(s, pat)
    case None => s
    case Some(i) => s[..i] + repl + s[i + |pat|..]
  }

  /** `s.replace("", repl)`: `repl` before every character and at the end. */
  function Interleave(s: string, repl: string): string {
    if s == [] then repl else repl + [s[0]] + Interleave(s[1..], repl)
  }

  function ReplaceAllFrom(s: string, pat: string, repl: string, from: nat): string
    requires pat != [] && from <= |s|
    decreases |s| - from
  {
    match FindFrom(s, pat, from)
    case None => s[from..]
    case Some(i) => s[from..i] + repl + ReplaceAllFrom(s, pat, repl, i + |pat|)
  }

  /** `s.replace(pat, repl)`. */
  function ReplaceAll(s: string, pat: string, repl: string): string {
    if pat == [] then Interleave(s, repl) else ReplaceAllFrom(s, pat, repl, 0)
  }

  /** `sub in s` holds exactly when `s.count(sub)` is positive. */
  lemma ContainsIffCountPositive(s: string, sub: string)
    ensures Contains(s, sub) <==> Count(s, sub) >= 1
  {
    if sub == [] {
      assert OccursAt(s, sub, 0);
    }
  }

  /** With a single occurrence, replacing all and replacing the first agree. */
  lemma ReplaceAllSingle(s: string, pat: string, repl: string)
    requires Count(s, pat) == 1
    ensures ReplaceAll(s, pat, repl) == ReplaceFirst(s, pat, repl)
  {
    if pat == [] {
      assert s == [];
    } else {
      var i := FindFrom(s, pat, 0).value;
      assert CountFrom(s, pat, i + |pat|) == 0;
      assert FindFrom(s, pat, i + |pat|).None?;
      assert ReplaceAllFrom(s, pat, repl, i + |pat|) == s[i + |pat|..];
    }
  }

  /** The first occurrence is replaced: what precedes it holds no occurrence,
      and the text after it is untouched. */
  lemma ReplaceFirstSplits(s: string, pat: string, repl: string)
    requires Contains(s, pat)
    ensures exists i ::
      OccursAt(s, pat, i)
      && (forall j :: 0 <= j < i ==> !OccursAt(s, pat, j))
      && ReplaceFirst(s, pat, repl) == s[..i] + repl + s[i + |pat|..]
  {
    var i := Find(s, pat).value;
    assert OccursAt(s, pat, i);
  }

  // ---------------------------------------------------------------------
  // Joining and splitting
  // ---------------------------------------------------------------------

  /** `sep.join(parts)`. */
  function Join(sep: string, parts: seq<string>): string {
    if parts == [] then []
    else if |parts| == 1 then parts[0]
    else parts[0] + sep + Join(sep, parts[1..])
  }

  /** Concatenation of every string in `parts`. */
  function Concat(parts: seq<string>): string {
    if parts == [] then [] else parts[0] + Concat(parts[1..])
  }

  lemma {:induction false} ConcatAppend(a: seq<string>, b: seq<string>)
    ensures Concat(a + b) == Concat(a) + Concat(b)
  {
    if a != [] {
      assert (a + b)[1..] == a[1..] + b;
      ConcatAppend(a[1..], b);
    } else {
      assert a + b == b;
    }
  }

  /** Index of the first `c` in `s`, if any. */
  function IndexOf(s: string, c: char): (r: Option<nat>)
    ensures r.Some? ==> r.value < |s| && s[r.value] == c
    ensures r.Some? ==> forall j :: 0 <= j < r.value ==> s[j] != c
    ensures r.None? ==> forall j :: 0 <= j < |s| ==> s[j] != c
  {
    if s == [] then None
    else if s[0] == c then Some(0)
    else match IndexOf(s[1..], c)
      case None => None
      case Some(k) => Some(k + 1)
  }

  /** `s.split(c)`: the pieces between occurrences of `c`. */
  function Split(s: string, c: char): (r: seq<string>)
    ensures |r| >= 1
    ensures forall k :: 0 <= k < |r| ==> c !in r[k]
  {
    match IndexOf(s, c)
    case None => [s]
    case Some(i) =>
      var rest := Split(s[i + 1..], c);
      assert c !in s[..i];
      [s[..i]] + rest
  }

  /** Joining the pieces of `s.split(c)` with `c` gives `s` back. */
  lemma {:induction false} JoinSplit(s: string, c: char)
    ensures Join([c], Split(s, c)) == s
    decreases |s|
  {
    match IndexOf(s, c)
    case None =>
    case Some(i) =>
      JoinSplit(s[i + 1..], c);
      var rest := Split(s[i + 1..], c);
      var parts := [s[..i]] + rest;
      assert Split(s, c) == parts;
      assert parts[1..] == rest && |parts| > 1;
      assert Join([c], parts) == s[..i] + [c] + Join([c], rest);
      assert s == s[..i] + [c] + s[i + 1..];
  }

  /** `text.readlines()` on already-decoded text: pieces ending in "\n",
      except possibly a last piece without one. */
  function LinesKeepEnds(s: string): (r: seq<string>)
    ensures Concat(r) == s
    ensures forall k :: 0 <= k < |r| ==> r[k] != []
    ensures forall k :: 0 <= k < |r| - 1 ==> r[k][|r[k]| - 1] == '\n'
    ensures forall k, j :: 0 <= k < |r| && 0 <= j < |r[k]| - 1 ==> r[k][j] != '\n'
  {
    match IndexOf(s, '\n')
    case None => if s == [] then [] else [s]
    case Some(i) =>
      var rest := LinesKeepEnds(s[i + 1..]);
      assert s == s[..i + 1] + s[i + 1..];
      [s[..i + 1]] + rest
  }

  /** What a file opened in text mode reads: universal newlines turn each
      "\r\n" and each lone "\r" into "\n". */
  function UniversalNewlines(s: string): (r: string)
    ensures '\r' !in r
    ensures |r| <= |s|
    decreases |s|
  {
    if s == [] then []
    else if s[0] == '\r' then
      "\n" + (if |s| > 1 && s[1] == '\n' then UniversalNewlines(s[2..]) else UniversalNewlines(s[1..]))
    else [s[0]] + UniversalNewlines(s[1..])
  }

  /** Text without a carriage return reads back as it is, so reading is
      idempotent: what text mode reads, it reads again unchanged. */
  lemma {:induction false} UniversalNewlinesPlain(s: string)
    requires '\r' !in s
    ensures UniversalNewlines(s) == s
    decreases |s|
  {
    if s != [] {
      assert '\r' !in s[1..] by {
        forall c | c in s[1..] ensures c != '\r' {
          assert c in s;
        }
      }
      UniversalNewlinesPlain(s[1..]);
    }
  }

  /** Characters `str.splitlines` breaks after ("\r\n" counts as one). */
  predicate IsLineBreak(c: char) {
    c == '\n' || c == '\r' || c == '\U{0B}' || c == '\U{0C}' || ('\U{1C}' <= c <= '\U{1E}')
    || c == '\U{85}' || c == '\U{2028}' || c == '\U{2029}'
  }

  /** Length of the first line of `s`, its line break included. */
  function FirstLineLength(s: string): (n: nat)
    requires s != []
    ensures 1 <= n <= |s|
    ensures n < |s| ==> IsLineBreak(s[n - 1])
  {
    if IsLineBreak(s[0]) then
      (if s[0] == '\r' && |s| > 1 && s[1] == '\n' then 2 else 1)
    else if |s| == 1 then 1
    else 1 + FirstLineLength(s[1..])
  }

  /** `text.splitlines(True)`: the lines of `text`, each keeping its break. */
  function SplitLinesKeepEnds(s: string): (r: seq<string>)
    ensures Concat(r) == s
    ensures forall k :: 0 <= k < |r| ==> r[k] != []
    ensures forall k :: 0 <= k < |r| - 1 ==> IsLineBreak(r[k][|r[k]| - 1])
    decreases |s|
  {
    if s == [] then []
    else
      var n := FirstLineLength(s);
      assert s == s[..n] + s[n..];
      [s[..n]] + SplitLinesKeepEnds(s[n..])
  }

  /** `text.splitlines()` for "\n"-separated text: no trailing empty piece. */
  function SplitLines(s: string): (r: seq<string>)
    ensures forall k :: 0 <= k < |r| ==> '\n' !in r[k]
  {
    if s == [] then []
    else
      var parts := Split(s, '\n');
      if parts[|parts| - 1] == [] then parts[..|parts| - 1] else parts
  }

  // ---------------------------------------------------------------------
  // Numbers
  // ---------------------------------------------------------------------

  function DigitChar(d: nat): char
    requires d < 10
  {
    ('0' as int + d) as char
  }

  /** `str(n)` for a non-negative integer. */
  function NatToString(n: nat): (r: string)
    ensures |r| >= 1
    ensures forall k :: 0 <= k < |r| ==> '0' <= r[k] <= '9'
  {
    if n < 10 then [DigitChar(n)] else NatToString(n / 10) + [DigitChar(n % 10)]
  }

  /** `str(i)` for any integer. */
  function IntToString(i: int): string {
    if i < 0 then "-" + NatToString(-i) else NatToString(i)
  }

  function Spaces(n: nat): (r: string)
    ensures |r| == n && forall k :: 0 <= k < n ==> r[k] == ' '
  {
    if n == 0 then [] else [' '] + Spaces(n - 1)
  }

  /** `f"{s:>w}"`: right-aligned in a field of width `w`, never truncated. */
  function RightAlign(s: string, w: nat): (r: string)
    ensures |r| == if |s| >= w then |s| else w
    ensures r[|r| - |s|..] == s
    ensures forall k :: 0 <= k < |r| - |s| ==> r[k] == ' '
  {
    if |s| >= w then s else Spaces(w - |s|) + s
  }

  // ---------------------------------------------------------------------
  // repr() of a string
  // ---------------------------------------------------------------------

  /** The quote `repr` puts around a string: a double quote only when the
      text holds a single quote and no double quote. */
  function ReprQuote(s: string): (q: char)
    ensures q == '"' <==> '\'' in s && '"' !in s
    ensures q == '"' || q == '\''
  {
    if '\'' in s && '"' !in s then '"' else '\''
  }

  /** Latin-1 characters `repr` writes as a `\xNN` escape: the C0 and C1
      controls, DEL, the no-break space and the soft hyphen. */
  predicate HexEscaped(c: char) {
    c < ' ' || ('\U{7F}' <= c <= '\U{A0}') || c == '\U{AD}'
  }

  function HexDigit(d: nat): char
    requires d < 16
  {
    if d < 10 then ('0' as int + d) as char else ('a' as int + d - 10) as char
  }

  function HexValue(c: char): Option<nat> {
    if '0' <= c <= '9' then Some(c as int - '0' as int)
    else if 'a' <= c <= 'f' then Some(c as int - 'a' as int + 10)
    else None
  }

  /** How `repr` writes one character between quotes `q`. */
  function EscapeChar(c: char, q: char): (r: string)
    ensures |r| >= 1
    ensures r[0] == '\\' <==> (c == q || c == '\\' || HexEscaped(c))
  {
    if c == q || c == '\\' then ['\\', c]
    else if c == '\t' then "\\t"
    else if c == '\n' then "\\n"
    else if c == '\r' then "\\r"
    else if HexEscaped(c) then ['\\', 'x', HexDigit(c as int / 16), HexDigit(c as int % 16)]
    else [c]
  }

  function EscapeAll(s: string, q: char): string {
    if s == [] then [] else EscapeChar(s[0], q) + EscapeAll(s[1..], q)
  }

  /** `repr(s)` for text whose other characters are all printable. */
  function Repr(s: string): (r: string)
    ensures |r| >= 2 && r[0] == ReprQuote(s) && r[|r| - 1] == ReprQuote(s)
  {
    [ReprQuote(s)] + EscapeAll(s, ReprQuote(s)) + [ReprQuote(s)]
  }

  /** Reading back the text between the quotes of a `repr`: the escapes
      `\\`, `\'`, `\"`, `\t`, `\n`, `\r` and `\xNN`. */
  function Unescape(t: string): (r: Option<string>)
    decreases |t|
  {
    if t == [] then Some([])
    else if t[0] != '\\' then
      match Unescape(t[1..])
      case Some(rest) => Some([t[0]] + rest)
      case None => None
    else if |t| < 2 then None
    else if t[1] == 'x' then
      if |t| < 4 || HexValue(t[2]).None? || HexValue(t[3]).None? then None
      else
        match Unescape(t[4..])
        case Some(rest) => Some([(HexValue(t[2]).value * 16 + HexValue(t[3]).value) as char] + rest)
        case None => None
    else
      var c := if t[1] == 't' then '\t' else if t[1] == 'n' then '\n' else if t[1] == 'r' then '\r' else t[1];
      match Unescape(t[2..])
      case Some(rest) => Some([c] + rest)
      case None => None
  }

  lemma HexRoundTrip(c: char)
    requires HexEscaped(c)
    ensures HexValue(HexDigit(c as int / 16)) == Some(c as int / 16)
    ensures HexValue(HexDigit(c as int % 16)) == Some(c as int % 16)
    ensures (c as int / 16 * 16 + c as int % 16) as char == c
  {
  }

  /** Unescaping one escaped character in front of more text. */
  lemma EscapeCharRoundTrip(c: char, q: char, t: string)
    requires q == '\'' || q == '"'
    ensures Unescape(EscapeChar(c, q) + t) == match Unescape(t) case Some(u) => Some([c] + u) case None => None
  {
    var e := EscapeChar(c, q);
    if c == q || c == '\\' {
      assert (e + t)[2..] == t;
    } else if c == '\t' || c == '\n' || c == '\r' {
      assert (e + t)[2..] == t;
    } else if HexEscaped(c) {
      HexRoundTrip(c);
      assert (e + t)[4..] == t;
    } else {
      assert (e + t)[1..] == t;
    }
  }

  /** `repr` loses nothing: the quoted body reads back as the text. */
  lemma {:induction false} ReprRoundTrip(s: string)
    ensures var r := Repr(s); Unescape(r[1..|r| - 1]) == Some(s)
  {
    var q := ReprQuote(s);
    var r := Repr(s);
    assert r[1..|r| - 1] == EscapeAll(s, q);
    EscapeAllRoundTrip(s, q);
  }

  lemma {:induction false} EscapeAllRoundTrip(s: string, q: char)
    requires q == '\'' || q == '"'
    ensures Unescape(EscapeAll(s, q)) == Some(s)
  {
    if s != [] {
      EscapeAllRoundTrip(s[1..], q);
      EscapeCharRoundTrip(s[0], q, EscapeAll(s[1..], q));
      assert [s[0]] + s[1..] == s;
    }
  }

  /** Text with no quote, backslash or control character is simply put
      between single quotes. */
  lemma {:induction false} ReprPlain(s: string)
    requires forall k :: 0 <= k < |s| ==> s[k] != '\'' && s[k] != '"' && s[k] != '\\' && !HexEscaped(s[k])
    ensures Repr(s) == "'" + s + "'"
  {
    EscapeAllPlain(s, '\'');
  }

  lemma {:induction false} EscapeAllPlain(s: string, q: char)
    requires forall k :: 0 <= k < |s| ==> s[k] != q && s[k] != '\\' && !HexEscaped(s[k])
    ensures EscapeAll(s, q) == s
  {
    if s != [] {
      EscapeAllPlain(s[1..], q);
      assert [s[0]] + s[1..] == s;
    }
  }
}

=== FILE: tools.dfy ===
/** The built-in tools: the todo list, the dispatcher that turns every
    handler exception into a failed result, and the file tools that work on
    text. The filesystem is a map from resolved path to file text; the
    tools that run processes or reach the network are an oracle. */
module Tools {
  import opened Wrappers
  import opened Strings
  import opened Json
  import opened Paths

  datatype ToolResult = ToolResult(success: bool, output: string, error: Option<string>)

  function Ok(output: string): ToolResult {
    ToolResult(true, output, None)
  }

  function Fail(error: string): ToolResult {
    ToolResult(false, "", Some(error))
  }

  // ---------------------------------------------------------------------
  // Todo list
  // ---------------------------------------------------------------------

  /** One todo entry: its text and its status value as the model sent it. */
  datatype TodoItem = TodoItem(content: string, status: Json)

  /** `TodoItem.to_dict`. */
  function ItemJson(item: TodoItem): Json {
    JObj([("content", JStr(item.content)), ("status", item.status)])
  }

  function ItemsJson(items: seq<TodoItem>): (r: seq<Json>)
    ensures |r| == |items| && forall k :: 0 <= k < |r| ==> r[k] == ItemJson(items[k])
  {
    if items == [] then [] else [ItemJson(items[0])] + ItemsJson(items[1..])
  }

  /** One entry of `TodoList.set`: `i["content"]`, `i.get("status", "pending")`. */
  function ParseItem(j: Json): (r: Result<TodoItem, string>)
    ensures r.Success? ==> j.JObj? && Lookup(j.fields, "content") == Some(JStr(r.value.content))
    ensures r.Success? ==> r.value.status == Lookup(j.fields, "status").GetOr(JStr("pending"))
  {
    var c :- Index(j, "content");
    var status := Lookup(j.fields, "status").GetOr(JStr("pending"));
    match c
    case JStr(s) => Success(TodoItem(s, status))
    case _ => Failure("todo content is not a string")
  }

  function ParseItems(items: seq<Json>): (r: Result<seq<TodoItem>, string>)
    ensures r.Success? ==> |r.value| == |items|
  {
    if items == [] then Success([])
    else
      var h :- ParseItem(items[0]);
      var t :- ParseItems(items[1..]);
      Success([h] + t)
  }

  /** `TodoList.set` before rendering: the replacement list, which replaces the target
      one only when every entry parses. */
  function TodoSet(items: Json): (r: Result<seq<TodoItem>, string>)
    ensures r.Success? ==> items.JArr? || items.JObj? || items.JStr?
  {
    var xs :- Iterate(items);
    ParseItems(xs)
  }

  /** The dict lookup of the status marker; a list or dict status cannot be
      a dict key. */
  function Marker(status: Json): (r: Result<string, string>)
    ensures r.Success? <==> !(status.JArr? || status.JObj?)
    ensures r.Success? ==> r.value in {"[ ]", "[~]", "[x]"}
    ensures status == JStr("in_progress") ==> r == Success("[~]")
    ensures status == JStr("completed") ==> r == Success("[x]")
    ensures status != JStr("in_progress") && status != JStr("completed") && r.Success? ==> r.value == "[ ]"
  {
    match status
    case JStr("in_progress") => Success("[~]")
    case JStr("completed") => Success("[x]")
    case JArr(_) => Failure("unhashable type: 'list'")
    case JObj(_) => Failure("unhashable type: 'dict'")
    case _ => Success("[ ]")
  }

  function RenderLine(n: nat, item: TodoItem): Result<string, string> {
    var marker :- Marker(item.status);
    Success(NatToString(n) + ". " + marker + " " + item.content)
  }

  function RenderLines(items: seq<TodoItem>, first: nat): (r: Result<seq<string>, string>)
    ensures r.Success? ==> |r.value| == |items|
    ensures r.Success? ==> forall k :: 0 <= k < |items| ==> RenderLine(first + k, items[k]) == Success(r.value[k])
    decreases |items|
  {
    if items == [] then Success([])
    else
      var h :- RenderLine(first, items[0]);
      var t :- RenderLines(items[1..], first + 1);
      assert forall k :: 1 <= k < |items| ==> items[k] == items[1..][k - 1];
      Success([h] + t)
  }

  /** `TodoList.render`. */
  function Render(items: seq<TodoItem>): (r: Result<string, string>)
    ensures items == [] ==> r == Success("(empty todo list)")
  {
    if items == [] then Success("(empty todo list)")
    else
      var lines :- RenderLines(items, 1);
      Success(Join("\n", lines))
  }

  /** `to_dict` and `set` are inverse: setting the dicts of a list gives
      the list back. */
  lemma {:induction false} TodoSetItemsJson(items: seq<TodoItem>)
    ensures TodoSet(JArr(ItemsJson(items))) == Success(items)
    decreases |items|
  {
    if items != [] {
      TodoSetItemsJson(items[1..]);
      var js := ItemsJson(items);
      assert js[1..] == ItemsJson(items[1..]);
      LookupAt(ItemJson(items[0]).fields, 0, "content");
      LookupAt(ItemJson(items[0]).fields, 1, "status");
      assert ParseItem(js[0]) == Success(items[0]);
      assert [items[0]] + items[1..] == items;
    }
  }

  /** A rendered non-empty list has one line per item, numbered from 1, when
      no item's text holds a line break. */
  lemma RenderedLines(items: seq<TodoItem>)
    requires items != []
    requires forall k :: 0 <= k < |items| ==> '\n' !in items[k].content
    requires Render(items).Success?
    ensures var lines := Split(Render(items).value, '\n');
            |lines| == |items|
            && forall k :: 0 <= k < |items| ==> RenderLine(k + 1, items[k]) == Success(lines[k])
  {
    var lines := RenderLines(items, 1).value;
    forall k | 0 <= k < |lines| ensures '\n' !in lines[k] {
      var m := Marker(items[k].status).value;
      assert lines[k] == NatToString(k + 1) + ". " + m + " " + items[k].content;
      NoDigitBreak(k + 1);
    }
    SplitJoin(lines, '\n');
  }

  lemma NoDigitBreak(n: nat)
    ensures '\n' !in NatToString(n)
  {
    var s := NatToString(n);
    assert forall k :: 0 <= k < |s| ==> s[k] != '\n';
  }

  // ---------------------------------------------------------------------
  // The environment the tools act on
  // ---------------------------------------------------------------------

  /** What the executor sees: the absolute working directory, the files
      under it by resolved path, the shared todo list, and whether a
      subagent callback is installed. */
  datatype Env = Env(workingDir: string, files: map<string, string>, todo: seq<TodoItem>, canSpawn: bool)

  /** A handler's result: the output on success, the error (returned or
      raised) on failure, and the environment afterwards. */
  datatype Step = Step(out: Result<string, string>, env: Env)

  function Done(env: Env, out: Result<string, string>): Step {
    Step(out, env)
  }

  /** What `execute` leads to: a result, or the `task` tool's request to run
      a subagent on a prompt. */
  datatype Outcome =
    | Finished(result: ToolResult, env: Env)
    | SpawnSubagent(description: Json, prompt: string, env: Env)

  /** The `path` argument: `None` when falsy ("No path provided"), and the
      error `os.path.join` raises when it is truthy but not a string. */
  function PathArg(args: Json): (r: Result<Option<string>, string>)
    ensures r.Success? ==> args.JObj?
    ensures r == Success(None) <==> args.JObj? && !Truthy(Lookup(args.fields, "path").GetOr(JStr("")))
  {
    var p :- GetOr(args, "path", JStr(""));
    if !Truthy(p) then Success(None)
    else match p
      case JStr(s) => Success(Some(s))
      case _ => Failure(JoinError(p))
  }

  /** The existing file a path argument names, with the resolved key and
      the text `open(resolved, "r")` reads from it. */
  function ExistingFile(env: Env, path: string): (r: Result<(string, string), string>)
    ensures r.Success? ==> (ResolvePathAsWritten(env.workingDir, path) == Success(r.value.0)
                            && r.value.0 in env.files && r.value.1 == UniversalNewlines(env.files[r.value.0]))
    ensures ResolvePathAsWritten(env.workingDir, path).Success? && ResolvePathAsWritten(env.workingDir, path).value !in env.files
            ==> r == Failure("File not found: " + path)
  {
    var resolved :- ResolvePathAsWritten(env.workingDir, path);
    if resolved !in env.files then Failure("File not found: " + path)
    else Success((resolved, UniversalNewlines(env.files[resolved])))
  }

  /** The file a read or edit tool works on: its path argument, its
      resolved key, and its text. */
  datatype Target = Target(path: string, resolved: string, content: string)

  /** The checks the file tools make first, in order: a falsy path, a path
      outside the working directory, a missing file. */
  function FileArg(env: Env, args: Json): (r: Result<Target, string>)
    ensures r.Success? ==> args.JObj? && r.value.path != []
                           && ResolvePathAsWritten(env.workingDir, r.value.path) == Success(r.value.resolved)
                           && r.value.resolved in env.files
                           && r.value.content == UniversalNewlines(env.files[r.value.resolved])
  {
    match PathArg(args)
    case Failure(e) => Failure(e)
    case Success(None) => Failure("No path provided")
    case Success(Some(path)) =>
      var (resolved, content) :- ExistingFile(env, path);
      Success(Target(path, resolved, content))
  }

  /** A non-empty string path to an existing file inside the working
      directory passes the checks. */
  lemma FileArgOf(env: Env, args: Json, path: string)
    requires args.JObj? && Lookup(args.fields, "path") == Some(JStr(path)) && path != []
    requires ResolvePathAsWritten(env.workingDir, path).Success?
    requires ResolvePathAsWritten(env.workingDir, path).value in env.files
    ensures FileArg(env, args)
            == Success(Target(path, ResolvePathAsWritten(env.workingDir, path).value,
                              UniversalNewlines(env.files[ResolvePathAsWritten(env.workingDir, path).value])))
  {
    PathArgOf(args, path);
    ExistingFileOf(env, path);
  }

  lemma PathArgOf(args: Json, path: string)
    requires args.JObj? && Lookup(args.fields, "path") == Some(JStr(path)) && path != []
    ensures PathArg(args) == Success(Some(path))
  {
  }

  lemma ExistingFileOf(env: Env, path: string)
    requires ResolvePathAsWritten(env.workingDir, path).Success?
    requires ResolvePathAsWritten(env.workingDir, path).value in env.files
    ensures ExistingFile(env, path)
            == Success((ResolvePathAsWritten(env.workingDir, path).value,
                        UniversalNewlines(env.files[ResolvePathAsWritten(env.workingDir, path).value])))
  {
  }

  /** The check as written lets a sibling directory through: under "/a",
      the path "../ab" names the file "/ab". */
  lemma SiblingFileFound(env: Env, text: string)
    requires env.workingDir == "/a" && "/ab" in env.files && env.files["/ab"] == text
    ensures ExistingFile(env, "../ab") == Success(("/ab", UniversalNewlines(text)))
  {
    SiblingPrefixEscapes();
  }

  // ---------------------------------------------------------------------
  // read_file
  // ---------------------------------------------------------------------

  /** An optional int argument: absent or `null` is `None`; anything but an
      int (or bool) fails with `err`. */
  function IntArg(v: Option<Json>, err: string): (r: Result<Option<int>, string>)
    ensures v.None? || v == Some(JNull) ==> r == Success(None)
    ensures v.Some? && v.value.JInt? ==> r == Success(Some(v.value.i))
  {
    match v
    case None => Success(None)
    case Some(JNull) => Success(None)
    case Some(j) =>
      match AsInt(j)
      case Some(i) => Success(Some(i))
      case None => Failure(err)
  }

  /** `xs[start:]` with a non-negative start. */
  function DropFirst<T>(xs: seq<T>, start: int): (r: seq<T>)
    requires start >= 0
    ensures |r| == if start >= |xs| then 0 else |xs| - start
  {
    if start >= |xs| then [] else xs[start..]
  }

  /** `xs[:stop]`: a negative stop counts from the end. */
  function TakeFirst<T>(xs: seq<T>, stop: int): (r: seq<T>)
    ensures r <= xs
    ensures 0 <= stop ==> |r| == if stop <= |xs| then stop else |xs|
    ensures stop < 0 ==> |r| == if |xs| + stop >= 0 then |xs| + stop else 0
  {
    if stop >= 0 then (if stop <= |xs| then xs[..stop] else xs)
    else if |xs| + stop >= 0 then xs[..|xs| + stop]
    else []
  }

  /** `f"{n:>6}\t{line.rstrip()}"` for each line, numbered from `start`. */
  function NumberLines(lines: seq<string>, start: int): (r: seq<string>)
    ensures |r| == |lines|
    ensures forall k :: 0 <= k < |r| ==> r[k] == NumberLine(start + k, lines[k])
  {
    seq(|lines|, k requires 0 <= k < |lines| => NumberLine(start + k, lines[k]))
  }

  function NumberLine(n: int, line: string): string {
    RightAlign(IntToString(n), 6) + "\t" + TrimRight(line)
  }

  /** The lines `read_file` shows: from line `offset` on (1-based), at most
      `limit` of them. */
  function Window(lines: seq<string>, offset: Option<int>, limit: Option<int>): seq<string> {
    var afterOffset := match offset case None => lines case Some(o) => DropFirst(lines, if o - 1 > 0 then o - 1 else 0);
    match limit case None => afterOffset case Some(l) => TakeFirst(afterOffset, l)
  }

  /** The number of the first line shown: `max(1, offset or 1)`. */
  function FirstNumber(offset: Option<int>): (n: int)
    ensures n >= 1
  {
    match offset case None => 1 case Some(o) => if o > 1 then o else 1
  }

  function ReadFile(env: Env, args: Json): (r: Step)
    ensures r.env == env
  {
    match FileArg(env, args)
    case Failure(e) => Done(env, Failure(e))
    case Success(Target(_, _, text)) =>
        Done(env, ReadText(text, Lookup(args.fields, "offset"), Lookup(args.fields, "limit")))
  }

  /** For a non-empty string path: a missing file is reported by name, and
      an existing one is listed from the text text mode reads from it,
      whatever else is in the arguments. */
  lemma ReadFileAgrees(env: Env, args: Json, path: string)
    requires args.JObj? && Lookup(args.fields, "path") == Some(JStr(path)) && path != []
    requires ResolvePathAsWritten(env.workingDir, path).Success?
    ensures var resolved := ResolvePathAsWritten(env.workingDir, path).value;
            var r := ReadFile(env, args);
            if resolved in env.files
            then r.out == ReadText(UniversalNewlines(env.files[resolved]), Lookup(args.fields, "offset"), Lookup(args.fields, "limit"))
            else r.out == Failure("File not found: " + path)
  {
    PathArgOf(args, path);
  }

  /** The numbered listing of `text` for the given `offset` and `limit`
      arguments. */
  function ReadText(text: string, offsetArg: Option<Json>, limitArg: Option<Json>): (r: Result<string, string>)
    ensures (offsetArg.None? || offsetArg.value.JInt?) && (limitArg.None? || limitArg.value.JInt?) ==> r.Success?
  {
    var offset :- IntArg(offsetArg, "unsupported operand type(s) for -: '" + TypeName(offsetArg.GetOr(JNull)) + "' and 'int'");
    var limit :- IntArg(limitArg, "slice indices must be integers or None or have an __index__ method");
    Success(Join("\n", NumberLines(Window(LinesKeepEnds(text), offset, limit), FirstNumber(offset))))
  }

  /** A rendered listing splits back into exactly the chosen lines, each
      numbered and stripped of trailing whitespace. */
  lemma ReadTextLines(text: string, offset: Option<int>, limit: Option<int>)
    requires Window(LinesKeepEnds(text), offset, limit) != []
    ensures var shown := Window(LinesKeepEnds(text), offset, limit);
            var out := Join("\n", NumberLines(shown, FirstNumber(offset)));
            Split(out, '\n') == NumberLines(shown, FirstNumber(offset))
  {
    var shown := Window(LinesKeepEnds(text), offset, limit);
    WindowNoInnerBreak(LinesKeepEnds(text), offset, limit);
    NumberLinesNoBreak(shown, FirstNumber(offset));
    SplitJoin(NumberLines(shown, FirstNumber(offset)), '\n');
  }

  /** Lines with no "\n" except possibly a final one, as `readlines` gives. */
  predicate NoInnerBreak(lines: seq<string>) {
    forall k, j :: 0 <= k < |lines| && 0 <= j < |lines[k]| - 1 ==> lines[k][j] != '\n'
  }

  lemma WindowNoInnerBreak(lines: seq<string>, offset: Option<int>, limit: Option<int>)
    requires NoInnerBreak(lines)
    ensures NoInnerBreak(Window(lines, offset, limit))
  {
    var afterOffset := match offset case None => lines case Some(o) => DropFirst(lines, if o - 1 > 0 then o - 1 else 0);
    assert NoInnerBreak(afterOffset) by {
      if offset.Some? && (if offset.value - 1 > 0 then offset.value - 1 else 0) < |lines| {
        var d := if offset.value - 1 > 0 then offset.value - 1 else 0;
        assert forall k :: 0 <= k < |afterOffset| ==> afterOffset[k] == lines[d + k];
      }
    }
  }

  lemma NumberLinesNoBreak(lines: seq<string>, start: int)
    requires NoInnerBreak(lines)
    ensures forall k :: 0 <= k < |lines| ==> '\n' !in NumberLines(lines, start)[k]
  {
    forall k | 0 <= k < |lines| ensures '\n' !in NumberLines(lines, start)[k] {
      LineNoBreak(start + k, lines[k]);
    }
  }

  lemma LineNoBreak(n: int, line: string)
    requires forall j :: 0 <= j < |line| - 1 ==> line[j] != '\n'
    ensures '\n' !in NumberLine(n, line)
  {
    if n < 0 { NoDigitBreak(-n); } else { NoDigitBreak(n); }
    TrimRightNoBreak(line);
  }

  /** A line ending in at most one "\n" has none left once stripped. */
  lemma TrimRightNoBreak(line: string)
    requires forall j :: 0 <= j < |line| - 1 ==> line[j] != '\n'
    ensures '\n' !in TrimRight(line)
  {
    var r := TrimRight(line);
    forall i | 0 <= i < |r| ensures r[i] != '\n' {
      assert r[i] == line[i];
      if i == |r| - 1 {
        assert !IsSpace(r[i]);
      }
    }
  }

  /** How many lines `read_file` shows with a non-negative limit, and the
      number it starts counting from. */
  lemma WindowSize(lines: seq<string>, offset: int, limit: nat)
    ensures var skip := if offset - 1 > 0 then offset - 1 else 0;
            var left := if skip >= |lines| then 0 else |lines| - skip;
            |Window(lines, Some(offset), Some(limit))| == if limit <= left then limit else left
    ensures FirstNumber(Some(offset)) == if offset > 1 then offset else 1
  {
  }

  // ---------------------------------------------------------------------
  // write_file
  // ---------------------------------------------------------------------

  /** `write_file`: the file is opened for writing (and so emptied) before a
      non-string content makes `write` raise. `len(content)` counts
      characters. */
  function WriteFile(env: Env, args: Json): (r: Step)
    ensures r.env.todo == env.todo && r.env.workingDir == env.workingDir && r.env.canSpawn == env.canSpawn
    ensures r.out.Success? ==> args.JObj? && Lookup(args.fields, "content").GetOr(JStr("")).JStr?
    ensures r.out.Success? ==>
              && PathArg(args).Success? && PathArg(args).value.Some?
              && ResolvePathAsWritten(env.workingDir, PathArg(args).value.value).Success?
              && r.env.files == env.files[ResolvePathAsWritten(env.workingDir, PathArg(args).value.value).value
                                          := Lookup(args.fields, "content").GetOr(JStr("")).s]
    ensures r.out.Success? ==>
              r.out.value == "Wrote " + NatToString(|Lookup(args.fields, "content").GetOr(JStr("")).s|) + " bytes to "
                             + PathArg(args).value.value
  {
    match PathArg(args)
    case Failure(e) => Done(env, Failure(e))
    case Success(None) => Done(env, Failure("No path provided"))
    case Success(Some(path)) =>
      match ResolvePathAsWritten(env.workingDir, path)
      case Failure(e) => Done(env, Failure(e))
      case Success(resolved) => StoreText(env, resolved, path, Lookup(args.fields, "content").GetOr(JStr("")))
  }

  /** `open(resolved, "w")` then `f.write(content)`. */
  function StoreText(env: Env, resolved: string, path: string, content: Json): (r: Step)
    ensures r.env.todo == env.todo && r.env.workingDir == env.workingDir && r.env.canSpawn == env.canSpawn
    ensures r.out.Success? <==> content.JStr?
    ensures r.env.files == env.files[resolved := if content.JStr? then content.s else ""]
    ensures !content.JStr? ==> r.out.error == "write() argument must be str, not " + ArgTypeName(content)
    ensures content.JStr? ==> r.out == Success("Wrote " + NatToString(|content.s|) + " bytes to " + path)
  {
    match content
    case JStr(text) =>
      Done(env.(files := env.files[resolved := text]), Success("Wrote " + NatToString(|text|) + " bytes to " + path))
    case _ =>
      Done(env.(files := env.files[resolved := ""]), Failure("write() argument must be str, not " + ArgTypeName(content)))
  }

  // ---------------------------------------------------------------------
  // edit_file
  // ---------------------------------------------------------------------

  /** The text check and replacement of `edit_file` on a file's content. */
  function EditText(content: string, target: string, replacement: string, replaceAll: bool): (r: Result<string, string>)
    ensures r.Success? <==> Contains(content, target) && (replaceAll || Count(content, target) <= 1)
    ensures !Contains(content, target) ==> r == Failure("old_string not found in file")
    ensures Contains(content, target) && !replaceAll && Count(content, target) > 1
            ==> r == Failure("old_string found " + NatToString(Count(content, target))
                             + " times; use replace_all or provide more context")
  {
    if !Contains(content, target) then Failure("old_string not found in file")
    else if !replaceAll && Count(content, target) > 1 then
      Failure("old_string found " + NatToString(Count(content, target)) + " times; use replace_all or provide more context")
    else if replaceAll then Success(ReplaceAll(content, target, replacement))
    else Success(ReplaceFirst(content, target, replacement))
  }

  /** An edit succeeds exactly when the text occurs once (or at all, with
      `replace_all`), and a single occurrence is replaced the same way
      with or without `replace_all`. */
  lemma EditTextUnique(content: string, target: string, replacement: string)
    ensures EditText(content, target, replacement, false).Success? <==> Count(content, target) == 1
    ensures Count(content, target) == 1 ==>
              EditText(content, target, replacement, false) == EditText(content, target, replacement, true)
              == Success(ReplaceFirst(content, target, replacement))
  {
    ContainsIffCountPositive(content, target);
    if Count(content, target) == 1 {
      ReplaceAllSingle(content, target, replacement);
    }
  }

  /** A successful single edit replaces the first occurrence and keeps the
      text around it. */
  lemma EditTextSplits(content: string, target: string, replacement: string)
    requires EditText(content, target, replacement, false).Success?
    ensures exists i ::
      OccursAt(content, target, i)
      && EditText(content, target, replacement, false).value == content[..i] + replacement + content[i + |target|..]
  {
    ReplaceFirstSplits(content, target, replacement);
  }

  function StringArgError(j: Json): string {
    "'in <string>' requires string as left operand, not " + TypeName(j)
  }

  function ReplaceArgError(j: Json): string {
    "replace() argument 2 must be str, not " + ArgTypeName(j)
  }

  /** `edit_file`: `old_string not in content` raises for a non-string
      target, and `content.replace` raises for a non-string replacement
      once the target was found. */
  function EditFile(env: Env, args: Json): (r: Step)
    ensures r.out.Failure? ==> r.env == env
    ensures r.env.todo == env.todo && r.env.workingDir == env.workingDir && r.env.canSpawn == env.canSpawn
    ensures FileArg(env, args).Failure? ==> r == Done(env, Failure(FileArg(env, args).error))
    ensures FileArg(env, args).Success? ==>
              var oldJ := Lookup(args.fields, "old_string").GetOr(JStr(""));
              !oldJ.JStr? ==> r == Done(env, Failure("'in <string>' requires string as left operand, not " + TypeName(oldJ)))
    ensures FileArg(env, args).Success? ==>
              var oldJ := Lookup(args.fields, "old_string").GetOr(JStr(""));
              var newJ := Lookup(args.fields, "new_string").GetOr(JStr(""));
              var replaceAll := Truthy(Lookup(args.fields, "replace_all").GetOr(JBool(false)));
              oldJ.JStr? && EditText(FileArg(env, args).value.content, oldJ.s, "", replaceAll).Success? && !newJ.JStr?
              ==> r == Done(env, Failure("replace() argument 2 must be str, not " + ArgTypeName(newJ)))
  {
    match FileArg(env, args)
    case Failure(e) => Done(env, Failure(e))
    case Success(Target(path, resolved, content)) =>
        var f := args.fields;
        var oldJ := Lookup(f, "old_string").GetOr(JStr(""));
        var newJ := Lookup(f, "new_string").GetOr(JStr(""));
        var replaceAll := Truthy(Lookup(f, "replace_all").GetOr(JBool(false)));
        if !oldJ.JStr? then Done(env, Failure(StringArgError(oldJ)))
        else match EditText(content, oldJ.s, "", replaceAll)
          case Failure(e) => Done(env, Failure(e))
          case Success(_) =>
            if !newJ.JStr? then Done(env, Failure(ReplaceArgError(newJ)))
            else
              var edited := EditText(content, oldJ.s, newJ.s, replaceAll).value;
              Done(env.(files := env.files[resolved := edited]), Success("Edited " + path))
  }

  /** The arguments of a well-formed `edit_file` call. */
  function EditArgs(path: string, target: string, replacement: string, replaceAll: bool): Json {
    JObj([("path", JStr(path)), ("old_string", JStr(target)), ("new_string", JStr(replacement)),
          ("replace_all", JBool(replaceAll))])
  }

  /** On an existing file, a well-formed `edit_file` call writes back exactly
      what the text edit produces, and fails with its error otherwise. */
  lemma EditFileAgrees(env: Env, path: string, target: string, replacement: string, replaceAll: bool)
    requires path != []
    requires ResolvePathAsWritten(env.workingDir, path).Success?
    requires ResolvePathAsWritten(env.workingDir, path).value in env.files
    ensures var resolved := ResolvePathAsWritten(env.workingDir, path).value;
            var r := EditFile(env, EditArgs(path, target, replacement, replaceAll));
            match EditText(UniversalNewlines(env.files[resolved]), target, replacement, replaceAll)
            case Success(edited) =>
              r == Done(env.(files := env.files[resolved := edited]), Success("Edited " + path))
            case Failure(e) => r == Done(env, Failure(e))
  {
    EditArgsLookups(path, target, replacement, replaceAll);
    FileArgOf(env, EditArgs(path, target, replacement, replaceAll), path);
  }

  lemma EditArgsLookups(path: string, target: string, replacement: string, replaceAll: bool)
    ensures var f := EditArgs(path, target, replacement, replaceAll).fields;
            && Lookup(f, "path") == Some(JStr(path))
            && Lookup(f, "old_string") == Some(JStr(target))
            && Lookup(f, "new_string") == Some(JStr(replacement))
            && Lookup(f, "replace_all") == Some(JBool(replaceAll))
  {
    var f := EditArgs(path, target, replacement, replaceAll).fields;
    LookupAt(f, 0, "path");
    LookupAt(f, 1, "old_string");
    LookupAt(f, 2, "new_string");
    LookupAt(f, 3, "replace_all");
  }

  /** Text mode never reads a carriage return, so an `old_string` holding
      one is never found, even in a file whose bytes contain it. */
  lemma EditCarriageReturnNotFound(env: Env, path: string, target: string, replacement: string, replaceAll: bool)
    requires path != []
    requires ResolvePathAsWritten(env.workingDir, path).Success?
    requires ResolvePathAsWritten(env.workingDir, path).value in env.files
    requires '\r' in target
    ensures EditFile(env, EditArgs(path, target, replacement, replaceAll)) == Done(env, Failure("old_string not found in file"))
  {
    EditFileAgrees(env, path, target, replacement, replaceAll);
    NoCarriageReturnMatch(UniversalNewlines(env.files[ResolvePathAsWritten(env.workingDir, path).value]), target);
  }

  /** A null `new_string` fails `edit_file` once the target is found, with
      the message `str.replace` gives for `None`, and changes nothing. */
  lemma EditNullReplacement(env: Env, path: string, target: string)
    requires path != []
    requires ResolvePathAsWritten(env.workingDir, path).Success?
    requires ResolvePathAsWritten(env.workingDir, path).value in env.files
    requires Count(UniversalNewlines(env.files[ResolvePathAsWritten(env.workingDir, path).value]), target) == 1
    ensures var args := JObj([("path", JStr(path)), ("old_string", JStr(target)), ("new_string", JNull)]);
            EditFile(env, args) == Done(env, Failure("replace() argument 2 must be str, not " + "None"))
  {
    var args := JObj([("path", JStr(path)), ("old_string", JStr(target)), ("new_string", JNull)]);
    NullEditLookups(path, target);
    FileArgOf(env, args, path);
    EditTextUnique(UniversalNewlines(env.files[ResolvePathAsWritten(env.workingDir, path).value]), target, "");
  }

  lemma NullEditLookups(path: string, target: string)
    ensures var f := [("path", JStr(path)), ("old_string", JStr(target)), ("new_string", JNull)];
      && Lookup(f, "path") == Some(JStr(path))
      && Lookup(f, "old_string") == Some(JStr(target))
      && Lookup(f, "new_string") == Some(JNull)
      && Lookup(f, "replace_all") == None
  {
    var f := [("path", JStr(path)), ("old_string", JStr(target)), ("new_string", JNull)];
    LookupAt(f, 0, "path");
    LookupAt(f, 1, "old_string");
    LookupAt(f, 2, "new_string");
    LookupAbsent(f, "replace_all");
  }

  lemma NoCarriageReturnMatch(s: string, sub: string)
    requires '\r' !in s && '\r' in sub
    ensures !Contains(s, sub)
  {
  }

  /** Whether `edit_file` succeeds does not depend on the replacement. */
  lemma EditTextReplacementIrrelevant(content: string, target: string, a: string, b: string, replaceAll: bool)
    ensures EditText(content, target, a, replaceAll).Success? == EditText(content, target, b, replaceAll).Success?
  {
  }

  // ---------------------------------------------------------------------
  // multi_edit
  // ---------------------------------------------------------------------

  /** The loop of `multi_edit`: each edit replaces the first occurrence in
      the current text when there is one and is skipped otherwise. The
      result is the final text and how many edits applied. */
  function ApplyEdits(content: string, edits: seq<Json>): (r: Result<(string, nat), string>)
    decreases |edits|
    ensures r.Success? ==> r.value.1 <= |edits|
    ensures edits == [] ==> r == Success((content, 0))
    ensures edits != [] && ApplyEdit(content, edits[0]).Failure? ==> r == Failure(ApplyEdit(content, edits[0]).error)
    ensures edits != [] && ApplyEdit(content, edits[0]).Success? ==>
              var (next, n) := ApplyEdit(content, edits[0]).value;
              r == AddCount(n, ApplyEdits(next, edits[1..]))
  {
    Steps(ApplyEdit, content, edits)
  }

  /** Edits applied in turn by `step`, each on the text the previous one
      left, counting the ones that applied; the first failure stops it. */
  function Steps(step: (string, Json) -> Result<(string, nat), string>, content: string, edits: seq<Json>)
    : (r: Result<(string, nat), string>)
    requires forall c, e :: step(c, e).Success? ==> step(c, e).value.1 <= 1
    ensures r.Success? ==> r.value.1 <= |edits|
    decreases |edits|
  {
    if edits == [] then Success((content, 0))
    else
      var (next, n) :- step(content, edits[0]);
      AddCount(n, Steps(step, next, edits[1..]))
  }

  /** The outcome of the remaining edits with `n` more applied ones. */
  function AddCount(n: nat, r: Result<(string, nat), string>): (s: Result<(string, nat), string>)
    ensures s.Success? <==> r.Success?
    ensures s.Success? ==> s.value == (r.value.0, n + r.value.1)
    ensures s.Failure? ==> s == r
  {
    match r
    case Success((last, m)) => Success((last, n + m))
    case Failure(e) => Failure(e)
  }

  /** One edit: `edit.get(...)` for both strings, then `target in content` and
      `content.replace(target, replacement, 1)`. */
  function ApplyEdit(content: string, edit: Json): (r: Result<(string, nat), string>)
    ensures r.Success? ==> r.value.1 <= 1
    ensures r.Success? && r.value.1 == 0 ==> r.value.0 == content
    ensures !edit.JObj? ==> r.Failure?
    ensures edit.JObj? ==>
              var oldJ := Lookup(edit.fields, "old_string").GetOr(JStr(""));
              var newJ := Lookup(edit.fields, "new_string").GetOr(JStr(""));
              && (!oldJ.JStr? ==> r == Failure("'in <string>' requires string as left operand, not " + TypeName(oldJ)))
              && (oldJ.JStr? && !Contains(content, oldJ.s) ==> r == Success((content, 0)))
              && (oldJ.JStr? && Contains(content, oldJ.s) && !newJ.JStr?
                  ==> r == Failure("replace() argument 2 must be str, not " + ArgTypeName(newJ)))
              && (oldJ.JStr? && Contains(content, oldJ.s) && newJ.JStr?
                  ==> r == Success((ReplaceFirst(content, oldJ.s, newJ.s), 1)))
  {
    var oldJ :- GetOr(edit, "old_string", JStr(""));
    var newJ := Lookup(edit.fields, "new_string").GetOr(JStr(""));
    if !oldJ.JStr? then Failure(StringArgError(oldJ))
    else if !Contains(content, oldJ.s) then Success((content, 0))
    else if !newJ.JStr? then Failure(ReplaceArgError(newJ))
    else Success((ReplaceFirst(content, oldJ.s, newJ.s), 1))
  }

  /** An edit whose target is found but whose replacement is null fails
      with the message `str.replace` gives for `None`. */
  lemma ApplyEditNullReplacement(content: string, target: string)
    requires Contains(content, target)
    ensures ApplyEdit(content, JObj([("old_string", JStr(target)), ("new_string", JNull)]))
            == Failure("replace() argument 2 must be str, not " + "None")
  {
    var edit := JObj([("old_string", JStr(target)), ("new_string", JNull)]);
    LookupAt(edit.fields, 0, "old_string");
    LookupAt(edit.fields, 1, "new_string");
  }

  /** An edit given as a dict with two strings. */
  function EditJson(target: string, replacement: string): Json {
    JObj([("old_string", JStr(target)), ("new_string", JStr(replacement))])
  }

  /** A well-formed edit replaces the first occurrence when there is one,
      and otherwise leaves the text alone and does not count. */
  lemma ApplyEditOne(content: string, target: string, replacement: string)
    ensures ApplyEdit(content, EditJson(target, replacement))
            == if Contains(content, target) then Success((ReplaceFirst(content, target, replacement), 1))
               else Success((content, 0))
  {
    LookupAt(EditJson(target, replacement).fields, 0, "old_string");
    LookupAt(EditJson(target, replacement).fields, 1, "new_string");
  }

  /** Applying two lists of edits one after the other is applying their
      concatenation; the applied counts add up. */
  lemma ApplyEditsAppend(content: string, a: seq<Json>, b: seq<Json>)
    requires ApplyEdits(content, a).Success?
    ensures ApplyEdits(content, a + b)
            == AddCount(ApplyEdits(content, a).value.1, ApplyEdits(ApplyEdits(content, a).value.0, b))
  {
    StepsAppend(ApplyEdit, content, a, b);
  }

  lemma {:induction false} StepsAppend(step: (string, Json) -> Result<(string, nat), string>,
                                       content: string, a: seq<Json>, b: seq<Json>)
    requires forall c, e :: step(c, e).Success? ==> step(c, e).value.1 <= 1
    requires Steps(step, content, a).Success?
    ensures Steps(step, content, a + b)
            == AddCount(Steps(step, content, a).value.1, Steps(step, Steps(step, content, a).value.0, b))
    decreases |a|
  {
    if a == [] {
      assert a + b == b;
    } else {
      assert (a + b)[0] == a[0];
      assert (a + b)[1..] == a[1..] + b;
      var (next, n) := step(content, a[0]).value;
      StepsAppend(step, next, a[1..], b);
      var (last, m) := Steps(step, next, a[1..]).value;
      AddCountTwice(n, m, Steps(step, last, b));
    }
  }

  lemma AddCountTwice(n: nat, m: nat, r: Result<(string, nat), string>)
    ensures AddCount(n, AddCount(m, r)) == AddCount(n + m, r)
  {
  }

  /** Unfolding `ApplyEdits` once, given how its first edit went. */
  lemma ApplyEditsHead(content: string, edits: seq<Json>, next: string, n: nat)
    requires edits != [] && ApplyEdit(content, edits[0]) == Success((next, n))
    ensures ApplyEdits(content, edits) == AddCount(n, ApplyEdits(next, edits[1..]))
  {
  }

  function MultiEdit(env: Env, args: Json): (r: Step)
    ensures r.out.Failure? ==> r.env == env
    ensures r.env.todo == env.todo && r.env.workingDir == env.workingDir && r.env.canSpawn == env.canSpawn
    ensures FileArg(env, args).Success? && Iterate(Lookup(args.fields, "edits").GetOr(JArr([]))).Success? ==>
              var target := FileArg(env, args).value;
              var edits := Iterate(Lookup(args.fields, "edits").GetOr(JArr([]))).value;
              match ApplyEdits(target.content, edits)
              case Failure(e) => r == Done(env, Failure(e))
              case Success((last, applied)) =>
                && r.out == Success("Applied " + NatToString(applied) + "/" + NatToString(|edits|) + " edits to " + target.path)
                && r.env.files == env.files[target.resolved := last]
  {
    match FileArg(env, args)
    case Failure(e) => Done(env, Failure(e))
    case Success(Target(path, resolved, content)) =>
        match Iterate(Lookup(args.fields, "edits").GetOr(JArr([])))
        case Failure(e) => Done(env, Failure(e))
        case Success(edits) =>
          match ApplyEdits(content, edits)
          case Failure(e) => Done(env, Failure(e))
          case Success((last, applied)) =>
            Done(env.(files := env.files[resolved := last]),
                 Success("Applied " + NatToString(applied) + "/" + NatToString(|edits|) + " edits to " + path))
  }

  /** Writing a value that is not a string still empties the file: the
      file is opened for writing before `write` raises. */
  lemma WriteNonStringTruncates(env: Env, path: string, n: int)
    requires path != [] && ResolvePathAsWritten(env.workingDir, path).Success?
    ensures var r := WriteFile(env, JObj([("path", JStr(path)), ("content", JInt(n))]));
            && r.out == Failure("write() argument must be str, not " + TypeName(JInt(n)))
            && r.env.files == env.files[ResolvePathAsWritten(env.workingDir, path).value := ""]
  {
    var args := JObj([("path", JStr(path)), ("content", JInt(n))]);
    LookupAt(args.fields, 0, "path");
    LookupAt(args.fields, 1, "content");
    WriteFileOf(env, args, path, JInt(n));
  }

  /** A JSON null content empties the file too, and `write` names `None`
      itself rather than its type. */
  lemma WriteNullContent(env: Env, path: string)
    requires path != [] && ResolvePathAsWritten(env.workingDir, path).Success?
    ensures var r := WriteFile(env, JObj([("path", JStr(path)), ("content", JNull)]));
            && r.out == Failure("write() argument must be str, not " + "None")
            && r.env.files == env.files[ResolvePathAsWritten(env.workingDir, path).value := ""]
  {
    var args := JObj([("path", JStr(path)), ("content", JNull)]);
    LookupAt(args.fields, 0, "path");
    LookupAt(args.fields, 1, "content");
    WriteFileOf(env, args, path, JNull);
  }

  /** For a non-empty string path inside the working directory, write_file
      stores whatever content it was given. */
  lemma WriteFileOf(env: Env, args: Json, path: string, content: Json)
    requires args.JObj? && Lookup(args.fields, "path") == Some(JStr(path)) && path != []
    requires Lookup(args.fields, "content") == Some(content)
    requires ResolvePathAsWritten(env.workingDir, path).Success?
    ensures WriteFile(env, args) == StoreText(env, ResolvePathAsWritten(env.workingDir, path).value, path, content)
  {
    PathArgOf(args, path);
  }

  // ---------------------------------------------------------------------
  // task, todo, web_search
  // ---------------------------------------------------------------------

  /** `task`: a falsy prompt and a missing callback are refused; otherwise
      the callback is asked to run a subagent on the prompt. */
  function Task(env: Env, args: Json): (r: Outcome)
    ensures r.SpawnSubagent? ==> env.canSpawn && r.env == env && r.prompt != []
    ensures r.Finished? ==> !r.result.success && r.env == env
    ensures args.JObj? && !Truthy(Lookup(args.fields, "prompt").GetOr(JStr("")))
            ==> r == Finished(Fail("No prompt provided"), env)
    ensures args.JObj? && Truthy(Lookup(args.fields, "prompt").GetOr(JStr(""))) && !env.canSpawn
            ==> r == Finished(Fail("Subagent spawning not available"), env)
    ensures args.JObj? && env.canSpawn && Lookup(args.fields, "prompt").Some?
            && Lookup(args.fields, "prompt").value.JStr? && Lookup(args.fields, "prompt").value.s != []
            ==> r.SpawnSubagent? && r.prompt == Lookup(args.fields, "prompt").value.s
  {
    match Get(args, "description")
    case Failure(e) => Finished(Fail(e), env)
    case Success(d) =>
      var description := d.GetOr(JStr(""));
      var prompt := Lookup(args.fields, "prompt").GetOr(JStr(""));
      if !Truthy(prompt) then Finished(Fail("No prompt provided"), env)
      else if !env.canSpawn then Finished(Fail("Subagent spawning not available"), env)
      else match prompt
        case JStr(p) => SpawnSubagent(description, p, env)
        case _ => Finished(Fail("Subagent failed: prompt is not a string"), env)
  }

  /** `todo`: the list is replaced before it is rendered, so a status that
      cannot be rendered still leaves the replacement list in place. */
  function Todo(env: Env, args: Json): (r: Step)
    ensures r.env.files == env.files && r.env.workingDir == env.workingDir && r.env.canSpawn == env.canSpawn
    ensures r.out.Success? ==> args.JObj? && TodoSet(Lookup(args.fields, "items").GetOr(JArr([]))) == Success(r.env.todo)
  {
    match GetOr(args, "items", JArr([]))
    case Failure(e) => Done(env, Failure(e))
    case Success(items) =>
      match TodoSet(items)
      case Failure(e) => Done(env, Failure(e))
      case Success(newItems) => Done(env.(todo := newItems), Render(newItems))
  }

  const SearchUnavailable: string :=
    "web_search requires a SEARCH_API_KEY environment variable. "
    + "Set it to use a search provider, or use web_fetch with a known URL."

  function WebSearch(env: Env, args: Json): (r: Step)
    ensures r.out.Failure? && r.env == env
  {
    match GetOr(args, "query", JStr(""))
    case Failure(e) => Done(env, Failure(e))
    case Success(q) => Done(env, Failure(if Truthy(q) then SearchUnavailable else "No query provided"))
  }

  // ---------------------------------------------------------------------
  // notebook_edit
  // ---------------------------------------------------------------------

  /** `len(cells)` of the value under "cells". */
  function CellCount(cells: Json): (r: Result<int, string>)
    ensures cells.JArr? ==> r == Success(|cells.items|)
  {
    match cells
    case JArr(items) => Success(|items|)
    case JObj(f) => Success(|f|)
    case JStr(s) => Success(|s|)
    case _ => Failure("object of type '" + TypeName(cells) + "' has no len()")
  }

  /** `str(i)` for an int or a bool, as a `KeyError` shows it. */
  function IntText(j: Json): string {
    match j
    case JBool(b) => if b then "True" else "False"
    case JInt(i) => IntToString(i)
    case _ => TypeName(j)
  }

  /** The replacement cell: "source" set to the lines of the replacement text, and
      "cell_type" set when a truthy one is given. */
  function EditCell(cell: Json, source: string, cellType: Json): (r: Result<Json, string>)
    ensures r.Success? <==> cell.JObj?
    ensures r.Success? ==> r.value.JObj? && Lookup(r.value.fields, "source") == Some(StrArray(SplitLinesKeepEnds(source)))
    ensures r.Success? && Truthy(cellType) ==> Lookup(r.value.fields, "cell_type") == Some(cellType)
    ensures r.Success? ==> forall k :: k != "source" && (k != "cell_type" || !Truthy(cellType))
                              ==> Lookup(r.value.fields, k) == Lookup(cell.fields, k)
  {
    var lines := StrArray(SplitLinesKeepEnds(source));
    match cell
    case JObj(f) =>
      var withSource := Put(f, "source", lines);
      Success(JObj(if Truthy(cellType) then Put(withSource, "cell_type", cellType) else withSource))
    case _ => SetItem(cell, "source", lines)
  }

  /** The edit of a decoded notebook: every cell but the chosen one is kept,
      and the notebook's other entries are kept. */
  function EditNotebook(notebook: Json, index: Json, source: Json, cellType: Json): (r: Result<(Json, int), string>)
    ensures r.Success? ==> notebook.JObj? && HasKey(notebook.fields, "cells")
    ensures r.Success? ==>
              var i := r.value.1;
              var cells := Lookup(notebook.fields, "cells").value;
              && source.JStr? && cells.JArr? && 0 <= i < |cells.items|
              && r.value.0.JObj?
              && (forall k :: k != "cells" ==> Lookup(r.value.0.fields, k) == Lookup(notebook.fields, k))
              && Lookup(r.value.0.fields, "cells").Some?
              && var newCells := Lookup(r.value.0.fields, "cells").value;
              && newCells.JArr? && |newCells.items| == |cells.items|
              && (forall j :: 0 <= j < |cells.items| && j != i ==> newCells.items[j] == cells.items[j])
              && EditCell(cells.items[i], source.s, cellType) == Success(newCells.items[i])
  {
    var cells :- GetOr(notebook, "cells", JArr([]));
    if AsInt(index).None? then Failure("'<' not supported between instances of '" + TypeName(index) + "' and 'int'")
    else
      var i := AsInt(index).value;
      var n :- CellCount(cells);
      if i < 0 || i >= n then Failure(OutOfRange(index, n))
      else if !source.JStr? then Failure("'" + TypeName(source) + "' object has no attribute 'splitlines'")
      else match cells
        case JArr(items) =>
          var cell :- EditCell(items[i], source.s, cellType);
          var newCells := JArr(items[i := cell]);
          Success((JObj(Put(notebook.fields, "cells", newCells)), i))
        case JObj(_) => Failure(IntText(index))
        case _ => Failure("'str' object does not support item assignment")
  }

  /** The range message; `len(cells)` is taken even for a negative index,
      so an unsized "cells" raises its `len` error first. */
  function OutOfRange(index: Json, n: int): string {
    "cell_index " + IntText(index) + " out of range (0-" + IntToString(n - 1) + ")"
  }

  /** The error `os.path.join` raises for a truthy path that is not text. */
  function JoinError(p: Json): string {
    "join() argument must be str, bytes, or os.PathLike object, not '" + TypeName(p) + "'"
  }

  /** `notebook_edit`, with `json.load` and `json.dump` as parameters. Both
      missing-argument checks come before the path is resolved, and the
      index is printed as Python prints it (a bool as "True"). */
  function NotebookEdit(env: Env, args: Json, parse: string -> Result<Json, string>, dump: Json -> string): (r: Step)
    ensures r.out.Failure? ==> r.env == env
    ensures r.env.todo == env.todo && r.env.workingDir == env.workingDir && r.env.canSpawn == env.canSpawn
    ensures args.JObj? && !Truthy(Lookup(args.fields, "path").GetOr(JStr(""))) ==> r.out == Failure("No path provided")
    ensures args.JObj? && Truthy(Lookup(args.fields, "path").GetOr(JStr("")))
            && Lookup(args.fields, "cell_index").GetOr(JNull) == JNull
            ==> r.out == Failure("No cell_index provided")
    ensures r.out.Success? ==>
              && PathArg(args).Success? && PathArg(args).value.Some?
              && var file := ExistingFile(env, PathArg(args).value.value);
              && file.Success?
              && r.env.files.Keys == env.files.Keys
              && (forall k :: k in env.files && k != file.value.0 ==> r.env.files[k] == env.files[k])
              && r.out.value == "Updated cell " + IntText(Lookup(args.fields, "cell_index").value)
                                + " in " + PathArg(args).value.value
  {
    match GetOr(args, "path", JStr(""))
    case Failure(e) => Done(env, Failure(e))
    case Success(p) =>
      var index := Lookup(args.fields, "cell_index").GetOr(JNull);
      if !Truthy(p) then Done(env, Failure("No path provided"))
      else if index == JNull then Done(env, Failure("No cell_index provided"))
      else if !p.JStr? then Done(env, Failure(JoinError(p)))
      else match ExistingFile(env, p.s)
        case Failure(e) => Done(env, Failure(e))
        case Success((resolved, text)) =>
          match parse(text)
          case Failure(e) => Done(env, Failure(e))
          case Success(notebook) =>
            var source := Lookup(args.fields, "new_source").GetOr(JStr(""));
            var cellType := Lookup(args.fields, "cell_type").GetOr(JNull);
            match EditNotebook(notebook, index, source, cellType)
            case Failure(e) => Done(env, Failure(e))
            case Success((edited, _)) =>
              Done(env.(files := env.files[resolved := dump(edited)]),
                   Success("Updated cell " + IntText(index) + " in " + p.s))
  }

  /** A negative index on a "cells" entry without a length raises the
      `len` error, not the range message. */
  lemma NotebookUnsizedCells(cells: Json, i: int, source: Json, cellType: Json)
    requires i < 0 && (cells.JNull? || cells.JBool? || cells.JInt?)
    ensures EditNotebook(JObj([("cells", cells)]), JInt(i), source, cellType)
            == Failure("object of type '" + TypeName(cells) + "' has no len()")
  {
    LookupAt([("cells", cells)], 0, "cells");
  }

  /** An index outside the cell list is refused with the range it allows. */
  lemma NotebookOutOfRange(notebook: Json, i: int, source: Json, cellType: Json)
    requires notebook.JObj? && Lookup(notebook.fields, "cells").Some?
    requires Lookup(notebook.fields, "cells").value.JArr?
    requires i < 0 || i >= |Lookup(notebook.fields, "cells").value.items|
    ensures EditNotebook(notebook, JInt(i), source, cellType)
            == Failure("cell_index " + IntToString(i) + " out of range (0-"
                       + IntToString(|Lookup(notebook.fields, "cells").value.items| - 1) + ")")
  {
  }

  // ---------------------------------------------------------------------
  // Dispatch
  // ---------------------------------------------------------------------

  /** The tools whose bodies run processes, walk directories or reach the
      network; their results come from an oracle. */
  const ExternalTools: set<string> := {"shell", "apply_patch", "list_files", "glob", "grep", "tree", "web_fetch"}

  /** The names `execute` has a handler for. */
  const HandlerNames: set<string> := ExternalTools + {"read_file", "write_file", "edit_file", "multi_edit",
    "web_search", "task", "todo", "notebook_edit"}

  /** What the executor needs from outside: JSON text decoding and encoding
      for notebooks, and the results of the external tools. */
  datatype Io = Io(
    parse: string -> Result<Json, string>,
    dump: Json -> string,
    external: (string, Json, map<string, string>) -> (ToolResult, map<string, string>))

  /** A handler's return or exception as the `ToolResult` `execute` gives. */
  function AsResult(out: Result<string, string>): (r: ToolResult)
    ensures r.success <==> out.Success?
    ensures out.Success? ==> r == Ok(out.value)
    ensures out.Failure? ==> r == Fail(out.error)
  {
    match out
    case Success(o) => Ok(o)
    case Failure(e) => Fail(e)
  }

  function Finish(s: Step): Outcome {
    Finished(AsResult(s.out), s.env)
  }

  /** `ToolExecutor.execute`: unknown names fail without touching anything,
      and whatever a handler raises becomes a failed result. */
  function Execute(env: Env, name: string, args: Json, io: Io): (r: Outcome)
    ensures name !in HandlerNames ==> r == Finished(Fail("Unknown tool: " + name), env)
    ensures r.SpawnSubagent? ==> name == "task" && env.canSpawn && r.env == env
    ensures name in HandlerNames - ExternalTools - {"todo"} ==> r.env.todo == env.todo
    ensures r.Finished? && !r.result.success ==> r.result.output == [] || name in ExternalTools
    ensures r.env.workingDir == env.workingDir && r.env.canSpawn == env.canSpawn
  {
    if name !in HandlerNames then Finished(Fail("Unknown tool: " + name), env)
    else if name in ExternalTools then
      var (result, files) := io.external(name, args, env.files);
      Finished(result, env.(files := files))
    else if name == "task" then Task(env, args)
    else Finish(RunBuiltin(env, name, args, io))
  }

  /** The handlers whose bodies are modelled here, other than `task`. */
  function RunBuiltin(env: Env, name: string, args: Json, io: Io): (r: Step)
    ensures name != "todo" ==> r.env.todo == env.todo
    ensures r.out.Failure? && name != "todo" && name != "write_file" ==> r.env == env
    ensures r.env.workingDir == env.workingDir && r.env.canSpawn == env.canSpawn
  {
    if name == "read_file" then ReadFile(env, args)
    else if name == "write_file" then WriteFile(env, args)
    else if name == "edit_file" then EditFile(env, args)
    else if name == "multi_edit" then MultiEdit(env, args)
    else if name == "web_search" then WebSearch(env, args)
    else if name == "todo" then Todo(env, args)
    else NotebookEdit(env, args, io.parse, io.dump)
  }

  /** Through the dispatcher, the todo tool stores exactly the list whose
      dicts it was given, and answers with its rendering. */
  lemma ExecuteTodo(env: Env, items: seq<TodoItem>, io: Io)
    ensures var r := Execute(env, "todo", JObj([("items", JArr(ItemsJson(items)))]), io);
            && r.Finished?
            && r.env == env.(todo := items)
            && r.result == AsResult(Render(items))
  {
    TodoSetItemsJson(items);
    var args := JObj([("items", JArr(ItemsJson(items)))]);
    TodoDispatch(env, args, io);
    assert Todo(env, args) == Done(env.(todo := items), Render(items));
  }

  lemma TodoDispatch(env: Env, args: Json, io: Io)
    ensures Execute(env, "todo", args, io) == Finish(Todo(env, args))
  {
    assert "todo" in HandlerNames && "todo" !in ExternalTools;
    assert RunBuiltin(env, "todo", args, io) == Todo(env, args);
  }

  // ---------------------------------------------------------------------
  // Tool definitions
  // ---------------------------------------------------------------------

  /** A tool definition: name, description, and the argument names of its
      JSON schema (all of them, then the required ones). */
  datatype ToolDef = ToolDef(name: string, description: string, properties: seq<string>, required: seq<string>)

  function EmptySchemas(props: seq<string>): (r: seq<(string, Json)>)
    ensures |r| == |props|
  {
    if props == [] then [] else [(props[0], JObj([]))] + EmptySchemas(props[1..])
  }

  /** The "parameters" object of a definition. */
  function Schema(d: ToolDef): Json {
    JObj([("type", JStr("object")), ("properties", JObj(EmptySchemas(d.properties))),
          ("required", StrArray(d.required))])
  }

  /** The OpenAI-format entry of `TOOL_DEFINITIONS`. */
  function DefinitionJson(d: ToolDef): Json {
    JObj([("type", JStr("function")),
          ("function", JObj([("name", JStr(d.name)), ("description", JStr(d.description)),
                             ("parameters", Schema(d))]))])
  }

  const BuiltinTools: seq<ToolDef> := [
    ToolDef("shell", "Execute a shell command in the working directory.", ["command", "timeout"], ["command"]),
    ToolDef("read_file", "Read a file's contents. Supports optional offset and limit for large files.",
            ["path", "offset", "limit"], ["path"]),
    ToolDef("write_file", "Write content to a file. Creates parent directories as needed.",
            ["path", "content"], ["path", "content"]),
    ToolDef("edit_file", "Perform a search-and-replace edit on a file. old_string must match exactly.",
            ["path", "old_string", "new_string", "replace_all"], ["path", "old_string", "new_string"]),
    ToolDef("multi_edit", "Apply multiple search-and-replace edits to a file in one call.",
            ["path", "edits"], ["path", "edits"]),
    ToolDef("apply_patch", "Apply a unified diff patch to a file.", ["path", "patch"], ["path", "patch"]),
    ToolDef("list_files", "List files and directories at the given path.", ["path"], []),
    ToolDef("glob", "Find files matching a glob pattern (e.g. '**/*.py').", ["pattern", "path"], ["pattern"]),
    ToolDef("grep", "Search file contents for a regex pattern.",
            ["pattern", "path", "include", "context_lines"], ["pattern"]),
    ToolDef("tree", "Show a recursive directory tree view.", ["path", "max_depth"], []),
    ToolDef("web_fetch", "Fetch content from a URL and return it as text.", ["url"], ["url"]),
    ToolDef("web_search", "Search the web for a query. Returns snippets and URLs.", ["query"], ["query"]),
    ToolDef("task", "Spawn a subagent to handle a complex subtask autonomously. The subagent gets its own conversation context.",
            ["description", "prompt"], ["description", "prompt"]),
    ToolDef("todo", "Manage a structured task list. Provide the full updated list each time.", ["items"], ["items"]),
    ToolDef("notebook_edit", "Replace the source of a cell in a Jupyter notebook (.ipynb).",
            ["path", "cell_index", "new_source", "cell_type"], ["path", "cell_index", "new_source"])
  ]

  const BuiltinNames: seq<string> := ["shell", "read_file", "write_file", "edit_file", "multi_edit",
    "apply_patch", "list_files", "glob", "grep", "tree", "web_fetch", "web_search", "task", "todo",
    "notebook_edit"]

  lemma BuiltinToolNames()
    ensures |BuiltinTools| == |BuiltinNames|
    ensures forall k :: 0 <= k < |BuiltinTools| ==> BuiltinTools[k].name == BuiltinNames[k]
  {
  }

  /** Every built-in definition has a handler: fifteen tools. */
  lemma BuiltinToolsMatchHandlers()
    ensures |BuiltinTools| == 15
    ensures forall k :: 0 <= k < |BuiltinTools| ==> BuiltinTools[k].name in HandlerNames
  {
    BuiltinToolNames();
    assert forall k :: 0 <= k < |BuiltinNames| ==> BuiltinNames[k] in HandlerNames;
  }
}

=== FILE: tui.dfy ===
/** The pure string logic inside the full-screen terminal UI: the output
    lexer that styles echoed input and backtick-quoted code, the prompt
    margin, the prompt character, and how a submitted line is classified
    as a slash command, a rejected bare command or a prompt for the agent. */
module Tui {
  import opened Wrappers
  import opened Strings

  /** The style classes the UI gives its fragments: none, "class:code",
      "class:user_input" and "class:prompt". */
  datatype Style = NoStyle | CodeStyle | UserInput | PromptStyle

  /** The prompt_toolkit style string of each class. */
  function StyleName(st: Style): (r: string)
    ensures st == NoStyle <==> r == []
  {
    match st
    case NoStyle => ""
    case CodeStyle => "class:code"
    case UserInput => "class:user_input"
    case PromptStyle => "class:prompt"
  }

  /** A styled piece of text, as prompt_toolkit renders it. */
  datatype Fragment = Fragment(style: Style, text: string)

  function Plain(t: string): Fragment {
    Fragment(NoStyle, t)
  }

  function Code(t: string): Fragment {
    Fragment(CodeStyle, t)
  }

  // ---------------------------------------------------------------------
  // The output lexer (_OutputPTKLexer.lex_document)
  // ---------------------------------------------------------------------

  /** `s.find("`")`: the position of the first backtick, if any. */
  function NextTick(s: string): (r: Option<nat>)
    ensures r.Some? ==> r.value < |s| && s[r.value] == '`'
  {
    if s == [] then None
    else if s[0] == '`' then Some(0)
    else match NextTick(s[1..])
      case None => None
      case Some(k) => Some(k + 1)
  }

  /** No backtick comes before the one `NextTick` finds, and none at all
      when it finds nothing. */
  lemma {:induction false} NextTickFirst(s: string)
    ensures NextTick(s).None? ==> '`' !in s
    ensures NextTick(s).Some? ==> '`' !in s[..NextTick(s).value]
  {
    if s != [] && s[0] != '`' {
      NextTickFirst(s[1..]);
      assert s == [s[0]] + s[1..];
      if NextTick(s).Some? {
        assert s[..NextTick(s).value] == [s[0]] + s[1..][..NextTick(s[1..]).value];
      }
    }
  }

  /** The lexer's loop from the current position on, where `s` is the rest
      of the line: plain text up to the next backtick, then whatever follows
      that backtick. */
  function Lex(s: string): (r: seq<Fragment>)
    ensures s != [] ==> r != []
    decreases |s|, 1
  {
    if s == [] then []
    else match NextTick(s)
      case None => [Plain(s)]
      case Some(i) => Before(s, i) + Quoted(s[i + 1..])
  }

  /** What follows an opening backtick: the text up to the closing one
      becomes code with both backticks removed and the loop goes on after
      it; with no closing backtick, the opening one and the rest of the line
      are one plain fragment. */
  function Quoted(t: string): (r: seq<Fragment>)
    ensures r != []
    decreases |t|, 0
  {
    match NextTick(t)
    case None => [Plain("`" + t)]
    case Some(j) => [Code(t[..j])] + Lex(t[j + 1..])
  }

  /** The plain text ahead of the backtick at `i`, if there is any. */
  function Before(s: string, i: nat): seq<Fragment>
    requires i <= |s|
  {
    if i > 0 then [Plain(s[..i])] else []
  }

  /** The shapes a lexer step takes. */
  lemma LexNoTick(s: string)
    requires s != [] && NextTick(s).None?
    ensures Lex(s) == [Plain(s)]
  {
  }

  lemma LexTick(s: string, i: nat)
    requires NextTick(s) == Some(i)
    ensures Lex(s) == Before(s, i) + Quoted(s[i + 1..])
  {
  }

  lemma QuotedNoTick(t: string)
    requires NextTick(t).None?
    ensures Quoted(t) == [Plain("`" + t)]
  {
  }

  lemma QuotedPair(t: string, j: nat)
    requires NextTick(t) == Some(j)
    ensures Quoted(t) == [Code(t[..j])] + Lex(t[j + 1..])
  {
  }

  /** The fragments of one line: a line echoing user input is styled whole;
      otherwise the backtick scan, with a line that yields nothing shown as
      itself. */
  function LexLine(line: string): (r: seq<Fragment>)
    ensures r != []
    ensures StartsWith(line, "> ") ==> r == [Fragment(UserInput, line)]
  {
    if StartsWith(line, "> ") then [Fragment(UserInput, line)]
    else
      var f := Lex(line);
      if f == [] then [Plain(line)] else f
  }

  /** `get_line(lineno)`: Python list indexing, so a negative number counts
      from the end; any other number out of range yields no fragments. */
  function GetLine(lines: seq<string>, lineno: int): (r: seq<Fragment>)
    ensures r == [] <==> !(-|lines| <= lineno < |lines|)
  {
    if 0 <= lineno < |lines| then LexLine(lines[lineno])
    else if -|lines| <= lineno < 0 then LexLine(lines[|lines| + lineno])
    else []
  }

  /** The line a run of fragments came from: code is put back between
      backticks. */
  function Unlex(fs: seq<Fragment>): string {
    if fs == [] then []
    else (if fs[0].style == CodeStyle then "`" + fs[0].text + "`" else fs[0].text) + Unlex(fs[1..])
  }

  /** What the reader sees: the fragments' text without markup. */
  function Shown(fs: seq<Fragment>): string {
    if fs == [] then [] else fs[0].text + Shown(fs[1..])
  }

  /** Number of backticks in a string. */
  function Ticks(s: string): nat {
    if s == [] then 0 else (if s[0] == '`' then 1 else 0) + Ticks(s[1..])
  }

  /** Number of code fragments. */
  function CodeCount(fs: seq<Fragment>): nat {
    if fs == [] then 0 else (if fs[0].style == CodeStyle then 1 else 0) + CodeCount(fs[1..])
  }

  lemma UnlexAppend(a: seq<Fragment>, b: seq<Fragment>)
    ensures Unlex(a + b) == Unlex(a) + Unlex(b)
    ensures Shown(a + b) == Shown(a) + Shown(b)
    ensures CodeCount(a + b) == CodeCount(a) + CodeCount(b)
  {
    UnlexAppendText(a, b);
    ShownAppend(a, b);
    CodeCountAppend(a, b);
  }

  lemma {:induction false} UnlexAppendText(a: seq<Fragment>, b: seq<Fragment>)
    ensures Unlex(a + b) == Unlex(a) + Unlex(b)
  {
    if a != [] {
      assert (a + b)[1..] == a[1..] + b;
      UnlexAppendText(a[1..], b);
    } else {
      assert a + b == b;
    }
  }

  lemma {:induction false} ShownAppend(a: seq<Fragment>, b: seq<Fragment>)
    ensures Shown(a + b) == Shown(a) + Shown(b)
  {
    if a != [] {
      assert (a + b)[1..] == a[1..] + b;
      ShownAppend(a[1..], b);
    } else {
      assert a + b == b;
    }
  }

  lemma {:induction false} CodeCountAppend(a: seq<Fragment>, b: seq<Fragment>)
    ensures CodeCount(a + b) == CodeCount(a) + CodeCount(b)
  {
    if a != [] {
      assert (a + b)[1..] == a[1..] + b;
      CodeCountAppend(a[1..], b);
    } else {
      assert a + b == b;
    }
  }

  lemma {:induction false} TicksAppend(a: string, b: string)
    ensures Ticks(a + b) == Ticks(a) + Ticks(b)
  {
    if a != [] {
      assert (a + b)[1..] == a[1..] + b;
      TicksAppend(a[1..], b);
    } else {
      assert a + b == b;
    }
  }

  lemma {:induction false} TicksNone(s: string)
    requires forall k :: 0 <= k < |s| ==> s[k] != '`'
    ensures Ticks(s) == 0
  {
    if s != [] {
      TicksNone(s[1..]);
    }
  }

  lemma UnlexOne(f: Fragment)
    ensures Unlex([f]) == if f.style == CodeStyle then "`" + f.text + "`" else f.text
    ensures Shown([f]) == f.text
    ensures CodeCount([f]) == if f.style == CodeStyle then 1 else 0
  {
    assert [f][1..] == [];
  }

  lemma UnlexBefore(s: string, i: nat)
    requires i <= |s|
    ensures Unlex(Before(s, i)) == s[..i] && Shown(Before(s, i)) == s[..i]
    ensures CodeCount(Before(s, i)) == 0
  {
    if i > 0 {
      UnlexOne(Plain(s[..i]));
    }
  }

  /** Lexing loses nothing but the markers: putting each code fragment back
      between backticks restores the line. */
  lemma {:induction false} LexRoundTrip(s: string)
    ensures Unlex(Lex(s)) == s
    decreases |s|, 1
  {
    if s != [] {
      match NextTick(s) {
        case None =>
          LexNoTick(s);
          UnlexOne(Plain(s));
        case Some(i) =>
          LexTick(s, i);
          UnlexBefore(s, i);
          UnlexAppend(Before(s, i), Quoted(s[i + 1..]));
          QuotedRoundTrip(s[i + 1..]);
          assert s == s[..i] + ([s[i]] + s[i + 1..]);
      }
    }
  }

  /** The same after an opening backtick, which comes back too. */
  lemma {:induction false} QuotedRoundTrip(t: string)
    ensures Unlex(Quoted(t)) == "`" + t
    decreases |t|, 0
  {
    match NextTick(t) {
      case None =>
        QuotedNoTick(t);
        UnlexOne(Plain("`" + t));
      case Some(j) =>
        QuotedPair(t, j);
        LexRoundTrip(t[j + 1..]);
        CodeRoundTrip(t, j, Lex(t[j + 1..]));
    }
  }

  /** A code fragment followed by fragments that restore the text after
      the closing backtick restores the text after the opening one. */
  lemma CodeRoundTrip(t: string, j: nat, rest: seq<Fragment>)
    requires j < |t| && t[j] == '`' && Unlex(rest) == t[j + 1..]
    ensures Unlex([Code(t[..j])] + rest) == "`" + t
  {
    UnlexAppend([Code(t[..j])], rest);
    UnlexOne(Code(t[..j]));
    assert t == t[..j] + [t[j]] + t[j + 1..];
  }

  /** Every displayed line, echoed input or not, gives back its text when
      code is put back between backticks. */
  lemma LineRoundTrip(line: string)
    ensures Unlex(LexLine(line)) == line
  {
    if StartsWith(line, "> ") {
      UnlexOne(Fragment(UserInput, line));
    } else if line == [] {
      UnlexOne(Plain(line));
    } else {
      LexRoundTrip(line);
    }
  }

  /** Code fragments hold no backticks, and every fragment but the last
      holds none either. */
  predicate TickFree(fs: seq<Fragment>) {
    forall k :: 0 <= k < |fs| && (fs[k].style == CodeStyle || k < |fs| - 1) ==> '`' !in fs[k].text
  }

  lemma TickFreeCons(f: Fragment, fs: seq<Fragment>)
    requires '`' !in f.text && TickFree(fs)
    ensures TickFree([f] + fs)
  {
    var r := [f] + fs;
    forall k | 0 <= k < |r| && (r[k].style == CodeStyle || k < |r| - 1)
      ensures '`' !in r[k].text
    {
      if k > 0 {
        assert r[k] == fs[k - 1];
      }
    }
  }

  lemma TickFreeBefore(s: string, i: nat, fs: seq<Fragment>)
    requires i <= |s| && '`' !in s[..i] && TickFree(fs)
    ensures TickFree(Before(s, i) + fs)
  {
    if i > 0 {
      TickFreeCons(Plain(s[..i]), fs);
    } else {
      assert Before(s, i) + fs == fs;
    }
  }

  /** The lexer leaves a backtick only where one had no partner: at the
      start of the final fragment. */
  lemma {:induction false} LexTicks(s: string)
    ensures TickFree(Lex(s))
    decreases |s|, 1
  {
    if s != [] {
      NextTickFirst(s);
      match NextTick(s) {
        case None =>
          LexNoTick(s);
        case Some(i) =>
          LexTick(s, i);
          QuotedTicks(s[i + 1..]);
          TickFreeBefore(s, i, Quoted(s[i + 1..]));
      }
    }
  }

  lemma {:induction false} QuotedTicks(t: string)
    ensures TickFree(Quoted(t))
    decreases |t|, 0
  {
    NextTickFirst(t);
    match NextTick(t) {
      case None =>
        QuotedNoTick(t);
      case Some(j) =>
        QuotedPair(t, j);
        LexTicks(t[j + 1..]);
        TickFreeCons(Code(t[..j]), Lex(t[j + 1..]));
    }
  }

  /** The visible text is the line without its matched backtick pairs:
      two characters fewer per code fragment, and a backtick left over only
      when the line has an odd number of them. */
  lemma {:induction false} LexShown(s: string)
    ensures |Shown(Lex(s))| + 2 * CodeCount(Lex(s)) == |s|
    ensures Ticks(Shown(Lex(s))) == Ticks(s) % 2
    decreases |s|, 1
  {
    if s != [] {
      NextTickFirst(s);
      match NextTick(s) {
        case None =>
          LexNoTick(s);
          PlainShown(s);
        case Some(i) =>
          LexTick(s, i);
          QuotedShown(s[i + 1..]);
          BeforeShown(s, i, Quoted(s[i + 1..]));
      }
    }
  }

  /** After an opening backtick the closing one is consumed with it, so the
      count of leftover backticks flips. */
  lemma {:induction false} QuotedShown(t: string)
    ensures |Shown(Quoted(t))| + 2 * CodeCount(Quoted(t)) == |t| + 1
    ensures Ticks(Shown(Quoted(t))) == (Ticks(t) + 1) % 2
    decreases |t|, 0
  {
    NextTickFirst(t);
    match NextTick(t) {
      case None =>
        QuotedNoTick(t);
        UnmatchedShown(t);
      case Some(j) =>
        QuotedPair(t, j);
        LexShown(t[j + 1..]);
        CodeShown(t, j, Lex(t[j + 1..]));
    }
  }

  /** The steps of `LexShown` and `QuotedShown`, one per shape. */
  lemma PlainShown(s: string)
    requires '`' !in s
    ensures |Shown([Plain(s)])| + 2 * CodeCount([Plain(s)]) == |s|
    ensures Ticks(Shown([Plain(s)])) == Ticks(s) % 2
  {
    UnlexOne(Plain(s));
    TicksNone(s);
  }

  lemma UnmatchedShown(t: string)
    requires '`' !in t
    ensures |Shown([Plain("`" + t)])| + 2 * CodeCount([Plain("`" + t)]) == |t| + 1
    ensures Ticks(Shown([Plain("`" + t)])) == (Ticks(t) + 1) % 2
  {
    UnlexOne(Plain("`" + t));
    TicksNone(t);
    TicksAppend("`", t);
    assert Ticks("`") == 1 + Ticks([]);
  }

  lemma BeforeShown(s: string, i: nat, q: seq<Fragment>)
    requires i < |s| && s[i] == '`' && '`' !in s[..i]
    requires |Shown(q)| + 2 * CodeCount(q) == |s[i + 1..]| + 1
    requires Ticks(Shown(q)) == (Ticks(s[i + 1..]) + 1) % 2
    ensures |Shown(Before(s, i) + q)| + 2 * CodeCount(Before(s, i) + q) == |s|
    ensures Ticks(Shown(Before(s, i) + q)) == Ticks(s) % 2
  {
    UnlexBefore(s, i);
    ShownAppend(Before(s, i), q);
    CodeCountAppend(Before(s, i), q);
    BeforeTicks(s, i, q);
  }

  lemma BeforeTicks(s: string, i: nat, q: seq<Fragment>)
    requires i < |s| && s[i] == '`' && '`' !in s[..i]
    requires Shown(Before(s, i) + q) == s[..i] + Shown(q)
    requires Ticks(Shown(q)) == (Ticks(s[i + 1..]) + 1) % 2
    ensures Ticks(Shown(Before(s, i) + q)) == Ticks(s) % 2
  {
    TicksNone(s[..i]);
    TicksAppend(s[..i], Shown(q));
    TicksAt(s, i);
  }

  /** The backtick at `i` adds one to the count of what precedes it. */
  lemma TicksAt(s: string, i: nat)
    requires i < |s| && s[i] == '`'
    ensures Ticks(s) == Ticks(s[..i]) + 1 + Ticks(s[i + 1..])
  {
    var t := s[i + 1..];
    assert s == s[..i] + ("`" + t);
    TicksAppend(s[..i], "`" + t);
    TicksAppend("`", t);
    assert Ticks("`") == 1 + Ticks([]);
  }

  lemma CodeShown(t: string, j: nat, rest: seq<Fragment>)
    requires j < |t| && t[j] == '`' && '`' !in t[..j]
    requires |Shown(rest)| + 2 * CodeCount(rest) == |t[j + 1..]|
    requires Ticks(Shown(rest)) == Ticks(t[j + 1..]) % 2
    ensures |Shown([Code(t[..j])] + rest)| + 2 * CodeCount([Code(t[..j])] + rest) == |t| + 1
    ensures Ticks(Shown([Code(t[..j])] + rest)) == (Ticks(t) + 1) % 2
  {
    UnlexOne(Code(t[..j]));
    ShownAppend([Code(t[..j])], rest);
    CodeCountAppend([Code(t[..j])], rest);
    CodeTicks(t, j, rest);
  }

  lemma CodeTicks(t: string, j: nat, rest: seq<Fragment>)
    requires j < |t| && t[j] == '`' && '`' !in t[..j]
    requires Shown([Code(t[..j])] + rest) == t[..j] + Shown(rest)
    requires Ticks(Shown(rest)) == Ticks(t[j + 1..]) % 2
    ensures Ticks(Shown([Code(t[..j])] + rest)) == (Ticks(t) + 1) % 2
  {
    TicksNone(t[..j]);
    TicksAppend(t[..j], Shown(rest));
    TicksAt(t, j);
  }

  // ---------------------------------------------------------------------
  // The prompt margin (_PromptGlyphMargin) and prompt character
  // ---------------------------------------------------------------------

  /** `get_width`: the prompt's length in characters. */
  function MarginWidth(prompt: string): nat {
    |prompt|
  }

  /** `create_margin`: the prompt on the first line, and blanks as wide as
      the prompt on each further line of the input's height. */
  function Margin(prompt: string, height: int): (r: seq<Fragment>)
    ensures |r| == 1 + (if height > 1 then height - 1 else 0)
    ensures r[0] == Fragment(PromptStyle, prompt + "\n")
    ensures forall k :: 1 <= k < |r| ==> r[k] == Fragment(PromptStyle, Spaces(|prompt|) + "\n")
  {
    var pad := Spaces(|prompt|) + "\n";
    [Fragment(PromptStyle, prompt + "\n")]
      + seq(if height > 1 then height - 1 else 0, _ => Fragment(PromptStyle, pad))
  }

  /** Every margin line is as wide as the margin claims, so wrapped input
      lines stay aligned under the first. */
  lemma MarginAligned(prompt: string, height: int)
    ensures forall k :: 0 <= k < |Margin(prompt, height)| ==>
      |Margin(prompt, height)[k].text| == MarginWidth(prompt) + 1
      && Margin(prompt, height)[k].text[MarginWidth(prompt)] == '\n'
  {
  }

  /** `_prompt_char`: "#" while building, "?" while planning, ">" for any
      other agent. */
  function PromptChar(agent: string): (r: string)
    ensures r == "#" <==> agent == "build"
    ensures r == "?" <==> agent == "plan"
    ensures r == ">" <==> agent != "build" && agent != "plan"
  {
    if agent == "build" then "#" else if agent == "plan" then "?" else ">"
  }

  // ---------------------------------------------------------------------
  // Submitting a line (_submit)
  // ---------------------------------------------------------------------

  /** Index of the first whitespace character, or the length. */
  function WordEnd(s: string): (i: nat)
    ensures i <= |s|
    ensures forall k :: 0 <= k < i ==> !IsSpace(s[k])
    ensures i < |s| ==> IsSpace(s[i])
  {
    if s == [] || IsSpace(s[0]) then 0 else 1 + WordEnd(s[1..])
  }

  /** `s.split(None, 1)`: the first whitespace-separated word and, if
      anything follows, the rest after the whitespace run. */
  function SplitOnce(s: string): (r: seq<string>)
    ensures |r| <= 2
    ensures r == [] <==> AllSpace(s)
  {
    var t := TrimLeft(s);
    TrimLeftAllSpace(s);
    if t == [] then []
    else
      var i := WordEnd(t);
      var rest := TrimLeft(t[i..]);
      if rest == [] then [t[..i]] else [t[..i], rest]
  }

  /** The first part is a non-empty word without whitespace, and the
      second, if any, is non-empty and starts at a non-space. */
  lemma SplitOnceParts(s: string)
    ensures SplitOnce(s) != [] ==> SplitOnce(s)[0] != []
    ensures SplitOnce(s) != [] ==> forall k :: 0 <= k < |SplitOnce(s)[0]| ==> !IsSpace(SplitOnce(s)[0][k])
    ensures |SplitOnce(s)| == 2 ==> SplitOnce(s)[1] != [] && !IsSpace(SplitOnce(s)[1][0])
  {
    var t := TrimLeft(s);
    if t != [] {
      WordPrefix(t);
    }
  }

  /** The text up to the first whitespace of a string that starts with a
      non-space is a non-empty word. */
  lemma WordPrefix(t: string)
    requires t != [] && !IsSpace(t[0])
    ensures WordEnd(t) > 0
    ensures forall k :: 0 <= k < |t[..WordEnd(t)]| ==> !IsSpace(t[..WordEnd(t)][k])
  {
  }

  /** A word followed by whitespace and more text splits back into the
      word and that text. */
  lemma SplitOnceWords(w: string, gap: string, a: string)
    requires w != [] && (forall k :: 0 <= k < |w| ==> !IsSpace(w[k]))
    requires gap != [] && AllSpace(gap)
    requires a == [] || !IsSpace(a[0])
    ensures SplitOnce(w + gap + a) == if a == [] then [w] else [w, a]
  {
    SplitPieces(w, gap, a);
  }

  lemma SplitPieces(w: string, gap: string, a: string)
    requires w != [] && (forall k :: 0 <= k < |w| ==> !IsSpace(w[k]))
    requires gap != [] && AllSpace(gap)
    requires a == [] || !IsSpace(a[0])
    ensures TrimLeft(w + gap + a) == w + gap + a
    ensures WordEnd(w + gap + a) == |w|
    ensures (w + gap + a)[..|w|] == w
    ensures TrimLeft((w + gap + a)[|w|..]) == a
  {
    var s := w + gap + a;
    assert s == w + (gap + a);
    assert s[|w|..] == gap + a;
    WordEndAt(w, gap + a);
    TrimLeftGap(gap, a);
    assert !IsSpace(s[0]);
  }

  lemma {:induction false} WordEndAt(w: string, tail: string)
    requires forall k :: 0 <= k < |w| ==> !IsSpace(w[k])
    requires tail != [] && IsSpace(tail[0])
    ensures WordEnd(w + tail) == |w|
  {
    if w != [] {
      assert (w + tail)[1..] == w[1..] + tail;
      WordEndAt(w[1..], tail);
    } else {
      assert w + tail == tail;
    }
  }

  lemma {:induction false} TrimLeftGap(gap: string, a: string)
    requires AllSpace(gap)
    requires a == [] || !IsSpace(a[0])
    ensures TrimLeft(gap + a) == a
  {
    if gap != [] {
      assert (gap + a)[1..] == gap[1..] + a;
      TrimLeftGap(gap[1..], a);
    } else {
      assert gap + a == a;
    }
  }

  /** The slash commands the UI handles itself; anything else is reported
      as unknown. */
  datatype Command =
    | Exit
    | Reset
    | History
    | Status
    | Agents
    | SwitchTo(agent: string)
    | SwitchUsage
    | Unknown(name: string)

  /** What pressing Enter does with the input buffer. */
  datatype Submission =
    | Ignored
    | Slash(command: Command)
    | BareCommand
    | ToAgent(text: string)
    | Crashed(message: string)

  /** The command a word and its argument select. */
  function CommandOf(cmd: string, arg: string): (c: Command)
    ensures c.Unknown? <==> cmd !in {"exit", "quit", "reset", "history", "status", "agents", "switch"}
    ensures c.Unknown? ==> c.name == cmd
    ensures c.SwitchTo? ==> cmd == "switch" && c.agent == Strip(arg) && c.agent != []
  {
    if cmd == "exit" || cmd == "quit" then Exit
    else if cmd == "reset" then Reset
    else if cmd == "history" then History
    else if cmd == "status" then Status
    else if cmd == "agents" then Agents
    else if cmd == "switch" then
      (var name := Strip(arg); if name == [] then SwitchUsage else SwitchTo(name))
    else Unknown(cmd)
  }

  /** The line the UI prints for a command it answers with text alone. */
  function Reply(c: Command): Option<string> {
    match c
    case Reset => Some("Session reset.")
    case SwitchUsage => Some("Usage: /switch <agent>")
    case Unknown(name) => Some("Unknown command: /" + name)
    case _ => None
  }

  /** Inputs that look like commands but lack the slash. */
  predicate LooksLikeCommand(text: string) {
    text in {"exit", "reset", "history", "agents", "status"} || StartsWith(text, "switch ")
  }

  const UnpackError: string := "not enough values to unpack (expected at least 1, got 0)"

  /** `_submit` as written: a "/" with nothing after it reaches the
      unpacking of an empty split and raises. */
  function SubmitAsWritten(input: string): (r: Submission)
    ensures r == Ignored <==> AllSpace(input)
    ensures r.Crashed? ==> r.message == UnpackError && Strip(input) != [] && Strip(input)[0] == '/'
    ensures r.ToAgent? ==> r.text == Strip(input) && r.text != [] && r.text[0] != '/'
  {
    var text := Strip(input);
    StripEmptyIffBlank(input);
    if text == [] then Ignored
    else if text[0] == '/' then
      var words := SplitOnce(Strip(text[1..]));
      if words == [] then Crashed(UnpackError)
      else Slash(CommandOf(words[0], if |words| > 1 then words[1] else ""))
    else if LooksLikeCommand(text) then BareCommand
    else ToAgent(text)
  }

  /** `_submit` with the empty command treated like any unknown one: "/"
      alone is answered "Unknown command: /". */
  function Submit(input: string): (r: Submission)
    ensures !r.Crashed?
    ensures r == Ignored <==> AllSpace(input)
    ensures r.ToAgent? ==> r.text == Strip(input) && r.text != [] && r.text[0] != '/'
  {
    var text := Strip(input);
    StripEmptyIffBlank(input);
    if text == [] then Ignored
    else if text[0] == '/' then
      var words := SplitOnce(Strip(text[1..]));
      if words == [] then Slash(Unknown(""))
      else Slash(CommandOf(words[0], if |words| > 1 then words[1] else ""))
    else if LooksLikeCommand(text) then BareCommand
    else ToAgent(text)
  }

  /** A stripped input starting with a slash is always a command; one
      without is rejected exactly when it looks like a bare command. */
  lemma SubmitKinds(input: string)
    ensures Submit(input).Slash? <==> Strip(input) != [] && Strip(input)[0] == '/'
    ensures Submit(input).BareCommand? <==> (Strip(input) != [] && Strip(input)[0] != '/'
      && LooksLikeCommand(Strip(input)))
  {
  }

  /** A slash, a command word, whitespace and an argument select the
      command named by the word, with that argument. */
  lemma SlashCommand(w: string, gap: string, a: string)
    requires w != [] && (forall k :: 0 <= k < |w| ==> !IsSpace(w[k]))
    requires gap != [] && AllSpace(gap)
    requires a != [] && !IsSpace(a[0]) && !IsSpace(a[|a| - 1])
    ensures Submit("/" + w + gap + a) == Slash(CommandOf(w, a))
  {
    var text := "/" + w + gap + a;
    assert !IsSpace('/');
    assert text[|text| - 1] == a[|a| - 1];
    StripKeeps(text);
    assert text[1..] == w + gap + a;
    assert (w + gap + a)[|w + gap + a| - 1] == a[|a| - 1];
    StripKeeps(w + gap + a);
    SplitOnceWords(w, gap, a);
  }

  /** A slash and a command word alone select that command with no
      argument. */
  lemma SlashWord(w: string)
    requires w != [] && (forall k :: 0 <= k < |w| ==> !IsSpace(w[k]))
    ensures Submit("/" + w) == Slash(CommandOf(w, ""))
  {
    var text := "/" + w;
    assert !IsSpace('/');
    StripKeeps(text);
    assert text[1..] == w;
    StripKeeps(w);
    WordEndAll(w);
    assert w[|w|..] == [];
  }

  lemma {:induction false} WordEndAll(w: string)
    requires forall k :: 0 <= k < |w| ==> !IsSpace(w[k])
    ensures WordEnd(w) == |w|
  {
    if w != [] {
      WordEndAll(w[1..]);
    }
  }

  /** The two agree on every input except a bare "/". */
  lemma SubmitFixesOnlyBareSlash(input: string)
    ensures SubmitAsWritten(input).Crashed? <==> Strip(input) == "/"
    ensures Strip(input) != "/" ==> SubmitAsWritten(input) == Submit(input)
    ensures Strip(input) == "/" ==> Submit(input) == Slash(Unknown(""))
  {
    var text := Strip(input);
    if text != [] && text[0] == '/' {
      EmptyCommandLine(text);
      assert text == "/" <==> SplitOnce(Strip(text[1..])) == [];
    }
  }

  /** For stripped text starting with a slash, the command line splits into
      nothing exactly when the text is the slash alone. */
  lemma EmptyCommandLine(text: string)
    requires text != [] && text[0] == '/' && !IsSpace(text[|text| - 1])
    ensures SplitOnce(Strip(text[1..])) == [] <==> text == "/"
  {
    var cmdline := Strip(text[1..]);
    StripEmptyIffBlank(text[1..]);
    if cmdline == [] {
      assert text[1..] == [];
      assert text == [text[0]] + text[1..];
    } else {
      assert !AllSpace(cmdline);
    }
  }

  /** Pressing Enter on "/" fails in the code as written. */
  lemma BareSlashCrashes()
    ensures SubmitAsWritten("/") == Crashed(UnpackError)
    ensures Submit("/") == Slash(Unknown(""))
  {
    assert !IsSpace('/');
    StripKeeps("/");
    assert "/"[1..] == [];
    StripKeeps([]);
  }
}

=== FILE: wrappers.dfy ===
/** Failure-carrying datatypes shared by every module of the model.
    `Option` stands for Python's `X | None`, `Result` for a call that either
    returns a value or raises; the error carries the exception's message. */
module Wrappers {

  datatype Option<+T> = None | Some(value: T) {
    function GetOr(default: T): T {
      match this
      case Some(v) => v
      case None => default
    }
  }

  datatype Result<+T, +E> = Success(value: T) | Failure(error: E) {
    predicate IsFailure() {
      Failure?
    }

    function PropagateFailure<U>(): Result<U, E>
      requires Failure?
    {
      Failure(error)
    }

    function Extract(): T
      requires Success?
    {
      value
    }
  }
}
